=== FILE: README.md ===
# Delivery dispatch: a Dafny model

This project models the core of a restaurant delivery dispatch system and proves properties of the model in Dafny.

The system has three parts:

- **A TypeScript server.** It keeps orders, couriers and routes in in-memory arrays. It batches pending orders into routes, greedily and nearest-first, when a courier becomes available. It runs each route through its lifecycle: waiting for a courier, assigned, in progress, done. It also prices orders by address zone or distance band, reports on orders, tracks working sessions, manages operator accounts and the restaurant profile, geocodes addresses, and stores all of this as SQLite rows.
- **A web client.** It shows operational alerts on the dashboard, builds paginated queries, and exports CSV reports.
- **An Android scanner app.** It reads a delivery address from a photographed receipt. It publishes the address once two reads agree, then submits it to the server.

Each core source file is one Dafny module:

- Server files where code updates shared state in place become methods on the `DispatchModel.Store` class. They change its `orders`, `couriers` and `routes` sequences, and their `ensures` give the whole new state in terms of specification functions. Each such function has its own lemmas.
- The other stateful objects are classes too: the pricing tables, the session log, the restaurant profile, the admin directory, and the Android view models and preferences.
- Pure helpers are functions and lemmas.
- Loops in the source are methods with loop invariants, proved against a specification function: batch selection, the report fold, the scanner's field collection and demo chunking.

## How the model reads the source

Some names in the code suggest behaviour that the code does not have; the model follows the code:

- `createCourier` creates a courier AVAILABLE. The web client knows an OFFLINE status (`delivery-web/src/utils/statusLabels.ts:18`), but no server code sets it.
- `setCourierAvailable` has no active-route guard. `setCourierOffline` is imported at `src/server.ts:10-14` but defined nowhere.
- `onCourierAvailable` has no spatial clustering and no hold window: `smartBatchHoldMinutes` is stored (`src/restaurantService.ts:50-51`) but never read. When a batch forms, it creates a route that is already ASSIGNED to the courier, puts its orders ON_ROUTE and sets the courier ON_TRIP. No route in the AWAITING_COURIER state is created this way.
- Status sets follow the code that uses them, which is wider than the type declarations. Orders are PENDING, QUEUED, ON_ROUTE or DELIVERED. Couriers are OFFLINE, AVAILABLE, ASSIGNED or ON_TRIP. Routes are AWAITING_COURIER, ASSIGNED, IN_PROGRESS or DONE.
- Ids are not assumed unique. A lookup returns the first match, as `find` does. A bulk update touches every match, as `filter` does.

Some behaviour looks unintended but is modelled as written, and lemmas state it:

- The whitespace pattern `/\\s+/` in `src/geocodingService.ts:60` matches a backslash followed by letters `s`, not whitespace (`GeocodingQuery.ReplaceBackslashS`).
- `createAdmin` checks for a duplicate e-mail before trimming it. An e-mail that differs from a stored one only by leading spaces passes the check and is then stored equal to the existing one (`AdminService.UntrimmedEmailPassesCheck`).
- A NaN restaurant radius passes profile validation, since every comparison with NaN is false (`Restaurant.AcceptedProfileValid`).
- In the scanner, every further identical read publishes the detection again and resets the submission state, even while a submission is in flight. `startScanning` and `resetScan` keep the read streak, so after a reset one read of the previous address publishes at once (`ScannerViewModel.ScannerViewModel.OnAddressDetected`, `ScannerViewModel.ScannerViewModel.ResetScan`).
- A matched receipt field can begin with ':', '-' or '.' when a tab separates it from its keyword. Only spaces are stripped together with that punctuation (`AddressParser.MatchLineValue`).

Shared conventions:

- Times are integer milliseconds.
- Money and coordinates are `real`.
- JavaScript numbers that the source tests for NaN or infinity are `JsNumbers.Num`.
- Strings are `seq<char>`.

## Model

| member | source | states |
|---|---|---|
| Sorting.SortBy | src/pricingService.ts:18 | the numeric-comparator `sort`: a permutation of the input, same length, ascending by the key |
| Sorting.SortByMembers | src/pricingService.ts:107 | sorting keeps exactly the same members |
| Sorting.InsertWithKey | src/pricingService.ts:18 | inserting into a sorted list places the new element after every element with the same key |
| Sorting.SortByStable | src/pricingService.ts:18 | the sort is stable: for every key, the elements with that key come out in the order they went in |
| JsNumbers.Floor | src/server.ts:93 | `Math.floor`: the greatest integer not above the argument |
| JsNumbers.Round | delivery-web/src/components/Dashboard/operationalAlerts.ts:21 | `Math.round`: the integer within one half of the argument, halves rounding up |
| JsNumbers.Clamp | src/server.ts:93 | `Math.min(Math.max(v, lo), hi)` lies between the bounds and is `v` when `v` already does |
| Text.Trim | src/adminService.ts:17 | `trim()` is empty exactly when the input is blank, no longer than it, with no whitespace at either end |
| Text.TrimSlice | src/adminService.ts:17 | the trimmed text is the slice of the input after its leading whitespace |
| Text.TrimIdempotent | src/adminService.ts:27-28 | trimming twice is trimming once |
| Text.Lower | src/adminService.ts:28 | `toLowerCase()` maps every character and keeps the length |
| Text.LowerIdempotent | src/adminService.ts:13 | lower-casing twice is lower-casing once |
| Text.Contains | src/geocodingService.ts:91 | `includes` holds exactly when the substring occurs at some position |
| DispatchModel.Store.constructor | src/db.ts:6-8 | the store holds the loaded orders, couriers and routes |
| DispatchModel.FindOrder | src/routeService.ts:130 | `find` by id: the first order with the id; absent exactly when no order has it |
| DispatchModel.FindCourier | src/routeService.ts:34 | the first courier with the id; absent exactly when none has it |
| DispatchModel.FindRoute | src/routeService.ts:20-22 | `getRouteById`: the first route with the id; absent exactly when none has it |
| DispatchModel.FindOrderSameIds | src/routeService.ts:130 | the lookup depends only on the ids, so updates that keep ids in place keep every lookup |
| DispatchModel.ReleaseCourier | src/routeService.ts:182-187 | with a truthy courier id that is found, that courier becomes AVAILABLE with every other field kept, and no other courier changes; otherwise the couriers are unchanged |
| RouteService.LatestRoute | src/routeService.ts:14-18 | the first route (in array order) with the greatest `createdAt` among the routes carrying the courier (only non-DONE ones for the active route); absent exactly when no route carries it |
| RouteService.CourierActiveRouteSpec | src/routeService.ts:14-18 | `getCourierActiveRoute` returns a route of the store carrying the courier, not DONE, no older than any other such route; none exactly when every route of the courier is DONE |
| RouteService.LastAssignment | src/routeService.ts:64-72 | the latest `createdAt` over all routes carrying the courier id, whatever their status; absent exactly when no route carries it |
| RouteService.CandidatesInOrder | src/routeService.ts:84-93 | the candidates are the AVAILABLE couriers in the couriers' order, each with its position and last assignment, none missing; empty exactly when no courier is AVAILABLE |
| RouteService.FirstRanked | src/routeService.ts:94-101 | `ranked[0]` of the stable sort: no candidate ranks before it (never-assigned first, then earliest last assignment), and it ranks strictly before every earlier candidate |
| RouteService.FirstRankedFair | src/routeService.ts:92-101 | the first-ranked candidate is ranked no later than any AVAILABLE courier |
| RouteService.FirstRankedFirstAmongTies | src/routeService.ts:92-101 | the stable sort keeps ties in list order: the first-ranked candidate strictly beats every AVAILABLE courier listed before it |
| RouteService.SuggestCourier | src/routeService.ts:74-111 | fails 404 exactly when the route is missing, 409 when it is not AWAITING_COURIER, 409 when no courier is AVAILABLE, in that order; a suggestion names the courier object's position in the couriers array |
| RouteService.SuggestionIsFair | src/routeService.ts:84-110 | the suggested courier is AVAILABLE; a never-assigned courier beats any assigned one, otherwise the earliest last assignment wins; ties keep the couriers' order, so every AVAILABLE courier listed before the suggested one ranks strictly after it; the reason is "Ainda não recebeu rotas hoje" exactly when no route ever carried the courier |
| RouteService.CountMembers | src/routeService.ts:43 | the number of orders whose id the route lists, at most the number of orders looked at |
| RouteService.CountMembersZero | src/routeService.ts:43-46 | no member counted exactly when no order is listed by the route (the 400 guard) |
| RouteService.CountDeliveredSpec | src/routeService.ts:176-178 | delivered members never exceed members, and equal them exactly when every member is DELIVERED |
| RouteService.AssignFailure | src/routeService.ts:24-46 | the error of `assignRouteToCourier` in the source's order: 404 missing route, 409 route not AWAITING_COURIER, 404 missing courier, 409 courier not AVAILABLE, 400 no member orders; none otherwise |
| RouteService.PutMembersOnRoute | src/routeService.ts:48-52 | the orders after the member update, same length |
| RouteService.SetMembersOnRoute | src/routeService.ts:48-52 | the `forEach` over the member orders sets exactly `PutMembersOnRoute`; couriers and routes unchanged |
| RouteService.AssignRouteToCourier | src/routeService.ts:24-61 | fails exactly with `AssignFailure` and then changes nothing; on success every member is ON_ROUTE with the courier and route ids, the route is ASSIGNED to the courier and the courier ASSIGNED, nothing else changes |
| RouteService.AssignTouchesOnlyMembers | src/routeService.ts:43-52 | non-member orders are untouched; each member keeps its id and becomes ON_ROUTE with the courier and route ids |
| RouteService.AssignRouteAutomatically | src/routeService.ts:113-121 | a failed suggestion is returned with no change; otherwise the route is assigned to exactly the suggested courier, with `assignRouteToCourier`'s failures and effects, and the courier returned is the suggested object after the assignment: ASSIGNED exactly when the id lookup of line 34 reaches that object (no earlier courier shares its id) |
| RouteService.Dedupe | src/routeService.ts:124 | `Array.from(new Set(ids))`: the same ids, each once, no longer than the input |
| RouteService.DedupeFirstOccurrenceOrder | src/routeService.ts:124 | the ids keep the order of their first occurrences: each listed id occurs in the input before any occurrence of a later listed id |
| RouteService.ResolveIds | src/routeService.ts:129-138 | succeeds exactly when every id names a PENDING order, giving each found order in id order; otherwise fails with the error of the first bad id (404 unknown, 409 not PENDING) |
| RouteService.ManualSelection | src/routeService.ts:123-145 | 400 exactly when no id is given; otherwise the first unknown (404) or non-PENDING (409) id among the deduplicated ids; 400 too large exactly when every id names a PENDING order and the distinct ids exceed the limit; success exactly when there are ids, all name PENDING orders, and their distinct count is within the limit |
| RouteService.ManualSelectionUnfold | src/routeService.ts:124-145 | a successful selection is the resolved de-duplicated ids sorted by `createdAt`, within `maxBatch` (profile value, else the routing config) |
| RouteService.ManualSelectionMembers | src/routeService.ts:129-143 | every chosen order is the store's order for a selected id, PENDING, and their count is within the limit |
| RouteService.ManualSelectionCovers | src/routeService.ts:124-138 | every selected id has its order among the chosen ones |
| RouteService.ManualSelectionDistinct | src/routeService.ts:124 | an id selected twice yields one order: chosen ids are distinct |
| RouteService.ManualSelectionSorted | src/routeService.ts:145 | the chosen orders are sorted by `createdAt` ascending |
| RouteService.DistinctIdsPermutation | src/routeService.ts:145 | sorting (a permutation) keeps the chosen ids distinct |
| RouteService.QueueSelected | src/routeService.ts:163-167 | the orders after queueing the chosen ones, same length |
| RouteService.ManualRoute | src/routeService.ts:147-160 | the new route: AWAITING_COURIER, no courier, the chosen ids oldest first, a directions link exactly when the restaurant has coordinates, total price the sum of delivery prices (missing as 0) |
| RouteService.QueueOnRoute | src/routeService.ts:163-167 | the chosen orders become QUEUED with the route id and no courier: exactly `QueueSelected`; couriers and routes unchanged |
| RouteService.CreateManualRoute | src/routeService.ts:123-173 | fails exactly as ManualSelection does (400 empty, 404 unknown, 409 not PENDING, 400 too large) and then leaves the store unchanged; success appends exactly the manual route and queues its orders |
| RouteService.SaveManualRoute | src/routeService.ts:162-167 | the route appended after the old routes and the chosen orders queued on it, couriers unchanged |
| RouteService.RefreshedDoneIffAllDelivered | src/routeService.ts:175-181 | DONE after a refresh exactly when the route has a member and every member is DELIVERED |
| RouteService.RefreshedStatusSpec | src/routeService.ts:188-191 | AWAITING_COURIER only without a courier; IN_PROGRESS and routes with a delivered member stay IN_PROGRESS or become DONE |
| RouteService.RefreshRouteProgress | src/routeService.ts:175-201 | the route gets the refreshed status, a finished route releases its courier to AVAILABLE, orders unchanged, and the returned counts are the route's progress |
| RouteService.RefreshKeepsAwaitingWithoutCourier | src/routeService.ts:188-191 | refreshing preserves "a route waiting for a courier has none" |
| RouteService.StartFailure | src/routeService.ts:203-220 | the error of `startRoute` in order: 404 missing route, 403 caller not the route's courier, 409 not ASSIGNED, 404 missing courier |
| RouteService.StartRoute | src/routeService.ts:203-229 | fails exactly with `StartFailure` and changes nothing; on success the route is IN_PROGRESS and the courier ON_TRIP, orders unchanged |
| Scheduler.DiffInMinutes | src/scheduler.ts:9-12 | the difference in ms divided by 60000; non-negative exactly when `a >= b` |
| Scheduler.CoordTexts | src/scheduler.ts:53-55 | one `lat,lng` text per order, in order |
| Scheduler.MapsParams | src/scheduler.ts:59-67 | `api=1`, the origin, the last order as destination, and the `waypoints` parameter (earlier orders joined by a vertical bar) only when there is more than one order |
| Scheduler.BuildMapsUrl | src/scheduler.ts:50-70 | empty exactly for no orders; otherwise the directions prefix followed by the serialised parameters |
| Scheduler.EntriesFrom | src/scheduler.ts:78 | every order of the store paired with its position, in array order |
| Scheduler.PendingEntriesSpec | src/scheduler.ts:78 | the filter keeps exactly the PENDING orders, each with its own position, in increasing positions |
| Scheduler.PendingByAgeMembers | src/scheduler.ts:78 | the sorted pending queue holds exactly the store's PENDING orders |
| Scheduler.PendingByAgeDistinct | src/scheduler.ts:78 | the queue holds each pending order once |
| Scheduler.PendingByAgeSorted | src/scheduler.ts:78 | the queue is sorted by `createdAt` ascending |
| Scheduler.FilterIncreasing | src/scheduler.ts:78 | the filtered entries come in strictly increasing positions |
| Scheduler.DistinctByMultiset | src/scheduler.ts:78 | a permutation of entries in strictly increasing positions repeats no entry |
| Scheduler.FindClosest | src/scheduler.ts:39-45 | a position among the (non-empty) candidates |
| Scheduler.ClosestAmong | src/scheduler.ts:40-44 | the `reduce` over the first `n` candidates stays among them |
| Scheduler.ClosestAmongNearest | src/scheduler.ts:40-44 | the reduce result is at minimal distance, and strictly nearer than every earlier candidate (strict `<` keeps the first on ties) |
| Scheduler.FindClosestNearest | src/scheduler.ts:39-45 | `findClosest` returns a candidate at minimal distance, the earliest such on ties |
| Scheduler.FirstWithId | src/scheduler.ts:109 | `findIndex`: the first candidate with the id; absent exactly when none has it |
| Scheduler.FirstWithIdFrom | src/scheduler.ts:109 | the scan from a position: the first match from there; absent exactly when none from there matches |
| Scheduler.Without | src/scheduler.ts:110 | `splice(i, 1)`: one shorter, elements before `i` kept, later ones shifted down |
| Scheduler.Greedy | src/scheduler.ts:105-111 | the nearest-neighbour walk takes min(budget, #remaining) orders |
| Scheduler.GreedyWithin | src/scheduler.ts:105-111 | every order taken was a remaining one |
| Scheduler.GreedyDistinct | src/scheduler.ts:105-111 | with distinct remaining ids the walk never takes an id twice |
| Scheduler.GreedyTakesNearest | src/scheduler.ts:106 | each pick is a remaining order nearest to the previous pick, and on a tie the first such order in the remaining list, since the comparison is strict |
| Scheduler.GreedyUnfold | src/scheduler.ts:105-111 | one loop turn: take the closest, remove the first order with its id, continue from it |
| Scheduler.BatchStartsWithOldest | src/scheduler.ts:86-100 | the first selected order is the oldest pending one |
| Scheduler.BatchFromPending | src/scheduler.ts:96-111 | every selected order is a PENDING order of the store, as stored |
| Scheduler.BatchSize | src/scheduler.ts:100-111 | the selection holds min(maxBatch, #pending) orders, and at least the oldest |
| Scheduler.BatchDistinct | src/scheduler.ts:103-111 | with distinct pending ids the route never lists an order twice |
| Scheduler.SelectBatch | src/scheduler.ts:96-111 | the loop computes exactly the greedy batch selection |
| Scheduler.DispatchSelected | src/scheduler.ts:124-128 | the orders after dispatch, same length |
| Scheduler.BatchRoute | src/scheduler.ts:113-120 | the new route is ASSIGNED to the courier, lists the selected ids in visiting order, and has a directions link (empty only for no orders) |
| Scheduler.PutSelectedOnRoute | src/scheduler.ts:124-128 | the selected orders become ON_ROUTE with courier and route ids: exactly `DispatchSelected`; couriers and routes unchanged |
| Scheduler.OnCourierAvailable | src/scheduler.ts:77-135 | with no pending order, or fewer than minBatch and the oldest younger than maxWaitMinutes, nothing changes; otherwise one ASSIGNED route of the greedy selection is appended, its orders are ON_ROUTE and the courier ON_TRIP |
| Scheduler.DispatchBatch | src/scheduler.ts:122-130 | appends the route, puts the selected orders on it and sets the courier ON_TRIP; nothing else changes |
| CourierService.NewCourier | src/courierService.ts:7-11 | the new courier has the given id and name and is AVAILABLE |
| CourierService.FindAppendedCourier | src/courierService.ts:13 | after the push the courier is found by its fresh id at the end, and every other id finds what it found before |
| CourierService.CreateCourier | src/courierService.ts:6-15 | exactly one AVAILABLE courier is appended; orders and routes unchanged |
| CourierService.SetCourierAvailable | src/courierService.ts:17-27 | unknown id: absent, nothing changes; otherwise the courier is set AVAILABLE and `onCourierAvailable` runs, so it ends ON_TRIP with a new route exactly when the pending orders form a batch; the courier returned is the one stored, ON_TRIP exactly when a batch forms and AVAILABLE otherwise, with its id |
| OrderService.NewOrder | src/orderService.ts:7-14 | the new order has the given id, address, position and creation time, is PENDING and on no route |
| OrderService.CreateOrder | src/orderService.ts:6-20 | exactly one PENDING order is appended; couriers and routes unchanged (`onNewOrderCreated` only logs) |
| OrderService.FindAppendedOrder | src/orderService.ts:16 | the created order is found by its fresh id at the end of the store |
| OrderService.NewOrderQueued | src/orderService.ts:16-17 | the created order joins the pending queue and every order already waiting stays in it |
| ServerHandlers.ParsePagination | src/server.ts:85-97 | absent exactly without a finite `limit`; otherwise the limit floored and clamped into 1..1000 and the offset floored, at least 0, and 0 when not finite |
| ServerHandlers.SliceFrom | src/server.ts:101 | `slice(start, end)`: empty when start is past the end or end is not after start, else the elements from start to min(end, length) |
| ServerHandlers.PaginateList | src/server.ts:99-106 | at most `limit` elements, element `k` being element `offset + k` of the list, as many as remain; total, limit and offset echoed |
| ServerHandlers.RegisterFailure | src/server.ts:299-308 | 400 for a missing name, phone or PIN; 400 when another courier already has the phone; no other refusal (the admin endpoint at lines 331-338 makes the same checks) |
| ServerHandlers.RegisterCourier | src/server.ts:292-312 | the intended registration: on the checks' failure nothing changes; otherwise one AVAILABLE courier with the name, phone and hashed PIN is appended (the admin endpoint at lines 331-342 registers the same way) |
| ServerHandlers.RegisteredPhoneUnique | src/server.ts:305-310 | with the intended registration, exactly one courier has the phone afterwards |
| ServerHandlers.RegisteredAsWritten | src/server.ts:292-297 | registration as written: the courier the one-parameter `createCourier` appends has the name, is AVAILABLE and has neither phone nor PIN hash |
| ServerHandlers.RegisteredPhoneLost | src/server.ts:303-318 | as written, no courier holds the phone just registered, so the login lookup by phone finds nobody |
| ServerHandlers.UpdateCourier | src/server.ts:344-370 | 404 for an unknown id; the trimmed name is stored first; a trimmed phone held by another courier answers 409 with the name already written; otherwise phone and PIN hash are replaced when given and not blank |
| ServerHandlers.DeleteCourier | src/server.ts:372-387 | 404 for an unknown id; 409 while a route not DONE carries the courier or it is ON_TRIP or ASSIGNED; otherwise exactly that courier is removed |
| ServerHandlers.HistoryLimit | src/server.ts:469-470 | 5 when absent or not finite; otherwise the floor clamped into 1..50: 1 below 1, 50 from 51 up, the floor in between |
| ServerHandlers.CourierHistory | src/server.ts:465-485 | never more entries than the limit |
| ServerHandlers.CourierHistorySpec | src/server.ts:472-482 | entry k summarises the k-th of the courier's DONE routes newest first; min(limit, #DONE routes) entries; no DONE route left out is newer than the last entry |
| ServerHandlers.DoneRoutesComplete | src/server.ts:473 | the filtered and sorted list holds each DONE route of the courier exactly as often as the store does, and no other route |
| ServerHandlers.DoneRoutesNewestFirst | src/server.ts:473-474 | every entry of the filtered and sorted list is a DONE route of the courier taken from the store, and createdAt never increases along it |
| ServerHandlers.DeliveredFailure | src/server.ts:493-509 | 404 for an unknown order; 403 when the calling courier does not hold it; 409 when already DELIVERED; 409 when not ON_ROUTE; accepted exactly for an ON_ROUTE order of the caller (the admin endpoint at lines 626-635 makes the same checks without the ownership one) |
| ServerHandlers.MarkDelivered | src/server.ts:493-526 | on refusal nothing changes; otherwise the order is DELIVERED and the route it names, when it exists, gets its refreshed status (the admin endpoint at lines 626-652 does the same) |
| ServerHandlers.DeliveringLastMemberFinishes | src/server.ts:511-521 | delivering the last undelivered member makes the refreshed route DONE |
| ServerHandlers.ParseStatusName | src/server.ts:600-602 | each of the four statuses is accepted under its own name and only those names are accepted |
| ServerHandlers.EditLocation | src/server.ts:580-598 | the trimmed non-blank address and the pair of numeric coordinates replace the old ones; the price and rule are recomputed exactly when either changed; id, status, courier and route kept |
| ServerHandlers.StatusFailure | src/server.ts:600-612 | 400 for an unknown status name; 409 for ON_ROUTE or DELIVERED without a courier; 409 for QUEUED without a route |
| ServerHandlers.WithStatus | src/server.ts:614-619 | the order takes the status; PENDING also clears courier and route, other statuses keep them |
| ServerHandlers.UpdateOrder | src/server.ts:574-624 | 404 for an unknown id; location edits are applied first and stay even when the status is refused; an accepted status is then applied |
| ServerHandlers.AcceptedStatusConsistent | src/server.ts:606-619 | an accepted status edit leaves ON_ROUTE and DELIVERED orders with a courier, QUEUED ones with a route, PENDING ones with neither |
| ServerHandlers.RemoveId | src/server.ts:667 | the filter keeps exactly the ids other than the removed one |
| ServerHandlers.RemoveAt | src/server.ts:681 | `splice(i, 1)`: one shorter, earlier elements kept, later ones shifted down |
| ServerHandlers.DeleteOrder | src/server.ts:654-684 | 404 for an unknown id; 409 for an ON_ROUTE or DELIVERED order unless forced; otherwise the order leaves its route, an emptied route is DONE and frees its courier, another is refreshed, and the order is removed |
| ServerHandlers.DetachFromRoute | src/server.ts:664-680 | the id leaves the route; an emptied route is DONE and its courier AVAILABLE; otherwise the route takes its refreshed status |
| ServerHandlers.RemovedIdGone | src/server.ts:667-668 | the removed id is no longer listed, and the route empties exactly when it listed only that id |
| ServerHandlers.Detach | src/server.ts:699-709 | the order leaves the route; a DELIVERED order stays DELIVERED and loses its courier only when forced; any other becomes PENDING without a courier |
| ServerHandlers.DetachIdempotent | src/server.ts:698-710 | detaching twice equals detaching once, so an id listed twice acts once |
| ServerHandlers.DetachListed | src/server.ts:698-710 | the order store keeps its length |
| ServerHandlers.DetachListedOrders | src/server.ts:698-710 | the `forEach` leaves exactly `DetachListed` of the orders; couriers and routes unchanged |
| ServerHandlers.DetachListedSpec | src/server.ts:698-710 | each order found for a listed id ends on no route, PENDING or (if it was) DELIVERED; orders not listed are untouched |
| ServerHandlers.DeleteRoute | src/server.ts:686-722 | 404 for an unknown id; 409 unless AWAITING_COURIER or forced; otherwise the listed orders are detached, the courier is AVAILABLE and exactly that route is removed |
| UrlQuery.PercentByte | src/scheduler.ts:59-63 | `%XX` of a byte: three characters whose hexadecimal digits give the byte back |
| UrlQuery.Utf8 | src/scheduler.ts:59-63 | one to four bytes, each below 256; a single byte, the character itself, exactly for ASCII |
| UrlQuery.EncodeChar | src/scheduler.ts:59-63 | an encoded character is never empty and never contains `&` or `=` |
| UrlQuery.Encode | src/scheduler.ts:59-63 | an encoded name or value contains neither `&` nor `=` and is at least as long as the text |
| UrlQuery.Pairs | src/scheduler.ts:59-69 | one `name=value` piece per parameter, in order |
| UrlQuery.DecodeEncode | src/scheduler.ts:59-63 | decoding the encoding of an ASCII text gives it back |
| UrlQuery.SplitJoin | src/scheduler.ts:69 | splitting the `&`-joined pieces at `&` gives the pieces back when none contains `&` |
| UrlQuery.ParseSerialize | src/scheduler.ts:59-69 | reading the serialized parameter list gives the list back, names, values and order, for ASCII parameters |
| Pricing.PricingTables.constructor | src/db.ts:9-10 | both tables start empty |
| Pricing.PricingTables.CreateBand | src/pricingService.ts:15-21 | the new band joins the table, which ends sorted by limit and is a permutation of the old bands plus the new one; zones unchanged |
| Pricing.PricingTables.UpdateBand | src/pricingService.ts:23-31 | absent and nothing changed for an unknown id; otherwise the first band with the id takes the new limit and price, and the table ends sorted and a permutation of the edited bands |
| Pricing.PricingTables.DeleteBand | src/pricingService.ts:33-39 | true exactly when a band has the id; then only the first such band is removed; otherwise nothing changes |
| Pricing.PricingTables.CreateZone | src/pricingService.ts:41-46 | the zone is appended after every existing zone; bands unchanged |
| Pricing.PricingTables.UpdateZone | src/pricingService.ts:48-58 | absent and nothing changed for an unknown id; otherwise the first zone with the id is edited in place |
| Pricing.PricingTables.DeleteZone | src/pricingService.ts:60-66 | true exactly when a zone has the id; then only the first such zone is removed; otherwise nothing changes |
| Pricing.FindBand | src/pricingService.ts:24-34 | the first band with the id; absent exactly when none has it (the lookups at lines 24 and 34) |
| Pricing.FindZoneById | src/pricingService.ts:49-61 | the first zone with the id; absent exactly when none has it (the lookups at lines 49 and 61) |
| Pricing.EditedZone | src/pricingService.ts:51-55 | name and match text replaced when supplied, price when it is a number, id kept |
| Pricing.EditedZoneUnchanged | src/pricingService.ts:51-55 | an edit that supplies nothing changes nothing |
| Pricing.MatchedZone | src/pricingService.ts:91-94 | the first zone whose match text occurs, case-insensitively, in the address; absent exactly when none does |
| Pricing.FirstCovering | src/pricingService.ts:108 | the first sorted band whose limit covers the distance; absent exactly when none does |
| Pricing.SelectedBand | src/pricingService.ts:107-108 | absent exactly when there are no bands |
| Pricing.SelectedBandSpec | src/pricingService.ts:107-108 | the chosen band is one of the bands; when some band covers the distance it covers it with the smallest covering limit, otherwise it has the largest limit |
| Pricing.CoveringIsSmallest | src/pricingService.ts:107-108 | the first band of the sorted table that covers the distance is a band of the table with the smallest covering limit |
| Pricing.LastIsLargest | src/pricingService.ts:107-108 | when no band covers the distance, the last sorted band has the largest limit |
| Pricing.CalculateOrderPrice | src/pricingService.ts:86-130 | a matching zone prices the order with its name as label; without one and without bands the price is 0 with the no-band label; otherwise the selected band's price, labelled with the radius when the distance exceeds it and with the band's limit otherwise |
| Pricing.RadiusOnlyChangesLabel | src/pricingService.ts:109-128 | the delivery radius never changes the price or the rule type, only the label |
| Pricing.ZoneIgnoresDistance | src/pricingService.ts:96-104 | a zone quote depends on the address only, not on the position |
| OperationSessions.CurrentSession | src/operationSessionService.ts:6 | the first session still open; absent exactly when every session is closed |
| OperationSessions.HistorySpec | src/operationSessionService.ts:7-9 | the history holds exactly the closed sessions, newest start first |
| OperationSessions.LatestSequence | src/operationSessionService.ts:19 | at least 0, at least every order's sequence (absent counting as 0), and either 0 or some order's sequence |
| OperationSessions.SessionLog.constructor | src/db.ts:12 | the log starts empty |
| OperationSessions.SessionLog.StartOperationSession | src/operationSessionService.ts:13-31 | refused, with nothing changed, while a session is open; otherwise a session starting now and visible from the latest order sequence is appended and becomes the current one; at most one session stays open |
| OperationSessions.SessionLog.CloseOperationSession | src/operationSessionService.ts:33-42 | refused, with nothing changed, when no session is open; otherwise the current session gets its closing time and none stays open |
| OperationSessions.OnlyOpenIsCurrent | src/operationSessionService.ts:6 | with at most one session open, the open one is the current one |
| Restaurant.ProfileFailure | src/restaurantService.ts:22-33 | in the source's order: a blank name, a blank address, a NaN coordinate, a radius `<= 0`; a NaN radius passes |
| Restaurant.TrimmedOrAbsent | src/restaurantService.ts:39 | the trimmed phone, absent when missing or blank |
| Restaurant.Applied | src/restaurantService.ts:35-52 | name and address trimmed, coordinates and radius as given, the phone trimmed or cleared, each batch setting replaced only when given, id kept |
| Restaurant.AppliedIdempotent | src/restaurantService.ts:35-52 | applying the same update twice equals applying it once |
| Restaurant.AcceptedProfileValid | src/restaurantService.ts:22-40 | an accepted update stores a non-blank trimmed name and address, non-NaN coordinates and a radius that is not `<= 0` |
| Restaurant.RestaurantProfile.constructor | src/db.ts:11 | the profile holds the loaded fields |
| Restaurant.RestaurantProfile.Store | src/restaurantService.ts:35-52 | every field takes the given value |
| Restaurant.RestaurantProfile.Update | src/restaurantService.ts:21-56 | a refused update writes nothing and reports the first failing check; an accepted one writes the applied fields and returns the same profile object |
| AdminService.SanitizeAdmin | src/adminService.ts:83-86 | the view keeps id, name and e-mail and drops the password hash |
| AdminService.ListAdmins | src/adminService.ts:8-10 | one view per admin, in order |
| AdminService.FindAdminByEmail | src/adminService.ts:12-14 | the first admin whose e-mail equals the given one ignoring case; absent exactly when none does |
| AdminService.FindAdminIgnoresCase | src/adminService.ts:12-14 | e-mails differing only in case find the same admin |
| AdminService.CreateFailure | src/adminService.ts:17-23 | refused for a blank name, e-mail or password, then for an e-mail already registered in any case, compared untrimmed; no other refusal |
| AdminService.UntrimmedEmailPassesCheck | src/adminService.ts:20-28 | an existing e-mail with one leading space passes the duplicate check and is then stored trimmed, equal to the existing one |
| AdminService.AdminDirectory.constructor | src/db.ts:13 | the directory holds the loaded admins |
| AdminService.AdminDirectory.CreateAdmin | src/adminService.ts:16-37 | a refused creation changes nothing; otherwise the admin with trimmed name, trimmed lower-cased e-mail and hashed password is appended and its view returned |
| AdminService.AdminDirectory.UpdateAdmin | src/adminService.ts:39-67 | unknown id refused; a non-blank name is stored trimmed first; a normalised e-mail held by another admin fails with the name already written; otherwise e-mail and password hash are replaced when given and not blank |
| AdminService.AdminDirectory.DeleteAdmin | src/adminService.ts:69-81 | refused while at most one admin remains, before the lookup; unknown id refused; otherwise exactly that admin is removed, so the directory never empties |
| AdminService.FindAdmin | src/adminService.ts:43-74 | the first admin with the id; absent exactly when none has it (the lookups at lines 43 and 74) |
| JsonText.EscapeChar | src/storage.ts:496 | every character is written as a non-empty text |
| JsonText.Stringify | src/storage.ts:496 | the text of an array of strings opens with `[` |
| JsonText.UnescapeChar | src/storage.ts:411 | each escape `JSON.stringify` writes reads back as its character |
| JsonText.ParseQuoted | src/storage.ts:411 | a quoted string reads back as the string, leaving the text after it (the text written at line 496) |
| JsonText.ParseItems | src/storage.ts:411 | the comma-separated items of a non-empty list and its closing bracket read back as the list (the text written at line 496) |
| JsonText.ParseStringify | src/storage.ts:411-496 | parsing the stringified id list gives the ids back (parsing at line 411 after writing at line 496) |
| JsonText.ParseArrayRejectsNonArray | src/storage.ts:410-417 | text that does not start with an array is rejected |
| Storage.ParseRuleType | src/storage.ts:387 | a rule type is read back only from `ZONE` or `DISTANCE`, and from its own name |
| Storage.ParseRouteStatus | src/storage.ts:424 | a route status is read back only from its own name |
| Storage.NamesRoundTrip | src/storage.ts:387-497 | every rule type and route status reads back from the name it is written under (the names read at lines 387 and 424 and written at lines 487 and 497) |
| Storage.MapOrderRow | src/storage.ts:383-405 | every column carried over; a rule exactly when the type column is not null, its label defaulting to the empty text; a null sequence reads as 0 |
| Storage.OrderRowRoundTrip | src/storage.ts:383-490 | an order written and read back is the same order, a missing sequence aside (it reads back as 0) (reading at lines 383-405 after writing at lines 475-490) |
| Storage.OrderIdsColumn | src/storage.ts:408-418 | the ids of the JSON array in the column; none for an empty column or text that does not parse |
| Storage.MapRouteRow | src/storage.ts:407-429 | every column carried over, the order ids through the JSON column |
| Storage.RouteRowRoundTrip | src/storage.ts:407-502 | a route written and read back is the same route, its order ids included (reading at lines 407-429 after writing at lines 492-502) |
| Storage.EmptyOrderIdsColumn | src/storage.ts:408-418 | an empty column, or one not starting with an array, gives no order ids |
| Storage.MapOperationSession | src/storage.ts:671-679 | an empty or null `visible_from` falls back to the start; a null sequence reads as 0; the session is open exactly when `closed_at` is empty or null |
| Storage.SessionRowRoundTrip | src/storage.ts:608-679 | a session written and read back is the same session, open or closed as before (reading at lines 608-616 after writing at lines 671-679) |
| Storage.NumColumn | src/storage.ts:594-601 | a number column holds a finite number or is null |
| Storage.MapRestaurantProfile | src/storage.ts:650-664 | every column carried over; a null optional column is an absent field |
| Storage.ProfileRowRoundTrip | src/storage.ts:590-664 | a profile with finite numbers, written and read back, is the same profile (reading at lines 590-602 after writing at lines 650-664) |
| Storage.RevivedFrom | src/storage.ts:366 | one imported order per legacy order |
| Storage.RevivedSequencesIncrease | src/storage.ts:341-366 | imported orders keep their fields and get sequence numbers strictly increasing in file order |
| Storage.LegacyImport.constructor | src/storage.ts:26 | the counter starts at 0 |
| Storage.LegacyImport.ReviveLegacyOrder | src/storage.ts:341-347 | the order takes the counter's value and the counter moves on by one |
| Storage.LegacyImport.ReviveLegacyOrders | src/storage.ts:366 | the import numbers the orders from the counter on, in order, and advances it by their count |
| WebClient.WithoutDashes | delivery-web/src/utils/format.ts:13 | no dash is left; every other character stays |
| WebClient.Prefix | delivery-web/src/utils/format.ts:14 | `slice(0, n)`: a prefix of at most `n` characters, exactly `n` when the text is that long |
| WebClient.FormatShortId | delivery-web/src/utils/format.ts:11-15 | `-` for a missing or empty id; otherwise the prefix followed by the first four characters left after removing the dashes, upper-cased |
| WebClient.DoubleQuotes | delivery-web/src/components/Reports/ReportsPanel.tsx:39 | doubling quotes never shortens the text |
| WebClient.EscapeCsv | delivery-web/src/components/Reports/ReportsPanel.tsx:33-42 | nothing for a missing value; the text itself without a quote, comma or line feed; otherwise the text in quotes with its quotes doubled |
| WebClient.CollapseDoubled | delivery-web/src/components/Reports/ReportsPanel.tsx:39 | collapsing each `""` of the doubled text gives the text back |
| WebClient.EscapeCsvRoundTrip | delivery-web/src/components/Reports/ReportsPanel.tsx:33-42 | dropping the outer quotes of a quoted cell and collapsing `""` gives the text back |
| WebClient.SanitizeForFilename | delivery-web/src/components/Reports/ReportsPanel.tsx:29-31 | same length; every `:` and `T` becomes `-`, nothing else changes |
| WebClient.AdminTokenHolder.constructor | delivery-web/src/api/client.ts:30 | no token at start |
| WebClient.AdminTokenHolder.SetAdminToken | delivery-web/src/api/client.ts:32-34 | the stored token is the given one |
| WebClient.AdminTokenHolder.ResolveAdminToken | delivery-web/src/api/client.ts:40-46 | the override unless absent, else the stored token; an empty or missing result is refused with the not-authenticated message |
| WebClient.AdminTokenHolder.WithAdminHeaders | delivery-web/src/api/client.ts:48-53 | refused exactly when the token is; otherwise the base headers with `Authorization: Bearer <token>` set over them, every other header kept |
| WebClient.QueryPairs | delivery-web/src/api/client.ts:66-75 | at most three parameters; none exactly when limit, offset and includeOrders are all unset |
| WebClient.BuildPaginationQuery | delivery-web/src/api/client.ts:64-78 | empty without parameters or with none set; otherwise `?` and a query that reads back as exactly the set parameters, in the order limit, offset, includeOrders |
| WebClient.NormalizePaginatedResponse | delivery-web/src/api/client.ts:80-85 | a bare array becomes a page holding only that data; a page is kept |
| WebClient.ParseSession | delivery-web/src/api/client.ts:135-143 | fields carried over, dates read; open exactly when the payload has no or an empty closing time |
| OperationalAlerts.MinutesSince | delivery-web/src/components/Dashboard/operationalAlerts.ts:17-22 | 0 for an unreadable date; otherwise the elapsed minutes rounded to the nearest whole, never below 0 |
| OperationalAlerts.Waits | delivery-web/src/components/Dashboard/operationalAlerts.ts:27-30 | one wait per order, in order |
| OperationalAlerts.NamesDistinct | delivery-web/src/components/Dashboard/operationalAlerts.ts:48-121 | different alert ids have different names |
| OperationalAlerts.AlertsInListingOrder | delivery-web/src/components/Dashboard/operationalAlerts.ts:44-130 | alerts come orders first, then queued routes, then couriers to start, and no alert id appears twice |
| OperationalAlerts.OverdueAmongPending | delivery-web/src/components/Dashboard/operationalAlerts.ts:25-60 | some pending order has waited the limit exactly when the sorted waits hold an overdue one (the waits of lines 25-31 and the test at line 60) |
| OperationalAlerts.OrdersIdsMembers | delivery-web/src/components/Dashboard/operationalAlerts.ts:46-100 | without pending orders only `no-pending`; with them `pending-count` first, `sla-risk` exactly when one is overdue, `no-couriers` exactly when none is available, `waiting-batch` exactly when one is and fewer than two wait |
| OperationalAlerts.BuildIds | delivery-web/src/components/Dashboard/operationalAlerts.ts:24-130 | the ids are the order alerts' ids followed by `queued-orders` and `couriers-pending-start` when they apply; the first alert's level follows the pending orders |
| OperationalAlerts.PendingAlerts | delivery-web/src/components/Dashboard/operationalAlerts.ts:46-100 | `no-pending` (info) first without pending orders, else `pending-count`, danger exactly when a pending order has waited 25 minutes; `sla-risk`, `no-couriers` and `waiting-batch` exactly under their conditions |
| OperationalAlerts.OldestWaitIsMaximum | delivery-web/src/components/Dashboard/operationalAlerts.ts:25-65 | with pending orders, `pending-count` carries their number and the largest of their waits, the oldest order's, which is one of the waits |
| OperationalAlerts.QueuedAndStartAlerts | delivery-web/src/components/Dashboard/operationalAlerts.ts:102-128 | `queued-orders` appears exactly when some order is QUEUED and `couriers-pending-start` exactly when some courier is ASSIGNED |
| OperationalAlerts.QueuedOrdersAlertContents | delivery-web/src/components/Dashboard/operationalAlerts.ts:102-117 | the `queued-orders` alert reports the number of queued orders and of distinct route ids among them, and is a warning when a courier is available, a danger otherwise |
| OperationalAlerts.QueuedCount | delivery-web/src/components/Dashboard/operationalAlerts.ts:33-34 | the queued filter is non-empty exactly when some order is QUEUED |
| OperationalAlerts.AvailableCount | delivery-web/src/components/Dashboard/operationalAlerts.ts:41 | the available count is positive exactly when some courier is AVAILABLE |
| OperationalAlerts.AssignedCount | delivery-web/src/components/Dashboard/operationalAlerts.ts:42 | the assigned count is positive exactly when some courier is ASSIGNED |
| Reports.Covered | src/reportService.ts:24-29 | exactly the orders created within the optional bounds, in store order |
| Reports.CourierNameOf | src/reportService.ts:44-79 | a name exactly when some courier has the id (the lookups at lines 44 and 79) |
| Reports.StatIndex | src/reportService.ts:43-51 | the entry of the courier; absent exactly when none is for it |
| Reports.DayIndex | src/reportService.ts:58-61 | the entry of the day; absent exactly when none is for it |
| Reports.DeliveredAtMostCount | src/reportService.ts:62-66 | a day never has more delivered orders than orders |
| Reports.NoEntryNoCount | src/reportService.ts:43-50 | a courier without an entry has no counted orders yet |
| Reports.NoDayNoCount | src/reportService.ts:58-60 | a day without an entry has no orders, deliveries or value yet |
| Reports.StatsCountStep | src/reportService.ts:40-54 | one more order keeps every courier entry equal to its courier's count |
| Reports.DaysCountStep | src/reportService.ts:57-66 | one more order keeps every day entry equal to that day's counts |
| Reports.DaysSumStep | src/reportService.ts:62 | one more order adds one to the day counts |
| Reports.TallyTotals | src/reportService.ts:34-75 | the fold counts every order once in the total, in the value, under its status and under its courier |
| Reports.TallyStats | src/reportService.ts:40-54 | one courier entry per courier with orders, counting them, no courier twice |
| Reports.TallyDays | src/reportService.ts:57-66 | one day entry per day with orders, counting them, their counts adding up to all orders |
| Reports.StatusCountsAddUp | src/reportService.ts:37 | the four statuses' counts add up to the number of orders |
| Reports.Enrich | src/reportService.ts:77-80 | the order with its courier's name, none without a courier |
| Reports.CountInCourierStats | src/reportService.ts:43-54 | the courier map update: the entry created at 0 when missing, then counted |
| Reports.CountInDay | src/reportService.ts:57-66 | the day map update: the entry created at 0 when missing, then counted |
| Reports.CountOrder | src/reportService.ts:35-67 | the `reduce` callback for one order, on the accumulator and both maps |
| Reports.GetOrdersReport | src/reportService.ts:22-97 | the report of the covered orders, computed by the fold |
| Reports.ReportOrders | src/reportService.ts:24-80 | the report lists exactly the orders in range, in store order, each with its courier's name (the filter at lines 24-29 and the mapping at lines 77-80) |
| Reports.ReportTotalsFaithful | src/reportService.ts:34-93 | count, summed price, status counts adding up to the count, delivered count; rate and average 0 without orders, else the quotients (the fold at lines 34-38 and the totals at lines 82-93) |
| Reports.ReportCourierStats | src/reportService.ts:40-95 | courier entries most orders first, each counting its courier's orders and carrying its name; every order with a courier has its entry (the fold at lines 40-54 and the sort at line 95) |
| Reports.ReportByDay | src/reportService.ts:57-94 | days earliest first, each counting its orders, deliveries (never more than orders) and value, adding up to all orders (the fold at lines 57-66 and the sort at line 94) |
| GeocodingQuery.Code | src/geocodingService.ts:301-329 | every state code is two capital letters |
| Text.StripDiacritics | src/geocodingService.ts:335 | `normalize('NFD')` then removal of `\p{Diacritic}`: no spacing mark (`^`, `` ` ``, diaeresis, macron, acute, middle dot, cedilla) is left, the result is never longer, and precomposed Latin-1 letters become their base letters |
| Text.SpacingDiacriticDropped | src/geocodingService.ts:335 | a spacing mark anywhere in the text is removed, and the rest is stripped as if it were absent |
| GeocodingQuery.StateKey | src/geocodingService.ts:335 | the lookup key holds no spacing mark, is never longer than the trimmed text, and has its length when the text holds no spacing mark |
| GeocodingQuery.SpacingMarkIgnored | src/geocodingService.ts:331-337 | a spacing mark inside a state ("AM´") leaves its key unchanged, so the state normalises to the same code as without the mark |
| GeocodingQuery.NormalizeStateCases | src/geocodingService.ts:331-337 | the empty string exactly for an absent or blank state; the two-letter code for a known spelling; the trimmed text otherwise |
| GeocodingQuery.EnsureManausContext | src/geocodingService.ts:88-112 | the text is kept as the start of the result |
| GeocodingQuery.EnsureCompletesContext | src/geocodingService.ts:88-112 | the completed text always names Manaus (or Manáos), Amazonas (or `am `) and Brasil |
| GeocodingQuery.EnsureManausContextIdempotent | src/geocodingService.ts:88-112 | completing an already completed text changes nothing |
| GeocodingQuery.ContextNotBlank | src/geocodingService.ts:95 | a text with the context is never blank |
| GeocodingQuery.OrElse | src/geocodingService.ts:54-56 | JavaScript's logical or on strings: `a` unless empty, else `b` |
| GeocodingQuery.StandardContext | src/geocodingService.ts:7-9 | without city and state in the request or the defaults, the context is Manaus - AM, with a non-empty country (the defaults there and the fallbacks at lines 54-56) |
| GeocodingQuery.ReplaceBackslashS | src/geocodingService.ts:60 | the regular expression as written, which matches a backslash followed by letters `s`: text without a backslash, a run of spaces included, is unchanged, and a backslash followed by `s` becomes one space |
| GeocodingQuery.Segments | src/geocodingService.ts:64-75 | at least two segments, the last two being "city - state" and the country |
| GeocodingQuery.WithExtras | src/geocodingService.ts:80-85 | the text, followed by the extras in parentheses, separated by a vertical bar, exactly when there are extras; the context is kept |
| GeocodingQuery.BuildQueryHasContext | src/geocodingService.ts:52-86 | every query names the Manaus context and so is never blank |
| GeocodingQuery.BuildQueryShape | src/geocodingService.ts:52-86 | a free-text query starts with the line and its context; a structured one starts with its segments joined by ` · ` and ends with the extras in brackets when there are any |
| GeocodingQuery.FormatAddressPartsCases | src/geocodingService.ts:278-300 | a non-blank line is shown sanitised; otherwise the non-empty segments joined by ` · `, empty only when no segment remains (which needs an empty default country), with the complement and reference in parentheses only when one is present |
| GeocodingQuery.EspiritoSantoAsWritten | src/geocodingService.ts:309-336 | the table's key `espírito santo` is never reached, since the key is taken after the accents are removed: "Espírito Santo" is passed through instead of ES (the key at line 309 and the accent stripping at lines 335-336) |
| GeocodingQuery.EspiritoSantoReachable | src/geocodingService.ts:309-336 | with the reachable table Espírito Santo is recognised with or without its accent, and every other input normalises as before (the key at line 309 and the accent stripping at lines 335-336) |
| Geocoding.Variants | src/geocodingService.ts:230-240 | one to four requests, the payload first |
| Geocoding.VariantsCases | src/geocodingService.ts:230-240 | then without the line only when it has a line and a structured field; then without complement and reference only when one is present; then without all three when both apply |
| Geocoding.DetailCount | src/geocodingService.ts:227 | at most three details |
| Geocoding.MinConfidenceMonotone | src/geocodingService.ts:226-228 | with a base of at least 4, more detail never raises the required confidence; it never exceeds max(base, 4), and below two details it is the base |
| Geocoding.Rethrown | src/geocodingService.ts:272-275 | what is thrown at the end is always a geocoding error |
| Geocoding.Queries | src/geocodingService.ts:244 | one query per variant, in order |
| Geocoding.AttemptsSucceed | src/geocodingService.ts:243-263 | a success is the answer of the first query not passed over; every earlier query was blank or failed with 404 or 422 |
| Geocoding.AttemptsFail | src/geocodingService.ts:243-275 | a failure leaves the cache as it was and is a geocoding error: every query was passed over, or the first one not passed over threw something other than 404 or 422 |
| Geocoding.AnsweredAt | src/geocodingService.ts:243-263 | the query that answered a successful loop, every query before it blank or failed with 404 or 422 |
| Geocoding.FailedAt | src/geocodingService.ts:243-275 | where a failed loop ended: past the last query or at the query that threw something other than 404 or 422; the cache untouched and the error a geocoding error |
| Geocoding.AttemptsErrorSource | src/geocodingService.ts:264-275 | the error thrown is the generic 400, the last error, or one the geocoder threw |
| Geocoding.Geocoder.constructor | src/geocodingService.ts:43 | the cache starts empty |
| Geocoding.Geocoder.GeocodeAddress | src/geocodingService.ts:225-276 | the minimum confidence and the variants' queries, then the result and new cache of the attempt loop, equal to the Attempts recursion |
| Geocoding.Geocoder.TryQueries | src/geocodingService.ts:242-270 | the loop over the queries: its result and the new cache equal the Attempts recursion, whose success and failure lemmas follow |
| Geocoding.QueriesNeverBlank | src/geocodingService.ts:244-247 | every variant's query is non-blank, so the loop never passes over a query for being blank |
| SeedDemo.Chunk | src/devtools/seedDemoWeek.ts:21-27 | the loop stepping by `size` returns exactly the chunk list `Chunks(list, size)`; `size > 0` is required because the loop never ends for size 0 |
| SeedDemo.ChunksConcat | src/devtools/seedDemoWeek.ts:21-27 | concatenating the chunks gives the list back |
| SeedDemo.ChunksCount | src/devtools/seedDemoWeek.ts:21-27 | there are exactly ceil(length / size) chunks |
| SeedDemo.ChunkAt | src/devtools/seedDemoWeek.ts:23-24 | chunk c is the slice of the list from c·size up to c·size + size, cut at the end of the list |
| SeedDemo.ChunkSize | src/devtools/seedDemoWeek.ts:21-27 | every chunk is non-empty and at most `size` long, and all but the last hold exactly `size` elements |
| SeedDemo.ChunkElem | src/devtools/seedDemoWeek.ts:23-24 | element j of chunk c is element c·size + j of the list |
| SeedDemo.ChunkMember | src/devtools/seedDemoWeek.ts:23-24 | whatever chunk c holds sits in the list at position c·size + j for some j below `size` |
| SeedDemo.ChunksOnlySelected | src/devtools/seedDemoWeek.ts:21-27 | a value absent from the list is in no chunk |
| SeedDemo.FirstCourierIdFinds | src/devtools/seedDemoWeek.ts:61 | the find yields nothing exactly when no order of the batch has a truthy courier id, and otherwise the (non-empty) courier id of the first order that has one |
| SeedDemo.Pick | src/devtools/seedDemoWeek.ts:57-59 | the batch of orders a batch of indices selects, position by position |
| SeedDemo.OrderIdsOf | src/devtools/seedDemoWeek.ts:65 | the route's order ids are the batch's ids, position by position |
| SeedDemo.FirstCourierIgnoresRouteIds | src/devtools/seedDemoWeek.ts:61 | the courier lookup reads no `routeId`, so linking earlier batches cannot change it |
| SeedDemo.SumIgnoresRouteIds | src/devtools/seedDemoWeek.ts:69 | the price sum reads no `routeId`, so linking earlier batches cannot change it |
| SeedDemo.BatchRouteIgnoresRouteIds | src/devtools/seedDemoWeek.ts:61-70 | the route object built for a batch is the same whether or not earlier batches were already linked |
| SeedDemo.Link | src/devtools/seedDemoWeek.ts:72-74 | every order the batch names gets the route's id as `routeId`; every other order is kept as it was |
| SeedDemo.Drawn | src/devtools/seedDemoWeek.ts:60-63 | the number of route ids drawn is at most the number of batches (one per non-empty batch) |
| SeedDemo.SeedRoutes | src/devtools/seedDemoWeek.ts:59-71 | the routes pushed for a batch list: one per non-empty batch, as many as ids drawn |
| SeedDemo.LinkAll | src/devtools/seedDemoWeek.ts:59-75 | the order list after every batch was linked keeps its length |
| SeedDemo.SeedStep | src/devtools/seedDemoWeek.ts:59-75 | one more batch: an empty batch changes nothing, a non-empty one appends its route with the next drawn id and links its orders to it |
| SeedDemo.LinkAllKeepsOrders | src/devtools/seedDemoWeek.ts:72-74 | linking only ever writes `routeId`; every other order field is unchanged |
| SeedDemo.LinkBatch | src/devtools/seedDemoWeek.ts:72-74 | the inner loop leaves the orders equal to `Link` of the old orders and touches neither routes nor couriers |
| SeedDemo.PushRoute | src/devtools/seedDemoWeek.ts:60-74 | for a non-empty batch, exactly one route (built from the unlinked orders) is appended and the batch's orders are linked to its id; couriers are untouched |
| SeedDemo.SeedBatch | src/devtools/seedDemoWeek.ts:59-75 | one turn of the outer loop keeps the invariant that routes and orders match `SeedRoutes` and `LinkAll` of the batches handled so far |
| SeedDemo.ChunksValid | src/devtools/seedDemoWeek.ts:58 | chunking a selection of valid order indices yields batches of valid indices |
| SeedDemo.BuildRoutesFromOrders | src/devtools/seedDemoWeek.ts:57-76 | the routes become the old routes followed by `SeedRoutes` of the 5-chunks, the orders become `LinkAll` of the old orders, and couriers are untouched |
| SeedDemo.SeedRoutesAt | src/devtools/seedDemoWeek.ts:59-71 | with only non-empty batches there is one route per batch, route c built from batch c with the c-th drawn id |
| SeedDemo.DrawnAll | src/devtools/seedDemoWeek.ts:60-63 | every non-empty batch draws exactly one id |
| SeedDemo.LinkAllAt | src/devtools/seedDemoWeek.ts:72-74 | an order named by batch c and by no later batch ends linked to the c-th route id |
| SeedDemo.LinkAllOthers | src/devtools/seedDemoWeek.ts:72-74 | an order that no batch names is left as it was |
| SeedDemo.SelectionChunks | src/devtools/seedDemoWeek.ts:58-60 | the 5-chunks of a selection are non-empty, hold valid indices and need no more ids than are drawn, so the empty-batch skip never fires |
| SeedDemo.BuildRoutesRouteAt | src/devtools/seedDemoWeek.ts:58-70 | route c holds the c-th run of five selected orders: their ids in order, the first one's `createdAt`, the price sum with missing prices as 0, the first truthy courier id when `requireCourier` and none otherwise, the given status, the demo maps link and the c-th drawn id; all but the last route hold five orders |
| SeedDemo.BuildRoutesCoverSelection | src/devtools/seedDemoWeek.ts:58-71 | all new routes together list the selected orders' ids once each in selection order, and their totals add up to the selected orders' prices |
| SeedDemo.BuildRoutesLinksOrders | src/devtools/seedDemoWeek.ts:58-74 | with distinct selected orders, the k-th selected order ends linked to route k / 5 and is otherwise unchanged; unselected orders are untouched |
| SeedDemo.LinksSelected | src/devtools/seedDemoWeek.ts:58-74 | the k-th selected order is linked to the route drawn for chunk k / 5 and otherwise unchanged |
| SeedDemo.LinksNothingElse | src/devtools/seedDemoWeek.ts:58-74 | linking keeps the number of orders and leaves every unselected order untouched |
| SeedDemo.LinkUnselected | src/devtools/seedDemoWeek.ts:72-74 | an order that was not selected is in no chunk, so no link touches it |
| SeedDemo.LinkSelected | src/devtools/seedDemoWeek.ts:58-74 | the k-th of distinct selected orders lies in chunk k / 5 and in no later one, so it ends linked to route k / 5 |
| KotlinText.Trim | DeliveryScanner/app/src/main/java/com/barreto/deliveryscanner/util/AddressParser.kt:27 | `trim()` yields a string no longer than the input, empty exactly when the input is blank, with no whitespace at either end |
| KotlinText.TrimSlice | DeliveryScanner/app/src/main/java/com/barreto/deliveryscanner/util/AddressParser.kt:33 | the trimmed string is a slice of the input starting after its leading whitespace |
| KotlinText.Digits | DeliveryScanner/app/src/main/java/com/barreto/deliveryscanner/util/AddressParser.kt:102 | `filter(Char::isDigit)` keeps only digits, is the identity on an all-digit string and is empty exactly when the input has no digit |
| KotlinText.ValueAfter | DeliveryScanner/app/src/main/java/com/barreto/deliveryscanner/util/AddressParser.kt:90-94 | trimming what follows a skipped run leaves a slice of the line after the start, which can only begin with a skipped character when other whitespace stood between |
| ApiPreferences.EnsureTrailingSlash | DeliveryScanner/app/src/main/java/com/barreto/deliveryscanner/data/preferences/ApiPreferences.kt:34-37 | the result is the trimmed URL, with a '/' appended exactly when it does not already end in one; it always ends in '/' and never starts with whitespace |
| ApiPreferences.EnsureTrailingSlashFixed | DeliveryScanner/app/src/main/java/com/barreto/deliveryscanner/data/preferences/ApiPreferences.kt:34-37 | a trimmed URL already ending in '/' is left unchanged |
| ApiPreferences.EnsureTrailingSlashIdempotent | DeliveryScanner/app/src/main/java/com/barreto/deliveryscanner/data/preferences/ApiPreferences.kt:34-37 | normalising twice gives the same URL as normalising once |
| ApiPreferences.StoredOr | DeliveryScanner/app/src/main/java/com/barreto/deliveryscanner/data/preferences/ApiPreferences.kt:17-18 | the stored value of a key unless it is absent or blank, else the default |
| ApiPreferences.ConfigOf | DeliveryScanner/app/src/main/java/com/barreto/deliveryscanner/data/preferences/ApiPreferences.kt:14-20 | the configuration's base URL always ends in '/' |
| ApiPreferences.ConfigFallbacks | DeliveryScanner/app/src/main/java/com/barreto/deliveryscanner/data/preferences/ApiPreferences.kt:14-19 | a stored base URL or token is used (the URL normalised, the token as stored) unless it is absent or blank; then the build default is |
| ApiPreferences.ConfigAfterBaseUrl | DeliveryScanner/app/src/main/java/com/barreto/deliveryscanner/data/preferences/ApiPreferences.kt:22-26 | after storing a new base URL the configuration's URL is the normalised new URL and its token is unchanged |
| ApiPreferences.ConfigAfterToken | DeliveryScanner/app/src/main/java/com/barreto/deliveryscanner/data/preferences/ApiPreferences.kt:28-32 | after storing a token the configuration's token is that token, or the build default when it is blank, and the URL is unchanged |
| ApiPreferences.ApiPreferences.constructor | DeliveryScanner/app/src/main/java/com/barreto/deliveryscanner/data/preferences/ApiPreferences.kt:11-12 | the preferences start from the given stored entries and build defaults |
| ApiPreferences.ApiPreferences.GetConfig | DeliveryScanner/app/src/main/java/com/barreto/deliveryscanner/data/preferences/ApiPreferences.kt:14-20 | `getConfig` is the configuration of the stored entries and the build defaults, with a base URL ending in '/' |
| ApiPreferences.ApiPreferences.UpdateBaseUrl | DeliveryScanner/app/src/main/java/com/barreto/deliveryscanner/data/preferences/ApiPreferences.kt:22-26 | the store gets the normalised URL under `base_url`; afterwards `getConfig` returns that URL and the old token |
| ApiPreferences.ApiPreferences.UpdateToken | DeliveryScanner/app/src/main/java/com/barreto/deliveryscanner/data/preferences/ApiPreferences.kt:28-32 | the store gets the token as given under `api_token`; afterwards `getConfig` returns it (or the default when blank) and the old URL |
| LoginViewModel.LoginViewModel.constructor | DeliveryScanner/app/src/main/java/com/barreto/deliveryscanner/ui/login/LoginViewModel.kt:18 | the state starts as not loading, no error, no success |
| LoginViewModel.LoginViewModel.Login | DeliveryScanner/app/src/main/java/com/barreto/deliveryscanner/ui/login/LoginViewModel.kt:21-30 | a blank email or password sets only the error "Informe e-mail e senha." and sends nothing; otherwise the state becomes loading with no error and no success, and the trimmed email goes out with the password as typed |
| LoginViewModel.LoginViewModel.LoginCompleted | DeliveryScanner/app/src/main/java/com/barreto/deliveryscanner/ui/login/LoginViewModel.kt:31-38 | a success stores the token under `api_token` and replaces the state with a bare success; a failure leaves the store alone and replaces the state with the failure's message or "Falha ao entrar." |
| LoginViewModel.LoginViewModel.ConsumeSuccess | DeliveryScanner/app/src/main/java/com/barreto/deliveryscanner/ui/login/LoginViewModel.kt:42-44 | only `success` is cleared |
| LoginViewModel.LoginViewModel.ClearError | DeliveryScanner/app/src/main/java/com/barreto/deliveryscanner/ui/login/LoginViewModel.kt:46-48 | only `error` is cleared |
| AddressParser.DigitRun | DeliveryScanner/app/src/main/java/com/barreto/deliveryscanner/util/AddressParser.kt:19 | the `[0-9]{1,5}` group: the run of digits at a position, capped at the limit, stopping at the first non-digit |
| AddressParser.FirstKeyword | DeliveryScanner/app/src/main/java/com/barreto/deliveryscanner/util/AddressParser.kt:151-154 | the regex alternation picks the first listed keyword that matches at the position, and none when no keyword does |
| AddressParser.KeywordEnd | DeliveryScanner/app/src/main/java/com/barreto/deliveryscanner/util/AddressParser.kt:88-89 | the end of the keyword group lies within the normalised line |
| AddressParser.KeywordEndFirstListed | DeliveryScanner/app/src/main/java/com/barreto/deliveryscanner/util/AddressParser.kt:151-154 | after the leading blanks the group ends after the first listed keyword that matches, none when no keyword matches |
| AddressParser.EndBeatsEndereco | DeliveryScanner/app/src/main/java/com/barreto/deliveryscanner/util/AddressParser.kt:12 | because "end" is listed before "endereco", a line starting with "end" is cut after three letters |
| AddressParser.MatchLine | DeliveryScanner/app/src/main/java/com/barreto/deliveryscanner/util/AddressParser.kt:87-97 | a match carries a non-empty value with no whitespace at either end and the line's box |
| AddressParser.MatchLineValue | DeliveryScanner/app/src/main/java/com/barreto/deliveryscanner/util/AddressParser.kt:87-97 | the value is a slice of the raw line from the keyword's end on, and it starts with ':', '-' or '.' only when non-space whitespace stood before it |
| AddressParser.InlineAlternativeAt | DeliveryScanner/app/src/main/java/com/barreto/deliveryscanner/util/AddressParser.kt:19 | an inline capture at a position is one to five digits |
| AddressParser.FirstCaptureLeftmost | DeliveryScanner/app/src/main/java/com/barreto/deliveryscanner/util/AddressParser.kt:108 | `find` fails exactly when no position matches and otherwise returns the leftmost match's capture |
| AddressParser.InlineNumberFrom | DeliveryScanner/app/src/main/java/com/barreto/deliveryscanner/util/AddressParser.kt:108-109 | the inline pattern's capture is one to five digits |
| AddressParser.MatchNumber | DeliveryScanner/app/src/main/java/com/barreto/deliveryscanner/util/AddressParser.kt:99-111 | a number match is a non-empty all-digit value with the line's box |
| AddressParser.MatchNumberPrefers | DeliveryScanner/app/src/main/java/com/barreto/deliveryscanner/util/AddressParser.kt:99-111 | the digits of the keyword value win when there are any; otherwise the result is exactly the inline pattern's capture, or none |
| AddressParser.FillField | DeliveryScanner/app/src/main/java/com/barreto/deliveryscanner/util/AddressParser.kt:73-81 | a field already present is kept; a missing field is set exactly when the matcher yields something |
| AddressParser.CollectLineField | DeliveryScanner/app/src/main/java/com/barreto/deliveryscanner/util/AddressParser.kt:72-82 | one line fills each missing field it matches and never changes a field already present |
| AddressParser.CollectedFirstMatch | DeliveryScanner/app/src/main/java/com/barreto/deliveryscanner/util/AddressParser.kt:69-85 | each field holds the match of the first line that yields one, and is absent when no line does |
| AddressParser.MatchFieldCases | DeliveryScanner/app/src/main/java/com/barreto/deliveryscanner/util/AddressParser.kt:73-81 | the street and neighbourhood use their keyword lists, the number uses `matchNumber` |
| AddressParser.FillStep | DeliveryScanner/app/src/main/java/com/barreto/deliveryscanner/util/AddressParser.kt:73-81 | one conditional assignment of the loop, equal to `Fill` |
| AddressParser.CollectStep | DeliveryScanner/app/src/main/java/com/barreto/deliveryscanner/util/AddressParser.kt:72-82 | one turn of the loop over a line, equal to `CollectLine` |
| AddressParser.CollectMatches | DeliveryScanner/app/src/main/java/com/barreto/deliveryscanner/util/AddressParser.kt:69-85 | the loop over the lines returns exactly `Collected(lines)` |
| AddressParser.MinOf | DeliveryScanner/app/src/main/java/com/barreto/deliveryscanner/util/AddressParser.kt:116-117 | `minOf` is at most every rectangle's side and equal to one of them |
| AddressParser.MaxOf | DeliveryScanner/app/src/main/java/com/barreto/deliveryscanner/util/AddressParser.kt:118-119 | `maxOf` is at least every rectangle's side and equal to one of them |
| AddressParser.MergeRects | DeliveryScanner/app/src/main/java/com/barreto/deliveryscanner/util/AddressParser.kt:113-121 | none exactly for no rectangle; otherwise a rectangle containing each input whose every side is one of the inputs' sides |
| AddressParser.MergeRectsSmallest | DeliveryScanner/app/src/main/java/com/barreto/deliveryscanner/util/AddressParser.kt:113-121 | every rectangle containing all inputs contains the merged one |
| AddressParser.NormalizeRect | DeliveryScanner/app/src/main/java/com/barreto/deliveryscanner/util/AddressParser.kt:123-124 | no box exactly when the image has no area |
| AddressParser.DetectedLines | DeliveryScanner/app/src/main/java/com/barreto/deliveryscanner/util/AddressParser.kt:30-38 | only lines longer than two characters are kept |
| AddressParser.ExtractDetection | DeliveryScanner/app/src/main/java/com/barreto/deliveryscanner/util/AddressParser.kt:21-67 | none exactly for blank text, no kept line, a missing street, number or neighbourhood, no box, or an image without area; otherwise the address line is "street, number - neighbourhood", the raw text is trimmed, and width and height are swapped exactly when the rotation is not a multiple of 180 |
| AddressParser.ExtractDetectionFields | DeliveryScanner/app/src/main/java/com/barreto/deliveryscanner/util/AddressParser.kt:42-51 | the three values of a detection are non-empty and the number is all digits |
| ScannerViewModel.NextStreak | DeliveryScanner/app/src/main/java/com/barreto/deliveryscanner/ui/scanner/ScannerViewModel.kt:29-34 | the streak holds the new line and reaches two reads exactly when the line repeats the one it held |
| ScannerViewModel.TrailingRun | DeliveryScanner/app/src/main/java/com/barreto/deliveryscanner/ui/scanner/ScannerViewModel.kt:29-38 | the length of the run of equal lines at the end of a read sequence |
| ScannerViewModel.StreakCountsTrailingRun | DeliveryScanner/app/src/main/java/com/barreto/deliveryscanner/ui/scanner/ScannerViewModel.kt:25-34 | from a fresh view model, the streak holds the last line and counts exactly the run of equal reads ending with it |
| ScannerViewModel.PublishesOnRepeatedRead | DeliveryScanner/app/src/main/java/com/barreto/deliveryscanner/ui/scanner/ScannerViewModel.kt:28-38 | from a fresh view model a read publishes exactly when it equals the read just before it |
| ScannerViewModel.Published | DeliveryScanner/app/src/main/java/com/barreto/deliveryscanner/ui/scanner/ScannerViewModel.kt:40-46 | publishing makes the scan idle, shows the detection and clears the submission |
| ScannerViewModel.FinalAddress | DeliveryScanner/app/src/main/java/com/barreto/deliveryscanner/ui/scanner/ScannerViewModel.kt:58 | the override is used when given and not blank, the detected line otherwise |
| ScannerViewModel.SubmitNeedsAddress | DeliveryScanner/app/src/main/java/com/barreto/deliveryscanner/ui/scanner/ScannerViewModel.kt:57-60 | with a detection and nothing in flight, a submission goes out exactly when the override or the detected line is not blank |
| ScannerViewModel.Completed | DeliveryScanner/app/src/main/java/com/barreto/deliveryscanner/ui/scanner/ScannerViewModel.kt:68-76 | completion keeps scan status and detection and records success with the server's message or an error with the failure's message or "Erro inesperado" |
| ScannerViewModel.ScannerViewModel.constructor | DeliveryScanner/app/src/main/java/com/barreto/deliveryscanner/ui/scanner/ScannerViewModel.kt:18-26 | the state starts idle, with nothing detected or submitted, and an empty streak |
| ScannerViewModel.ScannerViewModel.StartScanning | DeliveryScanner/app/src/main/java/com/barreto/deliveryscanner/ui/scanner/ScannerViewModel.kt:21-23 | the state becomes a running scan with nothing detected or submitted; the streak is kept |
| ScannerViewModel.ScannerViewModel.OnAddressDetected | DeliveryScanner/app/src/main/java/com/barreto/deliveryscanner/ui/scanner/ScannerViewModel.kt:28-47 | the streak advances; at two or more equal reads the detection is published, below that the state is untouched |
| ScannerViewModel.ScannerViewModel.UpdateDetectedAddress | DeliveryScanner/app/src/main/java/com/barreto/deliveryscanner/ui/scanner/ScannerViewModel.kt:49-54 | without a detection nothing changes; otherwise only the detection's address line is replaced |
| ScannerViewModel.ScannerViewModel.SubmitDetectedAddress | DeliveryScanner/app/src/main/java/com/barreto/deliveryscanner/ui/scanner/ScannerViewModel.kt:56-67 | a request goes out exactly when there is a detection, the final address is not blank and nothing is in flight; it carries the OCR text and final address and the state becomes Sending; otherwise nothing changes |
| ScannerViewModel.ScannerViewModel.SubmissionCompleted | DeliveryScanner/app/src/main/java/com/barreto/deliveryscanner/ui/scanner/ScannerViewModel.kt:68-77 | the state becomes `Completed` of the old state and the outcome; the streak is kept |
| ScannerViewModel.ScannerViewModel.ResetScan | DeliveryScanner/app/src/main/java/com/barreto/deliveryscanner/ui/scanner/ScannerViewModel.kt:81-83 | the state returns to the initial one; the streak is kept |

## Left out

- Distances: the haversine great-circle distance in `src/scheduler.ts:17-34` and `src/pricingService.ts:68-84` is the parameter `dist`. The greedy batching and band properties are stated relative to it.
- Floating point: server and client numbers are reals, without rounding. `String(n)` of a number is the parameter `showNumber`, and `toLocaleString` of a date is `showDate`.
- Randomness and clocks: `uuid()`/`randomUUID()` draws are parameters, required fresh where the source relies on it. `Date.now()`/`new Date()` is the parameter `now`. One call stands for one instant: in `geocodeAddress` the freshness test of the cache (`src/geocodingService.ts:251`) and the expiry stored after the provider answers (line 261) read the same `now` in every loop turn, although the source reads the clock anew each time and after each `await`.
- Persistence: `persistDB`, SQLite schema creation and migration, loading, saving and legacy import I/O, and default seeding are not modelled. Persistence is treated as a side effect with no effect on the store. The row converters are modelled; reading and writing ISO dates are the parameters `parseDate` and `toIso`.
- HTTP plumbing: express routing, response encoding, the `authAdmin`/`authCourier` middleware, JWT signing and bcrypt are not modelled. bcrypt is the parameter `hash`.
- Unmodelled server handlers, which only call operations that are modelled or do I/O: the login endpoints, the `/couriers/.../available` and `/offline` endpoints, the current-route endpoints, the debug listings, `serializeRouteWithOrders`, and the thin pricing, session, restaurant and admin wrappers. The server's geocoding and pricing steps inside `POST /orders` are not modelled either (`src/server.ts:528-572`); `OrderService.CreateOrder` models the creation itself.
- `src/server.ts:10-14` imports `setCourierOffline`, `CourierAvailabilityError` and `sanitizeCourier` (used in the courier handlers from line 311 on), which `src/courierService.ts` does not define, and `src/server.ts:56` imports `startSchedulerLoop` (called at line 897), which `src/scheduler.ts` does not define. They are not part of this model. These missing names show that `src/courierService.ts` and `src/scheduler.ts` are older than `src/server.ts`; the courier responses are modelled without the `sanitizeCourier` step, which as written would throw.
- `registerCourier` (`src/server.ts:292-297`) passes the phone and the PIN hash to `createCourier`, whose only parameter is the name. Since `src/courierService.ts` is older than `src/server.ts` (see the line above), the mismatch may only reflect the two files' versions. The model follows the evidently intended three-argument call in `ServerHandlers.RegisterCourier`; the code as written is shown under "## Findings".
- MapOrderRow: a status or rule-type column holding a name other than the known ones reads as None. The source casts the text unchecked and returns an order carrying that unknown name, which the model's status and rule types cannot hold.
- MapRouteRow: a status column holding a name other than the four route statuses reads as None, for the same reason; the source casts it unchecked.
- OrderIdsColumn: a JSON array whose items are not all strings (such as `[1]` or `[null]`) reads as no ids. The source keeps whatever array `JSON.parse` returns; the model's ids are strings.
- `normalizeString`, `parseCoordinate` and `extractGeocodeRequest` in `src/server.ts:108-144` are request-body coercions and are not modelled.
- Geocoding network: `readResponse`, `requestOpenCage` and `requestGoogle` (`src/geocodingService.ts:114-223`) are the parameter `provider`. `sanitizeComponent` (`src/geocodingService.ts:338-360`), a chain of Unicode regular-expression rewrites, is the parameter `sanitize`.
- Unicode: case mapping and diacritic stripping cover ASCII and Latin-1 only. Within Latin-1, decomposition followed by removal of the Diacritic characters is modelled as its outcome: precomposed letters become their base letters and the seven spacing marks `^`, `` ` ``, U+00A8, U+00AF, U+00B4, U+00B7 and U+00B8 are removed. Characters beyond Latin-1 are not decomposed. The scanner's `normalize` (lower-casing, decomposition and removal of combining marks) is a parameter.
- Regular expressions: the scanner's keyword patterns are modelled as keyword-prefix matching over the already normalised line; the keyword lists are written in normalised form. `Char.isDigit` is modelled on ASCII digits only.
- `AddressParser.NormalizeRect`: the float matrix rotation of the box (`AddressParser.kt:126-148`) is the parameter `scale`. Only the guard against an image without area is modelled.
- The Android platform: camera, ML Kit, fragments and views, Retrofit and the repositories, `DeliveryApiClient`, and `ServiceLocator` (whose `updateToken` is modelled as the preferences' `UpdateToken`). Coroutines are modelled by splitting each operation into the part that runs at once and a completion method that takes the request's outcome as a parameter.
- `ScannerViewModel.ScannerViewModel.OnAddressDetected`: `stableCount` is an unbounded integer. Kotlin's `Int` would wrap after 2^31 - 1 identical reads, which the model does not capture.
- React UI, data hooks, chart maths, `Intl` date formatting, status label tables and the fetch wrappers of the web client are not modelled. The alert titles and descriptions are rendered text and are left abstract.
- Demo data: `seed`, `setOrderStatus`, `ensureCouriers`, `jitterCoordinate` and `randomFromArray` in `src/devtools/seedDemoWeek.ts` draw random values, and `src/devtools/demo.ts` calls a scheduler function that does not exist. Only `chunk` and `buildRoutesFromOrders` are modelled.
- JavaScript object identity: entities that the source passes by reference are modelled as positions in the store's sequences. A write through the reference is an update at that position.

## Findings

| source | as written | input that shows it | evidently intended | confidence | as-written member | corrected member |
|---|---|---|---|---|---|---|
| src/geocodingService.ts:309-336 | the state alias table has the key "espírito santo", but the lookup strips accents before reading the table, so that key is never reached and Espírito Santo is not recognised | the state "Espírito Santo" | the state is recognised as ES | not executed | GeocodingQuery.EspiritoSantoAsWritten | GeocodingQuery.EspiritoSantoReachable |
| src/server.ts:292-297 | `registerCourier` calls `createCourier(name, phone, pinHash)`, but `createCourier` (`src/courierService.ts:6-15`) takes only the name, so the new courier has no phone and no PIN hash and the login lookup by phone at line 318 cannot find it; `src/courierService.ts` is older than `src/server.ts` (it lacks `sanitizeCourier`), so this may come from the file versions | registering name "Ana", phone "9999", PIN "1234" on an empty store | the courier is stored with the phone and the PIN hash | not executed | ServerHandlers.RegisteredPhoneLost | ServerHandlers.RegisteredPhoneUnique |

=== FILE: address_parser.dfy ===
/**
 * The scanner app's address extraction from recognised text. Each OCR line is
 * trimmed and normalised; the street, the number and the neighbourhood are
 * each taken from the first line that yields them (a line starting with one
 * of the field's keywords, or for the number an inline "nº 123"); the three
 * values make the address line, and the union of their boxes, scaled to the
 * image, locates it.
 *
 * The normaliser (lower-casing, canonical decomposition and removal of the
 * combining marks) and the floating-point scaling and rotation of the box are
 * parameters of the model; the keyword lists are written already normalised.
 */
module AddressParser {
  import opened Wrappers
  import opened KotlinText
  import Seqs

  /** An integer pixel rectangle, as the OCR engine reports line boxes. */
  datatype Rect = Rect(left: int, top: int, right: int, bottom: int)

  /** A rectangle in image-relative coordinates. */
  datatype RectF = RectF(left: real, top: real, right: real, bottom: real)

  datatype AddressDetection = AddressDetection(
    addressLine: string,
    rawText: string,
    boundingBoxPreview: Option<RectF>,
    boundingBoxNormalized: Option<RectF>,
    imageWidth: int,
    imageHeight: int)

  /** The recognised text: its whole text and its blocks of lines. */
  datatype OcrLine = OcrLine(text: string, boundingBox: Option<Rect>)
  datatype OcrText = OcrText(text: string, blocks: seq<seq<OcrLine>>)

  datatype DetectedLine = DetectedLine(rawText: string, normalized: string, boundingBox: Option<Rect>)
  datatype FieldMatch = FieldMatch(value: string, boundingBox: Option<Rect>)
  datatype FieldType = Street | Number | Neighborhood

  const StreetKeywords: seq<string> :=
    ["end", "end.", "endereco", "endereco", "rua", "r.", "avenida", "av", "av.", "logradouro"]
  const NumberKeywords: seq<string> := ["num", "num", "nº", "numero", "numero", "n"]
  const NeighborhoodKeywords: seq<string> := ["bairro", "bairr"]

  /** The alternatives of the inline number pattern, in order; `n[úu]m` is the first two. */
  const InlineAlternatives: seq<string> := ["num", "núm", "nº", "numero", "número", "n"]

  /** The longest run of digits the inline pattern captures. */
  const MaxInlineDigits := 5

  // ---------------------------------------------------------------- matching primitives

  /** The regular-expression class `\s`: space and TAB to CR. */
  predicate RegexSpace(c: char)
  {
    c == ' ' || ('\t' <= c <= '\r')
  }

  /** The separator class `[\s.:-]` that may follow a keyword. */
  predicate Separator(c: char)
  {
    RegexSpace(c) || c == '.' || c == ':' || c == '-'
  }

  /** The characters stripped from the front of a value before trimming. */
  predicate LeadingPunctuation(c: char)
  {
    c == ':' || c == '-' || c == '.' || c == ' '
  }

  function AsciiLower(c: char): char
  {
    if 'A' <= c <= 'Z' then (c as int + 32) as char else c
  }

  /** `word` (lower-case) occurs at position `i` of `s`, ignoring ASCII case. */
  predicate MatchesAt(s: string, i: nat, word: string)
  {
    i + |word| <= |s| && forall j {:trigger word[j]} :: 0 <= j < |word| ==> AsciiLower(s[i + j]) == word[j]
  }

  /** The length of the run of digits at `q`, at most `limit`. */
  function DigitRun(s: string, q: nat, limit: nat): (n: nat)
    requires q <= |s|
    ensures n <= limit && q + n <= |s|
    ensures forall k :: q <= k < q + n ==> IsDigit(s[k])
    ensures n < limit && q + n < |s| ==> !IsDigit(s[q + n])
    decreases limit
  {
    if limit > 0 && q < |s| && IsDigit(s[q]) then 1 + DigitRun(s, q + 1, limit - 1) else 0
  }

  // ---------------------------------------------------------------- keyword prefix

  /** The first keyword, from index `k` on, that occurs at position `i`. */
  function FirstKeyword(text: string, i: nat, keywords: seq<string>, k: nat): (r: Option<nat>)
    requires k <= |keywords|
    ensures r.Some? ==> k <= r.value < |keywords| && MatchesAt(text, i, keywords[r.value])
    ensures r.Some? ==> forall j :: k <= j < r.value ==> !MatchesAt(text, i, keywords[j])
    ensures r.None? ==> forall j :: k <= j < |keywords| ==> !MatchesAt(text, i, keywords[j])
    decreases |keywords| - k
  {
    if k == |keywords| then None
    else if MatchesAt(text, i, keywords[k]) then Some(k)
    else FirstKeyword(text, i, keywords, k + 1)
  }

  /**
   * The end of the keyword group of `^\s*((?:kw1|kw2|...))[\s.:-]*`: after the
   * leading blanks, the first listed keyword the text starts with.
   */
  function KeywordEnd(text: string, keywords: seq<string>): (r: Option<nat>)
    ensures r.Some? ==> r.value <= |text|
  {
    var i := SkipWhile(text, 0, RegexSpace);
    match FirstKeyword(text, i, keywords, 0)
    case None => None
    case Some(k) => Some(i + |keywords[k]|)
  }

  /** `KeywordEnd` takes the first listed keyword that matches, not the longest one. */
  lemma KeywordEndFirstListed(text: string, keywords: seq<string>)
    ensures KeywordEnd(text, keywords).None? <==>
      forall k :: 0 <= k < |keywords| ==> !MatchesAt(text, SkipWhile(text, 0, RegexSpace), keywords[k])
    ensures KeywordEnd(text, keywords).Some? ==>
      exists k :: 0 <= k < |keywords| && MatchesAt(text, SkipWhile(text, 0, RegexSpace), keywords[k])
        && KeywordEnd(text, keywords) == Some(SkipWhile(text, 0, RegexSpace) + |keywords[k]|)
        && forall j :: 0 <= j < k ==> !MatchesAt(text, SkipWhile(text, 0, RegexSpace), keywords[j])
  {
    var i := SkipWhile(text, 0, RegexSpace);
    var r := FirstKeyword(text, i, keywords, 0);
    if r.Some? {
      var k := r.value;
      assert KeywordEnd(text, keywords) == Some(i + |keywords[k]|);
      assert MatchesAt(text, i, keywords[k]);
    } else {
      assert KeywordEnd(text, keywords).None?;
    }
  }

  /** A line starting with "end" (so also "endereco ...") is cut after those three letters. */
  lemma EndBeatsEndereco(text: string)
    requires |text| >= 3 && text[0] == 'e' && text[1] == 'n' && text[2] == 'd'
    ensures KeywordEnd(text, StreetKeywords) == Some(3)
  {
    assert SkipWhile(text, 0, RegexSpace) == 0;
    assert StreetKeywords[0] == "end";
    assert MatchesAt(text, 0, StreetKeywords[0]);
  }

  // ---------------------------------------------------------------- field values

  /**
   * The value after a line's keyword: the raw line from the keyword's end
   * (capped at the raw length), without leading ':', '-', '.' and spaces, trimmed.
   */
  function MatchLine(line: DetectedLine, keywords: seq<string>): (r: Option<FieldMatch>)
    ensures r.Some? ==> r.value.value != [] && r.value.boundingBox == line.boundingBox
    ensures r.Some? ==> !IsWhitespace(r.value.value[0]) && !IsWhitespace(r.value.value[|r.value.value| - 1])
  {
    match KeywordEnd(line.normalized, keywords)
    case None => None
    case Some(prefixLength) =>
      var start := if prefixLength < |line.rawText| then prefixLength else |line.rawText|;
      var value := Trim(TrimStartWhile(line.rawText[start..], LeadingPunctuation));
      if value == [] then None else Some(FieldMatch(value, line.boundingBox))
  }

  /**
   * A matched value is a slice of the raw line after the keyword. It starts with
   * ':', '-' or '.' only when whitespace other than a space (a tab, say) stood
   * between those characters and the keyword, since only spaces are stripped
   * together with the punctuation.
   */
  lemma {:induction false} MatchLineValue(line: DetectedLine, keywords: seq<string>)
    requires MatchLine(line, keywords).Some?
    ensures var v := MatchLine(line, keywords).value.value;
      var e := KeywordEnd(line.normalized, keywords).value;
      exists j :: e <= j && SliceAt(line.rawText, j, v)
        && (LeadingPunctuation(v[0]) ==> exists t :: e <= t < j && IsWhitespace(line.rawText[t]) && line.rawText[t] != ' ')
  {
    var raw := line.rawText;
    var e := KeywordEnd(line.normalized, keywords).value;
    var start := if e < |raw| then e else |raw|;
    assert Trim(TrimStartWhile(raw[start..], LeadingPunctuation)) == MatchLine(line, keywords).value.value;
    TrimStartFrom(raw, start, LeadingPunctuation);
    ValueAfter(raw, start, LeadingPunctuation);
    assert e <= |raw|;
  }

  /** The inline number pattern's capture at position `p`, trying the alternatives from `k` on. */
  function InlineAlternativeAt(raw: string, p: nat, k: nat): (r: Option<string>)
    requires k <= |InlineAlternatives|
    ensures r.Some? ==> 1 <= |r.value| <= MaxInlineDigits && AllDigits(r.value)
    decreases |InlineAlternatives| - k
  {
    if k == |InlineAlternatives| then None
    else if MatchesAt(raw, p, InlineAlternatives[k]) then
      var q := SkipWhile(raw, p + |InlineAlternatives[k]|, Separator);
      if q < |raw| && IsDigit(raw[q]) then Some(raw[q..q + DigitRun(raw, q, MaxInlineDigits)])
      else InlineAlternativeAt(raw, p, k + 1)
    else InlineAlternativeAt(raw, p, k + 1)
  }

  /** The first capture `at` yields at a position from `p` up to `n`, scanning left to right. */
  function FirstCapture<T>(n: nat, p: nat, at: nat -> Option<T>): Option<T>
    decreases n - p
  {
    if p >= n then None
    else
      match at(p)
      case Some(x) => Some(x)
      case None => FirstCapture(n, p + 1, at)
  }

  /** The scan fails exactly when no position captures, and otherwise returns the leftmost capture. */
  lemma {:induction false} FirstCaptureLeftmost<T>(n: nat, p: nat, at: nat -> Option<T>)
    ensures FirstCapture(n, p, at).None? <==> forall q :: p <= q < n ==> at(q).None?
    ensures FirstCapture(n, p, at).Some? ==>
      exists q :: p <= q < n && FirstCapture(n, p, at) == at(q)
        && forall q' :: p <= q' < q ==> at(q').None?
    decreases n - p
  {
    if p < n && at(p).None? {
      FirstCaptureLeftmost(n, p + 1, at);
    }
  }

  /** `find`: the capture of the leftmost position, from `p` on, where the pattern matches. */
  function InlineNumberFrom(raw: string, p: nat): (r: Option<string>)
    ensures r.Some? ==> 1 <= |r.value| <= MaxInlineDigits && AllDigits(r.value)
  {
    var r := FirstCapture(|raw|, p, q => InlineAlternativeAt(raw, q, 0));
    assert r.Some? ==> 1 <= |r.value| <= MaxInlineDigits && AllDigits(r.value) by {
      FirstCaptureLeftmost(|raw|, p, q => InlineAlternativeAt(raw, q, 0));
    }
    r
  }

  /**
   * The number: the digits of the value after a number keyword when there are
   * any, else the digits the inline pattern captures anywhere in the raw line.
   */
  function MatchNumber(line: DetectedLine): (r: Option<FieldMatch>)
    ensures r.Some? ==> r.value.value != [] && AllDigits(r.value.value) && r.value.boundingBox == line.boundingBox
  {
    var prefixed := MatchLine(line, NumberKeywords);
    if prefixed.Some? && Digits(prefixed.value.value) != [] then
      Some(prefixed.value.(value := Digits(prefixed.value.value)))
    else
      match InlineNumberFrom(line.rawText, 0)
      case Some(digits) =>
        if Digits(digits) != [] then Some(FieldMatch(Digits(digits), line.boundingBox)) else None
      case None => None
  }

  /** The inline pattern is consulted only when the keyword value has no digit. */
  lemma MatchNumberPrefers(line: DetectedLine)
    ensures var prefixed := MatchLine(line, NumberKeywords);
      prefixed.Some? && Digits(prefixed.value.value) != [] ==>
        MatchNumber(line) == Some(FieldMatch(Digits(prefixed.value.value), line.boundingBox))
    ensures var prefixed := MatchLine(line, NumberKeywords);
      (prefixed.None? || Digits(prefixed.value.value) == []) ==>
        (MatchNumber(line).Some? <==> InlineNumberFrom(line.rawText, 0).Some?)
        && (MatchNumber(line).Some? ==> MatchNumber(line).value.value == InlineNumberFrom(line.rawText, 0).value)
  {
  }

  function MatchField(line: DetectedLine, field: FieldType): Option<FieldMatch>
  {
    match field
    case Street => MatchLine(line, StreetKeywords)
    case Number => MatchNumber(line)
    case Neighborhood => MatchLine(line, NeighborhoodKeywords)
  }

  // ---------------------------------------------------------------- collecting the fields

  /** Sets `field` to the match `m` unless the field is already set or there is no match. */
  function Fill(matches: map<FieldType, FieldMatch>, field: FieldType, m: Option<FieldMatch>): map<FieldType, FieldMatch>
  {
    if field !in matches && m.Some? then matches[field := m.value] else matches
  }

  /** One line's turn: each field still missing takes the line's match, if any. */
  function CollectLine(matches: map<FieldType, FieldMatch>, line: DetectedLine,
                       matcher: (DetectedLine, FieldType) -> Option<FieldMatch>): map<FieldType, FieldMatch>
  {
    var m1 := Fill(matches, Street, matcher(line, Street));
    var m2 := Fill(m1, Number, matcher(line, Number));
    Fill(m2, Neighborhood, matcher(line, Neighborhood))
  }

  /** The fields `matcher` finds in `lines`, line by line. */
  function CollectedBy(lines: seq<DetectedLine>, matcher: (DetectedLine, FieldType) -> Option<FieldMatch>): map<FieldType, FieldMatch>
  {
    if lines == [] then map[] else CollectLine(CollectedBy(lines[..|lines| - 1], matcher), lines[|lines| - 1], matcher)
  }

  /** The fields of `lines`, as `collectMatches` finds them. */
  function Collected(lines: seq<DetectedLine>): map<FieldType, FieldMatch>
  {
    CollectedBy(lines, MatchField)
  }

  lemma FillField(matches: map<FieldType, FieldMatch>, field: FieldType, m: Option<FieldMatch>, f: FieldType)
    ensures f in matches ==> f in Fill(matches, field, m) && Fill(matches, field, m)[f] == matches[f]
    ensures f !in matches && f != field ==> f !in Fill(matches, field, m)
    ensures f !in matches && f == field ==> (f in Fill(matches, field, m) <==> m.Some?)
    ensures f !in matches && f == field && m.Some? ==> Fill(matches, field, m)[f] == m.value
  {
  }

  lemma CollectLineField(matches: map<FieldType, FieldMatch>, line: DetectedLine,
                         matcher: (DetectedLine, FieldType) -> Option<FieldMatch>, f: FieldType)
    ensures f in matches ==> f in CollectLine(matches, line, matcher) && CollectLine(matches, line, matcher)[f] == matches[f]
    ensures f !in matches ==> (f in CollectLine(matches, line, matcher) <==> matcher(line, f).Some?)
    ensures f !in matches && matcher(line, f).Some? ==> CollectLine(matches, line, matcher)[f] == matcher(line, f).value
  {
    var s, n, h := matcher(line, Street), matcher(line, Number), matcher(line, Neighborhood);
    var m1 := Fill(matches, Street, s);
    var m2 := Fill(m1, Number, n);
    FillField(matches, Street, s, f);
    FillField(m1, Number, n, f);
    FillField(m2, Neighborhood, h, f);
    assert f == Street || f == Number || f == Neighborhood;
  }

  /**
   * Each field holds the match of the first line that yields one, and is absent
   * when no line does; a later line never replaces it.
   */
  lemma {:induction false} CollectedFirstMatch(lines: seq<DetectedLine>,
                                               matcher: (DetectedLine, FieldType) -> Option<FieldMatch>, f: FieldType)
    ensures f in CollectedBy(lines, matcher) <==> exists i :: 0 <= i < |lines| && matcher(lines[i], f).Some?
    ensures f in CollectedBy(lines, matcher) ==>
      exists i :: 0 <= i < |lines| && matcher(lines[i], f) == Some(CollectedBy(lines, matcher)[f])
        && forall j :: 0 <= j < i ==> matcher(lines[j], f).None?
  {
    if lines != [] {
      var init := lines[..|lines| - 1];
      var last := lines[|lines| - 1];
      var n := |lines| - 1;
      CollectedFirstMatch(init, matcher, f);
      CollectLineField(CollectedBy(init, matcher), last, matcher, f);
      assert forall i :: 0 <= i < |init| ==> init[i] == lines[i];
      if f in CollectedBy(init, matcher) {
        var i :| 0 <= i < |init| && matcher(init[i], f) == Some(CollectedBy(init, matcher)[f])
          && forall j :: 0 <= j < i ==> matcher(init[j], f).None?;
        assert matcher(lines[i], f) == Some(CollectedBy(lines, matcher)[f]);
      } else if matcher(last, f).Some? {
        assert matcher(lines[n], f) == Some(CollectedBy(lines, matcher)[f]);
      } else {
        assert f !in CollectedBy(lines, matcher);
      }
    }
  }

  lemma MatchFieldCases(line: DetectedLine)
    ensures MatchField(line, Street) == MatchLine(line, StreetKeywords)
    ensures MatchField(line, Number) == MatchNumber(line)
    ensures MatchField(line, Neighborhood) == MatchLine(line, NeighborhoodKeywords)
  {
  }

  /** A step that fills `field` with `m` when the field is missing, in place of `matches`. */
  method FillStep(matches: map<FieldType, FieldMatch>, field: FieldType, m: Option<FieldMatch>)
    returns (r: map<FieldType, FieldMatch>)
    ensures r == Fill(matches, field, m)
  {
    r := matches;
    if field !in r && m.Some? {
      r := r[field := m.value];
    }
  }

  /**
   * One turn of `collectMatches`' loop: the fields still missing are looked for
   * in `line`, the street first, then the number, then the neighbourhood.
   */
  method CollectStep(matches: map<FieldType, FieldMatch>, line: DetectedLine) returns (r: map<FieldType, FieldMatch>)
    ensures r == CollectLine(matches, line, MatchField)
  {
    MatchFieldCases(line);
    var street := MatchLine(line, StreetKeywords);
    r := FillStep(matches, Street, street);
    var number := MatchNumber(line);
    r := FillStep(r, Number, number);
    var neighborhood := MatchLine(line, NeighborhoodKeywords);
    r := FillStep(r, Neighborhood, neighborhood);
  }

  /** `collectMatches`: the loop over the lines that fills the field map. */
  method CollectMatches(lines: seq<DetectedLine>) returns (matches: map<FieldType, FieldMatch>)
    ensures matches == Collected(lines)
  {
    matches := map[];
    var i := 0;
    while i < |lines|
      invariant 0 <= i <= |lines|
      invariant matches == CollectedBy(lines[..i], MatchField)
    {
      assert lines[..i + 1][..i] == lines[..i];
      matches := CollectStep(matches, lines[i]);
      i := i + 1;
    }
    assert lines[..i] == lines;
  }

  // ---------------------------------------------------------------- boxes

  predicate Contains(outer: Rect, inner: Rect)
  {
    outer.left <= inner.left && outer.top <= inner.top && inner.right <= outer.right && inner.bottom <= outer.bottom
  }

  function MinOf(rects: seq<Rect>, side: Rect -> int): (m: int)
    requires rects != []
    ensures forall i :: 0 <= i < |rects| ==> m <= side(rects[i])
    ensures exists i :: 0 <= i < |rects| && m == side(rects[i])
  {
    if |rects| == 1 then side(rects[0])
    else
      var rest := MinOf(rects[1..], side);
      if side(rects[0]) <= rest then side(rects[0]) else rest
  }

  function MaxOf(rects: seq<Rect>, side: Rect -> int): (m: int)
    requires rects != []
    ensures forall i :: 0 <= i < |rects| ==> side(rects[i]) <= m
    ensures exists i :: 0 <= i < |rects| && m == side(rects[i])
  {
    if |rects| == 1 then side(rects[0])
    else
      var rest := MaxOf(rects[1..], side);
      if rest <= side(rects[0]) then side(rects[0]) else rest
  }

  /**
   * The smallest rectangle containing all of `rects`: it contains each, and
   * each of its sides is a side of one of them. None for no rectangle.
   */
  function MergeRects(rects: seq<Rect>): (r: Option<Rect>)
    ensures r.None? <==> rects == []
    ensures r.Some? ==> forall i :: 0 <= i < |rects| ==> Contains(r.value, rects[i])
    ensures r.Some? ==>
      && (exists i :: 0 <= i < |rects| && r.value.left == rects[i].left)
      && (exists i :: 0 <= i < |rects| && r.value.top == rects[i].top)
      && (exists i :: 0 <= i < |rects| && r.value.right == rects[i].right)
      && (exists i :: 0 <= i < |rects| && r.value.bottom == rects[i].bottom)
  {
    if rects == [] then None
    else Some(Rect(MinOf(rects, (x: Rect) => x.left), MinOf(rects, (x: Rect) => x.top),
                   MaxOf(rects, (x: Rect) => x.right), MaxOf(rects, (x: Rect) => x.bottom)))
  }

  /** No smaller rectangle contains them all. */
  lemma MergeRectsSmallest(rects: seq<Rect>, other: Rect)
    requires forall i :: 0 <= i < |rects| ==> Contains(other, rects[i])
    requires MergeRects(rects).Some?
    ensures Contains(other, MergeRects(rects).value)
  {
    var r := MergeRects(rects).value;
    var a :| 0 <= a < |rects| && r.left == rects[a].left;
    var b :| 0 <= b < |rects| && r.top == rects[b].top;
    var c :| 0 <= c < |rects| && r.right == rects[c].right;
    var d :| 0 <= d < |rects| && r.bottom == rects[d].bottom;
    assert Contains(other, rects[a]) && Contains(other, rects[b]);
    assert Contains(other, rects[c]) && Contains(other, rects[d]);
  }

  /** Scaling to the image fails for an image without area; the scaling itself is `scale`. */
  function NormalizeRect(rect: Rect, width: int, height: int, rotation: int,
                         scale: (Rect, int, int, int) -> RectF): (r: Option<RectF>)
    ensures r.None? <==> width <= 0 || height <= 0
  {
    if width <= 0 || height <= 0 then None else Some(scale(rect, width, height, rotation))
  }

  // ---------------------------------------------------------------- extraction

  function Flatten<T>(blocks: seq<seq<T>>): (r: seq<T>)
  {
    if blocks == [] then [] else blocks[0] + Flatten(blocks[1..])
  }

  /** The OCR lines, trimmed and normalised, without those of two characters or fewer. */
  function DetectedLines(result: OcrText, normalize: string -> string): (lines: seq<DetectedLine>)
    ensures forall i :: 0 <= i < |lines| ==> |lines[i].rawText| > 2
  {
    var all := Flatten(result.blocks);
    var detected := seq(|all|, i requires 0 <= i < |all| =>
      DetectedLine(Trim(all[i].text), normalize(all[i].text), all[i].boundingBox));
    Seqs.Filter(detected, (l: DetectedLine) => |l.rawText| > 2)
  }

  /** The boxes of the three fields that have one, in field order. */
  function FieldBoxes(street: FieldMatch, number: FieldMatch, neighborhood: FieldMatch): seq<Rect>
  {
    (if street.boundingBox.Some? then [street.boundingBox.value] else [])
    + (if number.boundingBox.Some? then [number.boundingBox.value] else [])
    + (if neighborhood.boundingBox.Some? then [neighborhood.boundingBox.value] else [])
  }

  /**
   * `extractDetection`. `normalize` is the line normaliser and `scale` the
   * floating-point mapping of the merged box into the rotated image. Kotlin's
   * `rotationDegrees % 180` truncates, but it is zero exactly when Dafny's is.
   */
  function ExtractDetection(result: OcrText, width: int, height: int, rotation: int,
                            normalize: string -> string, scale: (Rect, int, int, int) -> RectF): (r: Option<AddressDetection>)
    ensures var lines := DetectedLines(result, normalize);
      var m := Collected(lines);
      r.None? <==>
        || Trim(result.text) == []
        || lines == []
        || Street !in m || Number !in m || Neighborhood !in m
        || FieldBoxes(m[Street], m[Number], m[Neighborhood]) == []
        || width <= 0 || height <= 0
    ensures r.Some? ==>
      var m := Collected(DetectedLines(result, normalize));
      && r.value.addressLine == m[Street].value + ", " + m[Number].value + " - " + m[Neighborhood].value
      && r.value.rawText == Trim(result.text)
      && r.value.boundingBoxPreview.None?
      && r.value.boundingBoxNormalized
         == Some(scale(MergeRects(FieldBoxes(m[Street], m[Number], m[Neighborhood])).value, width, height, rotation))
      && (rotation % 180 == 0 ==> r.value.imageWidth == width && r.value.imageHeight == height)
      && (rotation % 180 != 0 ==> r.value.imageWidth == height && r.value.imageHeight == width)
  {
    var raw := Trim(result.text);
    if raw == [] then None
    else
      var lines := DetectedLines(result, normalize);
      if lines == [] then None
      else
        var matches := Collected(lines);
        if Street !in matches || Number !in matches || Neighborhood !in matches then None
        else
          var street := matches[Street];
          var number := matches[Number];
          var neighborhood := matches[Neighborhood];
          var addressLine := street.value + ", " + number.value + " - " + neighborhood.value;
          match MergeRects(FieldBoxes(street, number, neighborhood))
          case None => None
          case Some(bounding) =>
            match NormalizeRect(bounding, width, height, rotation, scale)
            case None => None
            case Some(normalizedRect) =>
              var rotatedWidth := if rotation % 180 == 0 then width else height;
              var rotatedHeight := if rotation % 180 == 0 then height else width;
              Some(AddressDetection(addressLine, raw, None, Some(normalizedRect), rotatedWidth, rotatedHeight))
  }

  /** Every value in a detection's address line is non-empty, and the number is all digits. */
  lemma ExtractDetectionFields(result: OcrText, width: int, height: int, rotation: int,
                               normalize: string -> string, scale: (Rect, int, int, int) -> RectF)
    requires ExtractDetection(result, width, height, rotation, normalize, scale).Some?
    ensures var m := Collected(DetectedLines(result, normalize));
      && Street in m && Number in m && Neighborhood in m
      && m[Street].value != [] && m[Neighborhood].value != []
      && m[Number].value != [] && AllDigits(m[Number].value)
  {
    var lines := DetectedLines(result, normalize);
    var m := Collected(lines);
    CollectedFirstMatch(lines, MatchField, Street);
    CollectedFirstMatch(lines, MatchField, Number);
    CollectedFirstMatch(lines, MatchField, Neighborhood);
  }
}

=== FILE: admin_service.dfy ===
/**
 * Operator accounts (`src/adminService.ts`): a list of admin users, edited
 * from the settings screen. New e-mails are checked against the stored ones
 * case-insensitively, but before trimming, so duplicates can still arise.
 * Views handed out never carry the password hash; `hash` stands for bcrypt.
 */
module AdminService {
  import opened Wrappers
  import opened Text
  import opened DispatchModel

  datatype AdminUser = AdminUser(id: Id, name: string, email: string, passwordHash: string)

  /** An admin without the password hash. */
  datatype AdminView = AdminView(id: Id, name: string, email: string)

  datatype AdminError = FieldsRequired | EmailRegistered | AdminNotFound | LastAdmin
  {
    function Message(): string
    {
      match this
      case FieldsRequired => "name, email and password are required"
      case EmailRegistered => "Email already registered."
      case AdminNotFound => "Admin not found"
      case LastAdmin => "Não é possível remover o último administrador."
    }
  }

  /** `sanitizeAdmin`: every field but the hash. */
  function SanitizeAdmin(a: AdminUser): (v: AdminView)
    ensures v.id == a.id && v.name == a.name && v.email == a.email
  {
    AdminView(a.id, a.name, a.email)
  }

  /** `listAdmins`: the view of every admin, in order. */
  function ListAdmins(admins: seq<AdminUser>): (r: seq<AdminView>)
    ensures |r| == |admins|
    ensures forall i :: 0 <= i < |admins| ==> r[i] == SanitizeAdmin(admins[i])
  {
    seq(|admins|, i requires 0 <= i < |admins| => SanitizeAdmin(admins[i]))
  }

  predicate SameEmail(a: string, b: string)
  {
    Lower(a) == Lower(b)
  }

  /** `findAdminByEmail`: the first admin whose e-mail equals the given one, ignoring case. */
  function FindAdminByEmail(admins: seq<AdminUser>, email: string, n: nat): (r: Option<nat>)
    requires n <= |admins|
    ensures r.Some? ==> r.value < n && SameEmail(admins[r.value].email, email)
    ensures r.Some? ==> forall k :: 0 <= k < r.value ==> !SameEmail(admins[k].email, email)
    ensures r.None? <==> forall k :: 0 <= k < n ==> !SameEmail(admins[k].email, email)
  {
    if n == 0 then None
    else match FindAdminByEmail(admins, email, n - 1)
      case Some(i) => Some(i)
      case None => if SameEmail(admins[n - 1].email, email) then Some(n - 1) else None
  }

  /** Looking an e-mail up in any capitalisation finds the same admin. */
  lemma {:induction false} FindAdminIgnoresCase(admins: seq<AdminUser>, e1: string, e2: string, n: nat)
    requires n <= |admins| && Lower(e1) == Lower(e2)
    ensures FindAdminByEmail(admins, e1, n) == FindAdminByEmail(admins, e2, n)
  {
    if n > 0 {
      FindAdminIgnoresCase(admins, e1, e2, n - 1);
    }
  }

  /**
   * Why `createAdmin` refuses: a blank field, or an e-mail some admin already
   * has in another capitalisation. The check compares the input as given, not
   * trimmed.
   */
  function CreateFailure(admins: seq<AdminUser>, name: string, email: string, password: string): (e: Option<AdminError>)
    ensures e == Some(FieldsRequired) <==> Trim(name) == "" || Trim(email) == "" || Trim(password) == ""
    ensures e == Some(EmailRegistered) <==>
      Trim(name) != "" && Trim(email) != "" && Trim(password) != "" && FindAdminByEmail(admins, email, |admins|).Some?
    ensures e.None? || e == Some(FieldsRequired) || e == Some(EmailRegistered)
  {
    if Trim(name) == "" || Trim(email) == "" || Trim(password) == "" then Some(FieldsRequired)
    else if FindAdminByEmail(admins, email, |admins|).Some? then Some(EmailRegistered)
    else None
  }

  /** The stored admin: name trimmed, e-mail trimmed and lower-cased, password hashed as given. */
  function NewAdmin(id: Id, name: string, email: string, password: string, hash: string -> string): AdminUser
  {
    AdminUser(id, Trim(name), Lower(Trim(email)), hash(password))
  }

  /**
   * The duplicate check compares the untrimmed input: when the stored e-mails
   * are trimmed (as `createAdmin` stores them), an existing e-mail with one
   * leading space passes the check and is then stored a second time.
   */
  lemma UntrimmedEmailPassesCheck(admins: seq<AdminUser>, j: nat, id: Id, name: string, password: string, hash: string -> string)
    requires j < |admins| && admins[j].email != "" && Lower(admins[j].email) == admins[j].email
    requires forall k :: 0 <= k < |admins| ==> Trim(admins[k].email) == admins[k].email
    requires Trim(name) != "" && Trim(password) != ""
    ensures CreateFailure(admins, name, " " + admins[j].email, password).None?
    ensures NewAdmin(id, name, " " + admins[j].email, password, hash).email == admins[j].email
  {
    var e := admins[j].email;
    TrimLeadingSpace(e);
    forall k | 0 <= k < |admins| ensures !SameEmail(admins[k].email, " " + e) {
      DiffersFromLeadingSpace(admins[k].email, e);
    }
  }

  lemma TrimLeadingSpace(e: string)
    requires e != "" && Trim(e) == e
    ensures Trim(" " + e) == e
  {
    TrimStartSkipsSpace(e);
    TrimStartFixed(e);
  }

  lemma TrimStartSkipsSpace(e: string)
    ensures TrimStart(" " + e) == TrimStart(e)
  {
    assert (" " + e)[1..] == e;
  }

  lemma TrimStartFixed(e: string)
    requires e != "" && Trim(e) == e
    ensures TrimStart(e) == e
  {
    assert !IsSpace(e[0]);
  }

  lemma DiffersFromLeadingSpace(a: string, e: string)
    requires Trim(a) == a
    ensures Lower(a) != Lower(" " + e)
  {
    LowerKeepsLeadingSpace(e);
    if a != [] {
      TrimmedStartsWithNonSpace(a);
      assert LowerChar(a[0]) != ' ';
    }
  }

  lemma LowerKeepsLeadingSpace(e: string)
    ensures Lower(" " + e)[0] == ' '
  {
  }

  lemma TrimmedStartsWithNonSpace(a: string)
    requires a != "" && Trim(a) == a
    ensures !IsSpace(a[0])
  {
  }

  /** An e-mail held by an admin other than `id`, compared exactly. */
  predicate EmailHeldByOther(admins: seq<AdminUser>, email: string, id: Id)
  {
    exists j :: 0 <= j < |admins| && admins[j].email == email && admins[j].id != id
  }

  /** The admin after the name write of `updateAdmin`: a non-blank name is stored trimmed. */
  function Renamed(a: AdminUser, name: Option<string>): AdminUser
  {
    if name.Some? && Trim(name.value) != "" then a.(name := Trim(name.value)) else a
  }

  /** The admin list. */
  class AdminDirectory {
    var admins: seq<AdminUser>

    constructor (initial: seq<AdminUser>)
      ensures admins == initial
    {
      admins := initial;
    }

    /** `createAdmin`: after the checks the new admin is appended and its view returned. */
    method CreateAdmin(id: Id, name: string, email: string, password: string, hash: string -> string)
      returns (r: Result<AdminView, AdminError>)
      modifies this
      ensures CreateFailure(old(admins), name, email, password).Some? ==>
        r == Failure(CreateFailure(old(admins), name, email, password).value) && admins == old(admins)
      ensures CreateFailure(old(admins), name, email, password).None? ==>
        && admins == old(admins) + [NewAdmin(id, name, email, password, hash)]
        && r == Success(SanitizeAdmin(NewAdmin(id, name, email, password, hash)))
    {
      var failure := CreateFailure(admins, name, email, password);
      if failure.Some? {
        return Failure(failure.value);
      }
      var user := NewAdmin(id, name, email, password, hash);
      admins := admins + [user];
      r := Success(SanitizeAdmin(user));
    }

    /**
     * `updateAdmin`: a non-blank name is stored trimmed; a non-blank e-mail is
     * stored trimmed and lower-cased unless another admin holds it (then the
     * call fails with the name already written); a non-blank password is
     * hashed trimmed.
     */
    method UpdateAdmin(id: Id, name: Option<string>, email: Option<string>, password: Option<string>, hash: string -> string)
      returns (r: Result<AdminView, AdminError>)
      modifies this
      ensures FindAdmin(old(admins), id).None? ==> r == Failure(AdminNotFound) && admins == old(admins)
      ensures FindAdmin(old(admins), id).Some? ==>
        var i := FindAdmin(old(admins), id).value;
        var named := Renamed(old(admins)[i], name);
        var newEmail := email.Some? && Trim(email.value) != "";
        if newEmail && EmailHeldByOther(old(admins), Lower(Trim(email.value)), id) then
          r == Failure(EmailRegistered) && admins == old(admins)[i := named]
        else
          var mailed := if newEmail then named.(email := Lower(Trim(email.value))) else named;
          var updated := if password.Some? && Trim(password.value) != "" then mailed.(passwordHash := hash(Trim(password.value))) else mailed;
          r == Success(SanitizeAdmin(updated)) && admins == old(admins)[i := updated]
    {
      var found := FindAdmin(admins, id);
      if found.None? {
        return Failure(AdminNotFound);
      }
      var i := found.value;
      var before := admins;
      var updated := Renamed(before[i], name);
      admins := before[i := updated];
      if email.Some? && Trim(email.value) != "" {
        var normalized := Lower(Trim(email.value));
        // the name write changes neither ids nor e-mails, so the check reads the same either way
        if EmailHeldByOther(before, normalized, id) {
          return Failure(EmailRegistered);
        }
        updated := updated.(email := normalized);
      }
      if password.Some? && Trim(password.value) != "" {
        updated := updated.(passwordHash := hash(Trim(password.value)));
      }
      admins := before[i := updated];
      r := Success(SanitizeAdmin(updated));
    }

    /** `deleteAdmin`: refused while only one admin remains, before the lookup; otherwise that admin alone is removed. */
    method DeleteAdmin(id: Id) returns (r: Result<(), AdminError>)
      modifies this
      ensures |old(admins)| <= 1 ==> r == Failure(LastAdmin) && admins == old(admins)
      ensures |old(admins)| > 1 && FindAdmin(old(admins), id).None? ==> r == Failure(AdminNotFound) && admins == old(admins)
      ensures |old(admins)| > 1 && FindAdmin(old(admins), id).Some? ==>
        var i := FindAdmin(old(admins), id).value;
        r == Success(()) && admins == old(admins)[..i] + old(admins)[i + 1..]
      ensures |old(admins)| >= 1 ==> |admins| >= 1
    {
      if |admins| <= 1 {
        return Failure(LastAdmin);
      }
      var found := FindAdmin(admins, id);
      if found.None? {
        return Failure(AdminNotFound);
      }
      var i := found.value;
      admins := admins[..i] + admins[i + 1..];
      r := Success(());
    }
  }

  /** The index of the first admin with the id. */
  function FindAdmin(admins: seq<AdminUser>, id: Id): (r: Option<nat>)
    ensures r.Some? ==> r.value < |admins| && admins[r.value].id == id
    ensures r.Some? ==> forall k :: 0 <= k < r.value ==> admins[k].id != id
    ensures r.None? <==> forall k :: 0 <= k < |admins| ==> admins[k].id != id
  {
    if admins == [] then None
    else if admins[|admins| - 1].id == id && FindAdmin(admins[..|admins| - 1], id).None? then Some(|admins| - 1)
    else match FindAdmin(admins[..|admins| - 1], id)
      case Some(i) => Some(i)
      case None => None
  }
}

=== FILE: api_preferences.dfy ===
/**
 * The scanner app's server settings: the API base URL and the bearer token,
 * kept in a private key-value preference store and read back with the build's
 * defaults as fallback.
 */
module ApiPreferences {
  import opened KotlinText

  datatype ApiConfig = ApiConfig(baseUrl: string, token: string)

  const KeyBaseUrl := "base_url"
  const KeyToken := "api_token"

  /** The URL trimmed, with a '/' appended unless it already ends in one. */
  function EnsureTrailingSlash(url: string): (r: string)
    ensures EndsWith(r, "/")
    ensures !IsWhitespace(r[0])
    ensures r == Trim(url) || r == Trim(url) + "/"
    ensures EndsWith(Trim(url), "/") <==> r == Trim(url)
  {
    var trimmed := Trim(url);
    if EndsWith(trimmed, "/") then trimmed
    else
      var r := trimmed + "/";
      assert |r| == |trimmed| + 1 && r[|r| - 1] == '/';
      assert trimmed != [] ==> r[0] == trimmed[0];
      r
  }

  lemma EnsureTrailingSlashFixed(url: string)
    requires Trim(url) == url && EndsWith(url, "/")
    ensures EnsureTrailingSlash(url) == url
  {
  }

  lemma EnsureTrailingSlashIdempotent(url: string)
    ensures EnsureTrailingSlash(EnsureTrailingSlash(url)) == EnsureTrailingSlash(url)
  {
    var r := EnsureTrailingSlash(url);
    TrimFixed(r);
    EnsureTrailingSlashFixed(r);
  }

  /** The stored value of `key` unless it is absent or blank, else `default`. */
  function StoredOr(stored: map<string, string>, key: string, default: string): (v: string)
    ensures key in stored && !IsBlank(stored[key]) ==> v == stored[key]
    ensures key !in stored || IsBlank(stored[key]) ==> v == default
  {
    if key in stored && !IsBlank(stored[key]) then stored[key] else default
  }

  /** What `getConfig` returns for the store's contents and the build defaults. */
  function ConfigOf(stored: map<string, string>, defaultUrl: string, defaultToken: string): (c: ApiConfig)
    ensures EndsWith(c.baseUrl, "/")
  {
    ApiConfig(EnsureTrailingSlash(StoredOr(stored, KeyBaseUrl, defaultUrl)), StoredOr(stored, KeyToken, defaultToken))
  }

  /** A stored base URL or token is used unless it is absent or blank; then the build default is. */
  lemma ConfigFallbacks(stored: map<string, string>, defaultUrl: string, defaultToken: string)
    ensures var c := ConfigOf(stored, defaultUrl, defaultToken);
      && (KeyBaseUrl in stored && !IsBlank(stored[KeyBaseUrl]) ==> c.baseUrl == EnsureTrailingSlash(stored[KeyBaseUrl]))
      && (KeyBaseUrl !in stored || IsBlank(stored[KeyBaseUrl]) ==> c.baseUrl == EnsureTrailingSlash(defaultUrl))
      && (KeyToken in stored && !IsBlank(stored[KeyToken]) ==> c.token == stored[KeyToken])
      && (KeyToken !in stored || IsBlank(stored[KeyToken]) ==> c.token == defaultToken)
  {
  }

  /** After `updateBaseUrl(url)` the configuration's base URL is the normalised `url`; the token is untouched. */
  lemma ConfigAfterBaseUrl(stored: map<string, string>, defaultUrl: string, defaultToken: string, url: string)
    ensures ConfigOf(stored[KeyBaseUrl := EnsureTrailingSlash(url)], defaultUrl, defaultToken).baseUrl
         == EnsureTrailingSlash(url)
    ensures ConfigOf(stored[KeyBaseUrl := EnsureTrailingSlash(url)], defaultUrl, defaultToken).token
         == ConfigOf(stored, defaultUrl, defaultToken).token
  {
    var u := EnsureTrailingSlash(url);
    assert KeyToken[0] != KeyBaseUrl[0];
    var updated := stored[KeyBaseUrl := u];
    assert !IsWhitespace(u[0]);
    assert StoredOr(updated, KeyBaseUrl, defaultUrl) == u;
    assert StoredOr(updated, KeyToken, defaultToken) == StoredOr(stored, KeyToken, defaultToken);
    EnsureTrailingSlashIdempotent(url);
  }

  /**
   * After `updateToken(token)` the configuration's token is `token` when it is
   * not blank and the build default when it is; the base URL is untouched.
   */
  lemma ConfigAfterToken(stored: map<string, string>, defaultUrl: string, defaultToken: string, token: string)
    ensures ConfigOf(stored[KeyToken := token], defaultUrl, defaultToken).token
         == if IsBlank(token) then defaultToken else token
    ensures ConfigOf(stored[KeyToken := token], defaultUrl, defaultToken).baseUrl
         == ConfigOf(stored, defaultUrl, defaultToken).baseUrl
  {
    assert KeyToken[0] != KeyBaseUrl[0];
    var updated := stored[KeyToken := token];
    assert StoredOr(updated, KeyBaseUrl, defaultUrl) == StoredOr(stored, KeyBaseUrl, defaultUrl);
    assert StoredOr(updated, KeyToken, defaultToken) == if IsBlank(token) then defaultToken else token;
  }

  class ApiPreferences {
    /** The preference file's string entries. */
    var stored: map<string, string>
    /** The build's `API_BASE_URL` and `API_TOKEN`. */
    const defaultUrl: string
    const defaultToken: string

    constructor (defaultUrl: string, defaultToken: string, stored: map<string, string>)
      ensures this.defaultUrl == defaultUrl && this.defaultToken == defaultToken
      ensures this.stored == stored
    {
      this.defaultUrl := defaultUrl;
      this.defaultToken := defaultToken;
      this.stored := stored;
    }

    function GetConfig(): (c: ApiConfig)
      reads this
      ensures EndsWith(c.baseUrl, "/")
      ensures c == ConfigOf(stored, defaultUrl, defaultToken)
    {
      ConfigOf(stored, defaultUrl, defaultToken)
    }

    method UpdateBaseUrl(url: string)
      modifies this
      ensures stored == old(stored)[KeyBaseUrl := EnsureTrailingSlash(url)]
      ensures GetConfig().baseUrl == EnsureTrailingSlash(url)
      ensures GetConfig().token == old(GetConfig().token)
    {
      stored := stored[KeyBaseUrl := EnsureTrailingSlash(url)];
      ConfigAfterBaseUrl(old(stored), defaultUrl, defaultToken, url);
    }

    method UpdateToken(token: string)
      modifies this
      ensures stored == old(stored)[KeyToken := token]
      ensures GetConfig().token == if IsBlank(token) then defaultToken else token
      ensures GetConfig().baseUrl == old(GetConfig().baseUrl)
    {
      stored := stored[KeyToken := token];
      ConfigAfterToken(old(stored), defaultUrl, defaultToken, token);
    }
  }
}

=== FILE: courier_service.dfy ===
/**
 * `src/courierService.ts`: creating a courier and putting a courier back on
 * duty, which hands the scheduler the chance to form a route at once.
 */
module CourierService {
  import opened Wrappers
  import opened DispatchModel
  import opened Scheduler

  /** The courier `createCourier` builds: the given name, AVAILABLE, no phone or PIN yet. */
  function NewCourier(id: Id, name: string): (c: Courier)
    ensures c.id == id && c.name == name && c.status == Available
  {
    Courier(id, name, None, None, Available)
  }

  /** Appending a courier with a fresh id makes it the one found by that id, and moves no other courier. */
  lemma FindAppendedCourier(couriers: seq<Courier>, c: Courier)
    requires c.id !in CourierIds(couriers)
    ensures FindCourier(couriers + [c], c.id) == Some(|couriers|)
    ensures forall id :: id != c.id ==> FindCourier(couriers + [c], id) == FindCourier(couriers, id)
  {
    var all := couriers + [c];
    assert all[|couriers|] == c;
    forall j | 0 <= j < |couriers| ensures all[j] == couriers[j] && couriers[j].id != c.id {
      assert couriers[j] in couriers;
    }
    forall id | id != c.id ensures FindCourier(all, id) == FindCourier(couriers, id) {
      var k, k' := FindCourier(all, id), FindCourier(couriers, id);
      if k.Some? && k'.Some? {
        assert !(k.value < k'.value) && !(k'.value < k.value);
      }
    }
  }

  /**
   * `createCourier`: appends exactly one AVAILABLE courier with the given
   * name; the id, drawn by `uuid()` in the source, is a fresh parameter.
   */
  method CreateCourier(s: Store, id: Id, name: string) returns (c: Courier)
    requires id !in CourierIds(s.couriers)
    modifies s
    ensures c == NewCourier(id, name)
    ensures s.couriers == old(s.couriers) + [c]
    ensures s.orders == old(s.orders) && s.routes == old(s.routes)
  {
    c := NewCourier(id, name);
    s.couriers := s.couriers + [c];
  }

  /**
   * `setCourierAvailable`: absent for an unknown id, with nothing changed;
   * otherwise the courier is AVAILABLE, whatever its status was, and then
   * `onCourierAvailable` runs for it. Returns the courier as it ends up.
   */
  method SetCourierAvailable(s: Store, courierId: Id, now: Millis, newRouteId: Id,
                             dist: (LatLng, LatLng) -> real, showNumber: real -> string)
    returns (r: Option<Courier>)
    modifies s
    ensures r.None? <==> FindCourier(old(s.couriers), courierId).None?
    ensures r.None? ==> s.orders == old(s.orders) && s.couriers == old(s.couriers) && s.routes == old(s.routes)
    ensures r.Some? ==>
      var ci := FindCourier(old(s.couriers), courierId).value;
      var back := Release(old(s.couriers[ci]));
      var released := old(s.couriers)[ci := back];
      && (!FormsBatch(old(s.orders), DefaultRoutingConfig, now) ==>
            && r == Some(back)
            && s.couriers == released
            && s.orders == old(s.orders) && s.routes == old(s.routes))
      && (FormsBatch(old(s.orders), DefaultRoutingConfig, now) ==>
            var sel := BatchSelection(PendingByAge(old(s.orders)), DefaultRoutingConfig, dist);
            && r == Some(back.(status := OnTrip))
            && s.couriers == released[ci := back.(status := OnTrip)]
            && s.orders == DispatchSelected(old(s.orders), sel, back.id, newRouteId)
            && s.routes == old(s.routes) + [BatchRoute(newRouteId, back.id, sel, now, showNumber)])
    ensures r.Some? ==>
      var ci := FindCourier(old(s.couriers), courierId).value;
      && ci < |s.couriers| && r.value == s.couriers[ci] && r.value.id == courierId
      && (r.value.status == OnTrip <==> FormsBatch(old(s.orders), DefaultRoutingConfig, now))
      && (r.value.status == Available <==> !FormsBatch(old(s.orders), DefaultRoutingConfig, now))
  {
    var found := FindCourier(s.couriers, courierId);
    if found.None? {
      return None;
    }
    var ci := found.value;
    s.couriers := s.couriers[ci := Release(s.couriers[ci])];
    ghost var routes := s.routes;
    ghost var pending := PendingByAge(s.orders);
    ghost var sel := if |pending| > 0 then BatchSelection(pending, DefaultRoutingConfig, dist) else [];
    ghost var route := BatchRoute(newRouteId, s.couriers[ci].id, sel, now, showNumber);
    OnCourierAvailable(s, ci, now, newRouteId, dist, showNumber);
    assert FormsBatch(old(s.orders), DefaultRoutingConfig, now) ==> s.routes == routes + [route];
    r := Some(s.couriers[ci]);
  }
}

=== FILE: dispatch_model.dfy ===
/**
 * The dispatch store: the orders, couriers and routes that the server keeps as
 * in-memory arrays, the records in them, the routing constants and the errors
 * the route operations and the HTTP handlers report.
 *
 * Dates are milliseconds since the epoch, money is a real amount of reais and
 * coordinates are reals. Lookups by id return the first match, as `find` and
 * `findIndex` do; ids are not assumed to be unique.
 */
module DispatchModel {
  import opened Wrappers
  import opened Text

  type Id = string

  /** `Date.getTime()`: milliseconds since 1970-01-01T00:00:00Z. */
  type Millis = int

  datatype LatLng = LatLng(lat: real, lng: real)

  datatype OrderStatus = Pending | Queued | OnRoute | Delivered
  datatype CourierStatus = Offline | Available | Assigned | OnTrip
  datatype RouteStatus = AwaitingCourier | Assigned | InProgress | Done

  datatype PricingRuleType = Zone | Distance

  /** The rule that priced an order: its kind and the label shown to operators. */
  datatype PricingRule = PricingRule(ruleType: PricingRuleType, caption: string)

  datatype Order = Order(
    id: Id,
    address: string,
    lat: real,
    lng: real,
    createdAt: Millis,
    sequence: Option<int>,
    status: OrderStatus,
    courierId: Option<Id>,
    routeId: Option<Id>,
    deliveryPrice: Option<real>,
    pricingRule: Option<PricingRule>)
  {
    function Position(): LatLng
    {
      LatLng(lat, lng)
    }
  }

  datatype Courier = Courier(
    id: Id,
    name: string,
    phone: Option<string>,
    pinHash: Option<string>,
    status: CourierStatus)

  datatype Route = Route(
    id: Id,
    courierId: Option<Id>,
    orderIds: seq<Id>,
    status: RouteStatus,
    createdAt: Millis,
    mapsUrl: Option<string>,
    totalPrice: Option<real>)

  /** Batch limits of the automatic dispatcher. */
  datatype RoutingConfig = RoutingConfig(minBatch: int, maxBatch: int, maxWaitMinutes: real)

  const DefaultRoutingConfig: RoutingConfig := RoutingConfig(2, 5, 25.0)

  /** The fixed restaurant location the automatic dispatcher starts its routes from. */
  const RestaurantLocation: LatLng := LatLng(-3.1190275, -60.0217314)

  /** The failures of the route operations and handlers, each with its HTTP status. */
  datatype DispatchError =
    | RouteNotFound
    | RouteAlreadyAssigned
    | CourierNotFound
    | CourierNotAvailable
    | RouteWithoutOrders
    | NoCourierAvailable
    | EmptySelection
    | UnknownOrder(orderId: Id)
    | OrderNotPending
    | BatchTooLarge
    | NotRouteCourier
    | RouteNotAssigned
    | OrderNotFound
    | NotOrderCourier
    | AlreadyDelivered
    | NotOnRoute
    | InvalidStatus
    | NoCourierForOrder
    | NoRouteForOrder
    | OrderInRoute
    | CourierBusy
    | MissingCourierFields
    | PhoneInUse
    | PhoneTaken
  {
    function Code(): int
    {
      match this
      case RouteNotFound => 404
      case RouteAlreadyAssigned => 409
      case CourierNotFound => 404
      case CourierNotAvailable => 409
      case RouteWithoutOrders => 400
      case NoCourierAvailable => 409
      case EmptySelection => 400
      case UnknownOrder(_) => 404
      case OrderNotPending => 409
      case BatchTooLarge => 400
      case NotRouteCourier => 403
      case RouteNotAssigned => 409
      case OrderNotFound => 404
      case NotOrderCourier => 403
      case AlreadyDelivered => 409
      case NotOnRoute => 409
      case InvalidStatus => 400
      case NoCourierForOrder => 409
      case NoRouteForOrder => 409
      case OrderInRoute => 409
      case CourierBusy => 409
      case MissingCourierFields => 400
      case PhoneInUse => 400
      case PhoneTaken => 409
    }
  }

  /** The three shared collections of the server. */
  class Store {
    var orders: seq<Order>
    var couriers: seq<Courier>
    var routes: seq<Route>

    constructor (orders: seq<Order>, couriers: seq<Courier>, routes: seq<Route>)
      ensures this.orders == orders && this.couriers == couriers && this.routes == routes
    {
      this.orders := orders;
      this.couriers := couriers;
      this.routes := routes;
    }
  }

  // ---------------------------------------------------------------- lookups

  /** `orders.findIndex(o => o.id === id)`, absent for -1. */
  function FindOrder(orders: seq<Order>, id: Id): (r: Option<nat>)
    ensures r.Some? ==> r.value < |orders| && orders[r.value].id == id
    ensures r.Some? ==> forall j :: 0 <= j < r.value ==> orders[j].id != id
    ensures r.None? <==> forall j :: 0 <= j < |orders| ==> orders[j].id != id
  {
    if orders == [] then None
    else if orders[0].id == id then Some(0)
    else
      match FindOrder(orders[1..], id)
      case None => None
      case Some(k) => Some(k + 1)
  }

  function FindCourier(couriers: seq<Courier>, id: Id): (r: Option<nat>)
    ensures r.Some? ==> r.value < |couriers| && couriers[r.value].id == id
    ensures r.Some? ==> forall j :: 0 <= j < r.value ==> couriers[j].id != id
    ensures r.None? <==> forall j :: 0 <= j < |couriers| ==> couriers[j].id != id
  {
    if couriers == [] then None
    else if couriers[0].id == id then Some(0)
    else
      match FindCourier(couriers[1..], id)
      case None => None
      case Some(k) => Some(k + 1)
  }

  function FindRoute(routes: seq<Route>, id: Id): (r: Option<nat>)
    ensures r.Some? ==> r.value < |routes| && routes[r.value].id == id
    ensures r.Some? ==> forall j :: 0 <= j < r.value ==> routes[j].id != id
    ensures r.None? <==> forall j :: 0 <= j < |routes| ==> routes[j].id != id
  {
    if routes == [] then None
    else if routes[0].id == id then Some(0)
    else
      match FindRoute(routes[1..], id)
      case None => None
      case Some(k) => Some(k + 1)
  }

  /** The lookup by id sees only the ids: orders with the same ids in the same places are found alike. */
  lemma {:induction false} FindOrderSameIds(a: seq<Order>, b: seq<Order>, id: Id)
    requires |a| == |b| && forall i :: 0 <= i < |a| ==> a[i].id == b[i].id
    ensures FindOrder(a, id) == FindOrder(b, id)
  {
    if a != [] {
      FindOrderSameIds(a[1..], b[1..], id);
    }
  }

  function OrderIds(orders: seq<Order>): set<Id>
  {
    set o | o in orders :: o.id
  }

  function CourierIds(couriers: seq<Courier>): set<Id>
  {
    set c | c in couriers :: c.id
  }

  function RouteIds(routes: seq<Route>): set<Id>
  {
    set r | r in routes :: r.id
  }

  /** A courier whose availability has just been restored by a finished or removed route. */
  function Release(c: Courier): Courier
  {
    c.(status := Available)
  }

  /**
   * Sets the courier found by `courierId` (when the id is truthy and found)
   * back to AVAILABLE, as route completion and route removal do.
   */
  function ReleaseCourier(couriers: seq<Courier>, courierId: Option<Id>): (r: seq<Courier>)
    ensures |r| == |couriers|
    ensures forall j :: 0 <= j < |r| ==> r[j].id == couriers[j].id && r[j].name == couriers[j].name
    ensures !Truthy(courierId) ==> r == couriers
    ensures Truthy(courierId) && FindCourier(couriers, courierId.value).Some? ==>
      var k := FindCourier(couriers, courierId.value).value;
      r[k] == couriers[k].(status := Available) && forall j :: 0 <= j < |r| && j != k ==> r[j] == couriers[j]
    ensures Truthy(courierId) && FindCourier(couriers, courierId.value).None? ==> r == couriers
  {
    if !Truthy(courierId) then couriers
    else
      match FindCourier(couriers, courierId.value)
      case None => couriers
      case Some(k) => couriers[k := Release(couriers[k])]
  }

  /**
   * Routes that are still waiting for a courier carry none: every operation of
   * the route lifecycle keeps this true.
   */
  predicate AwaitingOnlyWithoutCourier(routes: seq<Route>)
  {
    forall i :: 0 <= i < |routes| && routes[i].status == AwaitingCourier ==> !Truthy(routes[i].courierId)
  }
}

=== FILE: geocoding.dfy ===
/**
 * `geocodeAddress`: the request variants tried in turn, the in-memory cache
 * of earlier answers, and the retry policy. The geocoder itself (OpenCage or
 * Google over HTTPS) is a parameter `provider` from the query text and the
 * minimum confidence to an answer or a thrown error; the clock is a
 * parameter `now`.
 */
module Geocoding {
  import opened Wrappers
  import opened Text
  import opened GeocodingQuery

  datatype GeocoderName = OpenCage | Google

  datatype GeocodeResult = GeocodeResult(
    lat: real,
    lng: real,
    formattedAddress: string,
    confidence: Option<real>,
    provider: GeocoderName)

  datatype CacheEntry = CacheEntry(expiresAt: int, result: GeocodeResult)

  /** What a geocoding attempt can throw: a `GeocodingError` with its HTTP status, or anything else. */
  datatype GeocodeFailure = GeocodingError(message: string, statusCode: int) | OtherFailure(message: string)

  /** What the geocoder does with one query. */
  datatype ProviderOutcome = Found(result: GeocodeResult) | Threw(failure: GeocodeFailure)

  /** The answer to a request and the cache after it. */
  datatype Outcome = Outcome(result: Result<GeocodeResult, GeocodeFailure>, cache: map<string, CacheEntry>)

  const NoMatchMessage := "Não foi possível geocodificar este endereço."

  // ---------------------------------------------------------------- variants

  predicate HasStructuredFields(p: GeocodeRequest)
  {
    Truthy(p.street) || Truthy(p.neighborhood) || Truthy(p.city) || Truthy(p.state)
  }

  /** The request has a line and structured fields, so it is also tried without the line. */
  predicate RetriesWithoutLine(p: GeocodeRequest)
  {
    Truthy(p.addressLine) && HasStructuredFields(p)
  }

  /** The request has a complement or a reference, so it is also tried without them. */
  predicate RetriesWithoutExtras(p: GeocodeRequest)
  {
    Truthy(p.complement) || Truthy(p.reference)
  }

  function WithoutLine(p: GeocodeRequest): GeocodeRequest
  {
    p.(addressLine := None)
  }

  function WithoutExtras(p: GeocodeRequest): GeocodeRequest
  {
    p.(complement := None, reference := None)
  }

  /** The requests `geocodeAddress` tries, in order. */
  function Variants(p: GeocodeRequest): (r: seq<GeocodeRequest>)
    ensures 1 <= |r| <= 4 && r[0] == p
  {
    [p]
    + (if RetriesWithoutLine(p) then [WithoutLine(p)] else [])
    + (if RetriesWithoutExtras(p) then [WithoutExtras(p)] else [])
    + (if RetriesWithoutExtras(p) && RetriesWithoutLine(p) then [WithoutLine(WithoutExtras(p))] else [])
  }

  /**
   * The payload first; then without the line, only when it has a line and a
   * structured field; then without complement and reference, only when one
   * is present; then without all three when both apply.
   */
  lemma VariantsCases(p: GeocodeRequest)
    ensures var r := Variants(p);
      |r| == 1 + (if RetriesWithoutLine(p) then 1 else 0) + (if RetriesWithoutExtras(p) then 1 else 0)
        + (if RetriesWithoutLine(p) && RetriesWithoutExtras(p) then 1 else 0)
    ensures RetriesWithoutLine(p) ==> Variants(p)[1] == WithoutLine(p)
    ensures RetriesWithoutExtras(p) ==> Variants(p)[if RetriesWithoutLine(p) then 2 else 1] == WithoutExtras(p)
    ensures RetriesWithoutLine(p) && RetriesWithoutExtras(p) ==>
      Variants(p)[3] == p.(addressLine := None, complement := None, reference := None)
    ensures forall i :: 0 < i < |Variants(p)| ==>
      Variants(p)[i].addressLine.None? || Variants(p)[i].complement.None?
  {
  }

  // ---------------------------------------------------------------- confidence

  predicate Detailed(value: Option<string>)
  {
    value.Some? && !IsBlank(value.value)
  }

  /** How many of street, number and neighbourhood are given and not blank. */
  function DetailCount(p: GeocodeRequest): (r: nat)
    ensures r <= 3
  {
    (if Detailed(p.street) then 1 else 0) + (if Detailed(p.number) then 1 else 0)
    + (if Detailed(p.neighborhood) then 1 else 0)
  }

  function Max(a: real, b: real): real
  {
    if a >= b then a else b
  }

  /** The minimum confidence asked of OpenCage, from GEOCODING_MIN_CONFIDENCE and the detail given. */
  function MinConfidence(p: GeocodeRequest, baseMinConfidence: real): real
  {
    var detail := DetailCount(p);
    if detail >= 3 then Max(3.0, baseMinConfidence - 2.0)
    else if detail >= 2 then Max(4.0, baseMinConfidence - 1.0)
    else baseMinConfidence
  }

  /**
   * With a base of at least 4, a request with more detail is never asked for
   * more confidence; below 4 the floors of 3 and 4 raise the bar instead.
   */
  lemma MinConfidenceMonotone(p: GeocodeRequest, q: GeocodeRequest, baseMinConfidence: real)
    requires DetailCount(p) <= DetailCount(q)
    ensures baseMinConfidence >= 4.0 ==> MinConfidence(q, baseMinConfidence) <= MinConfidence(p, baseMinConfidence)
    ensures MinConfidence(q, baseMinConfidence) <= Max(baseMinConfidence, 4.0)
    ensures DetailCount(q) < 2 ==> MinConfidence(q, baseMinConfidence) == baseMinConfidence
  {
  }

  // ---------------------------------------------------------------- the loop

  /** Only "not found" (404) and "too imprecise" (422) geocoding errors move on to the next variant. */
  predicate Retryable(e: GeocodeFailure)
  {
    e.GeocodingError? && (e.statusCode == 404 || e.statusCode == 422)
  }

  /** What is thrown at the end: the last error if it was a `GeocodingError`, else a generic 400. */
  function Rethrown(lastError: Option<GeocodeFailure>): (r: GeocodeFailure)
    ensures r.GeocodingError?
  {
    if lastError.Some? && lastError.value.GeocodingError? then lastError.value
    else GeocodingError(NoMatchMessage, 400)
  }

  predicate Fresh(cache: map<string, CacheEntry>, key: string, now: int)
  {
    key in cache && cache[key].expiresAt > now
  }

  /** The queries built from the variants. */
  function Queries(variants: seq<GeocodeRequest>, config: GeocodingConfig, sanitize: string -> string): (r: seq<string>)
    ensures |r| == |variants|
    ensures forall i :: 0 <= i < |r| ==> r[i] == BuildQuery(variants[i], config, sanitize)
  {
    seq(|variants|, i requires 0 <= i < |variants| => BuildQuery(variants[i], config, sanitize))
  }

  /** The loop from query `k` on, with the cache and the last error so far. */
  function Attempts(queries: seq<string>, k: nat, cache: map<string, CacheEntry>, now: int, ttl: int,
                    provider: string -> ProviderOutcome, lastError: Option<GeocodeFailure>): Outcome
    requires k <= |queries|
    decreases |queries| - k
  {
    if k == |queries| then Outcome(Failure(Rethrown(lastError)), cache)
    else
      var query := queries[k];
      if IsBlank(query) then Attempts(queries, k + 1, cache, now, ttl, provider, lastError)
      else
        var key := Lower(query);
        if Fresh(cache, key, now) then Outcome(Success(cache[key].result), cache)
        else match provider(query)
          case Found(result) => Outcome(Success(result), cache[key := CacheEntry(now + ttl, result)])
          case Threw(e) =>
            if Retryable(e) then Attempts(queries, k + 1, cache, now, ttl, provider, Some(e))
            else Outcome(Failure(Rethrown(Some(e))), cache)
  }

  /** Query `i` was passed over: blank, or not cached and answered with a 404 or 422. */
  predicate PassedOver(query: string, cache: map<string, CacheEntry>, now: int, provider: string -> ProviderOutcome)
  {
    IsBlank(query)
    || (!Fresh(cache, Lower(query), now) && provider(query).Threw? && Retryable(provider(query).failure))
  }

  predicate AllPassedOver(queries: seq<string>, k: nat, j: nat, cache: map<string, CacheEntry>, now: int,
                          provider: string -> ProviderOutcome)
    requires k <= j <= |queries|
  {
    forall i :: k <= i < j ==> PassedOver(queries[i], cache, now, provider)
  }

  /**
   * Query `j` stopped the loop: not blank, not cached, and the geocoder threw
   * something other than a 404 or 422, which the outcome rethrows.
   */
  predicate Stops(query: string, cache: map<string, CacheEntry>, now: int, provider: string -> ProviderOutcome, o: Outcome)
  {
    && !IsBlank(query) && !Fresh(cache, Lower(query), now)
    && provider(query).Threw? && !Retryable(provider(query).failure)
    && o.result.Failure? && o.result.error == Rethrown(Some(provider(query).failure))
  }

  /** Query `j` answers: an unexpired cache entry, else the geocoder, whose answer is then cached. */
  predicate Answers(query: string, cache: map<string, CacheEntry>, now: int, ttl: int,
                    provider: string -> ProviderOutcome, o: Outcome)
  {
    && !IsBlank(query)
    && o.result.Success?
    && var key := Lower(query);
    if Fresh(cache, key, now) then o.result.value == cache[key].result && o.cache == cache
    else provider(query) == Found(o.result.value) && o.cache == cache[key := CacheEntry(now + ttl, o.result.value)]
  }

  /**
   * A success is the answer of the first query that is not passed over; every
   * query before it was blank or failed with a 404 or 422.
   */
  lemma AttemptsSucceed(queries: seq<string>, k: nat, cache: map<string, CacheEntry>, now: int, ttl: int,
                        provider: string -> ProviderOutcome, lastError: Option<GeocodeFailure>)
    requires k <= |queries|
    ensures var o := Attempts(queries, k, cache, now, ttl, provider, lastError);
      o.result.Success? ==>
        exists j :: k <= j < |queries| && AllPassedOver(queries, k, j, cache, now, provider)
          && Answers(queries[j], cache, now, ttl, provider, o)
  {
    if Attempts(queries, k, cache, now, ttl, provider, lastError).result.Success? {
      var j := AnsweredAt(queries, k, cache, now, ttl, provider, lastError);
    }
  }

  /** The query that answered a successful loop, with every query before it passed over. */
  lemma {:induction false} AnsweredAt(queries: seq<string>, k: nat, cache: map<string, CacheEntry>, now: int, ttl: int,
                                      provider: string -> ProviderOutcome, lastError: Option<GeocodeFailure>)
    returns (j: nat)
    requires k <= |queries| && Attempts(queries, k, cache, now, ttl, provider, lastError).result.Success?
    ensures k <= j < |queries| && AllPassedOver(queries, k, j, cache, now, provider)
    ensures Answers(queries[j], cache, now, ttl, provider, Attempts(queries, k, cache, now, ttl, provider, lastError))
    decreases |queries| - k
  {
    if PassedOver(queries[k], cache, now, provider) {
      var e := AttemptsPass(queries, k, cache, now, ttl, provider, lastError);
      j := AnsweredAt(queries, k + 1, cache, now, ttl, provider, e);
      assert AllPassedOver(queries, k, j, cache, now, provider);
    } else {
      AttemptsHalt(queries, k, cache, now, ttl, provider, lastError);
      j := k;
    }
  }

  /** A query passed over hands the loop on to the next one, with the error it remembers. */
  lemma AttemptsPass(queries: seq<string>, k: nat, cache: map<string, CacheEntry>, now: int, ttl: int,
                     provider: string -> ProviderOutcome, lastError: Option<GeocodeFailure>)
    returns (e: Option<GeocodeFailure>)
    requires k < |queries| && PassedOver(queries[k], cache, now, provider)
    ensures e == if IsBlank(queries[k]) then lastError else Some(provider(queries[k]).failure)
    ensures Attempts(queries, k, cache, now, ttl, provider, lastError) == Attempts(queries, k + 1, cache, now, ttl, provider, e)
  {
    e := if IsBlank(queries[k]) then lastError else Some(provider(queries[k]).failure);
  }

  /** A query with an unexpired cache entry answers from the cache. */
  lemma AttemptsCached(queries: seq<string>, k: nat, cache: map<string, CacheEntry>, now: int, ttl: int,
                       provider: string -> ProviderOutcome, lastError: Option<GeocodeFailure>)
    requires k < |queries| && !IsBlank(queries[k]) && Fresh(cache, Lower(queries[k]), now)
    ensures Attempts(queries, k, cache, now, ttl, provider, lastError)
         == Outcome(Success(cache[Lower(queries[k])].result), cache)
  {
  }

  /**
   * A query without an unexpired cache entry goes to the geocoder: an answer is
   * cached and returned, a 404 or 422 moves on, anything else is rethrown.
   */
  lemma AttemptsAsked(queries: seq<string>, k: nat, cache: map<string, CacheEntry>, now: int, ttl: int,
                      provider: string -> ProviderOutcome, lastError: Option<GeocodeFailure>)
    requires k < |queries| && !IsBlank(queries[k]) && !Fresh(cache, Lower(queries[k]), now)
    ensures provider(queries[k]).Found? ==>
      Attempts(queries, k, cache, now, ttl, provider, lastError)
      == Outcome(Success(provider(queries[k]).result),
                 cache[Lower(queries[k]) := CacheEntry(now + ttl, provider(queries[k]).result)])
    ensures provider(queries[k]).Threw? && Retryable(provider(queries[k]).failure) ==>
      Attempts(queries, k, cache, now, ttl, provider, lastError)
      == Attempts(queries, k + 1, cache, now, ttl, provider, Some(provider(queries[k]).failure))
    ensures provider(queries[k]).Threw? && !Retryable(provider(queries[k]).failure) ==>
      Attempts(queries, k, cache, now, ttl, provider, lastError)
      == Outcome(Failure(Rethrown(Some(provider(queries[k]).failure))), cache)
  {
  }

  /** A query not passed over ends the loop: it answers, or it stops the loop with the cache untouched. */
  lemma AttemptsHalt(queries: seq<string>, k: nat, cache: map<string, CacheEntry>, now: int, ttl: int,
                     provider: string -> ProviderOutcome, lastError: Option<GeocodeFailure>)
    requires k < |queries| && !PassedOver(queries[k], cache, now, provider)
    ensures var o := Attempts(queries, k, cache, now, ttl, provider, lastError);
      (o.result.Success? ==> Answers(queries[k], cache, now, ttl, provider, o))
      && (o.result.Failure? ==> Stops(queries[k], cache, now, provider, o) && o.cache == cache)
  {
  }

  /**
   * A failure leaves the cache as it was and is always a `GeocodingError`:
   * either every query was passed over, or the first one not passed over
   * threw something other than a 404 or 422 and the loop stopped there.
   */
  lemma AttemptsFail(queries: seq<string>, k: nat, cache: map<string, CacheEntry>, now: int, ttl: int,
                     provider: string -> ProviderOutcome, lastError: Option<GeocodeFailure>)
    requires k <= |queries|
    ensures var o := Attempts(queries, k, cache, now, ttl, provider, lastError);
      o.result.Failure? ==>
        && o.cache == cache
        && o.result.error.GeocodingError?
        && (AllPassedOver(queries, k, |queries|, cache, now, provider)
            || exists j :: k <= j < |queries| && AllPassedOver(queries, k, j, cache, now, provider)
                 && Stops(queries[j], cache, now, provider, o))
  {
    if Attempts(queries, k, cache, now, ttl, provider, lastError).result.Failure? {
      var j := FailedAt(queries, k, cache, now, ttl, provider, lastError);
    }
  }

  /**
   * Where a failed loop ended: past the last query, or at the query that
   * stopped it; the cache is untouched and the error a `GeocodingError`.
   */
  lemma {:induction false} FailedAt(queries: seq<string>, k: nat, cache: map<string, CacheEntry>, now: int, ttl: int,
                                    provider: string -> ProviderOutcome, lastError: Option<GeocodeFailure>)
    returns (j: nat)
    requires k <= |queries| && Attempts(queries, k, cache, now, ttl, provider, lastError).result.Failure?
    ensures k <= j <= |queries| && AllPassedOver(queries, k, j, cache, now, provider)
    ensures Attempts(queries, k, cache, now, ttl, provider, lastError).cache == cache
    ensures Attempts(queries, k, cache, now, ttl, provider, lastError).result.error.GeocodingError?
    ensures j < |queries| ==> Stops(queries[j], cache, now, provider, Attempts(queries, k, cache, now, ttl, provider, lastError))
    decreases |queries| - k
  {
    if k == |queries| {
      j := k;
    } else if PassedOver(queries[k], cache, now, provider) {
      var e := AttemptsPass(queries, k, cache, now, ttl, provider, lastError);
      j := FailedAt(queries, k + 1, cache, now, ttl, provider, e);
      assert AllPassedOver(queries, k, j, cache, now, provider);
    } else {
      AttemptsHalt(queries, k, cache, now, ttl, provider, lastError);
      j := k;
    }
  }

  /** The error thrown is the generic 400, the last error before the loop, or one the geocoder threw. */
  lemma {:induction false} AttemptsErrorSource(queries: seq<string>, k: nat, cache: map<string, CacheEntry>, now: int, ttl: int,
                                               provider: string -> ProviderOutcome, lastError: Option<GeocodeFailure>)
    requires k <= |queries|
    ensures var o := Attempts(queries, k, cache, now, ttl, provider, lastError);
      o.result.Failure? ==>
        o.result.error == GeocodingError(NoMatchMessage, 400) || Some(o.result.error) == lastError
        || exists j :: k <= j < |queries| && provider(queries[j]) == Threw(o.result.error)
    decreases |queries| - k
  {
    var o := Attempts(queries, k, cache, now, ttl, provider, lastError);
    if k < |queries| && o.result.Failure? {
      var query := queries[k];
      if PassedOver(query, cache, now, provider) {
        var e := if IsBlank(query) then lastError else Some(provider(query).failure);
        assert o == Attempts(queries, k + 1, cache, now, ttl, provider, e);
        AttemptsErrorSource(queries, k + 1, cache, now, ttl, provider, e);
        if !IsBlank(query) && Some(o.result.error) == e {
          assert provider(queries[k]) == Threw(o.result.error);
        }
      } else if o.result.error != GeocodingError(NoMatchMessage, 400) {
        assert provider(queries[k]) == Threw(o.result.error);
      }
    }
  }

  /** The whole of `geocodeAddress` for a payload, from the cache before it. */
  function Geocode(payload: GeocodeRequest, config: GeocodingConfig, sanitize: string -> string,
                   baseMinConfidence: real, ttl: int, now: int,
                   provider: (string, real) -> ProviderOutcome, cache: map<string, CacheEntry>): Outcome
  {
    var minConfidence := MinConfidence(payload, baseMinConfidence);
    Attempts(Queries(Variants(payload), config, sanitize), 0, cache, now, ttl,
             q => provider(q, minConfidence), None)
  }

  /** The geocoding service's state: its cache of answers by lower-cased query. */
  class Geocoder {
    var cache: map<string, CacheEntry>

    constructor()
      ensures cache == map[]
    {
      cache := map[];
    }

    /**
     * `geocodeAddress`: the variants' queries tried in order against the
     * cache and the geocoder, with the confidence the payload's detail sets.
     * Building a query is pure, so the queries are built before the loop.
     */
    method GeocodeAddress(payload: GeocodeRequest, config: GeocodingConfig, sanitize: string -> string,
                          baseMinConfidence: real, ttl: int, now: int,
                          provider: (string, real) -> ProviderOutcome)
      returns (r: Result<GeocodeResult, GeocodeFailure>)
      modifies this
      ensures Outcome(r, cache) == Geocode(payload, config, sanitize, baseMinConfidence, ttl, now, provider, old(cache))
    {
      var minConfidence := MinConfidence(payload, baseMinConfidence);
      var queries := Queries(Variants(payload), config, sanitize);
      r := TryQueries(queries, ttl, now, q => provider(q, minConfidence));
    }

    /**
     * The loop of `geocodeAddress`: blank queries are skipped, an unexpired
     * cache entry answers, else the geocoder's answer is cached and returned;
     * a 404 or 422 moves on to the next query and anything else is rethrown.
     */
    method TryQueries(queries: seq<string>, ttl: int, now: int, call: string -> ProviderOutcome)
      returns (r: Result<GeocodeResult, GeocodeFailure>)
      modifies this
      ensures Outcome(r, cache) == Attempts(queries, 0, old(cache), now, ttl, call, None)
    {
      var lastError: Option<GeocodeFailure> := None;
      var i := 0;
      while i < |queries|
        invariant 0 <= i <= |queries|
        invariant cache == old(cache)
        invariant Attempts(queries, i, cache, now, ttl, call, lastError)
               == Attempts(queries, 0, old(cache), now, ttl, call, None)
      {
        var query := queries[i];
        if IsBlank(query) {
          ghost var e := AttemptsPass(queries, i, cache, now, ttl, call, lastError);
          i := i + 1;
          continue;
        }
        var key := Lower(query);
        if key in cache && cache[key].expiresAt > now {
          AttemptsCached(queries, i, cache, now, ttl, call, lastError);
          return Success(cache[key].result);
        }
        AttemptsAsked(queries, i, cache, now, ttl, call, lastError);
        match call(query) {
          case Found(result) =>
            cache := cache[key := CacheEntry(now + ttl, result)];
            return Success(result);
          case Threw(e) =>
            lastError := Some(e);
            if !Retryable(e) {
              break;
            }
        }
        i := i + 1;
      }
      return Failure(Rethrown(lastError));
    }
  }

  /**
   * Every variant's query names the Manaus context and so is never blank:
   * the loop never passes over a query for being blank.
   */
  lemma QueriesNeverBlank(variants: seq<GeocodeRequest>, config: GeocodingConfig, sanitize: string -> string)
    ensures forall i :: 0 <= i < |variants| ==> !IsBlank(Queries(variants, config, sanitize)[i])
  {
    forall i | 0 <= i < |variants|
      ensures !IsBlank(Queries(variants, config, sanitize)[i])
    {
      BuildQueryHasContext(variants[i], config, sanitize);
    }
  }
}

=== FILE: geocoding_query.dfy ===
/**
 * How the geocoding service turns an address into the text it sends to the
 * geocoder: the state aliases, the "Manaus - Amazonas - Brasil" context that
 * every query is completed with, and the one-line rendering of address parts.
 *
 * `sanitizeComponent` (accent and abbreviation rewriting by regular
 * expressions) is a parameter `sanitize`; the defaults read from the
 * environment are a `GeocodingConfig` value.
 */
module GeocodingQuery {
  import opened Wrappers
  import opened Text

  /** A geocoding request: a free-text line and/or structured parts. */
  datatype GeocodeRequest = GeocodeRequest(
    addressLine: Option<string>,
    street: Option<string>,
    number: Option<string>,
    neighborhood: Option<string>,
    city: Option<string>,
    state: Option<string>,
    country: Option<string>,
    complement: Option<string>,
    reference: Option<string>)

  /**
   * What the service reads once at start-up: GEOCODING_DEFAULT_COUNTRY,
   * GEOCODING_DEFAULT_CITY, GEOCODING_DEFAULT_STATE, and its table of state
   * spellings.
   */
  datatype GeocodingConfig = GeocodingConfig(
    defaultCountry: string,
    defaultCity: string,
    defaultState: string,
    stateAlias: string -> Option<State>)

  // ---------------------------------------------------------------- states

  /** The 27 federative units, by their two-letter codes. */
  datatype State = AC | AL | AP | AM | BA | CE | DF | ES | GO | MA | MT | MS | MG | PA | PB | PR | PE | PI | RJ | RN | RS | RO | RR | SC | SP | SE | TO
  {
    /** The two-letter code. */
    function Code(): (r: string)
      ensures |r| == 2 && 'A' <= r[0] <= 'Z' && 'A' <= r[1] <= 'Z'
    {
      match this
      case AC => "AC"
      case AL => "AL"
      case AP => "AP"
      case AM => "AM"
      case BA => "BA"
      case CE => "CE"
      case DF => "DF"
      case ES => "ES"
      case GO => "GO"
      case MA => "MA"
      case MT => "MT"
      case MS => "MS"
      case MG => "MG"
      case PA => "PA"
      case PB => "PB"
      case PR => "PR"
      case PE => "PE"
      case PI => "PI"
      case RJ => "RJ"
      case RN => "RN"
      case RS => "RS"
      case RO => "RO"
      case RR => "RR"
      case SC => "SC"
      case SP => "SP"
      case SE => "SE"
      case TO => "TO"
    }
  }

  /** The spellings of the Brazilian states the service knows, and their states, in its order. */
  function SourceStateAlias(key: string): Option<State>
  {
    if key == "acre" || key == "ac" then Some(AC)
    else if key == "alagoas" || key == "al" then Some(AL)
    else if key == "amapa" || key == "amapá" || key == "ap" then Some(AP)
    else if key == "amazonas" || key == "am" then Some(AM)
    else if key == "bahia" || key == "ba" then Some(BA)
    else if key == "ceara" || key == "ceará" || key == "ce" then Some(CE)
    else if key == "distrito federal" || key == "df" then Some(DF)
    else if key == "espirito" || key == "espírito santo" || key == "es" then Some(ES)
    else if key == "goias" || key == "goiás" || key == "go" then Some(GO)
    else if key == "maranhao" || key == "maranhão" || key == "ma" then Some(MA)
    else if key == "mato" || key == "mato grosso" || key == "mt" then Some(MT)
    else if key == "mato grosso do sul" || key == "ms" then Some(MS)
    else if key == "minas" || key == "minas gerais" || key == "mg" then Some(MG)
    else if key == "para" || key == "pará" || key == "pa" then Some(PA)
    else if key == "paraiba" || key == "paraíba" || key == "pb" then Some(PB)
    else if key == "parana" || key == "paraná" || key == "pr" then Some(PR)
    else if key == "pernambuco" || key == "pe" then Some(PE)
    else if key == "piaui" || key == "piauí" || key == "pi" then Some(PI)
    else if key == "rio de janeiro" || key == "rj" then Some(RJ)
    else if key == "rio grande do norte" || key == "rn" then Some(RN)
    else if key == "rio grande do sul" || key == "rs" then Some(RS)
    else if key == "rondonia" || key == "rondônia" || key == "ro" then Some(RO)
    else if key == "roraima" || key == "rr" then Some(RR)
    else if key == "santa catarina" || key == "sc" then Some(SC)
    else if key == "sao paulo" || key == "são paulo" || key == "sp" then Some(SP)
    else if key == "sergipe" || key == "se" then Some(SE)
    else if key == "tocantins" || key == "to" then Some(TO)
    else None
  }

  /** The same table with the accent-free spelling of Espírito Santo, which the lookup can reach. */
  function ReachableStateAlias(key: string): Option<State>
  {
    if key == "espirito santo" then Some(ES) else SourceStateAlias(key)
  }

  /**
   * The lookup key of a state: trimmed, accents removed, lower case. The
   * spacing marks are dropped, so a mark typed on its own does not hide a
   * state's name or code.
   */
  function StateKey(trimmed: string): (r: string)
    ensures |r| <= |trimmed|
    ensures forall i :: 0 <= i < |r| ==> !SpacingDiacritic(r[i])
    ensures (forall i :: 0 <= i < |trimmed| ==> !SpacingDiacritic(trimmed[i])) ==> |r| == |trimmed|
  {
    Lower(StripDiacritics(trimmed))
  }

  /** The configuration when none of the variables is set, with the state table as written. */
  const StandardConfig := GeocodingConfig("Brasil", "", "", SourceStateAlias)

  /** `normalizeState`: the code of a known spelling, else the trimmed text. */
  function NormalizeState(alias: string -> Option<State>, value: Option<string>): string
  {
    if !Truthy(value) then ""
    else
      var trimmed := Trim(value.value);
      if trimmed == "" then ""
      else if alias(StateKey(trimmed)).Some? then alias(StateKey(trimmed)).value.Code()
      else trimmed
  }

  /**
   * The empty string for an absent or blank state, the two-letter code of a
   * known spelling, and the trimmed text otherwise.
   */
  lemma NormalizeStateCases(alias: string -> Option<State>, value: Option<string>)
    ensures NormalizeState(alias, value) == "" <==> !Truthy(value) || IsBlank(value.value)
    ensures Truthy(value) && !IsBlank(value.value) && alias(StateKey(Trim(value.value))).Some? ==>
      var r := NormalizeState(alias, value);
      |r| == 2 && 'A' <= r[0] <= 'Z' && 'A' <= r[1] <= 'Z'
    ensures Truthy(value) && alias(StateKey(Trim(value.value))).None? ==>
      NormalizeState(alias, value) == Trim(value.value)
  {
  }

  /**
   * A spacing mark inside a state (an accent typed on its own, say "AM´")
   * does not change its key, so the state is normalised as without it.
   */
  lemma {:induction false} SpacingMarkIgnored(alias: string -> Option<State>, value: string, a: string, c: char, b: string)
    requires SpacingDiacritic(c) && Trim(value) == a + [c] + b
    requires alias(StateKey(a + b)).Some?
    ensures StateKey(a + [c] + b) == StateKey(a + b)
    ensures NormalizeState(alias, Some(value)) == alias(StateKey(a + b)).value.Code()
  {
    SpacingDiacriticDropped(a, c, b);
  }

  lemma TrimOfTrimmed(s: string)
    requires s != [] && !IsSpace(s[0]) && !IsSpace(s[|s| - 1])
    ensures Trim(s) == s
  {
  }

  // ---------------------------------------------------------------- Manaus context

  /** The lower-cased text names Manaus, Amazonas and Brasil, as `ensureManausContext` tests them. */
  predicate NamesManaus(lower: string)
  {
    Contains(lower, "manaus") || Contains(lower, "manáos")
  }

  predicate NamesAmazonas(lower: string)
  {
    Contains(lower, "amazonas") || Contains(lower, "am ")
  }

  predicate HasContext(text: string)
  {
    NamesManaus(Lower(text)) && NamesAmazonas(Lower(text)) && Contains(Lower(text), "brasil")
  }

  /** `ensureManausContext`: appends whichever of city, state and country the text lacks. */
  function EnsureManausContext(text: string): (r: string)
    ensures IsPrefix(text, r)
  {
    var lower := Lower(text);
    var hasManaus := NamesManaus(lower);
    var hasAmazonas := NamesAmazonas(lower);
    if hasManaus && hasAmazonas && Contains(lower, "brasil") then text
    else if hasManaus && !hasAmazonas then text + " - Amazonas - Brasil"
    else if !hasManaus then
      if '-' in text then text + " Manaus - Amazonas - Brasil" else text + ", Manaus - Amazonas - Brasil"
    else if !Contains(lower, "brasil") then text + " - Brasil"
    else text
  }

  lemma ContainsAfter(text: string, suffix: string, word: string)
    requires Contains(Lower(suffix), word)
    ensures Contains(Lower(text + suffix), word)
  {
    LowerAppend(text, suffix);
    ContainsInSuffix(Lower(text), Lower(suffix), word);
  }

  lemma ContainsBefore(text: string, suffix: string, word: string)
    requires Contains(Lower(text), word)
    ensures Contains(Lower(text + suffix), word)
  {
    LowerAppend(text, suffix);
    ContainsInPrefix(Lower(text), Lower(suffix), word);
  }

  /** Context already in the text stays in it whatever is appended. */
  lemma HasContextAppend(text: string, suffix: string)
    requires HasContext(text)
    ensures HasContext(text + suffix)
  {
    var l := Lower(text);
    if Contains(l, "manaus") { ContainsBefore(text, suffix, "manaus"); } else { ContainsBefore(text, suffix, "manáos"); }
    if Contains(l, "amazonas") { ContainsBefore(text, suffix, "amazonas"); } else { ContainsBefore(text, suffix, "am "); }
    ContainsBefore(text, suffix, "brasil");
  }

  /** A word found in the lower-cased suffix is found in the lower-cased whole. */
  lemma WordInSuffix(text: string, suffix: string, i: nat, word: string)
    requires i + |word| <= |suffix| && Lower(suffix)[i..i + |word|] == word
    ensures Contains(Lower(text + suffix), word)
  {
    assert SliceAt(Lower(suffix), i, word);
    ContainsAfter(text, suffix, word);
  }

  lemma StateSuffixWords(text: string, suffix: string)
    requires suffix == " - Amazonas - Brasil"
    ensures Contains(Lower(text + suffix), "amazonas") && Contains(Lower(text + suffix), "brasil")
  {
    var l := Lower(suffix);
    assert l[3..11] == "amazonas";
    assert l[14..20] == "brasil";
    WordInSuffix(text, suffix, 3, "amazonas");
    WordInSuffix(text, suffix, 14, "brasil");
  }

  lemma CountrySuffixWords(text: string, suffix: string)
    requires suffix == " - Brasil"
    ensures Contains(Lower(text + suffix), "brasil")
  {
    var l := Lower(suffix);
    assert l[3..9] == "brasil";
    WordInSuffix(text, suffix, 3, "brasil");
  }

  lemma CityWord(text: string, city: string)
    requires city == "Manaus"
    ensures Contains(Lower(text + city), "manaus")
  {
    var l := Lower(city);
    assert l[0..6] == "manaus";
    WordInSuffix(text, city, 0, "manaus");
  }

  lemma CitySuffixWords(text: string, lead: string, suffix: string)
    requires suffix == lead + "Manaus" + " - Amazonas - Brasil"
    ensures var l := Lower(text + suffix);
      Contains(l, "manaus") && Contains(l, "amazonas") && Contains(l, "brasil")
  {
    var city := "Manaus";
    var rest := " - Amazonas - Brasil";
    assert text + suffix == (text + lead) + city + rest;
    CityWord(text + lead, city);
    ContainsBefore((text + lead) + city, rest, "manaus");
    StateSuffixWords((text + lead) + city, rest);
  }

  lemma FullSuffixWords(text: string, suffix: string)
    requires suffix == " Manaus - Amazonas - Brasil"
    ensures var l := Lower(text + suffix);
      Contains(l, "manaus") && Contains(l, "amazonas") && Contains(l, "brasil")
  {
    assert suffix == " " + "Manaus" + " - Amazonas - Brasil";
    CitySuffixWords(text, " ", suffix);
  }

  lemma FullSuffixWordsAfterComma(text: string, suffix: string)
    requires suffix == ", Manaus - Amazonas - Brasil"
    ensures var l := Lower(text + suffix);
      Contains(l, "manaus") && Contains(l, "amazonas") && Contains(l, "brasil")
  {
    assert suffix == ", " + "Manaus" + " - Amazonas - Brasil";
    CitySuffixWords(text, ", ", suffix);
  }

  /** The completed text always names Manaus (or Manáos), Amazonas (or "am ") and Brasil. */
  lemma EnsureCompletesContext(text: string)
    ensures HasContext(EnsureManausContext(text))
  {
    var lower := Lower(text);
    if HasContext(text) {
    } else if NamesManaus(lower) && !NamesAmazonas(lower) {
      var suffix := " - Amazonas - Brasil";
      StateSuffixWords(text, suffix);
      if Contains(lower, "manaus") { ContainsBefore(text, suffix, "manaus"); } else { ContainsBefore(text, suffix, "manáos"); }
    } else if !NamesManaus(lower) {
      if '-' in text {
        FullSuffixWords(text, " Manaus - Amazonas - Brasil");
      } else {
        FullSuffixWordsAfterComma(text, ", Manaus - Amazonas - Brasil");
      }
    } else {
      var suffix := " - Brasil";
      CountrySuffixWords(text, suffix);
      if Contains(lower, "manaus") { ContainsBefore(text, suffix, "manaus"); } else { ContainsBefore(text, suffix, "manáos"); }
      if Contains(lower, "amazonas") { ContainsBefore(text, suffix, "amazonas"); } else { ContainsBefore(text, suffix, "am "); }
    }
  }

  /** Completing an already completed text changes nothing. */
  lemma EnsureManausContextIdempotent(text: string)
    ensures EnsureManausContext(EnsureManausContext(text)) == EnsureManausContext(text)
  {
    EnsureCompletesContext(text);
  }

  /** A text with the context is never blank: "brasil" occurs in it. */
  lemma ContextNotBlank(text: string)
    requires HasContext(text)
    ensures !IsBlank(text)
  {
    var lower := Lower(text);
    var i :| SliceAt(lower, i, "brasil");
    assert lower[i..i + 6][0] == 'b';
    assert LowerChar(text[i]) == 'b';
    assert text[i] == 'b' || text[i] == 'B';
  }

  // ---------------------------------------------------------------- queries

  /** `sanitizeComponent(value)`: empty for an absent or empty value. */
  function Sanitized(sanitize: string -> string, value: Option<string>): string
  {
    if Truthy(value) then sanitize(value.value) else ""
  }

  /** `a || b` on strings. */
  function OrElse(a: string, b: string): (r: string)
    ensures a != "" ==> r == a
    ensures a == "" ==> r == b
  {
    if a != "" then a else b
  }

  function ContextCity(input: GeocodeRequest, config: GeocodingConfig, sanitize: string -> string): string
  {
    OrElse(Sanitized(sanitize, Some(input.city.GetOr(config.defaultCity))), "Manaus")
  }

  function ContextState(input: GeocodeRequest, config: GeocodingConfig): string
  {
    OrElse(NormalizeState(config.stateAlias, Some(input.state.GetOr(config.defaultState))), "AM")
  }

  function ContextCountry(input: GeocodeRequest, config: GeocodingConfig, sanitize: string -> string): string
  {
    OrElse(Sanitized(sanitize, Some(input.country.GetOr(config.defaultCountry))), "Brasil")
  }

  /** Without city and state in the request or the defaults, the context is Manaus - AM. */
  lemma StandardContext(input: GeocodeRequest, sanitize: string -> string)
    requires input.city.None? && input.state.None?
    ensures ContextCity(input, StandardConfig, sanitize) == "Manaus"
    ensures ContextState(input, StandardConfig) == "AM"
    ensures ContextCountry(input, StandardConfig, sanitize) != ""
  {
  }

  /** The request carries a non-blank free-text line. */
  predicate HasAddressLine(input: GeocodeRequest)
  {
    input.addressLine.Some? && !IsBlank(input.addressLine.value)
  }

  /**
   * The line's `.replace(/\\s+/g, ' ')`: the pattern is a backslash followed
   * by one or more letters s, and each such run becomes one space.
   */
  function ReplaceBackslashS(s: string): (r: string)
    ensures |r| <= |s|
    ensures (forall i :: 0 <= i < |s| ==> s[i] != '\\') ==> r == s
    ensures |s| >= 2 && s[0] == '\\' && s[1] == 's' ==> r != [] && r[0] == ' ' && |r| < |s|
    decreases |s|
  {
    if s == [] then []
    else if |s| >= 2 && s[0] == '\\' && s[1] == 's' then " " + ReplaceBackslashS(DropLeadingS(s[1..]))
    else [s[0]] + ReplaceBackslashS(s[1..])
  }

  function DropLeadingS(s: string): (r: string)
    ensures |r| <= |s| && r == s[|s| - |r|..]
    ensures r != [] ==> r[0] != 's'
    ensures s != [] && s[0] == 's' ==> |r| < |s|
  {
    if s != [] && s[0] == 's' then DropLeadingS(s[1..]) else s
  }

  /** The free-text query before the context is checked. */
  function LineText(input: GeocodeRequest, config: GeocodingConfig, sanitize: string -> string): string
  {
    var base := Sanitized(sanitize, input.addressLine);
    Trim(ReplaceBackslashS(base + ", " + ContextCity(input, config, sanitize) + " - "
      + ContextState(input, config) + " - " + ContextCountry(input, config, sanitize)))
  }

  /** Street and number, neighbourhood, "city - state" and country, the empty ones left out. */
  function Segments(input: GeocodeRequest, config: GeocodingConfig, sanitize: string -> string): (r: seq<string>)
    ensures |r| >= 2
    ensures r[|r| - 2] == ContextCity(input, config, sanitize) + " - " + ContextState(input, config)
    ensures r[|r| - 1] == ContextCountry(input, config, sanitize)
  {
    var lead := LeadSegments(input, sanitize);
    var tail := [Locality(input, config, sanitize), ContextCountry(input, config, sanitize)];
    assert (lead + tail)[|lead| + 0] == tail[0] && (lead + tail)[|lead| + 1] == tail[1];
    lead + tail
  }

  /** Street and number, then the neighbourhood, the empty ones left out. */
  function LeadSegments(input: GeocodeRequest, sanitize: string -> string): seq<string>
  {
    var street := Join(NonEmpty([Sanitized(sanitize, input.street), Sanitized(sanitize, input.number)]), ", ");
    var neighborhood := Sanitized(sanitize, input.neighborhood);
    (if street != "" then [street] else []) + (if neighborhood != "" then [neighborhood] else [])
  }

  /** The city and the state joined by " - "; both are never empty, so neither is left out. */
  function Locality(input: GeocodeRequest, config: GeocodingConfig, sanitize: string -> string): (r: string)
    ensures r == ContextCity(input, config, sanitize) + " - " + ContextState(input, config)
  {
    var city := ContextCity(input, config, sanitize);
    var state := ContextState(input, config);
    NonEmptyPair(city, state, " - ");
    Join(NonEmpty([city, state]), " - ")
  }

  lemma NonEmptyPair(a: string, b: string, sep: string)
    requires a != "" && b != ""
    ensures NonEmpty([a, b]) == [a, b]
    ensures Join([a, b], sep) == a + sep + b
  {
    assert NonEmpty([b]) == [b] by { assert [b][1..] == []; }
    assert [a, b][1..] == [b];
  }

  /** Complement and reference, the empty ones left out. */
  function Extras(input: GeocodeRequest, sanitize: string -> string): seq<string>
  {
    NonEmpty([Sanitized(sanitize, input.complement), Sanitized(sanitize, input.reference)])
  }

  /** `buildQuery`. */
  function BuildQuery(input: GeocodeRequest, config: GeocodingConfig, sanitize: string -> string): (r: string)
  {
    if HasAddressLine(input) then EnsureManausContext(LineText(input, config, sanitize))
    else WithExtras(EnsureManausContext(Join(Segments(input, config, sanitize), " · ")), Extras(input, sanitize))
  }

  /** The text followed by " (a | b)" for the non-empty extras, if any. */
  function WithExtras(text: string, extras: seq<string>): (r: string)
    ensures IsPrefix(text, r)
    ensures extras == [] ==> r == text
    ensures extras != [] ==> EndsWith(r, " (" + Join(extras, " | ") + ")")
  {
    if extras == [] then text
    else
      var suffix := " (" + Join(extras, " | ") + ")";
      assert (text + suffix)[..|text|] == text;
      assert (text + suffix)[|text|..] == suffix;
      text + suffix
  }

  /** Appending the extras keeps the Manaus context. */
  lemma WithExtrasContext(text: string, extras: seq<string>)
    requires HasContext(text)
    ensures HasContext(WithExtras(text, extras))
  {
    if extras != [] {
      HasContextAppend(text, " (" + Join(extras, " | ") + ")");
    }
  }

  /**
   * Every query names the Manaus context, and so is never blank: the loop's
   * test for a blank query never succeeds.
   */
  lemma BuildQueryHasContext(input: GeocodeRequest, config: GeocodingConfig, sanitize: string -> string)
    ensures HasContext(BuildQuery(input, config, sanitize))
    ensures !IsBlank(BuildQuery(input, config, sanitize))
  {
    if HasAddressLine(input) {
      EnsureCompletesContext(LineText(input, config, sanitize));
    } else {
      var base := EnsureManausContext(Join(Segments(input, config, sanitize), " · "));
      EnsureCompletesContext(Join(Segments(input, config, sanitize), " · "));
      WithExtrasContext(base, Extras(input, sanitize));
    }
    ContextNotBlank(BuildQuery(input, config, sanitize));
  }

  /**
   * A free-text query starts with the line and its city, state and country;
   * a structured one with its segments joined by " · ", and ends with the
   * extras in brackets when there are any.
   */
  lemma BuildQueryShape(input: GeocodeRequest, config: GeocodingConfig, sanitize: string -> string)
    ensures HasAddressLine(input) ==> IsPrefix(LineText(input, config, sanitize), BuildQuery(input, config, sanitize))
    ensures !HasAddressLine(input) ==> IsPrefix(Join(Segments(input, config, sanitize), " · "), BuildQuery(input, config, sanitize))
    ensures !HasAddressLine(input) && Extras(input, sanitize) != [] ==>
      EndsWith(BuildQuery(input, config, sanitize), " (" + Join(Extras(input, sanitize), " | ") + ")")
  {
    if !HasAddressLine(input) {
      var base := Join(Segments(input, config, sanitize), " · ");
      PrefixTransitive(base, EnsureManausContext(base), BuildQuery(input, config, sanitize));
    }
  }

  lemma PrefixTransitive(a: string, b: string, c: string)
    requires IsPrefix(a, b) && IsPrefix(b, c)
    ensures IsPrefix(a, c)
  {
    assert c[..|a|] == c[..|b|][..|a|];
  }

  // ---------------------------------------------------------------- display

  /** The trimmed city, empty when absent. */
  function TrimmedOrEmpty(value: Option<string>): string
  {
    if value.Some? then Trim(value.value) else ""
  }

  function DisplaySegments(parts: GeocodeRequest, config: GeocodingConfig, sanitize: string -> string): seq<string>
  {
    NonEmpty([
      Join(NonEmpty([Sanitized(sanitize, parts.street), Sanitized(sanitize, parts.number)]), ", "),
      Sanitized(sanitize, parts.neighborhood),
      Join(NonEmpty([TrimmedOrEmpty(parts.city), NormalizeState(config.stateAlias, parts.state)]), " - "),
      OrElse(Sanitized(sanitize, parts.country), config.defaultCountry)
    ])
  }

  /** `formatAddressParts`: the address on one line, for display and storage. */
  function FormatAddressParts(parts: GeocodeRequest, config: GeocodingConfig, sanitize: string -> string): string
  {
    if HasAddressLine(parts) then Sanitized(sanitize, parts.addressLine)
    else
      var base := Join(DisplaySegments(parts, config, sanitize), " · ");
      if base == "" then ""
      else
        var complement := Extras(parts, sanitize);
        if complement == [] then base else base + " (" + Join(complement, " | ") + ")"
  }

  lemma JoinNonEmpty(parts: seq<string>, sep: string)
    requires parts != [] && parts[0] != ""
    ensures Join(parts, sep) != ""
  {
  }

  /**
   * A non-blank line is shown sanitised; otherwise the non-empty segments
   * joined by " · ", with "(complement | reference)" only when one of them is
   * present, and the empty string only when no segment remains, which needs
   * an empty default country.
   */
  lemma FormatAddressPartsCases(parts: GeocodeRequest, config: GeocodingConfig, sanitize: string -> string)
    ensures HasAddressLine(parts) ==> FormatAddressParts(parts, config, sanitize) == sanitize(parts.addressLine.value)
    ensures !HasAddressLine(parts) ==>
      (FormatAddressParts(parts, config, sanitize) == "" <==> DisplaySegments(parts, config, sanitize) == [])
    ensures !HasAddressLine(parts) && config.defaultCountry != "" ==> FormatAddressParts(parts, config, sanitize) != ""
    ensures !HasAddressLine(parts) ==>
      IsPrefix(Join(DisplaySegments(parts, config, sanitize), " · "), FormatAddressParts(parts, config, sanitize))
    ensures !HasAddressLine(parts) && DisplaySegments(parts, config, sanitize) != [] && Extras(parts, sanitize) != [] ==>
      EndsWith(FormatAddressParts(parts, config, sanitize), " (" + Join(Extras(parts, sanitize), " | ") + ")")
    ensures !HasAddressLine(parts) && Extras(parts, sanitize) == [] ==>
      FormatAddressParts(parts, config, sanitize) == Join(DisplaySegments(parts, config, sanitize), " · ")
  {
    if !HasAddressLine(parts) {
      var segs := DisplaySegments(parts, config, sanitize);
      if segs != [] {
        JoinNonEmpty(segs, " · ");
      }
      if config.defaultCountry != "" {
        var country := OrElse(Sanitized(sanitize, parts.country), config.defaultCountry);
        assert country in segs;
      }
    }
  }

  // ---------------------------------------------------------------- Espírito Santo

  lemma EspiritoSantoTrimmed(name: string)
    requires name == "Espírito Santo" || name == "Espirito Santo"
    ensures Trim(name) == name
  {
    TrimOfTrimmed(name);
  }

  lemma AccentedEspiritoSantoStripped(name: string)
    requires name == "Espírito Santo"
    ensures StripDiacritics(name) == "Espirito Santo"
  {
    AccentedEspiritoSantoUnmarked(name);
    AccentedEspiritoSantoBase(name);
  }

  lemma AccentedEspiritoSantoUnmarked(name: string)
    requires name == "Espírito Santo"
    ensures DropSpacingDiacritics(name) == name
  {
    assert forall i :: 0 <= i < |name| ==> !SpacingDiacritic(name[i]);
  }

  lemma AccentedEspiritoSantoBase(name: string)
    requires name == "Espírito Santo"
    ensures BaseLetters(name) == "Espirito Santo"
  {
  }

  lemma PlainEspiritoSantoStripped(name: string)
    requires name == "Espirito Santo"
    ensures StripDiacritics(name) == name
  {
    assert forall i :: 0 <= i < |name| ==> name[i] < '\U{00C0}' && !SpacingDiacritic(name[i]);
    AsciiUnstripped(name);
  }

  lemma AsciiUnstripped(s: string)
    requires forall i :: 0 <= i < |s| ==> s[i] < '\U{00C0}' && !SpacingDiacritic(s[i])
    ensures StripDiacritics(s) == s
  {
    assert DropSpacingDiacritics(s) == s;
    AsciiBaseLetters(s);
  }

  lemma AsciiBaseLetters(s: string)
    requires forall i :: 0 <= i < |s| ==> s[i] < '\U{00C0}'
    ensures BaseLetters(s) == s
  {
    var r := BaseLetters(s);
    forall i | 0 <= i < |s|
      ensures r[i] == s[i]
    {
      var c := s[i];
      assert c < '\U{00C0}';
      assert StripDiacriticChar(c) == c;
    }
  }

  lemma EspiritoSantoLowered(name: string)
    requires name == "Espirito Santo"
    ensures Lower(name) == "espirito santo"
  {
  }

  lemma EspiritoSantoUnknown(key: string)
    requires key == "espirito santo"
    ensures SourceStateAlias(key).None?
  {
  }

  lemma EspiritoSantoKey(name: string)
    requires name == "Espírito Santo" || name == "Espirito Santo"
    ensures Trim(name) == name && StateKey(name) == "espirito santo"
  {
    EspiritoSantoTrimmed(name);
    if name == "Espírito Santo" {
      AccentedEspiritoSantoStripped(name);
    } else {
      PlainEspiritoSantoStripped(name);
    }
    EspiritoSantoLowered(StripDiacritics(name));
  }

  /**
   * With the source's table, the accented key "espírito santo" can never be
   * looked up, because the key is taken after the accents are removed, and
   * the table has no "espirito santo": the full name is passed through
   * instead of "ES".
   */
  lemma EspiritoSantoAsWritten(name: string)
    requires name == "Espírito Santo" || name == "Espirito Santo"
    ensures SourceStateAlias("espírito santo") == Some(ES)
    ensures NormalizeState(SourceStateAlias, Some(name)) == name
  {
    AccentedKeyListed("espírito santo");
    EspiritoSantoPassedThrough(name);
  }

  lemma AccentedKeyListed(key: string)
    requires key == "espírito santo"
    ensures SourceStateAlias(key) == Some(ES)
  {
  }

  lemma EspiritoSantoPassedThrough(name: string)
    requires name == "Espírito Santo" || name == "Espirito Santo"
    ensures NormalizeState(SourceStateAlias, Some(name)) == name
  {
    EspiritoSantoKey(name);
    EspiritoSantoUnknown(StateKey(name));
    UnknownPassedThrough(SourceStateAlias, name);
  }

  /** A trimmed name the table does not know is passed through. */
  lemma UnknownPassedThrough(alias: string -> Option<State>, name: string)
    requires name != "" && Trim(name) == name && alias(StateKey(name)).None?
    ensures NormalizeState(alias, Some(name)) == name
  {
  }

  /**
   * With the reachable table, Espírito Santo is recognised with or without
   * its accent, and every other input normalises as with the source's table.
   */
  lemma EspiritoSantoReachable(name: string, value: Option<string>)
    requires name == "Espírito Santo" || name == "Espirito Santo"
    ensures NormalizeState(ReachableStateAlias, Some(name)) == "ES"
    ensures NormalizeState(ReachableStateAlias, value) != NormalizeState(SourceStateAlias, value) ==>
      Truthy(value) && StateKey(Trim(value.value)) == "espirito santo"
  {
    ReachableRecognises(name);
    ReachableAgreesElsewhere(value);
  }

  lemma ReachableRecognises(name: string)
    requires name == "Espírito Santo" || name == "Espirito Santo"
    ensures NormalizeState(ReachableStateAlias, Some(name)) == "ES"
  {
    EspiritoSantoKey(name);
    ReachableByKey(name);
  }

  lemma ReachableByKey(name: string)
    requires Trim(name) == name && StateKey(name) == "espirito santo"
    ensures NormalizeState(ReachableStateAlias, Some(name)) == "ES"
  {
    assert name != "";
    KnownNormalised(ReachableStateAlias, name, ES);
  }

  /** A trimmed name the table knows is normalised to its state's code. */
  lemma KnownNormalised(alias: string -> Option<State>, name: string, st: State)
    requires name != "" && Trim(name) == name && alias(StateKey(name)) == Some(st)
    ensures NormalizeState(alias, Some(name)) == st.Code()
  {
  }

  lemma ReachableAgreesElsewhere(value: Option<string>)
    ensures NormalizeState(ReachableStateAlias, value) != NormalizeState(SourceStateAlias, value) ==>
      Truthy(value) && StateKey(Trim(value.value)) == "espirito santo"
  {
  }
}

=== FILE: json_text.dfy ===
/**
 * The JSON text of a list of ids, as the route table stores it:
 * `JSON.stringify` of an array of strings, and `JSON.parse` as far as it
 * yields an array of strings (section 7 of RFC 8259 for the string escapes).
 * Any other text, or JSON that is not an array of strings, is rejected.
 */
module JsonText {
  import opened Wrappers

  function HexDigitLower(d: nat): char
    requires d < 16
  {
    "0123456789abcdef"[d]
  }

  function HexValue(c: char): (r: Option<nat>)
    ensures r.Some? ==> r.value < 16
  {
    if '0' <= c <= '9' then Some(c as int - '0' as int)
    else if 'a' <= c <= 'f' then Some(c as int - 'a' as int + 10)
    else if 'A' <= c <= 'F' then Some(c as int - 'A' as int + 10)
    else None
  }

  lemma HexDigitRoundTrip(d: nat)
    requires d < 16
    ensures HexValue(HexDigitLower(d)) == Some(d)
  {
  }

  /** How `JSON.stringify` writes one character inside a string. */
  function EscapeChar(c: char): (r: string)
    ensures r != []
  {
    if c == '"' then "\\\""
    else if c == '\\' then "\\\\"
    else if c == '\U{0008}' then "\\b"
    else if c == '\U{000C}' then "\\f"
    else if c == '\n' then "\\n"
    else if c == '\r' then "\\r"
    else if c == '\t' then "\\t"
    else if (c as int) < 0x20 then "\\u00" + [HexDigitLower(c as int / 16), HexDigitLower(c as int % 16)]
    else [c]
  }

  function EscapeBody(s: string): string
  {
    if s == [] then "" else EscapeChar(s[0]) + EscapeBody(s[1..])
  }

  function Quote(s: string): string
  {
    "\"" + EscapeBody(s) + "\""
  }

  function Items(ids: seq<string>): string
  {
    if ids == [] then ""
    else if |ids| == 1 then Quote(ids[0])
    else Quote(ids[0]) + "," + Items(ids[1..])
  }

  /** `JSON.stringify(ids)` for an array of strings. */
  function Stringify(ids: seq<string>): (r: string)
    ensures r != [] && r[0] == '['
  {
    "[" + Items(ids) + "]"
  }

  // ---------------------------------------------------------------- parsing

  predicate IsJsonSpace(c: char)
  {
    c == ' ' || c == '\t' || c == '\n' || c == '\r'
  }

  function SkipSpace(s: string): (r: string)
    ensures |r| <= |s|
    ensures r != [] ==> !IsJsonSpace(r[0])
  {
    if s != [] && IsJsonSpace(s[0]) then SkipSpace(s[1..]) else s
  }

  /** The character an escape sequence after a backslash stands for, and the text after it. */
  function Unescape(s: string): (r: Option<(char, string)>)
    ensures r.Some? ==> |r.value.1| < |s|
  {
    if s == [] then None
    else if s[0] == '"' then Some(('"', s[1..]))
    else if s[0] == '\\' then Some(('\\', s[1..]))
    else if s[0] == '/' then Some(('/', s[1..]))
    else if s[0] == 'b' then Some(('\U{0008}', s[1..]))
    else if s[0] == 'f' then Some(('\U{000C}', s[1..]))
    else if s[0] == 'n' then Some(('\n', s[1..]))
    else if s[0] == 'r' then Some(('\r', s[1..]))
    else if s[0] == 't' then Some(('\t', s[1..]))
    else if s[0] == 'u' && |s| >= 5 && HexValue(s[1]).Some? && HexValue(s[2]).Some? && HexValue(s[3]).Some? && HexValue(s[4]).Some? then
      var code := ((HexValue(s[1]).value * 16 + HexValue(s[2]).value) * 16 + HexValue(s[3]).value) * 16 + HexValue(s[4]).value;
      if 0xD800 <= code < 0xE000 then None else Some((code as char, s[5..]))
    else None
  }

  /** The rest of a string after its opening quote: its characters and the text after the closing quote. */
  function ParseChars(s: string): (r: Option<(string, string)>)
    ensures r.Some? ==> |r.value.1| < |s|
    decreases |s|
  {
    if s == [] then None
    else if s[0] == '"' then Some(("", s[1..]))
    else if s[0] == '\\' then
      match Unescape(s[1..])
      case None => None
      case Some((c, rest)) =>
        match ParseChars(rest)
        case None => None
        case Some((body, after)) => Some(([c] + body, after))
    else if (s[0] as int) < 0x20 then None
    else
      match ParseChars(s[1..])
      case None => None
      case Some((body, after)) => Some(([s[0]] + body, after))
  }

  function ParseString(s: string): (r: Option<(string, string)>)
    ensures r.Some? ==> |r.value.1| < |s|
  {
    if s != [] && s[0] == '"' then ParseChars(s[1..]) else None
  }

  /** One or more strings separated by commas up to the closing bracket, and the text after it. */
  function ParseElements(s: string): (r: Option<(seq<string>, string)>)
    ensures r.Some? ==> |r.value.1| < |s|
    decreases |s|
  {
    match ParseString(s)
    case None => None
    case Some((x, rest)) =>
      var t := SkipSpace(rest);
      if t != [] && t[0] == ',' then
        match ParseElements(SkipSpace(t[1..]))
        case None => None
        case Some((xs, after)) => Some(([x] + xs, after))
      else if t != [] && t[0] == ']' then Some(([x], t[1..]))
      else None
  }

  /** `JSON.parse(text)` when it is an array of strings; absent for any other text. */
  function ParseArray(text: string): Option<seq<string>>
  {
    var s := SkipSpace(text);
    if s == [] || s[0] != '[' then None
    else
      var t := SkipSpace(s[1..]);
      if t != [] && t[0] == ']' then
        if SkipSpace(t[1..]) == [] then Some([]) else None
      else
        match ParseElements(t)
        case None => None
        case Some((xs, after)) => if SkipSpace(after) == [] then Some(xs) else None
  }

  // ---------------------------------------------------------------- round trip

  lemma UnescapeChar(c: char, rest: string)
    requires EscapeChar(c) != [c]
    ensures EscapeChar(c)[0] == '\\'
    ensures Unescape(EscapeChar(c)[1..] + rest) == Some((c, rest))
  {
    var e := EscapeChar(c);
    if (c as int) < 0x20 && c !in {'\U{0008}', '\U{000C}', '\n', '\r', '\t'} {
      var hi, lo := c as int / 16, c as int % 16;
      HexDigitRoundTrip(hi);
      HexDigitRoundTrip(lo);
      HexDigitRoundTrip(0);
      var s := e[1..] + rest;
      assert s[0] == 'u' && s[1] == '0' && s[2] == '0' && s[3] == HexDigitLower(hi) && s[4] == HexDigitLower(lo);
      assert s[5..] == rest;
    } else {
      assert e[1..] + rest == [e[1]] + rest;
    }
  }

  /** A character that needs no escape reads back as itself. */
  lemma ParsePlainChar(c: char, tail: string, body: string, rest: string)
    requires c != '"' && c != '\\' && (c as int) >= 0x20
    requires ParseChars(tail) == Some((body, rest))
    ensures ParseChars([c] + tail) == Some(([c] + body, rest))
  {
    assert ([c] + tail)[1..] == tail;
  }

  /** An escape sequence reads back as the character it stands for. */
  lemma ParseEscapedChar(c: char, tail: string, body: string, rest: string)
    requires EscapeChar(c) != [c]
    requires ParseChars(tail) == Some((body, rest))
    ensures ParseChars(EscapeChar(c) + tail) == Some(([c] + body, rest))
  {
    var e := EscapeChar(c);
    UnescapeChar(c, tail);
    assert (e + tail)[0] == '\\' && (e + tail)[1..] == e[1..] + tail;
  }

  /** Escaped characters followed by the closing quote read back as the characters. */
  lemma {:induction false} ParseEscapedBody(x: string, rest: string)
    ensures ParseChars(EscapeBody(x) + "\"" + rest) == Some((x, rest))
  {
    if x == [] {
      assert EscapeBody(x) + "\"" + rest == ['"'] + rest;
    } else {
      var e := EscapeChar(x[0]);
      var tail := EscapeBody(x[1..]) + "\"" + rest;
      ParseEscapedBody(x[1..], rest);
      assert EscapeBody(x) == e + EscapeBody(x[1..]);
      assert EscapeBody(x) + "\"" + rest == e + tail;
      if e == [x[0]] {
        assert x[0] != '"' && x[0] != '\\' && (x[0] as int) >= 0x20;
        ParsePlainChar(x[0], tail, x[1..], rest);
      } else {
        ParseEscapedChar(x[0], tail, x[1..], rest);
      }
      assert [x[0]] + x[1..] == x;
    }
  }

  lemma ParseQuoted(x: string, rest: string)
    ensures ParseString(Quote(x) + rest) == Some((x, rest))
  {
    ParseEscapedBody(x, rest);
    assert Quote(x) + rest == ['"'] + (EscapeBody(x) + "\"" + rest);
  }

  /** A last item followed by the closing bracket. */
  lemma ParseLastItem(x: string, rest: string)
    ensures ParseElements(Quote(x) + "]" + rest) == Some(([x], rest))
  {
    var t := "]" + rest;
    ParseQuoted(x, t);
    assert Quote(x) + "]" + rest == Quote(x) + t;
    assert SkipSpace(t) == t;
    assert t[1..] == rest;
  }

  /** An item followed by a comma and the next item. */
  lemma ParseNextItem(x: string, tail: string, xs: seq<string>, after: string)
    requires tail != [] && tail[0] == '"' && ParseElements(tail) == Some((xs, after))
    ensures ParseElements(Quote(x) + "," + tail) == Some(([x] + xs, after))
  {
    var t := "," + tail;
    ParseQuoted(x, t);
    ConcatAssoc(Quote(x), ",", tail);
    assert SkipSpace(t) == t by { assert !IsJsonSpace(t[0]); }
    assert t[1..] == tail;
    assert SkipSpace(tail) == tail by { assert !IsJsonSpace(tail[0]); }
  }

  lemma ConcatAssoc(a: string, b: string, c: string)
    ensures a + b + c == a + (b + c)
  {
  }

  lemma Regroup(item: string, items: string, rest: string)
    ensures item + "," + items + "]" + rest == item + "," + (items + "]" + rest)
  {
  }

  /** The items of a non-empty list, then the closing bracket, read back as the list. */
  lemma {:induction false} ParseItems(ids: seq<string>, rest: string)
    requires ids != []
    ensures ParseElements(Items(ids) + "]" + rest) == Some((ids, rest))
  {
    if |ids| == 1 {
      ParseLastItem(ids[0], rest);
      assert [ids[0]] == ids;
    } else {
      var tail := Items(ids[1..]) + "]" + rest;
      ParseItems(ids[1..], rest);
      assert Items(ids[1..])[0] == '"' by {
        assert Quote(ids[1])[0] == '"';
      }
      ParseNextItem(ids[0], tail, ids[1..], rest);
      assert Items(ids) == Quote(ids[0]) + "," + Items(ids[1..]);
      Regroup(Quote(ids[0]), Items(ids[1..]), rest);
      assert [ids[0]] + ids[1..] == ids;
    }
  }

  /** `JSON.parse(JSON.stringify(ids))` gives back the ids. */
  lemma ParseStringify(ids: seq<string>)
    ensures ParseArray(Stringify(ids)) == Some(ids)
  {
    var s := Stringify(ids);
    assert SkipSpace(s) == s;
    assert s[1..] == Items(ids) + "]";
    if ids == [] {
      assert s[1..] == "]";
    } else {
      assert Items(ids)[0] == '"' by { assert Quote(ids[0])[0] == '"'; }
      assert SkipSpace(s[1..]) == s[1..];
      ParseItems(ids, "");
      assert Items(ids) + "]" + "" == s[1..];
    }
  }

  /** Text that does not start with an array, such as empty or non-JSON text, is rejected. */
  lemma ParseArrayRejectsNonArray(text: string)
    requires SkipSpace(text) == [] || SkipSpace(text)[0] != '['
    ensures ParseArray(text).None?
  {
  }
}

=== FILE: kotlin_text.dfy ===
/**
 * The Kotlin string operations the scanner app relies on: `trim`, `trimStart`
 * with a set of characters, `isBlank`, `endsWith` and `filter(Char::isDigit)`.
 *
 * Kotlin's `Char.isWhitespace` is Java's `Character.isWhitespace` together with
 * `Character.isSpaceChar`: the ASCII controls TAB to CR, the information
 * separators U+001C to U+001F and the Unicode space, line and paragraph
 * separators (no U+FEFF, unlike JavaScript).
 */
module KotlinText {

  predicate IsWhitespace(c: char)
  {
    ('\t' <= c <= '\r') || ('\U{001C}' <= c <= ' ')
    || c == '\U{00A0}' || c == '\U{1680}' || ('\U{2000}' <= c <= '\U{200A}')
    || c == '\U{2028}' || c == '\U{2029}' || c == '\U{202F}' || c == '\U{205F}'
    || c == '\U{3000}'
  }

  /** `isBlank()`: empty or nothing but whitespace. */
  predicate IsBlank(s: string)
  {
    forall i :: 0 <= i < |s| ==> IsWhitespace(s[i])
  }

  /** `r` occurs in `s` at position `k`. */
  predicate SliceAt(s: string, k: int, r: string)
  {
    0 <= k <= |s| - |r| && s[k..k + |r|] == r
  }

  lemma SliceOfSuffix(s: string, x: nat, b: nat, r: string)
    requires x <= |s| && SliceAt(s[x..], b, r)
    ensures SliceAt(s, x + b, r)
  {
    assert s[x..][b..b + |r|] == s[x + b..x + b + |r|];
  }

  lemma SuffixOfSuffix(s: string, x: nat, y: nat)
    requires x + y <= |s|
    ensures s[x..][y..] == s[x + y..]
  {
  }

  /** The first position at or after `i` whose character does not satisfy `p`. */
  function SkipWhile(s: string, i: nat, p: char -> bool): (j: nat)
    requires i <= |s|
    ensures i <= j <= |s|
    ensures forall k :: i <= k < j ==> p(s[k])
    ensures j < |s| ==> !p(s[j])
    decreases |s| - i
  {
    if i < |s| && p(s[i]) then SkipWhile(s, i + 1, p) else i
  }

  /** The start of the run of characters satisfying `p` that ends at `j`. */
  function SkipBackWhile(s: string, j: nat, p: char -> bool): (i: nat)
    requires j <= |s|
    ensures i <= j
    ensures forall k :: i <= k < j ==> p(s[k])
    ensures i > 0 ==> !p(s[i - 1])
  {
    if j > 0 && p(s[j - 1]) then SkipBackWhile(s, j - 1, p) else j
  }

  /** `trimStart(predicate)`: drops the longest prefix whose characters satisfy `p`. */
  function TrimStartWhile(s: string, p: char -> bool): string
  {
    s[SkipWhile(s, 0, p)..]
  }

  /** `trimEnd(predicate)`: drops the longest suffix whose characters satisfy `p`. */
  function TrimEndWhile(s: string, p: char -> bool): string
  {
    s[..SkipBackWhile(s, |s|, p)]
  }

  /** `trim()`: the longest slice of `s` with no whitespace at either end. */
  function Trim(s: string): (r: string)
    ensures |r| <= |s|
    ensures r == [] <==> IsBlank(s)
    ensures r != [] ==> !IsWhitespace(r[0]) && !IsWhitespace(r[|r| - 1])
  {
    var t := TrimStartWhile(s, IsWhitespace);
    var r := TrimEndWhile(t, IsWhitespace);
    assert r == [] ==> t == [];
    r
  }

  /** The trimmed string is the slice of `s` after its leading whitespace. */
  lemma TrimSlice(s: string) returns (k: nat)
    ensures SliceAt(s, k, Trim(s))
    ensures k > 0 ==> IsWhitespace(s[0])
  {
    var t := TrimStartWhile(s, IsWhitespace);
    var r := TrimEndWhile(t, IsWhitespace);
    k := |s| - |t|;
    assert r == s[k..][..|r|];
  }

  lemma {:induction false} SkipWhileShift(s: string, start: nat, i: nat, p: char -> bool)
    requires start + i <= |s|
    ensures start + SkipWhile(s[start..], i, p) == SkipWhile(s, start + i, p)
    decreases |s| - start - i
  {
    if start + i < |s| {
      assert s[start..][i] == s[start + i];
      if p(s[start + i]) {
        SkipWhileShift(s, start, i + 1, p);
      }
    }
  }

  /** `trimStart` on the part of `s` from `start` on is the slice after the skipped run. */
  lemma TrimStartFrom(s: string, start: nat, p: char -> bool)
    requires start <= |s|
    ensures TrimStartWhile(s[start..], p) == s[SkipWhile(s, start, p)..]
  {
    var k := SkipWhile(s[start..], 0, p);
    SkipWhileShift(s, start, 0, p);
    SuffixOfSuffix(s, start, k);
    assert TrimStartWhile(s[start..], p) == s[start..][k..];
  }

  /**
   * Skipping the characters `p` accepts from `start` on and trimming the rest
   * leaves a slice of `raw` at some `j` from `start` on; it can only begin with
   * such a character when whitespace that `p` rejects stands between `start`
   * and `j`.
   */
  lemma {:induction false} ValueAfter(raw: string, start: nat, p: char -> bool)
    requires start <= |raw|
    requires Trim(raw[SkipWhile(raw, start, p)..]) != []
    ensures var v := Trim(raw[SkipWhile(raw, start, p)..]);
      exists j :: start <= j && SliceAt(raw, j, v)
        && (p(v[0]) ==> exists t :: start <= t < j && IsWhitespace(raw[t]) && !p(raw[t]))
  {
    var a := SkipWhile(raw, start, p);
    var v := Trim(raw[a..]);
    var b := TrimSlice(raw[a..]);
    SliceOfSuffix(raw, a, b, v);
    assert v[0] == raw[a + b];
    if p(v[0]) {
      assert b > 0;
      assert raw[a] == raw[a..][0];
    }
  }

  lemma TrimFixed(s: string)
    requires s != [] ==> !IsWhitespace(s[0]) && !IsWhitespace(s[|s| - 1])
    ensures Trim(s) == s
  {
    assert TrimStartWhile(s, IsWhitespace) == s;
    assert TrimEndWhile(s, IsWhitespace) == s;
  }

  predicate EndsWith(s: string, suffix: string)
  {
    |suffix| <= |s| && s[|s| - |suffix|..] == suffix
  }

  /** `Char.isDigit`, on the ASCII digits. */
  predicate IsDigit(c: char)
  {
    '0' <= c <= '9'
  }

  predicate AllDigits(s: string)
  {
    forall i :: 0 <= i < |s| ==> IsDigit(s[i])
  }

  /** `filter(Char::isDigit)`: the digits of `s`, in order. */
  function Digits(s: string): (r: string)
    ensures |r| <= |s|
    ensures AllDigits(r)
    ensures AllDigits(s) ==> r == s
    ensures r == [] <==> forall i :: 0 <= i < |s| ==> !IsDigit(s[i])
  {
    if s == [] then []
    else if IsDigit(s[0]) then [s[0]] + Digits(s[1..])
    else
      Digits(s[1..])
  }
}

=== FILE: login_view_model.dfy ===
/**
 * The scanner app's login screen state. `login` validates the form, shows the
 * spinner and sends the credentials; when the request completes, the returned
 * token is stored in the preferences and the state is replaced by a success or
 * an error. The request runs in a coroutine, so the model splits `login` into
 * the part that runs at once (`Login`) and the completion callbacks
 * (`LoginCompleted`), with the server's answer as a parameter.
 */
module LoginViewModel {
  import opened Wrappers
  import opened KotlinText
  import ApiPreferences

  datatype LoginUiState = LoginUiState(loading: bool, error: Option<string>, success: bool)

  /** The credentials handed to the authentication request. */
  datatype LoginRequest = LoginRequest(email: string, password: string)

  /** How the request ended: a token, or a failure with its optional message. */
  datatype LoginOutcome = Authenticated(token: string) | Failed(message: Option<string>)

  const Initial := LoginUiState(false, None, false)
  const MissingCredentials := "Informe e-mail e senha."
  const LoginFailed := "Falha ao entrar."

  /** While the spinner shows, neither an error nor a success is shown. */
  predicate Consistent(s: LoginUiState)
  {
    s.loading ==> s.error.None? && !s.success
  }

  class LoginViewModel {
    var uiState: LoginUiState

    constructor ()
      ensures uiState == Initial && Consistent(uiState)
    {
      uiState := Initial;
    }

    /**
     * Blank credentials set the error and send nothing; otherwise the spinner
     * starts and the trimmed email goes out with the password as typed.
     */
    method Login(email: string, password: string) returns (request: Option<LoginRequest>)
      modifies this
      ensures IsBlank(email) || IsBlank(password) ==>
        request.None? && uiState == LoginUiState(false, Some(MissingCredentials), false)
      ensures !IsBlank(email) && !IsBlank(password) ==>
        request == Some(LoginRequest(Trim(email), password))
        && uiState == LoginUiState(true, None, false)
      ensures Consistent(uiState)
    {
      if IsBlank(email) || IsBlank(password) {
        uiState := LoginUiState(false, Some(MissingCredentials), false);
        return None;
      }
      uiState := uiState.(loading := true, error := None, success := false);
      request := Some(LoginRequest(Trim(email), password));
    }

    /**
     * The completion of the request: a token is stored in the preferences and
     * the state becomes a bare success; a failure replaces the state with its
     * message, or the generic one when it has none.
     */
    method LoginCompleted(outcome: LoginOutcome, preferences: ApiPreferences.ApiPreferences)
      modifies this, preferences
      ensures outcome.Authenticated? ==>
        preferences.stored == old(preferences.stored)[ApiPreferences.KeyToken := outcome.token]
        && uiState == LoginUiState(false, None, true)
        && preferences.GetConfig().token == if IsBlank(outcome.token) then preferences.defaultToken else outcome.token
      ensures outcome.Failed? ==>
        preferences.stored == old(preferences.stored)
        && uiState == LoginUiState(false, Some(outcome.message.GetOr(LoginFailed)), false)
      ensures Consistent(uiState)
    {
      match outcome
      case Authenticated(token) =>
        preferences.UpdateToken(token);
        uiState := LoginUiState(false, None, true);
      case Failed(message) =>
        uiState := LoginUiState(false, Some(message.GetOr(LoginFailed)), false);
    }

    method ConsumeSuccess()
      modifies this
      ensures uiState == old(uiState).(success := false)
      ensures old(Consistent(uiState)) ==> Consistent(uiState)
    {
      uiState := uiState.(success := false);
    }

    method ClearError()
      modifies this
      ensures uiState == old(uiState).(error := None)
      ensures old(Consistent(uiState)) ==> Consistent(uiState)
    {
      uiState := uiState.(error := None);
    }
  }
}

=== FILE: numbers.dfy ===
/**
 * JavaScript numbers where the source relies on their non-finite values
 * (`Number(...)` of a request field, `Number.isNaN`, `Number.isFinite`), and the
 * rounding functions of `Math`.
 */
module JsNumbers {

  datatype Num = NaN | PosInf | NegInf | Finite(value: real)

  /** `x <= bound` for a real bound: false for NaN, as every comparison with NaN is. */
  predicate AtMost(x: Num, bound: real)
  {
    match x
    case NaN => false
    case PosInf => false
    case NegInf => true
    case Finite(v) => v <= bound
  }

  /** `count > limit` for an integer count. */
  predicate Exceeds(count: int, limit: Num)
  {
    match limit
    case NaN => false
    case PosInf => false
    case NegInf => true
    case Finite(v) => count as real > v
  }

  /** `Math.floor`. */
  function Floor(x: real): (r: int)
    ensures r as real <= x < r as real + 1.0
  {
    x.Floor
  }

  /** `Math.round`: halves round up, towards positive infinity. */
  function Round(x: real): (r: int)
    ensures x - 0.5 < r as real <= x + 0.5
  {
    (x + 0.5).Floor
  }

  /** `Math.min(Math.max(v, lo), hi)`. */
  function Clamp(v: int, lo: int, hi: int): (r: int)
    requires lo <= hi
    ensures lo <= r <= hi
    ensures lo <= v <= hi ==> r == v
  {
    if v < lo then lo else if v > hi then hi else v
  }
}

=== FILE: operation_sessions.dfy ===
/**
 * Working days (`src/operationSessionService.ts`): an operator opens a
 * session, the dashboards show orders from its start, and closes it at the end
 * of the day. At most one session is open at a time.
 */
module OperationSessions {
  import opened Wrappers
  import opened Seqs
  import opened Sorting
  import opened DispatchModel

  datatype OperationSession = OperationSession(
    id: Id,
    startedAt: Millis,
    visibleFrom: Millis,
    visibleFromSequence: int,
    closedAt: Option<Millis>)

  datatype SessionError = SessionAlreadyOpen | NoOpenSession
  {
    function Message(): string
    {
      match this
      case SessionAlreadyOpen => "Já existe um dia de trabalho em andamento."
      case NoOpenSession => "Nenhum dia de trabalho em aberto."
    }
  }

  predicate IsOpen(s: OperationSession)
  {
    s.closedAt.None?
  }

  /** The `current` session: the first one in the prefix of length `n` that is still open. */
  function CurrentSession(sessions: seq<OperationSession>, n: nat): (r: Option<nat>)
    requires n <= |sessions|
    ensures r.Some? ==> r.value < n && IsOpen(sessions[r.value])
    ensures r.Some? ==> forall k :: 0 <= k < r.value ==> !IsOpen(sessions[k])
    ensures r.None? <==> forall k :: 0 <= k < n ==> !IsOpen(sessions[k])
  {
    if n == 0 then None
    else match CurrentSession(sessions, n - 1)
      case Some(i) => Some(i)
      case None => if IsOpen(sessions[n - 1]) then Some(n - 1) else None
  }

  function Current(sessions: seq<OperationSession>): Option<nat>
  {
    CurrentSession(sessions, |sessions|)
  }

  /** Newest first, as the comparator `b - a` over the start times orders them. */
  function StartKey(s: OperationSession): real
  {
    -(s.startedAt as real)
  }

  /** The `history`: every closed session, newest start first. */
  function History(sessions: seq<OperationSession>): seq<OperationSession>
  {
    SortBy(Filter(sessions, (s: OperationSession) => !IsOpen(s)), StartKey)
  }

  /** The history holds exactly the closed sessions, each as often as stored, from the newest start to the oldest. */
  lemma HistorySpec(sessions: seq<OperationSession>)
    ensures var h := History(sessions);
      && (forall s :: s in h <==> s in sessions && !IsOpen(s))
      && (forall a, b :: 0 <= a < b < |h| ==> h[a].startedAt >= h[b].startedAt)
  {
    var h := History(sessions);
    SortByMembers(Filter(sessions, (s: OperationSession) => !IsOpen(s)), StartKey);
    forall a, b | 0 <= a < b < |h| ensures h[a].startedAt >= h[b].startedAt {
      assert StartKey(h[a]) <= StartKey(h[b]);
    }
  }

  /** `orders.reduce((max, o) => Math.max(max, o.sequence ?? 0), 0)` over the prefix of length `n`. */
  function LatestSequence(orders: seq<Order>, n: nat): (m: int)
    requires n <= |orders|
    ensures m >= 0
    ensures forall k :: 0 <= k < n ==> orders[k].sequence.GetOr(0) <= m
    ensures m == 0 || exists k :: 0 <= k < n && orders[k].sequence == Some(m)
  {
    if n == 0 then 0
    else
      var m := LatestSequence(orders, n - 1);
      var s := orders[n - 1].sequence.GetOr(0);
      if s > m then s else m
  }

  predicate AtMostOneOpen(sessions: seq<OperationSession>)
  {
    forall i, j :: 0 <= i < |sessions| && 0 <= j < |sessions| && IsOpen(sessions[i]) && IsOpen(sessions[j]) ==> i == j
  }

  /** The shared session list. */
  class SessionLog {
    var sessions: seq<OperationSession>

    constructor ()
      ensures sessions == []
    {
      sessions := [];
    }

    /**
     * `startOperationSession`: refused while a session is open; otherwise a
     * session starting now, showing orders from now and from the highest
     * order sequence, is appended.
     */
    method StartOperationSession(orders: seq<Order>, id: Id, now: Millis) returns (r: Result<OperationSession, SessionError>)
      modifies this
      ensures Current(old(sessions)).Some? ==> r == Failure(SessionAlreadyOpen) && sessions == old(sessions)
      ensures Current(old(sessions)).None? ==>
        && r == Success(OperationSession(id, now, now, LatestSequence(orders, |orders|), None))
        && sessions == old(sessions) + [r.value]
      ensures AtMostOneOpen(old(sessions)) ==> AtMostOneOpen(sessions)
      ensures r.Success? ==> Current(sessions) == Some(|sessions| - 1)
    {
      if Current(sessions).Some? {
        return Failure(SessionAlreadyOpen);
      }
      var session := OperationSession(id, now, now, LatestSequence(orders, |orders|), None);
      sessions := sessions + [session];
      assert forall k :: 0 <= k < |sessions| - 1 ==> sessions[k] == old(sessions)[k];
      r := Success(session);
    }

    /** `closeOperationSession`: refused when no session is open; otherwise the current one gets its closing time. */
    method CloseOperationSession(now: Millis) returns (r: Result<OperationSession, SessionError>)
      modifies this
      ensures Current(old(sessions)).None? ==> r == Failure(NoOpenSession) && sessions == old(sessions)
      ensures Current(old(sessions)).Some? ==>
        var i := Current(old(sessions)).value;
        r == Success(old(sessions)[i].(closedAt := Some(now))) && sessions == old(sessions)[i := r.value]
      ensures AtMostOneOpen(old(sessions)) ==> AtMostOneOpen(sessions) && Current(sessions).None?
    {
      var current := Current(sessions);
      if current.None? {
        return Failure(NoOpenSession);
      }
      var closed := sessions[current.value].(closedAt := Some(now));
      sessions := sessions[current.value := closed];
      r := Success(closed);
    }
  }

  /** With at most one open session, it is the current one and the only one not in the history. */
  lemma OnlyOpenIsCurrent(sessions: seq<OperationSession>, i: nat)
    requires AtMostOneOpen(sessions) && i < |sessions| && IsOpen(sessions[i])
    ensures Current(sessions) == Some(i)
  {
  }
}

=== FILE: operational_alerts.dfy ===
/**
 * The dashboard's operational alerts
 * (`delivery-web/src/components/Dashboard/operationalAlerts.ts`): a list of
 * warnings built from the orders and couriers the dashboard last fetched.
 * The current time is the parameter `now`, and reading an ISO date is
 * `parseDate`, absent for text that is not a date.
 */
module OperationalAlerts {
  import opened Wrappers
  import opened Text
  import opened JsNumbers
  import opened Seqs
  import opened Sorting
  import opened DispatchModel

  const MinBatchTarget: int := 2
  const MaxWaitMinutes: int := 25

  datatype AlertLevel = Info | Warning | Danger
  datatype AlertCategory = OrdersAlert | RoutesAlert | CouriersAlert

  /** The alerts there are, in the order the dashboard lists them. */
  datatype AlertId = NoPending | PendingCount | SlaRisk | NoCouriers | WaitingBatch | QueuedOrders | CouriersPendingStart
  {
    function Name(): string
    {
      match this
      case NoPending => "no-pending"
      case PendingCount => "pending-count"
      case SlaRisk => "sla-risk"
      case NoCouriers => "no-couriers"
      case WaitingBatch => "waiting-batch"
      case QueuedOrders => "queued-orders"
      case CouriersPendingStart => "couriers-pending-start"
    }

    function Rank(): nat
    {
      match this
      case NoPending => 0
      case PendingCount => 1
      case SlaRisk => 2
      case NoCouriers => 3
      case WaitingBatch => 4
      case QueuedOrders => 5
      case CouriersPendingStart => 6
    }
  }

  /** What an alert reports, with the figures its texts show. */
  datatype AlertKind =
    | NoPendingAlert(queuedCount: nat, available: nat)
    | PendingCountAlert(pendingCount: nat, oldestWait: int)
    | SlaRiskAlert(overdueCount: nat, firstOverdueWait: int)
    | NoCouriersAlert
    | WaitingBatchAlert(remaining: int)
    | QueuedOrdersAlert(queuedCount: nat, routes: nat)
    | CouriersPendingStartAlert(couriers: nat)
  {
    function Id(): AlertId
    {
      match this
      case NoPendingAlert(_, _) => NoPending
      case PendingCountAlert(_, _) => PendingCount
      case SlaRiskAlert(_, _) => SlaRisk
      case NoCouriersAlert => NoCouriers
      case WaitingBatchAlert(_) => WaitingBatch
      case QueuedOrdersAlert(_, _) => QueuedOrders
      case CouriersPendingStartAlert(_) => CouriersPendingStart
    }

    function Title(): string
    {
      match this
      case NoPendingAlert(_, _) => "Nenhum pedido aguardando roteamento"
      case PendingCountAlert(n, _) => IntToString(n) + " pedidos aguardando roteamento"
      case SlaRiskAlert(n, _) => IntToString(n) + " pedidos prestes a estourar SLA"
      case NoCouriersAlert => "Nenhum motoboy disponível"
      case WaitingBatchAlert(_) => "Aguardando completar o lote mínimo"
      case QueuedOrdersAlert(n, _) => IntToString(n) + " pedidos aguardando motoboy"
      case CouriersPendingStartAlert(n) => IntToString(n) + " motoboy" + Plural(n) + " aguardando iniciar rota"
    }

    function Description(): string
    {
      match this
      case NoPendingAlert(queued, available) =>
        if queued > 0 then "Todos os pedidos já estão agrupados aguardando atribuição."
        else if available > 0 then "Temos motoboys livres para novos pedidos."
        else "Assim que novos pedidos chegarem eles aparecem aqui."
      case PendingCountAlert(_, oldest) =>
        "Pedido mais antigo há " + IntToString(oldest) + " min. Lote ideal: " + IntToString(MinBatchTarget) + " pedidos."
      case SlaRiskAlert(_, wait) =>
        "Aguarda há " + IntToString(wait) + "+ min (limite " + IntToString(MaxWaitMinutes) + " min)."
      case NoCouriersAlert => "Libere alguém para evitar fila de pedidos."
      case WaitingBatchAlert(remaining) =>
        "Precisamos de " + IntToString(MinBatchTarget) + " pedidos para roteamento automático. Restam " + IntToString(remaining) + "."
      case QueuedOrdersAlert(_, routes) =>
        if routes > 0 then IntToString(routes) + " rota" + Plural(routes) + " pronta(s) para atribuir."
        else "Existe ao menos um lote aguardando decisão."
      case CouriersPendingStartAlert(_) => "Confirme com eles ou inicie automaticamente pelo painel."
    }
  }

  /** An alert: `id`, `title` and `description` come from its kind. */
  datatype Alert = Alert(kind: AlertKind, level: AlertLevel, category: AlertCategory)

  /** An order as the dashboard receives it, with its creation date as text. */
  datatype DashboardOrder = DashboardOrder(id: Id, status: OrderStatus, createdAt: string, routeId: Option<Id>)

  /** `minutesSince`: the whole minutes elapsed, rounded; 0 for an unreadable date or one in the future. */
  function MinutesSince(createdAt: Option<Millis>, now: Millis): (m: int)
    ensures m >= 0
    ensures createdAt.None? ==> m == 0
    ensures createdAt.Some? ==>
      var elapsed := (now - createdAt.value) as real / 60000.0;
      (elapsed - 0.5 < m as real <= elapsed + 0.5) || (m == 0 && elapsed < 0.5)
  {
    if createdAt.None? then 0
    else
      var rounded := Round((now - createdAt.value) as real / 60000.0);
      if rounded < 0 then 0 else rounded
  }

  function WaitOf(o: DashboardOrder, now: Millis, parseDate: string -> Option<Millis>): int
  {
    MinutesSince(parseDate(o.createdAt), now)
  }

  predicate IsPendingOrder(o: DashboardOrder) { o.status == Pending }
  predicate IsQueuedOrder(o: DashboardOrder) { o.status == Queued }
  predicate IsAvailableCourier(c: Courier) { c.status == Available }
  predicate IsAssignedCourier(c: Courier) { c.status == CourierStatus.Assigned }
  predicate Overdue(wait: int) { wait >= MaxWaitMinutes }

  function WaitKey(wait: int): real { wait as real }

  function Waits(orders: seq<DashboardOrder>, now: Millis, parseDate: string -> Option<Millis>): (w: seq<int>)
    ensures |w| == |orders|
    ensures forall i :: 0 <= i < |orders| ==> w[i] == WaitOf(orders[i], now, parseDate)
  {
    seq(|orders|, i requires 0 <= i < |orders| => WaitOf(orders[i], now, parseDate))
  }

  /** The waits of the pending orders, shortest first. */
  function PendingWaits(orders: seq<DashboardOrder>, now: Millis, parseDate: string -> Option<Millis>): seq<int>
  {
    SortBy(Waits(Filter(orders, IsPendingOrder), now, parseDate), WaitKey)
  }

  /** `s` or `''` after a count, as the titles pluralise. */
  function Plural(n: int): string
  {
    if n > 1 then "s" else ""
  }

  /** The alerts about pending orders; `waits` is sorted, so its last element is the oldest order's wait. */
  function OrdersAlerts(waits: seq<int>, queuedCount: nat, available: nat): (r: seq<Alert>)
  {
    if |waits| == 0 then
      [Alert(NoPendingAlert(queuedCount, available), Info, OrdersAlert)]
    else
      var overdue := Filter(waits, Overdue);
      [Alert(PendingCountAlert(|waits|, waits[|waits| - 1]), if |overdue| > 0 then Danger else Warning, OrdersAlert)]
      + (if |overdue| > 0 then [Alert(SlaRiskAlert(|overdue|, overdue[0]), Danger, OrdersAlert)] else [])
      + (if available == 0 then [Alert(NoCouriersAlert, Warning, CouriersAlert)]
        else if |waits| < MinBatchTarget then
          [Alert(WaitingBatchAlert(if MinBatchTarget - |waits| > 0 then MinBatchTarget - |waits| else 0), Info, OrdersAlert)]
        else [])
  }

  /** The distinct non-empty route ids of the queued orders. */
  function RouteIdsOf(queued: seq<DashboardOrder>): set<Id>
  {
    set i | 0 <= i < |queued| && Truthy(queued[i].routeId) :: queued[i].routeId.value
  }

  /**
   * The alert about queued orders. The source sorts them by wait first, which
   * changes neither their count nor their route ids, the only things used.
   */
  function QueuedAlerts(queued: seq<DashboardOrder>, available: nat): (r: seq<Alert>)
  {
    if |queued| == 0 then []
    else [Alert(QueuedOrdersAlert(|queued|, |RouteIdsOf(queued)|), if available > 0 then Warning else Danger, RoutesAlert)]
  }

  function StartAlerts(withRoute: nat): (r: seq<Alert>)
  {
    if withRoute == 0 then [] else [Alert(CouriersPendingStartAlert(withRoute), Warning, CouriersAlert)]
  }

  /** `buildOperationalAlerts`. */
  function BuildOperationalAlerts(orders: seq<DashboardOrder>, couriers: seq<Courier>, now: Millis, parseDate: string -> Option<Millis>): seq<Alert>
  {
    var waits := PendingWaits(orders, now, parseDate);
    var queued := Filter(orders, IsQueuedOrder);
    var available := |Filter(couriers, IsAvailableCourier)|;
    var withRoute := |Filter(couriers, IsAssignedCourier)|;
    OrdersAlerts(waits, |queued|, available) + QueuedAlerts(queued, available) + StartAlerts(withRoute)
  }

  // ---------------------------------------------------------------- properties

  function IdsOf(alerts: seq<Alert>): (ids: seq<AlertId>)
    ensures |ids| == |alerts|
    ensures forall i :: 0 <= i < |alerts| ==> ids[i] == alerts[i].kind.Id()
  {
    seq(|alerts|, i requires 0 <= i < |alerts| => alerts[i].kind.Id())
  }

  lemma IdsOfAppend(a: seq<Alert>, b: seq<Alert>)
    ensures IdsOf(a + b) == IdsOf(a) + IdsOf(b)
  {
  }

  /** The ids strictly increase in rank: the fixed listing order, and no id twice. */
  predicate InListingOrder(alerts: seq<Alert>)
  {
    forall i, j :: 0 <= i < j < |alerts| ==> alerts[i].kind.Id().Rank() < alerts[j].kind.Id().Rank()
  }

  predicate RanksWithin(alerts: seq<Alert>, lo: nat, hi: nat)
  {
    forall i :: 0 <= i < |alerts| ==> lo <= alerts[i].kind.Id().Rank() <= hi
  }

  lemma InListingOrderAppend(a: seq<Alert>, b: seq<Alert>, mid: nat)
    requires InListingOrder(a) && InListingOrder(b)
    requires RanksWithin(a, 0, mid) && RanksWithin(b, mid + 1, 6)
    ensures InListingOrder(a + b)
    ensures RanksWithin(a + b, 0, 6)
  {
    forall i, j | 0 <= i < j < |a + b| ensures (a + b)[i].kind.Id().Rank() < (a + b)[j].kind.Id().Rank() {
      if j < |a| {
        assert (a + b)[i] == a[i] && (a + b)[j] == a[j];
      } else if i >= |a| {
        assert (a + b)[i] == b[i - |a|] && (a + b)[j] == b[j - |a|];
      } else {
        assert (a + b)[i] == a[i] && (a + b)[j] == b[j - |a|];
      }
    }
  }

  lemma OrdersAlertsShape(waits: seq<int>, queuedCount: nat, available: nat)
    ensures InListingOrder(OrdersAlerts(waits, queuedCount, available))
    ensures RanksWithin(OrdersAlerts(waits, queuedCount, available), 0, 4)
  {
  }

  /** Different alert ids have different names. */
  lemma NamesDistinct(a: AlertId, b: AlertId)
    requires a != b
    ensures a.Name() != b.Name()
  {
    assert a.Name()[0] != b.Name()[0] || a.Name()[1] != b.Name()[1] || |a.Name()| != |b.Name()|;
  }

  lemma PartsInListingOrder(waits: seq<int>, queued: seq<DashboardOrder>, available: nat, started: nat)
    ensures InListingOrder(OrdersAlerts(waits, |queued|, available) + QueuedAlerts(queued, available) + StartAlerts(started))
  {
    var a := OrdersAlerts(waits, |queued|, available);
    var b := QueuedAlerts(queued, available);
    OrdersAlertsShape(waits, |queued|, available);
    InListingOrderAppend(a, b, 4);
    InListingOrderAppend(a + b, StartAlerts(started), 5);
  }

  /** Alerts come orders first, then queued routes, then couriers to start, and no alert appears twice. */
  lemma AlertsInListingOrder(orders: seq<DashboardOrder>, couriers: seq<Courier>, now: Millis, parseDate: string -> Option<Millis>)
    ensures InListingOrder(BuildOperationalAlerts(orders, couriers, now, parseDate))
    ensures var ids := IdsOf(BuildOperationalAlerts(orders, couriers, now, parseDate));
      forall i, j :: 0 <= i < j < |ids| ==> ids[i] != ids[j] && ids[i].Name() != ids[j].Name()
  {
    var alerts := BuildOperationalAlerts(orders, couriers, now, parseDate);
    var queued := Filter(orders, IsQueuedOrder);
    var available := |Filter(couriers, IsAvailableCourier)|;
    PartsInListingOrder(PendingWaits(orders, now, parseDate), queued, available, |Filter(couriers, IsAssignedCourier)|);
    assert InListingOrder(alerts);
    var ids := IdsOf(alerts);
    forall i, j | 0 <= i < j < |ids| ensures ids[i] != ids[j] && ids[i].Name() != ids[j].Name() {
      assert alerts[i].kind.Id().Rank() < alerts[j].kind.Id().Rank();
      NamesDistinct(ids[i], ids[j]);
    }
  }

  /** Some pending order has waited the limit exactly when the sorted waits have an overdue one. */
  lemma OverdueAmongPending(orders: seq<DashboardOrder>, now: Millis, parseDate: string -> Option<Millis>)
    ensures |Filter(PendingWaits(orders, now, parseDate), Overdue)| > 0 <==> LatePending(orders, now, parseDate)
  {
    var pending := Filter(orders, IsPendingOrder);
    var w := Waits(pending, now, parseDate);
    var sorted := PendingWaits(orders, now, parseDate);
    SortByMembers(w, WaitKey);
    var overdue := Filter(sorted, Overdue);
    if |overdue| > 0 {
      assert overdue[0] in overdue;
      var k :| 0 <= k < |w| && w[k] == overdue[0];
      assert pending[k] in pending;
    }
    if o :| o in orders && o.status == Pending && WaitOf(o, now, parseDate) >= MaxWaitMinutes {
      assert o in pending;
      var k :| 0 <= k < |pending| && pending[k] == o;
      assert w[k] in sorted;
      assert w[k] in overdue;
    }
  }

  /** Some pending order has waited the limit. */
  predicate LatePending(orders: seq<DashboardOrder>, now: Millis, parseDate: string -> Option<Millis>)
  {
    exists o :: o in orders && o.status == Pending && WaitOf(o, now, parseDate) >= MaxWaitMinutes
  }

  predicate SomeQueued(orders: seq<DashboardOrder>)
  {
    exists o :: o in orders && o.status == Queued
  }

  predicate SomeAvailable(couriers: seq<Courier>)
  {
    exists c :: c in couriers && c.status == Available
  }

  predicate SomeAssigned(couriers: seq<Courier>)
  {
    exists c :: c in couriers && c.status == CourierStatus.Assigned
  }

  lemma QueuedCount(orders: seq<DashboardOrder>)
    ensures |Filter(orders, IsQueuedOrder)| > 0 <==> SomeQueued(orders)
  {
    var q := Filter(orders, IsQueuedOrder);
    if o :| o in orders && o.status == Queued {
      assert o in q;
    }
    if |q| > 0 {
      assert q[0] in q;
    }
  }

  lemma AvailableCount(couriers: seq<Courier>)
    ensures |Filter(couriers, IsAvailableCourier)| > 0 <==> SomeAvailable(couriers)
  {
    var q := Filter(couriers, IsAvailableCourier);
    if c :| c in couriers && c.status == Available {
      assert c in q;
    }
    if |q| > 0 {
      assert q[0] in q;
    }
  }

  lemma AssignedCount(couriers: seq<Courier>)
    ensures |Filter(couriers, IsAssignedCourier)| > 0 <==> SomeAssigned(couriers)
  {
    var q := Filter(couriers, IsAssignedCourier);
    if c :| c in couriers && c.status == CourierStatus.Assigned {
      assert c in q;
    }
    if |q| > 0 {
      assert q[0] in q;
    }
  }

  /** The ids after the order alerts: `queued-orders`, then `couriers-pending-start`, each when it applies. */
  function TailIds(queued: bool, started: bool): seq<AlertId>
  {
    (if queued then [QueuedOrders] else []) + (if started then [CouriersPendingStart] else [])
  }

  lemma TailIdsMembers(queued: bool, started: bool)
    ensures QueuedOrders in TailIds(queued, started) <==> queued
    ensures CouriersPendingStart in TailIds(queued, started) <==> started
    ensures forall x :: x in TailIds(queued, started) ==> x.Rank() >= 5
  {
  }

  lemma MembersAppend<T>(a: seq<T>, b: seq<T>, x: T)
    ensures x in a + b <==> x in a || x in b
  {
  }

  /** The ids of all alerts, given what they are built from. */
  lemma PartsIds(waits: seq<int>, queued: seq<DashboardOrder>, available: nat, started: nat)
    ensures var alerts := OrdersAlerts(waits, |queued|, available) + QueuedAlerts(queued, available) + StartAlerts(started);
      && IdsOf(alerts) ==
        OrdersIds(|waits|, |Filter(waits, Overdue)| > 0, available) + TailIds(|queued| > 0, started > 0)
  {
    var a := OrdersAlerts(waits, |queued|, available);
    var b := QueuedAlerts(queued, available);
    var c := StartAlerts(started);
    OrdersAlertsIds(waits, |queued|, available);
    IdsOfAppend(a, b);
    IdsOfAppend(a + b, c);
    QueuedAlertsIds(queued, available);
    StartAlertsIds(started);
  }

  lemma QueuedAlertsIds(queued: seq<DashboardOrder>, available: nat)
    ensures IdsOf(QueuedAlerts(queued, available)) == if |queued| > 0 then [QueuedOrders] else []
  {
  }

  lemma StartAlertsIds(started: nat)
    ensures IdsOf(StartAlerts(started)) == if started > 0 then [CouriersPendingStart] else []
  {
  }

  /** The first alert is the first order alert. */
  lemma PartsLevel(waits: seq<int>, queued: seq<DashboardOrder>, available: nat, started: nat)
    ensures var alerts := OrdersAlerts(waits, |queued|, available) + QueuedAlerts(queued, available) + StartAlerts(started);
      alerts[0].level == if |waits| == 0 then Info else if |Filter(waits, Overdue)| > 0 then Danger else Warning
  {
    OrdersAlertsLevel(waits, |queued|, available);
  }

  /** The ids of the order alerts for `n` pending orders, `late` when one of them is overdue. */
  function OrdersIds(n: nat, late: bool, available: nat): seq<AlertId>
  {
    if n == 0 then [NoPending]
    else
      [PendingCount] + (if late then [SlaRisk] else [])
      + (if available == 0 then [NoCouriers] else if n < MinBatchTarget then [WaitingBatch] else [])
  }

  /** The order alerts, read off the sorted waits. */
  lemma OrdersAlertsIds(waits: seq<int>, queuedCount: nat, available: nat)
    ensures IdsOf(OrdersAlerts(waits, queuedCount, available)) == OrdersIds(|waits|, |Filter(waits, Overdue)| > 0, available)
  {
    if |waits| > 0 {
      var overdue := Filter(waits, Overdue);
      var count := [Alert(PendingCountAlert(|waits|, waits[|waits| - 1]), if |overdue| > 0 then Danger else Warning, OrdersAlert)];
      var late := if |overdue| > 0 then [Alert(SlaRiskAlert(|overdue|, overdue[0]), Danger, OrdersAlert)] else [];
      var couriers := if available == 0 then [Alert(NoCouriersAlert, Warning, CouriersAlert)]
        else if |waits| < MinBatchTarget then
          [Alert(WaitingBatchAlert(if MinBatchTarget - |waits| > 0 then MinBatchTarget - |waits| else 0), Info, OrdersAlert)]
        else [];
      assert OrdersAlerts(waits, queuedCount, available) == count + late + couriers;
      IdsOfAppend(count, late);
      IdsOfAppend(count + late, couriers);
      assert IdsOf(count) == [PendingCount];
      assert IdsOf(late) == if |overdue| > 0 then [SlaRisk] else [];
      assert IdsOf(couriers) == if available == 0 then [NoCouriers] else if |waits| < MinBatchTarget then [WaitingBatch] else [];
    }
  }

  /** The first order alert is info without pending orders, and otherwise danger exactly when one is overdue. */
  lemma OrdersAlertsLevel(waits: seq<int>, queuedCount: nat, available: nat)
    ensures OrdersAlerts(waits, queuedCount, available)[0].level ==
      if |waits| == 0 then Info else if |Filter(waits, Overdue)| > 0 then Danger else Warning
  {
  }

  /**
   * Without pending orders the only order alert is `no-pending`; with them
   * `pending-count` comes first, `sla-risk` appears exactly when one is
   * overdue, `no-couriers` exactly when no courier is available, and
   * `waiting-batch` exactly when one is and fewer than two orders wait.
   */
  lemma OrdersIdsMembers(n: nat, late: bool, available: nat)
    ensures var ids := OrdersIds(n, late, available);
      && (n == 0 ==> ids == [NoPending])
      && (n > 0 ==> ids[0] == PendingCount && NoPending !in ids)
      && (SlaRisk in ids <==> n > 0 && late)
      && (NoCouriers in ids <==> n > 0 && available == 0)
      && (WaitingBatch in ids <==> n > 0 && available > 0 && n < MinBatchTarget)
      && (forall x :: x in ids ==> x.Rank() <= 4)
  {
  }

  /** The ids of all alerts: the order alerts, then `queued-orders` and `couriers-pending-start` when they apply. */
  lemma BuildIds(orders: seq<DashboardOrder>, couriers: seq<Courier>, now: Millis, parseDate: string -> Option<Millis>)
    ensures var alerts := BuildOperationalAlerts(orders, couriers, now, parseDate);
      var pending := Filter(orders, IsPendingOrder);
      var late := LatePending(orders, now, parseDate);
      var available := |Filter(couriers, IsAvailableCourier)|;
      && IdsOf(alerts) ==
        OrdersIds(|pending|, late, available) + TailIds(SomeQueued(orders), SomeAssigned(couriers))
      && alerts[0].level == (if pending == [] then Info else if late then Danger else Warning)
  {
    var waits := PendingWaits(orders, now, parseDate);
    var queued := Filter(orders, IsQueuedOrder);
    var available := |Filter(couriers, IsAvailableCourier)|;
    var started := |Filter(couriers, IsAssignedCourier)|;
    assert BuildOperationalAlerts(orders, couriers, now, parseDate) ==
      OrdersAlerts(waits, |queued|, available) + QueuedAlerts(queued, available) + StartAlerts(started);
    PartsIds(waits, queued, available, started);
    PartsLevel(waits, queued, available, started);
    OverdueAmongPending(orders, now, parseDate);
    QueuedCount(orders);
    AssignedCount(couriers);
    assert |waits| == |Filter(orders, IsPendingOrder)|;
  }

  /**
   * Without pending orders the first alert is `no-pending` (info), and with
   * them `pending-count`, danger exactly when some pending order has waited
   * the limit, which is also when `sla-risk` appears. With pending orders,
   * `no-couriers` appears exactly when no courier is available, and
   * `waiting-batch` exactly when one is and fewer than two orders are pending.
   */
  lemma PendingAlerts(orders: seq<DashboardOrder>, couriers: seq<Courier>, now: Millis, parseDate: string -> Option<Millis>)
    ensures var alerts := BuildOperationalAlerts(orders, couriers, now, parseDate);
      var ids := IdsOf(alerts);
      var pending := Filter(orders, IsPendingOrder);
      var available := |Filter(couriers, IsAvailableCourier)|;
      var late := LatePending(orders, now, parseDate);
      && (pending == [] ==> ids[0] == NoPending && alerts[0].level == Info && PendingCount !in ids)
      && (pending != [] ==> ids[0] == PendingCount && NoPending !in ids)
      && (pending != [] ==> (alerts[0].level == Danger <==> late) && (alerts[0].level == Warning <==> !late))
      && (SlaRisk in ids <==> pending != [] && late)
      && (NoCouriers in ids <==> pending != [] && available == 0)
      && (WaitingBatch in ids <==> pending != [] && available > 0 && |pending| < MinBatchTarget)
  {
    var pending := Filter(orders, IsPendingOrder);
    var late := LatePending(orders, now, parseDate);
    var available := |Filter(couriers, IsAvailableCourier)|;
    BuildIds(orders, couriers, now, parseDate);
    OrderIdsAmongAll(IdsOf(BuildOperationalAlerts(orders, couriers, now, parseDate)), |pending|, late, available, SomeQueued(orders), SomeAssigned(couriers));
  }

  /**
   * With pending orders, the first alert counts them and reports the largest
   * of their waits, the oldest order's, as the last of the sorted waits.
   */
  lemma OldestWaitIsMaximum(orders: seq<DashboardOrder>, couriers: seq<Courier>, now: Millis, parseDate: string -> Option<Millis>)
    ensures var pending := Filter(orders, IsPendingOrder);
      var w := Waits(pending, now, parseDate);
      var first := BuildOperationalAlerts(orders, couriers, now, parseDate)[0].kind;
      pending != [] ==>
        && first.PendingCountAlert? && first.pendingCount == |pending|
        && first.oldestWait in w
        && forall i :: 0 <= i < |w| ==> w[i] <= first.oldestWait
  {
    var pending := Filter(orders, IsPendingOrder);
    if pending != [] {
      var w := Waits(pending, now, parseDate);
      var waits := PendingWaits(orders, now, parseDate);
      SortByMembers(w, WaitKey);
      var queued := Filter(orders, IsQueuedOrder);
      var available := |Filter(couriers, IsAvailableCourier)|;
      var withRoute := |Filter(couriers, IsAssignedCourier)|;
      var front := OrdersAlerts(waits, |queued|, available);
      OrdersAlertsFirst(waits, |queued|, available);
      assert BuildOperationalAlerts(orders, couriers, now, parseDate)
        == front + QueuedAlerts(queued, available) + StartAlerts(withRoute);
      assert (front + QueuedAlerts(queued, available) + StartAlerts(withRoute))[0] == front[0];
      assert waits[|waits| - 1] in waits;
      forall i | 0 <= i < |w| ensures w[i] in waits {
        assert w[i] in w;
      }
      LastSortedWaitIsMaximum(waits, w);
    }
  }

  lemma OrdersAlertsFirst(waits: seq<int>, queuedCount: nat, available: nat)
    requires waits != []
    ensures |OrdersAlerts(waits, queuedCount, available)| > 0
    ensures OrdersAlerts(waits, queuedCount, available)[0].kind == PendingCountAlert(|waits|, waits[|waits| - 1])
  {
  }

  lemma LastSortedWaitIsMaximum(waits: seq<int>, w: seq<int>)
    requires waits != [] && SortedBy(waits, WaitKey)
    requires forall i :: 0 <= i < |w| ==> w[i] in waits
    requires waits[|waits| - 1] in w
    ensures waits[|waits| - 1] in w
    ensures forall i :: 0 <= i < |w| ==> w[i] <= waits[|waits| - 1]
  {
    forall i | 0 <= i < |w| ensures w[i] <= waits[|waits| - 1] {
      assert w[i] in waits;
      var k :| 0 <= k < |waits| && waits[k] == w[i];
      assert WaitKey(waits[k]) <= WaitKey(waits[|waits| - 1]);
    }
  }

  /** What the order alerts' ids say, read in the full list of ids. */
  lemma OrderIdsAmongAll(ids: seq<AlertId>, n: nat, late: bool, available: nat, queued: bool, started: bool)
    requires ids == OrdersIds(n, late, available) + TailIds(queued, started)
    ensures ids != []
    ensures n == 0 ==> ids[0] == NoPending && PendingCount !in ids
    ensures n > 0 ==> ids[0] == PendingCount && NoPending !in ids
    ensures SlaRisk in ids <==> n > 0 && late
    ensures NoCouriers in ids <==> n > 0 && available == 0
    ensures WaitingBatch in ids <==> n > 0 && available > 0 && n < MinBatchTarget
    ensures QueuedOrders in ids <==> queued
    ensures CouriersPendingStart in ids <==> started
  {
    var head := OrdersIds(n, late, available);
    var tail := TailIds(queued, started);
    OrdersIdsMembers(n, late, available);
    TailIdsMembers(queued, started);
    MembersAppend(head, tail, NoPending);
    MembersAppend(head, tail, PendingCount);
    MembersAppend(head, tail, SlaRisk);
    MembersAppend(head, tail, NoCouriers);
    MembersAppend(head, tail, WaitingBatch);
    MembersAppend(head, tail, QueuedOrders);
    MembersAppend(head, tail, CouriersPendingStart);
  }

  /**
   * `queued-orders` appears exactly when some order is queued, reports the
   * number of distinct route ids among them, and is a warning when a courier
   * is available and a danger otherwise; `couriers-pending-start` appears
   * exactly when some courier is assigned.
   */
  lemma QueuedAndStartAlerts(orders: seq<DashboardOrder>, couriers: seq<Courier>, now: Millis, parseDate: string -> Option<Millis>)
    ensures var alerts := BuildOperationalAlerts(orders, couriers, now, parseDate);
      var ids := IdsOf(alerts);
      && (QueuedOrders in ids <==> SomeQueued(orders))
      && (CouriersPendingStart in ids <==> SomeAssigned(couriers))
  {
    var pending := Filter(orders, IsPendingOrder);
    BuildIds(orders, couriers, now, parseDate);
    OrderIdsAmongAll(IdsOf(BuildOperationalAlerts(orders, couriers, now, parseDate)), |pending|,
      LatePending(orders, now, parseDate), |Filter(couriers, IsAvailableCourier)|, SomeQueued(orders), SomeAssigned(couriers));
  }

  /**
   * The `queued-orders` alert reports how many orders are queued and how many
   * distinct route ids they carry, and is a warning when a courier is
   * available and a danger otherwise.
   */
  lemma QueuedOrdersAlertContents(orders: seq<DashboardOrder>, couriers: seq<Courier>, now: Millis, parseDate: string -> Option<Millis>, i: nat)
    requires var alerts := BuildOperationalAlerts(orders, couriers, now, parseDate);
      i < |alerts| && alerts[i].kind.Id() == QueuedOrders
    ensures var alerts := BuildOperationalAlerts(orders, couriers, now, parseDate);
      var queued := Filter(orders, IsQueuedOrder);
      && alerts[i].kind == QueuedOrdersAlert(|queued|, |RouteIdsOf(queued)|)
      && alerts[i].category == RoutesAlert
      && (alerts[i].level == Warning <==> SomeAvailable(couriers))
      && (alerts[i].level == Danger <==> !SomeAvailable(couriers))
  {
    var queued := Filter(orders, IsQueuedOrder);
    var available := |Filter(couriers, IsAvailableCourier)|;
    var started := |Filter(couriers, IsAssignedCourier)|;
    assert BuildOperationalAlerts(orders, couriers, now, parseDate) ==
      OrdersAlerts(PendingWaits(orders, now, parseDate), |queued|, available) + QueuedAlerts(queued, available) + StartAlerts(started);
    PartsQueuedAlert(PendingWaits(orders, now, parseDate), queued, available, started, i);
    AvailableCount(couriers);
  }

  /** The only alert with the `queued-orders` id is the one `QueuedAlerts` builds. */
  lemma PartsQueuedAlert(waits: seq<int>, queued: seq<DashboardOrder>, available: nat, started: nat, i: nat)
    requires var all := OrdersAlerts(waits, |queued|, available) + QueuedAlerts(queued, available) + StartAlerts(started);
      i < |all| && all[i].kind.Id() == QueuedOrders
    ensures |QueuedAlerts(queued, available)| == 1
    ensures (OrdersAlerts(waits, |queued|, available) + QueuedAlerts(queued, available) + StartAlerts(started))[i] == QueuedAlerts(queued, available)[0]
  {
    var a := OrdersAlerts(waits, |queued|, available);
    var b := QueuedAlerts(queued, available);
    var c := StartAlerts(started);
    var all := a + b + c;
    OrdersAlertsShape(waits, |queued|, available);
    assert all[i] == b[i - |a|];
  }
}

=== FILE: order_service.dfy ===
/** `src/orderService.ts`: an order enters the store PENDING and waits for dispatch. */
module OrderService {
  import opened Wrappers
  import opened DispatchModel
  import opened Scheduler

  /** The order `createOrder` builds: the given address and position, PENDING, on no route and with no courier. */
  function NewOrder(id: Id, address: string, lat: real, lng: real, now: Millis): (o: Order)
    ensures o.id == id && o.address == address && o.lat == lat && o.lng == lng && o.createdAt == now
    ensures o.status == Pending && o.courierId.None? && o.routeId.None?
  {
    Order(id, address, lat, lng, now, None, Pending, None, None, None, None)
  }

  /**
   * `createOrder`: appends exactly one order; the id (`uuid()`) is a fresh
   * parameter and the clock reading is `now`. The follow-up
   * `onNewOrderCreated` only logs, so no route or courier changes.
   */
  method CreateOrder(s: Store, id: Id, address: string, lat: real, lng: real, now: Millis) returns (o: Order)
    requires id !in OrderIds(s.orders)
    modifies s
    ensures o == NewOrder(id, address, lat, lng, now)
    ensures s.orders == old(s.orders) + [o]
    ensures s.couriers == old(s.couriers) && s.routes == old(s.routes)
  {
    o := NewOrder(id, address, lat, lng, now);
    s.orders := s.orders + [o];
  }

  /** A created order is found by its fresh id, at the end of the store. */
  lemma FindAppendedOrder(orders: seq<Order>, o: Order)
    requires o.id !in OrderIds(orders)
    ensures FindOrder(orders + [o], o.id) == Some(|orders|)
  {
    var all := orders + [o];
    assert all[|orders|] == o;
    forall j | 0 <= j < |orders| ensures all[j].id != o.id {
      assert all[j] == orders[j] && orders[j] in orders;
    }
  }

  /** A created order joins the dispatcher's queue of pending orders, and every order already waiting stays in it. */
  lemma NewOrderQueued(orders: seq<Order>, o: Order)
    requires o.status == Pending
    ensures Entry(|orders|, o) in PendingByAge(orders + [o])
    ensures forall i :: 0 <= i < |orders| && orders[i].status == Pending ==> Entry(i, orders[i]) in PendingByAge(orders + [o])
  {
    var all := orders + [o];
    PendingByAgeMembers(all);
    assert all[|orders|] == o;
    forall i | 0 <= i < |orders| && orders[i].status == Pending ensures Entry(i, orders[i]) in PendingByAge(all) {
      assert all[i] == orders[i];
    }
  }
}

=== FILE: pricing.dfy ===
/**
 * Delivery pricing (`src/pricingService.ts`): the distance bands and the
 * address zones, kept as shared lists that the operators edit, and the price
 * quote for an order. A zone whose text occurs in the address wins; otherwise
 * the band covering the distance from the restaurant decides.
 *
 * The haversine distance is the parameter `dist`; numbers inside labels are
 * rendered by the parameter `showNumber` (JavaScript's `String(n)`).
 */
module Pricing {
  import opened Wrappers
  import opened Text
  import opened Sorting
  import opened DispatchModel
  import Seqs

  datatype PricingBand = PricingBand(id: Id, maxDistanceKm: real, price: real)
  datatype PricingZone = PricingZone(id: Id, name: string, matchText: string, price: real)

  function MaxDistance(b: PricingBand): real
  {
    b.maxDistanceKm
  }

  /** The two lists, sorted by `maxDistanceKm` for the bands and in creation order for the zones. */
  class PricingTables {
    var bands: seq<PricingBand>
    var zones: seq<PricingZone>

    constructor ()
      ensures bands == [] && zones == []
    {
      bands := [];
      zones := [];
    }

    /** `createPricingBand`: the band joins the list, which is sorted again. */
    method CreateBand(id: Id, maxDistanceKm: real, price: real) returns (band: PricingBand)
      modifies this
      ensures band == PricingBand(id, maxDistanceKm, price)
      ensures bands == SortBy(old(bands) + [band], MaxDistance) && zones == old(zones)
      ensures SortedBy(bands, MaxDistance) && band in bands
      ensures multiset(bands) == multiset(old(bands)) + multiset{band}
    {
      band := PricingBand(id, maxDistanceKm, price);
      bands := SortBy(bands + [band], MaxDistance);
      assert band in multiset(bands);
    }

    /** `updatePricingBand`: the first band with the id gets the new limit and price and the list is sorted again. */
    method UpdateBand(id: Id, maxDistanceKm: real, price: real) returns (r: Option<PricingBand>)
      modifies this
      ensures FindBand(old(bands), id).None? ==> r.None? && bands == old(bands)
      ensures FindBand(old(bands), id).Some? ==>
        var i := FindBand(old(bands), id).value;
        && r == Some(PricingBand(id, maxDistanceKm, price))
        && bands == SortBy(old(bands)[i := r.value], MaxDistance)
        && SortedBy(bands, MaxDistance) && r.value in bands
        && multiset(bands) == multiset(old(bands)) - multiset{old(bands)[i]} + multiset{r.value}
      ensures zones == old(zones)
    {
      var found := FindBand(bands, id);
      if found.None? {
        return None;
      }
      var i := found.value;
      var band := bands[i].(maxDistanceKm := maxDistanceKm, price := price);
      var updated := bands[i := band];
      Seqs.MultisetUpdate(bands, i, band);
      bands := SortBy(updated, MaxDistance);
      assert band in multiset(bands);
      r := Some(band);
    }

    /** `deletePricingBand`: removes the first band with the id; false when there is none. */
    method DeleteBand(id: Id) returns (deleted: bool)
      modifies this
      ensures deleted <==> FindBand(old(bands), id).Some?
      ensures !deleted ==> bands == old(bands)
      ensures deleted ==> var i := FindBand(old(bands), id).value; bands == old(bands[..i]) + old(bands[i + 1..])
      ensures zones == old(zones)
    {
      var found := FindBand(bands, id);
      if found.None? {
        return false;
      }
      bands := bands[..found.value] + bands[found.value + 1..];
      deleted := true;
    }

    /** `createPricingZone`: the zone is appended, so it is tried after every existing zone. */
    method CreateZone(id: Id, name: string, matchText: string, price: real) returns (zone: PricingZone)
      modifies this
      ensures zone == PricingZone(id, name, matchText, price)
      ensures zones == old(zones) + [zone] && bands == old(bands)
    {
      zone := PricingZone(id, name, matchText, price);
      zones := zones + [zone];
    }

    /**
     * `updatePricingZone`: name and match text are replaced when supplied,
     * the price when it is a number; the zone keeps its place.
     */
    method UpdateZone(id: Id, name: Option<string>, matchText: Option<string>, price: Option<real>) returns (r: Option<PricingZone>)
      modifies this
      ensures FindZoneById(old(zones), id).None? ==> r.None? && zones == old(zones)
      ensures FindZoneById(old(zones), id).Some? ==>
        var i := FindZoneById(old(zones), id).value;
        && r == Some(EditedZone(old(zones)[i], name, matchText, price))
        && zones == old(zones)[i := r.value]
      ensures bands == old(bands)
    {
      var found := FindZoneById(zones, id);
      if found.None? {
        return None;
      }
      var zone := EditedZone(zones[found.value], name, matchText, price);
      zones := zones[found.value := zone];
      r := Some(zone);
    }

    /** `deletePricingZone`: removes the first zone with the id; false when there is none. */
    method DeleteZone(id: Id) returns (deleted: bool)
      modifies this
      ensures deleted <==> FindZoneById(old(zones), id).Some?
      ensures !deleted ==> zones == old(zones)
      ensures deleted ==> var i := FindZoneById(old(zones), id).value; zones == old(zones[..i]) + old(zones[i + 1..])
      ensures bands == old(bands)
    {
      var found := FindZoneById(zones, id);
      if found.None? {
        return false;
      }
      zones := zones[..found.value] + zones[found.value + 1..];
      deleted := true;
    }
  }

  /** The index of the first band with the id. */
  function FindBand(bands: seq<PricingBand>, id: Id): (r: Option<nat>)
    ensures r.Some? ==> r.value < |bands| && bands[r.value].id == id && forall k :: 0 <= k < r.value ==> bands[k].id != id
    ensures r.None? <==> forall k :: 0 <= k < |bands| ==> bands[k].id != id
  {
    if bands == [] then None
    else if bands[|bands| - 1].id == id && FindBand(bands[..|bands| - 1], id).None? then Some(|bands| - 1)
    else match FindBand(bands[..|bands| - 1], id)
      case Some(i) => Some(i)
      case None => None
  }

  /** The index of the first zone with the id. */
  function FindZoneById(zones: seq<PricingZone>, id: Id): (r: Option<nat>)
    ensures r.Some? ==> r.value < |zones| && zones[r.value].id == id && forall k :: 0 <= k < r.value ==> zones[k].id != id
    ensures r.None? <==> forall k :: 0 <= k < |zones| ==> zones[k].id != id
  {
    if zones == [] then None
    else if zones[|zones| - 1].id == id && FindZoneById(zones[..|zones| - 1], id).None? then Some(|zones| - 1)
    else match FindZoneById(zones[..|zones| - 1], id)
      case Some(i) => Some(i)
      case None => None
  }

  /** The zone after an edit: `??` keeps a field that is not supplied. */
  function EditedZone(z: PricingZone, name: Option<string>, matchText: Option<string>, price: Option<real>): (r: PricingZone)
    ensures r.id == z.id
    ensures r.name == (if name.Some? then name.value else z.name)
    ensures r.matchText == (if matchText.Some? then matchText.value else z.matchText)
    ensures r.price == (if price.Some? then price.value else z.price)
  {
    PricingZone(z.id, name.GetOr(z.name), matchText.GetOr(z.matchText), price.GetOr(z.price))
  }

  /** An edit that supplies nothing changes nothing. */
  lemma EditedZoneUnchanged(z: PricingZone)
    ensures EditedZone(z, None, None, None) == z
  {
  }

  // ---------------------------------------------------------------- quote

  datatype Quote = Quote(price: real, rule: PricingRule)

  const NoBandLabel: string := "Sem faixa configurada"
  /** The source spells "Até" through a mis-decoded UTF-8 sequence; the label keeps those characters. */
  const WithinLabelPrefix: string := "At√© "
  const BeyondLabelPrefix: string := "Fora do raio ("

  /** The zone whose match text the address contains, ignoring case. */
  predicate ZoneMatches(z: PricingZone, address: string)
  {
    Contains(Lower(address), Lower(z.matchText))
  }

  /** `pricingZones.find(...)`: the first matching zone. */
  function MatchedZone(zones: seq<PricingZone>, address: string, n: nat): (r: Option<nat>)
    requires n <= |zones|
    ensures r.Some? ==> r.value < n && ZoneMatches(zones[r.value], address)
    ensures r.Some? ==> forall k :: 0 <= k < r.value ==> !ZoneMatches(zones[k], address)
    ensures r.None? <==> forall k :: 0 <= k < n ==> !ZoneMatches(zones[k], address)
  {
    if n == 0 then None
    else match MatchedZone(zones, address, n - 1)
      case Some(i) => Some(i)
      case None => if ZoneMatches(zones[n - 1], address) then Some(n - 1) else None
  }

  /** `sortedBands.find(band => distance <= band.maxDistanceKm)`, scanning the prefix of length `n`. */
  function FirstCovering(sorted: seq<PricingBand>, distanceKm: real, n: nat): (r: Option<nat>)
    requires n <= |sorted|
    ensures r.Some? ==> r.value < n && distanceKm <= sorted[r.value].maxDistanceKm
    ensures r.Some? ==> forall k :: 0 <= k < r.value ==> sorted[k].maxDistanceKm < distanceKm
    ensures r.None? <==> forall k :: 0 <= k < n ==> sorted[k].maxDistanceKm < distanceKm
  {
    if n == 0 then None
    else match FirstCovering(sorted, distanceKm, n - 1)
      case Some(i) => Some(i)
      case None => if distanceKm <= sorted[n - 1].maxDistanceKm then Some(n - 1) else None
  }

  /** The band that prices a distance: the first covering one in sorted order, else the last one. */
  function SelectedBand(bands: seq<PricingBand>, distanceKm: real): (r: Option<PricingBand>)
    ensures r.None? <==> bands == []
  {
    var sorted := SortBy(bands, MaxDistance);
    match FirstCovering(sorted, distanceKm, |sorted|)
    case Some(i) => Some(sorted[i])
    case None => if sorted == [] then None else Some(sorted[|sorted| - 1])
  }

  /**
   * `calculateOrderPrice` for an order at `position`: a matching zone prices it
   * regardless of distance; otherwise the selected band does, labelled with its
   * limit, or with the radius when the distance exceeds it.
   */
  function CalculateOrderPrice(zones: seq<PricingZone>, bands: seq<PricingBand>, restaurant: LatLng, maxRadiusKm: real,
                               address: string, position: LatLng,
                               dist: (LatLng, LatLng) -> real, showNumber: real -> string): (q: Quote)
    ensures MatchedZone(zones, address, |zones|).Some? ==>
      var z := zones[MatchedZone(zones, address, |zones|).value];
      q == Quote(z.price, PricingRule(Zone, z.name))
    ensures MatchedZone(zones, address, |zones|).None? && bands == [] ==>
      q == Quote(0.0, PricingRule(Distance, NoBandLabel))
    ensures MatchedZone(zones, address, |zones|).None? && bands != [] ==>
      var b := SelectedBand(bands, dist(restaurant, position)).value;
      && q.price == b.price && q.rule.ruleType == Distance
      && q.rule.caption == if dist(restaurant, position) > maxRadiusKm
           then BeyondLabelPrefix + showNumber(maxRadiusKm) + " km)"
           else WithinLabelPrefix + showNumber(b.maxDistanceKm) + " km"
  {
    match MatchedZone(zones, address, |zones|)
    case Some(i) => Quote(zones[i].price, PricingRule(Zone, zones[i].name))
    case None =>
      var distanceKm := dist(restaurant, position);
      match SelectedBand(bands, distanceKm)
      case None => Quote(0.0, PricingRule(Distance, NoBandLabel))
      case Some(b) =>
        var caption := if distanceKm > maxRadiusKm
          then BeyondLabelPrefix + showNumber(maxRadiusKm) + " km)"
          else WithinLabelPrefix + showNumber(b.maxDistanceKm) + " km";
        Quote(b.price, PricingRule(Distance, caption))
  }

  /**
   * The band choice: when some band covers the distance, the chosen one
   * covers it with the smallest limit of all covering bands; when none does,
   * the chosen one has the largest limit.
   */
  lemma SelectedBandSpec(bands: seq<PricingBand>, distanceKm: real)
    requires bands != []
    ensures var b := SelectedBand(bands, distanceKm).value;
      && b in bands
      && ((exists j :: 0 <= j < |bands| && distanceKm <= bands[j].maxDistanceKm) ==>
            distanceKm <= b.maxDistanceKm &&
            forall j :: 0 <= j < |bands| && distanceKm <= bands[j].maxDistanceKm ==> b.maxDistanceKm <= bands[j].maxDistanceKm)
      && ((forall j :: 0 <= j < |bands| ==> bands[j].maxDistanceKm < distanceKm) ==>
            forall j :: 0 <= j < |bands| ==> bands[j].maxDistanceKm <= b.maxDistanceKm)
  {
    var sorted := SortBy(bands, MaxDistance);
    SortByMembers(bands, MaxDistance);
    match FirstCovering(sorted, distanceKm, |sorted|) {
      case Some(i) => CoveringIsSmallest(bands, sorted, distanceKm, i);
      case None => LastIsLargest(bands, sorted, distanceKm);
    }
  }

  /**
   * In bands sorted by limit, the first that covers the distance has the
   * smallest limit among all covering bands, and is one of them.
   */
  lemma CoveringIsSmallest(bands: seq<PricingBand>, sorted: seq<PricingBand>, distanceKm: real, i: nat)
    requires SortedBy(sorted, MaxDistance) && forall x :: x in sorted <==> x in bands
    requires i < |sorted| && distanceKm <= sorted[i].maxDistanceKm
    requires forall k :: 0 <= k < i ==> sorted[k].maxDistanceKm < distanceKm
    ensures sorted[i] in bands
    ensures forall j :: 0 <= j < |bands| && distanceKm <= bands[j].maxDistanceKm ==>
      sorted[i].maxDistanceKm <= bands[j].maxDistanceKm
  {
    forall j | 0 <= j < |bands| && distanceKm <= bands[j].maxDistanceKm
      ensures sorted[i].maxDistanceKm <= bands[j].maxDistanceKm
    {
      assert bands[j] in sorted;
      var k :| 0 <= k < |sorted| && sorted[k] == bands[j];
      if i < k {
        assert MaxDistance(sorted[i]) <= MaxDistance(sorted[k]);
      }
    }
  }

  /**
   * When no sorted band covers the distance, none of the bands does, and the
   * last sorted band has the largest limit.
   */
  lemma LastIsLargest(bands: seq<PricingBand>, sorted: seq<PricingBand>, distanceKm: real)
    requires SortedBy(sorted, MaxDistance) && forall x :: x in sorted <==> x in bands
    requires sorted != [] && forall k :: 0 <= k < |sorted| ==> sorted[k].maxDistanceKm < distanceKm
    ensures sorted[|sorted| - 1] in bands
    ensures forall j :: 0 <= j < |bands| ==> bands[j].maxDistanceKm <= sorted[|sorted| - 1].maxDistanceKm
    ensures forall j :: 0 <= j < |bands| ==> bands[j].maxDistanceKm < distanceKm
  {
    forall j | 0 <= j < |bands|
      ensures bands[j].maxDistanceKm <= sorted[|sorted| - 1].maxDistanceKm && bands[j].maxDistanceKm < distanceKm
    {
      assert bands[j] in sorted;
      var k :| 0 <= k < |sorted| && sorted[k] == bands[j];
      if k < |sorted| - 1 {
        assert MaxDistance(sorted[k]) <= MaxDistance(sorted[|sorted| - 1]);
      }
    }
  }

  /** Crossing the radius changes only the label, never the price. */
  lemma RadiusOnlyChangesLabel(zones: seq<PricingZone>, bands: seq<PricingBand>, restaurant: LatLng, r1: real, r2: real,
                               address: string, position: LatLng, dist: (LatLng, LatLng) -> real, showNumber: real -> string)
    ensures CalculateOrderPrice(zones, bands, restaurant, r1, address, position, dist, showNumber).price ==
            CalculateOrderPrice(zones, bands, restaurant, r2, address, position, dist, showNumber).price
    ensures CalculateOrderPrice(zones, bands, restaurant, r1, address, position, dist, showNumber).rule.ruleType ==
            CalculateOrderPrice(zones, bands, restaurant, r2, address, position, dist, showNumber).rule.ruleType
  {
  }

  /** A zone match ignores the position: two orders with the same address get the same zone quote. */
  lemma ZoneIgnoresDistance(zones: seq<PricingZone>, bands: seq<PricingBand>, restaurant: LatLng, maxRadiusKm: real,
                            address: string, p1: LatLng, p2: LatLng, dist: (LatLng, LatLng) -> real, showNumber: real -> string)
    requires MatchedZone(zones, address, |zones|).Some?
    ensures CalculateOrderPrice(zones, bands, restaurant, maxRadiusKm, address, p1, dist, showNumber) ==
            CalculateOrderPrice(zones, bands, restaurant, maxRadiusKm, address, p2, dist, showNumber)
  {
  }
}

=== FILE: reports.dfy ===
/**
 * The orders report (`src/reportService.ts`): the orders created within an
 * optional date range, with totals, counts per status, per courier and per
 * UTC day. The source folds the covered orders into an accumulator and two
 * insertion-ordered maps; `GetOrdersReport` does the same with a loop, and
 * `Tally` is the fold it is proved against.
 */
module Reports {
  import opened Wrappers
  import opened Text
  import opened Seqs
  import opened Sorting
  import opened DispatchModel

  const MillisPerDay: int := 86400000

  /** An order inside the optional bounds, both inclusive. */
  predicate InRange(o: Order, from: Option<Millis>, to: Option<Millis>)
  {
    (from.None? || o.createdAt >= from.value) && (to.None? || o.createdAt <= to.value)
  }

  /** The covered orders, in store order. */
  function Covered(orders: seq<Order>, from: Option<Millis>, to: Option<Millis>): (r: seq<Order>)
    ensures forall o :: o in r <==> o in orders && InRange(o, from, to)
  {
    Filter(orders, o => InRange(o, from, to))
  }

  /** `deliveryPrice ?? 0`. */
  function Price(o: Order): real
  {
    o.deliveryPrice.GetOr(0.0)
  }

  /**
   * The UTC day an instant falls on, as a day number: the date prefix of
   * `toISOString` names the same day, and orders the same way.
   */
  function DayOf(t: Millis): int
  {
    t / MillisPerDay
  }

  /** `record[key] ?? 0`. */
  function Lookup<K>(m: map<K, nat>, k: K): nat
  {
    if k in m then m[k] else 0
  }

  /** The name of the first courier with the id, if any (`couriers.find(...)?.name ?? null`). */
  function CourierNameOf(couriers: seq<Courier>, id: Id): (r: Option<string>)
    ensures r.Some? <==> exists j :: 0 <= j < |couriers| && couriers[j].id == id
  {
    match FindCourier(couriers, id)
    case Some(j) => Some(couriers[j].name)
    case None => None
  }

  datatype CourierStat = CourierStat(courierId: Id, courierName: Option<string>, count: nat)

  /** One UTC day of the report: its orders, how many were delivered, and their value. */
  datatype DayStat = DayStat(day: int, count: nat, delivered: nat, totalValue: real)

  /** The accumulator of the fold, with the two maps as entry lists in insertion order. */
  datatype Tally = Tally(
    count: nat,
    totalValue: real,
    byStatus: map<OrderStatus, nat>,
    byCourier: map<Id, nat>,
    stats: seq<CourierStat>,
    days: seq<DayStat>)

  /** The position of the entry for a courier. */
  function StatIndex(stats: seq<CourierStat>, id: Id): (r: Option<nat>)
    ensures r.Some? ==> r.value < |stats| && stats[r.value].courierId == id
    ensures r.None? <==> forall i :: 0 <= i < |stats| ==> stats[i].courierId != id
  {
    if stats == [] then None
    else if stats[|stats| - 1].courierId == id then Some(|stats| - 1)
    else StatIndex(stats[..|stats| - 1], id)
  }

  /** The position of the entry for a day. */
  function DayIndex(days: seq<DayStat>, day: int): (r: Option<nat>)
    ensures r.Some? ==> r.value < |days| && days[r.value].day == day
    ensures r.None? <==> forall i :: 0 <= i < |days| ==> days[i].day != day
  {
    if days == [] then None
    else if days[|days| - 1].day == day then Some(|days| - 1)
    else DayIndex(days[..|days| - 1], day)
  }

  function DeliveredPoint(o: Order): nat
  {
    if o.status == Delivered then 1 else 0
  }

  /** The courier entries after one more order of the courier `id`. */
  function CountCourierOrder(stats: seq<CourierStat>, id: Id, couriers: seq<Courier>): seq<CourierStat>
  {
    match StatIndex(stats, id)
    case Some(i) => stats[i := stats[i].(count := stats[i].count + 1)]
    case None => stats + [CourierStat(id, CourierNameOf(couriers, id), 1)]
  }

  /** The day entries after one more order. */
  function CountDayOrder(days: seq<DayStat>, o: Order): seq<DayStat>
  {
    var d := DayOf(o.createdAt);
    match DayIndex(days, d)
    case Some(i) =>
      days[i := days[i].(count := days[i].count + 1, delivered := days[i].delivered + DeliveredPoint(o),
        totalValue := days[i].totalValue + Price(o))]
    case None => days + [DayStat(d, 1, DeliveredPoint(o), Price(o))]
  }

  /** One step of the `reduce`. */
  function Step(t: Tally, o: Order, couriers: seq<Courier>): Tally
  {
    var counted := t.(count := t.count + 1, byStatus := t.byStatus[o.status := Lookup(t.byStatus, o.status) + 1],
      totalValue := t.totalValue + Price(o), days := CountDayOrder(t.days, o));
    if Truthy(o.courierId) then
      var id := o.courierId.value;
      counted.(byCourier := t.byCourier[id := Lookup(t.byCourier, id) + 1], stats := CountCourierOrder(t.stats, id, couriers))
    else counted
  }

  /** The accumulator after folding the orders in. */
  function TallyOf(s: seq<Order>, couriers: seq<Courier>): Tally
  {
    if s == [] then Tally(0, 0.0, map[], map[], [], [])
    else Step(TallyOf(s[..|s| - 1], couriers), s[|s| - 1], couriers)
  }

  // ---------------------------------------------------------------- reference counts

  function CountStatus(s: seq<Order>, st: OrderStatus): nat
  {
    if s == [] then 0 else CountStatus(s[..|s| - 1], st) + (if s[|s| - 1].status == st then 1 else 0)
  }

  /** The orders whose (non-empty) courier id is `id`. */
  predicate HasCourier(o: Order, id: Id)
  {
    Truthy(o.courierId) && o.courierId.value == id
  }

  function CountCourier(s: seq<Order>, id: Id): nat
  {
    if s == [] then 0 else CountCourier(s[..|s| - 1], id) + (if HasCourier(s[|s| - 1], id) then 1 else 0)
  }

  function CountDay(s: seq<Order>, day: int): nat
  {
    if s == [] then 0 else CountDay(s[..|s| - 1], day) + (if DayOf(s[|s| - 1].createdAt) == day then 1 else 0)
  }

  function DeliveredOnDay(s: seq<Order>, day: int): nat
  {
    if s == [] then 0
    else DeliveredOnDay(s[..|s| - 1], day) + (if DayOf(s[|s| - 1].createdAt) == day then DeliveredPoint(s[|s| - 1]) else 0)
  }

  function ValueOnDay(s: seq<Order>, day: int): real
  {
    if s == [] then 0.0
    else ValueOnDay(s[..|s| - 1], day) + (if DayOf(s[|s| - 1].createdAt) == day then Price(s[|s| - 1]) else 0.0)
  }

  function DayCount(d: DayStat): real
  {
    d.count as real
  }

  // ---------------------------------------------------------------- what the fold keeps

  /** A courier entry counts exactly that courier's orders and carries its name. */
  predicate StatCounts(c: CourierStat, s: seq<Order>, couriers: seq<Courier>)
  {
    c.courierId != "" && c.count == CountCourier(s, c.courierId) > 0 && c.courierName == CourierNameOf(couriers, c.courierId)
  }

  predicate StatsCount(stats: seq<CourierStat>, s: seq<Order>, couriers: seq<Courier>)
  {
    forall i :: 0 <= i < |stats| ==> StatCounts(stats[i], s, couriers)
  }

  predicate StatsDistinct(stats: seq<CourierStat>)
  {
    forall i, j :: 0 <= i < j < |stats| ==> stats[i].courierId != stats[j].courierId
  }

  /** Every order with a courier has that courier's entry. */
  predicate StatsCover(stats: seq<CourierStat>, s: seq<Order>)
  {
    forall k :: 0 <= k < |s| && Truthy(s[k].courierId) ==> StatIndex(stats, s[k].courierId.value).Some?
  }

  /** A day entry counts exactly that day's orders, the delivered ones and their value. */
  predicate DayCounts(d: DayStat, s: seq<Order>)
  {
    d.count == CountDay(s, d.day) > 0 && d.delivered == DeliveredOnDay(s, d.day) && d.totalValue == ValueOnDay(s, d.day)
  }

  predicate DaysCount(days: seq<DayStat>, s: seq<Order>)
  {
    forall i :: 0 <= i < |days| ==> DayCounts(days[i], s)
  }

  predicate DaysDistinct(days: seq<DayStat>)
  {
    forall i, j :: 0 <= i < j < |days| ==> days[i].day != days[j].day
  }

  /** Every order's day has an entry. */
  predicate DaysCover(days: seq<DayStat>, s: seq<Order>)
  {
    forall k :: 0 <= k < |s| ==> DayIndex(days, DayOf(s[k].createdAt)).Some?
  }

  lemma DeliveredAtMostCount(s: seq<Order>, day: int)
    ensures DeliveredOnDay(s, day) <= CountDay(s, day)
  {
  }

  lemma CountCourierSnoc(s: seq<Order>, o: Order, id: Id)
    ensures CountCourier(s + [o], id) == CountCourier(s, id) + (if HasCourier(o, id) then 1 else 0)
  {
    assert (s + [o])[..|s|] == s;
  }

  lemma DaySnoc(s: seq<Order>, o: Order, day: int)
    ensures CountDay(s + [o], day) == CountDay(s, day) + (if DayOf(o.createdAt) == day then 1 else 0)
    ensures DeliveredOnDay(s + [o], day) == DeliveredOnDay(s, day) + (if DayOf(o.createdAt) == day then DeliveredPoint(o) else 0)
    ensures ValueOnDay(s + [o], day) == ValueOnDay(s, day) + (if DayOf(o.createdAt) == day then Price(o) else 0.0)
  {
    assert (s + [o])[..|s|] == s;
  }

  lemma {:induction false} CountCourierWitness(s: seq<Order>, id: Id)
    requires CountCourier(s, id) > 0
    ensures exists k :: 0 <= k < |s| && HasCourier(s[k], id)
  {
    if !HasCourier(s[|s| - 1], id) {
      CountCourierWitness(s[..|s| - 1], id);
      var k :| 0 <= k < |s| - 1 && HasCourier(s[..|s| - 1][k], id);
      assert s[k] == s[..|s| - 1][k];
    }
  }

  lemma {:induction false} CountDayWitness(s: seq<Order>, day: int)
    requires CountDay(s, day) > 0
    ensures exists k :: 0 <= k < |s| && DayOf(s[k].createdAt) == day
  {
    if DayOf(s[|s| - 1].createdAt) != day {
      CountDayWitness(s[..|s| - 1], day);
      var k :| 0 <= k < |s| - 1 && DayOf(s[..|s| - 1][k].createdAt) == day;
      assert s[k] == s[..|s| - 1][k];
    }
  }

  /** A courier without an entry has no orders yet. */
  lemma NoEntryNoCount(stats: seq<CourierStat>, s: seq<Order>, id: Id)
    requires StatsCover(stats, s) && StatIndex(stats, id).None?
    ensures CountCourier(s, id) == 0
  {
    if CountCourier(s, id) > 0 {
      CountCourierWitness(s, id);
    }
  }

  /** A day without an entry has no orders yet. */
  lemma NoDayNoCount(days: seq<DayStat>, s: seq<Order>, day: int)
    requires DaysCover(days, s) && DayIndex(days, day).None?
    ensures CountDay(s, day) == 0 && DeliveredOnDay(s, day) == 0 && ValueOnDay(s, day) == 0.0
  {
    if CountDay(s, day) > 0 {
      CountDayWitness(s, day);
    }
    NothingOnEmptyDay(s, day);
  }

  lemma {:induction false} NothingOnEmptyDay(s: seq<Order>, day: int)
    requires CountDay(s, day) == 0
    ensures DeliveredOnDay(s, day) == 0 && ValueOnDay(s, day) == 0.0
  {
    if s != [] {
      NothingOnEmptyDay(s[..|s| - 1], day);
    }
  }

  lemma StatsCountStep(stats: seq<CourierStat>, s: seq<Order>, couriers: seq<Courier>, o: Order)
    requires StatsCount(stats, s, couriers) && StatsCover(stats, s) && StatsDistinct(stats)
    ensures StatsCount(if Truthy(o.courierId) then CountCourierOrder(stats, o.courierId.value, couriers) else stats, s + [o], couriers)
  {
    if !Truthy(o.courierId) {
      forall i | 0 <= i < |stats| ensures StatCounts(stats[i], s + [o], couriers) {
        CountCourierSnoc(s, o, stats[i].courierId);
      }
    } else {
      var id := o.courierId.value;
      var next := CountCourierOrder(stats, id, couriers);
      match StatIndex(stats, id)
      case Some(j) =>
        forall i | 0 <= i < |next| ensures StatCounts(next[i], s + [o], couriers) {
          CountCourierSnoc(s, o, stats[i].courierId);
          if i != j {
            assert stats[i].courierId != id by {
              assert stats[j].courierId == id;
            }
          }
        }
      case None =>
        NoEntryNoCount(stats, s, id);
        forall i | 0 <= i < |next| ensures StatCounts(next[i], s + [o], couriers) {
          CountCourierSnoc(s, o, next[i].courierId);
          if i < |stats| {
            assert next[i] == stats[i];
          }
        }
    }
  }

  lemma StatsDistinctStep(stats: seq<CourierStat>, id: Id, couriers: seq<Courier>)
    requires StatsDistinct(stats)
    ensures StatsDistinct(CountCourierOrder(stats, id, couriers))
  {
  }

  lemma StatsCoverStep(stats: seq<CourierStat>, s: seq<Order>, couriers: seq<Courier>, o: Order)
    requires StatsCover(stats, s)
    ensures StatsCover(if Truthy(o.courierId) then CountCourierOrder(stats, o.courierId.value, couriers) else stats, s + [o])
  {
    var next := if Truthy(o.courierId) then CountCourierOrder(stats, o.courierId.value, couriers) else stats;
    var s' := s + [o];
    forall k | 0 <= k < |s'| && Truthy(s'[k].courierId) ensures StatIndex(next, s'[k].courierId.value).Some? {
      if k < |s| {
        assert s'[k] == s[k];
        var i := StatIndex(stats, s[k].courierId.value).value;
        assert next[i].courierId == stats[i].courierId;
      } else {
        assert s'[k] == o;
        var i := StatIndex(next, o.courierId.value);
        if StatIndex(stats, o.courierId.value).None? {
          assert next[|stats|].courierId == o.courierId.value;
        } else {
          var j := StatIndex(stats, o.courierId.value).value;
          assert next[j].courierId == stats[j].courierId;
        }
      }
    }
  }

  lemma DaysCountStep(days: seq<DayStat>, s: seq<Order>, o: Order)
    requires DaysCount(days, s) && DaysCover(days, s) && DaysDistinct(days)
    ensures DaysCount(CountDayOrder(days, o), s + [o])
  {
    var d := DayOf(o.createdAt);
    var next := CountDayOrder(days, o);
    match DayIndex(days, d)
    case Some(j) =>
      forall i | 0 <= i < |next| ensures DayCounts(next[i], s + [o]) {
        DaySnoc(s, o, days[i].day);
        if i != j {
          assert days[i].day != d by {
            assert days[j].day == d;
          }
        }
      }
    case None =>
      NoDayNoCount(days, s, d);
      forall i | 0 <= i < |next| ensures DayCounts(next[i], s + [o]) {
        DaySnoc(s, o, next[i].day);
        if i < |days| {
          assert next[i] == days[i];
        }
      }
  }

  lemma DaysDistinctStep(days: seq<DayStat>, o: Order)
    requires DaysDistinct(days)
    ensures DaysDistinct(CountDayOrder(days, o))
  {
  }

  lemma DaysCoverStep(days: seq<DayStat>, s: seq<Order>, o: Order)
    requires DaysCover(days, s)
    ensures DaysCover(CountDayOrder(days, o), s + [o])
  {
    var next := CountDayOrder(days, o);
    var s' := s + [o];
    forall k | 0 <= k < |s'| ensures DayIndex(next, DayOf(s'[k].createdAt)).Some? {
      if k < |s| {
        assert s'[k] == s[k];
        var i := DayIndex(days, DayOf(s[k].createdAt)).value;
        assert next[i].day == days[i].day;
      } else if DayIndex(days, DayOf(o.createdAt)).None? {
        assert next[|days|].day == DayOf(o.createdAt);
      } else {
        var j := DayIndex(days, DayOf(o.createdAt)).value;
        assert next[j].day == days[j].day;
      }
    }
  }

  /** One more order adds one to the day counts. */
  lemma DaysSumStep(days: seq<DayStat>, o: Order)
    ensures Sum(CountDayOrder(days, o), DayCount) == Sum(days, DayCount) + 1.0
  {
    var next := CountDayOrder(days, o);
    match DayIndex(days, DayOf(o.createdAt))
    case Some(i) =>
      SumRemove(days, i, DayCount);
      SumRemove(next, i, DayCount);
      assert next[..i] + next[i + 1..] == days[..i] + days[i + 1..];
    case None =>
      var d := DayStat(DayOf(o.createdAt), 1, DeliveredPoint(o), Price(o));
      SumAppend(days, [d], DayCount);
      assert [d][..0] == [];
  }

  /** The fold counts every order once in the total, in the value and under its status and courier. */
  lemma {:induction false} TallyTotals(s: seq<Order>, couriers: seq<Courier>)
    ensures var t := TallyOf(s, couriers);
      && t.count == |s|
      && t.totalValue == Sum(s, Price)
      && (forall st :: Lookup(t.byStatus, st) == CountStatus(s, st))
      && (forall id :: id != "" ==> Lookup(t.byCourier, id) == CountCourier(s, id))
      && (forall id :: id in t.byCourier ==> id != "")
  {
    if s != [] {
      var init := s[..|s| - 1];
      var o := s[|s| - 1];
      TallyTotals(init, couriers);
      Snoc(s);
      forall id | id != "" ensures Lookup(TallyOf(s, couriers).byCourier, id) == CountCourier(s, id) {
        CountCourierSnoc(init, o, id);
      }
    }
  }

  /** The courier entries of the fold: one per courier with orders, counting them. */
  lemma {:induction false} TallyStats(s: seq<Order>, couriers: seq<Courier>)
    ensures var t := TallyOf(s, couriers);
      StatsCount(t.stats, s, couriers) && StatsDistinct(t.stats) && StatsCover(t.stats, s)
  {
    if s != [] {
      var init := s[..|s| - 1];
      var o := s[|s| - 1];
      var t := TallyOf(init, couriers);
      TallyStats(init, couriers);
      Snoc(s);
      StatsCountStep(t.stats, init, couriers, o);
      if Truthy(o.courierId) {
        StatsDistinctStep(t.stats, o.courierId.value, couriers);
      }
      StatsCoverStep(t.stats, init, couriers, o);
    }
  }

  /** The fold's days after one more order: that order counted into the days before it. */
  lemma TallyDaysSnoc(s: seq<Order>, couriers: seq<Courier>)
    requires s != []
    ensures TallyOf(s, couriers).days == CountDayOrder(TallyOf(s[..|s| - 1], couriers).days, s[|s| - 1])
  {
  }

  /** The day entries of the fold: one per day with orders, counting them, their counts adding up to all orders. */
  lemma {:induction false} TallyDays(s: seq<Order>, couriers: seq<Courier>)
    ensures var t := TallyOf(s, couriers);
      && DaysCount(t.days, s) && DaysDistinct(t.days) && DaysCover(t.days, s)
      && Sum(t.days, DayCount) == |s| as real
  {
    if s != [] {
      var init := s[..|s| - 1];
      var o := s[|s| - 1];
      var t := TallyOf(init, couriers);
      TallyDays(init, couriers);
      Snoc(s);
      TallyDaysSnoc(s, couriers);
      DaysCountStep(t.days, init, o);
      DaysDistinctStep(t.days, o);
      DaysCoverStep(t.days, init, o);
      DaysSumStep(t.days, o);
    }
  }

  /** The four statuses' counts add up to the number of orders. */
  lemma {:induction false} StatusCountsAddUp(s: seq<Order>)
    ensures CountStatus(s, Pending) + CountStatus(s, Queued) + CountStatus(s, OnRoute) + CountStatus(s, Delivered) == |s|
  {
    if s != [] {
      StatusCountsAddUp(s[..|s| - 1]);
    }
  }

  // ---------------------------------------------------------------- the report

  /** A covered order with the name of its courier. */
  datatype EnrichedOrder = EnrichedOrder(order: Order, courierName: Option<string>)

  function Enrich(o: Order, couriers: seq<Courier>): (e: EnrichedOrder)
    ensures e.order == o
    ensures !Truthy(o.courierId) ==> e.courierName.None?
    ensures Truthy(o.courierId) ==> e.courierName == CourierNameOf(couriers, o.courierId.value)
  {
    EnrichedOrder(o, if Truthy(o.courierId) then CourierNameOf(couriers, o.courierId.value) else None)
  }

  datatype ReportTotals = ReportTotals(
    count: nat,
    totalValue: real,
    byStatus: map<OrderStatus, nat>,
    byCourier: map<Id, nat>,
    deliveredCount: nat,
    deliveredRate: real,
    averageValue: real)

  datatype OrdersReport = OrdersReport(
    orders: seq<EnrichedOrder>,
    totals: ReportTotals,
    byDay: seq<DayStat>,
    courierStats: seq<CourierStat>)

  function DayKey(d: DayStat): real
  {
    d.day as real
  }

  /** `b.count - a.count`: a sort by descending count. */
  function DescendingCount(c: CourierStat): real
  {
    -(c.count as real)
  }

  /** The report built from the fold of the covered orders. */
  function ReportOf(covered: seq<Order>, t: Tally, couriers: seq<Courier>): OrdersReport
  {
    var delivered := Lookup(t.byStatus, Delivered);
    OrdersReport(
      seq(|covered|, i requires 0 <= i < |covered| => Enrich(covered[i], couriers)),
      ReportTotals(t.count, t.totalValue, t.byStatus, t.byCourier, delivered,
        if t.count > 0 then delivered as real / t.count as real else 0.0,
        if t.count > 0 then t.totalValue / t.count as real else 0.0),
      SortBy(t.days, DayKey),
      SortBy(t.stats, DescendingCount))
  }

  lemma AppendThenSet<T>(s: seq<T>, x: T, y: T)
    ensures (s + [x])[|s| := y] == s + [y]
  {
  }

  /** The `courierStats` map update for one more order of the courier `id`: create the entry at 0, then count. */
  method CountInCourierStats(stats: seq<CourierStat>, id: Id, couriers: seq<Courier>) returns (r: seq<CourierStat>)
    ensures r == CountCourierOrder(stats, id, couriers)
  {
    r := stats;
    var i := StatIndex(r, id);
    if i.None? {
      r := r + [CourierStat(id, CourierNameOf(couriers, id), 0)];
      i := Some(|r| - 1);
      AppendThenSet(stats, CourierStat(id, CourierNameOf(couriers, id), 0), CourierStat(id, CourierNameOf(couriers, id), 1));
    }
    r := r[i.value := r[i.value].(count := r[i.value].count + 1)];
  }

  /** The `perDay` map update for one more order: create the day's entry at 0, then count. */
  method CountInDay(days: seq<DayStat>, o: Order) returns (r: seq<DayStat>)
    ensures r == CountDayOrder(days, o)
  {
    r := days;
    var d := DayOf(o.createdAt);
    var j := DayIndex(r, d);
    if j.None? {
      r := r + [DayStat(d, 0, 0, 0.0)];
      j := Some(|r| - 1);
    }
    var daily := r[j.value];
    daily := daily.(count := daily.count + 1, totalValue := daily.totalValue + Price(o));
    if o.status == Delivered {
      daily := daily.(delivered := daily.delivered + 1);
    }
    if DayIndex(days, d).None? {
      AppendThenSet(days, DayStat(d, 0, 0, 0.0), daily);
    }
    r := r[j.value := daily];
  }

  /** The `reduce` callback: one order counted into the accumulator and the two maps. */
  method CountOrder(t: Tally, o: Order, couriers: seq<Courier>) returns (r: Tally)
    ensures r == Step(t, o, couriers)
  {
    r := t;
    r := r.(count := r.count + 1);
    r := r.(byStatus := r.byStatus[o.status := Lookup(r.byStatus, o.status) + 1]);
    r := r.(totalValue := r.totalValue + Price(o));
    if Truthy(o.courierId) {
      var id := o.courierId.value;
      r := r.(byCourier := r.byCourier[id := Lookup(r.byCourier, id) + 1]);
      var stats := CountInCourierStats(r.stats, id, couriers);
      r := r.(stats := stats);
    }
    var days := CountInDay(r.days, o);
    r := r.(days := days);
    StepFields(t, o, couriers, r);
  }

  /** A tally that agrees with one step of the `reduce` on every field is that step. */
  lemma StepFields(t: Tally, o: Order, couriers: seq<Courier>, r: Tally)
    requires r.count == t.count + 1 && r.totalValue == t.totalValue + Price(o)
    requires r.byStatus == t.byStatus[o.status := Lookup(t.byStatus, o.status) + 1]
    requires r.days == CountDayOrder(t.days, o)
    requires Truthy(o.courierId) ==>
      r.byCourier == t.byCourier[o.courierId.value := Lookup(t.byCourier, o.courierId.value) + 1]
      && r.stats == CountCourierOrder(t.stats, o.courierId.value, couriers)
    requires !Truthy(o.courierId) ==> r.byCourier == t.byCourier && r.stats == t.stats
    ensures r == Step(t, o, couriers)
  {
  }

  /** `getOrdersReport`. */
  method GetOrdersReport(orders: seq<Order>, couriers: seq<Courier>, from: Option<Millis>, to: Option<Millis>)
    returns (r: OrdersReport)
    ensures r == ReportOf(Covered(orders, from, to), TallyOf(Covered(orders, from, to), couriers), couriers)
  {
    var covered := Covered(orders, from, to);
    var acc := Tally(0, 0.0, map[], map[], [], []);
    var k := 0;
    while k < |covered|
      invariant k <= |covered|
      invariant acc == TallyOf(covered[..k], couriers)
    {
      acc := CountOrder(acc, covered[k], couriers);
      assert covered[..k + 1][..k] == covered[..k];
      k := k + 1;
    }
    assert covered[..k] == covered;
    r := ReportOf(covered, acc, couriers);
  }

  // ---------------------------------------------------------------- report properties

  /** The report lists exactly the orders in range, in store order, each with its courier's name. */
  lemma ReportOrders(orders: seq<Order>, couriers: seq<Courier>, from: Option<Millis>, to: Option<Millis>)
    ensures var covered := Covered(orders, from, to);
      var r := ReportOf(covered, TallyOf(covered, couriers), couriers);
      && |r.orders| == |covered|
      && (forall i :: 0 <= i < |covered| ==> r.orders[i] == Enrich(covered[i], couriers))
      && (forall o :: o in covered <==> o in orders && InRange(o, from, to))
  {
  }

  /**
   * The totals: the count of covered orders, their summed price, the status
   * counts adding up to it, the delivered count, and the rate and average,
   * both 0 without orders.
   */
  lemma ReportTotalsFaithful(covered: seq<Order>, couriers: seq<Courier>)
    ensures var r := ReportOf(covered, TallyOf(covered, couriers), couriers).totals;
      && r.count == |covered|
      && r.totalValue == Sum(covered, Price)
      && (forall st :: Lookup(r.byStatus, st) == CountStatus(covered, st))
      && Lookup(r.byStatus, Pending) + Lookup(r.byStatus, Queued) + Lookup(r.byStatus, OnRoute) + Lookup(r.byStatus, Delivered) == r.count
      && r.deliveredCount == CountStatus(covered, Delivered)
      && (r.count == 0 ==> r.averageValue == 0.0 && r.deliveredRate == 0.0)
      && (r.count > 0 ==> r.averageValue == r.totalValue / r.count as real && r.deliveredRate == r.deliveredCount as real / r.count as real)
      && (forall id :: id != "" ==> Lookup(r.byCourier, id) == CountCourier(covered, id))
  {
    TallyTotals(covered, couriers);
    StatusCountsAddUp(covered);
  }

  /**
   * The courier entries, most orders first: each counts its courier's
   * covered orders and carries its courier's name, and every covered order
   * with a courier has its courier's entry; orders without one are not
   * counted.
   */
  lemma ReportCourierStats(covered: seq<Order>, couriers: seq<Courier>)
    ensures var stats := ReportOf(covered, TallyOf(covered, couriers), couriers).courierStats;
      && SortedBy(stats, DescendingCount)
      && (forall c :: c in stats ==> StatCounts(c, covered, couriers))
      && (forall k :: 0 <= k < |covered| && Truthy(covered[k].courierId) ==>
            exists c :: c in stats && c.courierId == covered[k].courierId.value)
  {
    var t := TallyOf(covered, couriers);
    assert ReportOf(covered, t, couriers).courierStats == SortBy(t.stats, DescendingCount);
    TallyStats(covered, couriers);
    SortByMembers(t.stats, DescendingCount);
    StatsCountMembers(t.stats, SortBy(t.stats, DescendingCount), covered, couriers);
    StatsCoverMembers(t.stats, SortBy(t.stats, DescendingCount), covered);
  }

  /** Entries that each count their courier's orders still do after reordering. */
  lemma StatsCountMembers(stats: seq<CourierStat>, sorted: seq<CourierStat>, covered: seq<Order>, couriers: seq<Courier>)
    requires StatsCount(stats, covered, couriers) && forall c :: c in sorted <==> c in stats
    ensures forall c :: c in sorted ==> StatCounts(c, covered, couriers)
  {
    forall c | c in sorted ensures StatCounts(c, covered, couriers) {
      var i :| 0 <= i < |stats| && stats[i] == c;
    }
  }

  /** Every covered order with a courier still has its courier's entry after reordering. */
  lemma StatsCoverMembers(stats: seq<CourierStat>, sorted: seq<CourierStat>, covered: seq<Order>)
    requires StatsCover(stats, covered) && forall c :: c in sorted <==> c in stats
    ensures forall k :: 0 <= k < |covered| && Truthy(covered[k].courierId) ==>
      exists c :: c in sorted && c.courierId == covered[k].courierId.value
  {
    forall k | 0 <= k < |covered| && Truthy(covered[k].courierId)
      ensures exists c :: c in sorted && c.courierId == covered[k].courierId.value
    {
      var i := StatIndex(stats, covered[k].courierId.value).value;
      assert stats[i] in stats;
    }
  }

  /**
   * The days, earliest first: each counts its covered orders, the delivered
   * ones among them (never more than all) and their value, and the day
   * counts add up to the number of covered orders.
   */
  lemma ReportByDay(covered: seq<Order>, couriers: seq<Courier>)
    ensures var days := ReportOf(covered, TallyOf(covered, couriers), couriers).byDay;
      && SortedBy(days, DayKey)
      && (forall d :: d in days ==> DayCounts(d, covered) && d.delivered <= d.count)
      && (forall k :: 0 <= k < |covered| ==> exists d :: d in days && d.day == DayOf(covered[k].createdAt))
      && Sum(days, DayCount) == |covered| as real
  {
    var t := TallyOf(covered, couriers);
    var sorted := SortBy(t.days, DayKey);
    assert ReportOf(covered, t, couriers).byDay == sorted;
    TallyDays(covered, couriers);
    SortByMembers(t.days, DayKey);
    SumPermutation(t.days, sorted, DayCount);
    forall d | d in sorted ensures DayCounts(d, covered) && d.delivered <= d.count {
      var i :| 0 <= i < |t.days| && t.days[i] == d;
      DeliveredAtMostCount(covered, d.day);
    }
    forall k | 0 <= k < |covered|
      ensures exists d :: d in sorted && d.day == DayOf(covered[k].createdAt)
    {
      var i := DayIndex(t.days, DayOf(covered[k].createdAt)).value;
      assert t.days[i] in t.days;
    }
  }
}

=== FILE: restaurant.dfy ===
/**
 * The restaurant profile (`src/restaurantService.ts`): one shared object the
 * operators edit. An update is validated first and then written field by
 * field into that same object, which is returned.
 *
 * Numbers arriving from the request are JavaScript numbers (`Num`), since the
 * validation tests them for NaN.
 */
module Restaurant {
  import opened Wrappers
  import opened Text
  import opened JsNumbers
  import opened DispatchModel

  /** The profile's fields as a value. */
  datatype ProfileFields = ProfileFields(
    id: Id,
    name: string,
    address: string,
    lat: Num,
    lng: Num,
    contactPhone: Option<string>,
    maxRadiusKm: Num,
    minBatch: Option<Num>,
    maxBatch: Option<Num>,
    maxWaitMinutes: Option<Num>,
    smartBatchHoldMinutes: Option<Num>)

  /** The body of an update; an optional field is absent when it is not a number. */
  datatype ProfileUpdate = ProfileUpdate(
    name: string,
    address: string,
    lat: Num,
    lng: Num,
    contactPhone: Option<string>,
    maxRadiusKm: Num,
    minBatch: Option<Num>,
    maxBatch: Option<Num>,
    maxWaitMinutes: Option<Num>,
    smartBatchHoldMinutes: Option<Num>)

  datatype ProfileError = NameRequired | AddressRequired | InvalidCoordinates | RadiusNotPositive
  {
    function Message(): string
    {
      match this
      case NameRequired => "Nome do restaurante é obrigatório."
      case AddressRequired => "Endereço do restaurante é obrigatório."
      case InvalidCoordinates => "Coordenadas inválidas."
      case RadiusNotPositive => "O raio máximo precisa ser maior que zero."
    }
  }

  /**
   * The validation, in the source's order: a blank name, a blank address,
   * a NaN coordinate, a radius `<= 0` (a NaN radius passes, as every
   * comparison with NaN is false).
   */
  function ProfileFailure(data: ProfileUpdate): (e: Option<ProfileError>)
    ensures e == Some(NameRequired) <==> Trim(data.name) == ""
    ensures e == Some(AddressRequired) <==> Trim(data.name) != "" && Trim(data.address) == ""
    ensures e == Some(InvalidCoordinates) <==>
      Trim(data.name) != "" && Trim(data.address) != "" && (data.lat.NaN? || data.lng.NaN?)
    ensures e == Some(RadiusNotPositive) <==>
      Trim(data.name) != "" && Trim(data.address) != "" && !data.lat.NaN? && !data.lng.NaN? && AtMost(data.maxRadiusKm, 0.0)
  {
    if Trim(data.name) == "" then Some(NameRequired)
    else if Trim(data.address) == "" then Some(AddressRequired)
    else if data.lat.NaN? || data.lng.NaN? then Some(InvalidCoordinates)
    else if AtMost(data.maxRadiusKm, 0.0) then Some(RadiusNotPositive)
    else None
  }

  /** `value?.trim() || undefined`. */
  function TrimmedOrAbsent(value: Option<string>): (r: Option<string>)
    ensures r.Some? <==> value.Some? && Trim(value.value) != ""
    ensures r.Some? ==> r.value == Trim(value.value)
  {
    if value.Some? && Trim(value.value) != "" then Some(Trim(value.value)) else None
  }

  /** The profile after the field writes of an accepted update. */
  function Applied(f: ProfileFields, data: ProfileUpdate): (r: ProfileFields)
    ensures r.id == f.id
    ensures r.name == Trim(data.name) && r.address == Trim(data.address)
    ensures r.lat == data.lat && r.lng == data.lng && r.maxRadiusKm == data.maxRadiusKm
    ensures r.contactPhone == TrimmedOrAbsent(data.contactPhone)
    ensures r.minBatch == (if data.minBatch.Some? then data.minBatch else f.minBatch)
    ensures r.maxBatch == (if data.maxBatch.Some? then data.maxBatch else f.maxBatch)
    ensures r.maxWaitMinutes == (if data.maxWaitMinutes.Some? then data.maxWaitMinutes else f.maxWaitMinutes)
    ensures r.smartBatchHoldMinutes == (if data.smartBatchHoldMinutes.Some? then data.smartBatchHoldMinutes else f.smartBatchHoldMinutes)
  {
    ProfileFields(
      f.id, Trim(data.name), Trim(data.address), data.lat, data.lng,
      TrimmedOrAbsent(data.contactPhone), data.maxRadiusKm,
      if data.minBatch.Some? then data.minBatch else f.minBatch,
      if data.maxBatch.Some? then data.maxBatch else f.maxBatch,
      if data.maxWaitMinutes.Some? then data.maxWaitMinutes else f.maxWaitMinutes,
      if data.smartBatchHoldMinutes.Some? then data.smartBatchHoldMinutes else f.smartBatchHoldMinutes)
  }

  /** Submitting the same update twice leaves the profile as one submission does. */
  lemma AppliedIdempotent(f: ProfileFields, data: ProfileUpdate)
    ensures Applied(Applied(f, data), data) == Applied(f, data)
  {
    TrimIdempotent(data.name);
    TrimIdempotent(data.address);
  }

  /** An accepted update always stores a non-blank trimmed name and address and a positive or NaN radius. */
  lemma AcceptedProfileValid(f: ProfileFields, data: ProfileUpdate)
    requires ProfileFailure(data).None?
    ensures var r := Applied(f, data);
      && r.name != "" && Trim(r.name) == r.name && r.address != "" && Trim(r.address) == r.address
      && !r.lat.NaN? && !r.lng.NaN? && !AtMost(r.maxRadiusKm, 0.0)
  {
    TrimIdempotent(data.name);
    TrimIdempotent(data.address);
  }

  /** The shared `restaurantProfile` object. */
  class RestaurantProfile {
    var id: Id
    var name: string
    var address: string
    var lat: Num
    var lng: Num
    var contactPhone: Option<string>
    var maxRadiusKm: Num
    var minBatch: Option<Num>
    var maxBatch: Option<Num>
    var maxWaitMinutes: Option<Num>
    var smartBatchHoldMinutes: Option<Num>

    constructor (f: ProfileFields)
      ensures Fields() == f
    {
      id, name, address, lat, lng := f.id, f.name, f.address, f.lat, f.lng;
      contactPhone, maxRadiusKm := f.contactPhone, f.maxRadiusKm;
      minBatch, maxBatch, maxWaitMinutes, smartBatchHoldMinutes := f.minBatch, f.maxBatch, f.maxWaitMinutes, f.smartBatchHoldMinutes;
    }

    function Fields(): ProfileFields
      reads this
    {
      ProfileFields(id, name, address, lat, lng, contactPhone, maxRadiusKm, minBatch, maxBatch, maxWaitMinutes, smartBatchHoldMinutes)
    }

    /** Writes every field of the profile. */
    method Store(f: ProfileFields)
      modifies this
      ensures Fields() == f
    {
      id, name, address, lat, lng := f.id, f.name, f.address, f.lat, f.lng;
      contactPhone, maxRadiusKm := f.contactPhone, f.maxRadiusKm;
      minBatch, maxBatch, maxWaitMinutes, smartBatchHoldMinutes := f.minBatch, f.maxBatch, f.maxWaitMinutes, f.smartBatchHoldMinutes;
    }

    /**
     * `updateRestaurantProfile`: a rejected update writes nothing; an accepted
     * one writes the fields and returns this same object.
     */
    method Update(data: ProfileUpdate) returns (r: Result<RestaurantProfile, ProfileError>)
      modifies this
      ensures ProfileFailure(data).Some? ==> r == Failure(ProfileFailure(data).value) && Fields() == old(Fields())
      ensures ProfileFailure(data).None? ==> r == Success(this) && Fields() == Applied(old(Fields()), data)
    {
      var failure := ProfileFailure(data);
      if failure.Some? {
        return Failure(failure.value);
      }
      Store(Applied(Fields(), data));
      r := Success(this);
    }
  }
}

=== FILE: route_service.dfy ===
/**
 * The route lifecycle of `src/routeService.ts`: the courier's active route,
 * assignment of a waiting route to a courier (by hand or by the fairness
 * suggestion), manual route creation, progress recomputation and route start.
 *
 * Every operation that can fail checks all of its guards before it changes
 * anything, so a failure leaves the store as it was.
 */
module RouteService {
  import opened Wrappers
  import opened Text
  import opened Seqs
  import opened Sorting
  import opened JsNumbers
  import opened DispatchModel
  import opened Scheduler

  // ---------------------------------------------------------------- latest route of a courier

  /** A route carrying the courier's id; with `activeOnly`, one that is not DONE yet. */
  predicate Carries(r: Route, courierId: Id, activeOnly: bool)
  {
    r.courierId == Some(courierId) && (!activeOnly || r.status != Done)
  }

  /**
   * Among the first `n` routes carrying the courier, the position of the first
   * one with the latest `createdAt`; absent when none carries it.
   */
  function LatestRoute(routes: seq<Route>, courierId: Id, activeOnly: bool, n: nat): (k: Option<nat>)
    requires n <= |routes|
    ensures k.None? <==> forall j :: 0 <= j < n ==> !Carries(routes[j], courierId, activeOnly)
    ensures k.Some? ==> k.value < n && Carries(routes[k.value], courierId, activeOnly)
    ensures k.Some? ==> forall j :: 0 <= j < n && Carries(routes[j], courierId, activeOnly) ==>
      routes[j].createdAt <= routes[k.value].createdAt
    ensures k.Some? ==> forall j :: 0 <= j < k.value && Carries(routes[j], courierId, activeOnly) ==>
      routes[j].createdAt < routes[k.value].createdAt
  {
    if n == 0 then None
    else
      var k := LatestRoute(routes, courierId, activeOnly, n - 1);
      if !Carries(routes[n - 1], courierId, activeOnly) then k
      else if k.None? || routes[n - 1].createdAt > routes[k.value].createdAt then Some(n - 1)
      else k
  }

  /**
   * `getCourierActiveRoute`: the courier's routes that are not DONE, sorted
   * newest first by a stable sort, and the first of them.
   */
  function CourierActiveRoute(routes: seq<Route>, courierId: Id): Option<Route>
  {
    match LatestRoute(routes, courierId, true, |routes|)
    case None => None
    case Some(k) => Some(routes[k])
  }

  /** The active route is the courier's newest route that is not DONE; there is none only when no such route exists. */
  lemma CourierActiveRouteSpec(routes: seq<Route>, courierId: Id)
    ensures CourierActiveRoute(routes, courierId).None? <==>
      forall j :: 0 <= j < |routes| ==> routes[j].courierId != Some(courierId) || routes[j].status == Done
    ensures CourierActiveRoute(routes, courierId).Some? ==>
      var r := CourierActiveRoute(routes, courierId).value;
      && r in routes && r.courierId == Some(courierId) && r.status != Done
      && forall j :: 0 <= j < |routes| && routes[j].courierId == Some(courierId) && routes[j].status != Done ==>
           routes[j].createdAt <= r.createdAt
  {
    var k := LatestRoute(routes, courierId, true, |routes|);
    if k.None? {
      assert forall j :: 0 <= j < |routes| ==> !Carries(routes[j], courierId, true);
    } else {
      forall j | 0 <= j < |routes| && routes[j].courierId == Some(courierId) && routes[j].status != Done
        ensures routes[j].createdAt <= routes[k.value].createdAt
      {
        assert Carries(routes[j], courierId, true);
      }
    }
  }

  /**
   * `getCourierLastAssignment`: the latest `createdAt` of the routes that carry
   * the courier's id, whatever their status; absent when there is none.
   */
  function LastAssignment(routes: seq<Route>, courierId: Id): (t: Option<Millis>)
    ensures t.None? <==> forall j :: 0 <= j < |routes| ==> routes[j].courierId != Some(courierId)
    ensures t.Some? ==> exists j :: 0 <= j < |routes| && routes[j].courierId == Some(courierId) && routes[j].createdAt == t.value
    ensures t.Some? ==> forall j :: 0 <= j < |routes| && routes[j].courierId == Some(courierId) ==> routes[j].createdAt <= t.value
  {
    var k := LatestRoute(routes, courierId, false, |routes|);
    assert forall j :: 0 <= j < |routes| ==> (Carries(routes[j], courierId, false) <==> routes[j].courierId == Some(courierId));
    match k
    case None => None
    case Some(i) => Some(routes[i].createdAt)
  }

  // ---------------------------------------------------------------- courier suggestion

  /** The comparator of the ranking: never assigned first, then the earlier last assignment. */
  predicate RanksBefore(a: Option<Millis>, b: Option<Millis>)
  {
    (a.None? && b.Some?) || (a.Some? && b.Some? && a.value < b.value)
  }

  /**
   * An AVAILABLE courier together with its last assignment, as the ranking
   * sees it, and its position in the couriers list.
   */
  datatype Candidate = Candidate(index: nat, courier: Courier, last: Option<Millis>)

  /** The AVAILABLE couriers among the first `n`, in their order, each with `getCourierLastAssignment`. */
  function Candidates(couriers: seq<Courier>, routes: seq<Route>, n: nat): seq<Candidate>
    requires n <= |couriers|
  {
    if n == 0 then []
    else
      var init := Candidates(couriers, routes, n - 1);
      if couriers[n - 1].status == Available then
        init + [Candidate(n - 1, couriers[n - 1], LastAssignment(routes, couriers[n - 1].id))]
      else init
  }

  /**
   * `cands` lists the AVAILABLE couriers among the first `n` in their order:
   * each candidate records its position and the courier's last assignment,
   * the positions increase, and every AVAILABLE courier has its candidate.
   */
  predicate InCouriersOrder(couriers: seq<Courier>, routes: seq<Route>, cands: seq<Candidate>, n: nat)
    requires n <= |couriers|
  {
    && (forall k :: 0 <= k < |cands| ==>
          && cands[k].index < n && couriers[cands[k].index] == cands[k].courier
          && cands[k].courier.status == Available && cands[k].last == LastAssignment(routes, cands[k].courier.id))
    && (forall a, b :: 0 <= a < b < |cands| ==> cands[a].index < cands[b].index)
    && (forall j :: 0 <= j < n && couriers[j].status == Available ==> exists k :: 0 <= k < |cands| && cands[k].index == j)
  }

  lemma CandidateAppended(couriers: seq<Courier>, routes: seq<Route>, init: seq<Candidate>, c: Candidate, n: nat)
    requires 0 < n <= |couriers| && InCouriersOrder(couriers, routes, init, n - 1)
    requires couriers[n - 1].status == Available
    requires c == Candidate(n - 1, couriers[n - 1], LastAssignment(routes, couriers[n - 1].id))
    ensures InCouriersOrder(couriers, routes, init + [c], n)
  {
    var r := init + [c];
    assert forall k :: 0 <= k < |init| ==> r[k] == init[k];
    assert r[|init|] == c;
    forall a, b | 0 <= a < b < |r| ensures r[a].index < r[b].index {
      assert r[a] == init[a];
      if b < |init| {
        assert r[b] == init[b];
      }
    }
    forall j | 0 <= j < n && couriers[j].status == Available ensures exists k :: 0 <= k < |r| && r[k].index == j {
      if j == n - 1 {
        assert r[|init|].index == j;
      } else {
        var k :| 0 <= k < |init| && init[k].index == j;
        assert r[k].index == j;
      }
    }
  }

  lemma CourierSkipped(couriers: seq<Courier>, routes: seq<Route>, init: seq<Candidate>, n: nat)
    requires 0 < n <= |couriers| && InCouriersOrder(couriers, routes, init, n - 1)
    requires couriers[n - 1].status != Available
    ensures InCouriersOrder(couriers, routes, init, n)
  {
  }

  /** The candidates are the AVAILABLE couriers in the couriers' order, none missing; empty exactly when none is AVAILABLE. */
  lemma {:induction false} CandidatesInOrder(couriers: seq<Courier>, routes: seq<Route>, n: nat)
    requires n <= |couriers|
    ensures InCouriersOrder(couriers, routes, Candidates(couriers, routes, n), n)
    ensures Candidates(couriers, routes, n) == [] <==> forall j :: 0 <= j < n ==> couriers[j].status != Available
  {
    var r := Candidates(couriers, routes, n);
    if n > 0 {
      var init := Candidates(couriers, routes, n - 1);
      CandidatesInOrder(couriers, routes, n - 1);
      if couriers[n - 1].status == Available {
        CandidateAppended(couriers, routes, init, Candidate(n - 1, couriers[n - 1], LastAssignment(routes, couriers[n - 1].id)), n);
      } else {
        CourierSkipped(couriers, routes, init, n);
      }
    }
    if r != [] {
      assert couriers[r[0].index].status == Available;
    }
  }

  /**
   * `ranked[0]` of the stably sorted first `n` candidates: the first candidate
   * that no other candidate ranks before.
   */
  function FirstRanked(cands: seq<Candidate>, n: nat): (k: nat)
    requires 0 < n <= |cands|
    ensures k < n
    ensures forall j :: 0 <= j < n ==> !RanksBefore(cands[j].last, cands[k].last)
    ensures forall j :: 0 <= j < k ==> RanksBefore(cands[k].last, cands[j].last)
  {
    if n == 1 then 0
    else
      var k := FirstRanked(cands, n - 1);
      if RanksBefore(cands[n - 1].last, cands[k].last) then n - 1 else k
  }

  const NoRoutesYet: string := "Ainda não recebeu rotas hoje"
  const LastRoutePrefix: string := "Última rota iniciada em "

  /**
   * The courier proposed for a route and why; `showDate` stands for `toLocaleString`.
   * `position` is where the courier object sits in the couriers array: the
   * model's stand-in for the object the source hands back.
   */
  datatype Suggestion = Suggestion(courier: Courier, position: nat, lastAssignment: Option<Millis>, reason: string)

  function Reason(last: Option<Millis>, showDate: Millis -> string): string
  {
    match last
    case None => NoRoutesYet
    case Some(t) => LastRoutePrefix + showDate(t)
  }

  /** `suggestCourierForRoute`. */
  function SuggestCourier(couriers: seq<Courier>, routes: seq<Route>, routeId: Id, showDate: Millis -> string): (r: Result<Suggestion, DispatchError>)
    ensures r.Failure? ==> r.error in {RouteNotFound, RouteAlreadyAssigned, NoCourierAvailable}
    ensures r == Failure(RouteNotFound) <==> FindRoute(routes, routeId).None?
    ensures r == Failure(RouteAlreadyAssigned) <==>
      FindRoute(routes, routeId).Some? && routes[FindRoute(routes, routeId).value].status != AwaitingCourier
    ensures r == Failure(NoCourierAvailable) <==>
      FindRoute(routes, routeId).Some? && routes[FindRoute(routes, routeId).value].status == AwaitingCourier &&
      forall j :: 0 <= j < |couriers| ==> couriers[j].status != Available
    ensures r.Success? ==> r.value.position < |couriers| && couriers[r.value.position] == r.value.courier
  {
    match FindRoute(routes, routeId)
    case None => Failure(RouteNotFound)
    case Some(ri) =>
      if routes[ri].status != AwaitingCourier then Failure(RouteAlreadyAssigned)
      else
        var cands := Candidates(couriers, routes, |couriers|);
        CandidatesInOrder(couriers, routes, |couriers|);
        if cands == [] then Failure(NoCourierAvailable)
        else
          var k := FirstRanked(cands, |cands|);
          Success(Suggestion(cands[k].courier, cands[k].index, cands[k].last, Reason(cands[k].last, showDate)))
  }

  /**
   * The suggestion is fair: an AVAILABLE courier; one never assigned beats any
   * courier with a route, otherwise the earliest last assignment wins, and the
   * reason says "no routes yet" exactly when the courier never had one. Ties
   * keep the list's order: every AVAILABLE courier before the suggested
   * courier's position ranks strictly after it.
   */
  lemma SuggestionIsFair(couriers: seq<Courier>, routes: seq<Route>, routeId: Id, showDate: Millis -> string)
    requires SuggestCourier(couriers, routes, routeId, showDate).Success?
    ensures var sg := SuggestCourier(couriers, routes, routeId, showDate).value;
      && sg.courier in couriers && sg.courier.status == Available
      && sg.lastAssignment == LastAssignment(routes, sg.courier.id)
      && (sg.reason == NoRoutesYet <==> forall j :: 0 <= j < |routes| ==> routes[j].courierId != Some(sg.courier.id))
      && (forall c :: c in couriers && c.status == Available ==>
            (LastAssignment(routes, c.id).None? ==> sg.lastAssignment.None?) &&
            (sg.lastAssignment.Some? && LastAssignment(routes, c.id).Some? ==>
               sg.lastAssignment.value <= LastAssignment(routes, c.id).value))
    ensures forall j :: 0 <= j < SuggestCourier(couriers, routes, routeId, showDate).value.position && couriers[j].status == Available ==>
      RanksBefore(SuggestCourier(couriers, routes, routeId, showDate).value.lastAssignment, LastAssignment(routes, couriers[j].id))
  {
    var sg := SuggestCourier(couriers, routes, routeId, showDate).value;
    var cands := Candidates(couriers, routes, |couriers|);
    var k := FirstRanked(cands, |cands|);
    assert sg.courier == cands[k].courier && sg.position == cands[k].index && sg.lastAssignment == cands[k].last;
    CandidatesInOrder(couriers, routes, |couriers|);
    FirstRankedFair(couriers, routes, cands, k);
    FirstRankedFirstAmongTies(couriers, routes, cands, k);
    if sg.lastAssignment.Some? {
      assert sg.reason == LastRoutePrefix + showDate(sg.lastAssignment.value);
      assert sg.reason[0] != NoRoutesYet[0];
    }
  }

  /** The first-ranked candidate is ranked no later than any AVAILABLE courier. */
  lemma FirstRankedFair(couriers: seq<Courier>, routes: seq<Route>, cands: seq<Candidate>, k: nat)
    requires InCouriersOrder(couriers, routes, cands, |couriers|)
    requires k < |cands|
    requires forall j :: 0 <= j < |cands| ==> !RanksBefore(cands[j].last, cands[k].last)
    ensures forall c :: c in couriers && c.status == Available ==>
      (LastAssignment(routes, c.id).None? ==> cands[k].last.None?) &&
      (cands[k].last.Some? && LastAssignment(routes, c.id).Some? ==> cands[k].last.value <= LastAssignment(routes, c.id).value)
  {
    forall c | c in couriers && c.status == Available
      ensures !RanksBefore(LastAssignment(routes, c.id), cands[k].last)
    {
      var j :| 0 <= j < |couriers| && couriers[j] == c;
      var m :| 0 <= m < |cands| && cands[m].index == j;
      assert cands[m].last == LastAssignment(routes, c.id);
    }
  }

  /** Ties keep the list's order: the first-ranked candidate strictly beats every AVAILABLE courier listed before it. */
  lemma FirstRankedFirstAmongTies(couriers: seq<Courier>, routes: seq<Route>, cands: seq<Candidate>, k: nat)
    requires InCouriersOrder(couriers, routes, cands, |couriers|)
    requires k < |cands|
    requires forall j :: 0 <= j < k ==> RanksBefore(cands[k].last, cands[j].last)
    ensures cands[k].courier in couriers
    ensures forall j :: 0 <= j < cands[k].index && couriers[j].status == Available ==>
      RanksBefore(cands[k].last, LastAssignment(routes, couriers[j].id))
  {
    assert couriers[cands[k].index] == cands[k].courier;
    forall j | 0 <= j < cands[k].index && couriers[j].status == Available
      ensures RanksBefore(cands[k].last, LastAssignment(routes, couriers[j].id))
    {
      var m :| 0 <= m < |cands| && cands[m].index == j;
      assert cands[m].index < cands[k].index;
      assert m < k;
      assert RanksBefore(cands[k].last, cands[m].last);
      assert cands[m].last == LastAssignment(routes, couriers[j].id);
    }
  }

  // ---------------------------------------------------------------- member counts

  /** An order listed by the route. */
  predicate IsMember(o: Order, ids: seq<Id>)
  {
    o.id in ids
  }

  /** `orders.filter(o => ids.includes(o.id)).length` over the first `n` orders. */
  function CountMembers(orders: seq<Order>, ids: seq<Id>, n: nat): (c: nat)
    requires n <= |orders|
    ensures c <= n
  {
    if n == 0 then 0 else CountMembers(orders, ids, n - 1) + (if IsMember(orders[n - 1], ids) then 1 else 0)
  }

  /** The members among the first `n` orders that are DELIVERED. */
  function CountDelivered(orders: seq<Order>, ids: seq<Id>, n: nat): (c: nat)
    requires n <= |orders|
  {
    if n == 0 then 0
    else CountDelivered(orders, ids, n - 1) + (if IsMember(orders[n - 1], ids) && orders[n - 1].status == Delivered then 1 else 0)
  }

  /** No member counted means no order is listed by the route. */
  lemma {:induction false} CountMembersZero(orders: seq<Order>, ids: seq<Id>, n: nat)
    requires n <= |orders|
    ensures CountMembers(orders, ids, n) == 0 <==> forall i :: 0 <= i < n ==> !IsMember(orders[i], ids)
  {
    if n > 0 {
      CountMembersZero(orders, ids, n - 1);
    }
  }

  /** The delivered members are at most all members, and all of them exactly when every member is DELIVERED. */
  lemma {:induction false} CountDeliveredSpec(orders: seq<Order>, ids: seq<Id>, n: nat)
    requires n <= |orders|
    ensures CountDelivered(orders, ids, n) <= CountMembers(orders, ids, n)
    ensures CountDelivered(orders, ids, n) == CountMembers(orders, ids, n) <==>
      forall i :: 0 <= i < n && IsMember(orders[i], ids) ==> orders[i].status == Delivered
  {
    if n > 0 {
      CountDeliveredSpec(orders, ids, n - 1);
    }
  }

  // ---------------------------------------------------------------- assignment

  /** The failure of `assignRouteToCourier`, checked in the source's order; absent when it succeeds. */
  function AssignFailure(orders: seq<Order>, couriers: seq<Courier>, routes: seq<Route>, routeId: Id, courierId: Id): (e: Option<DispatchError>)
    ensures e == Some(RouteNotFound) <==> FindRoute(routes, routeId).None?
    ensures e == Some(RouteAlreadyAssigned) <==>
      FindRoute(routes, routeId).Some? && routes[FindRoute(routes, routeId).value].status != AwaitingCourier
    ensures e == Some(CourierNotFound) <==>
      FindRoute(routes, routeId).Some? && routes[FindRoute(routes, routeId).value].status == AwaitingCourier &&
      FindCourier(couriers, courierId).None?
    ensures e == Some(CourierNotAvailable) <==>
      FindRoute(routes, routeId).Some? && routes[FindRoute(routes, routeId).value].status == AwaitingCourier &&
      FindCourier(couriers, courierId).Some? && couriers[FindCourier(couriers, courierId).value].status != Available
    ensures e == Some(RouteWithoutOrders) <==>
      FindRoute(routes, routeId).Some? && routes[FindRoute(routes, routeId).value].status == AwaitingCourier &&
      FindCourier(couriers, courierId).Some? && couriers[FindCourier(couriers, courierId).value].status == Available &&
      CountMembers(orders, routes[FindRoute(routes, routeId).value].orderIds, |orders|) == 0
    ensures e.Some? ==> e.value in {RouteNotFound, RouteAlreadyAssigned, CourierNotFound, CourierNotAvailable, RouteWithoutOrders}
  {
    match FindRoute(routes, routeId)
    case None => Some(RouteNotFound)
    case Some(ri) =>
      if routes[ri].status != AwaitingCourier then Some(RouteAlreadyAssigned)
      else
        match FindCourier(couriers, courierId)
        case None => Some(CourierNotFound)
        case Some(ci) =>
          if couriers[ci].status != Available then Some(CourierNotAvailable)
          else if CountMembers(orders, routes[ri].orderIds, |orders|) == 0 then Some(RouteWithoutOrders)
          else None
  }

  /** The orders after every member of a route is put on it with the courier; the others are as they were. */
  function PutMembersOnRoute(orders: seq<Order>, ids: seq<Id>, courierId: Id, routeId: Id): (r: seq<Order>)
    ensures |r| == |orders|
  {
    seq(|orders|, i requires 0 <= i < |orders| =>
      if IsMember(orders[i], ids) then PutOnRoute(orders[i], courierId, routeId) else orders[i])
  }

  /** `routeOrders.forEach(order => { ON_ROUTE, courierId, routeId })` over every member. */
  method SetMembersOnRoute(s: Store, ids: seq<Id>, courierId: Id, routeId: Id)
    modifies s
    ensures s.orders == PutMembersOnRoute(old(s.orders), ids, courierId, routeId)
    ensures s.couriers == old(s.couriers) && s.routes == old(s.routes)
  {
    ghost var orders := s.orders;
    var i := 0;
    while i < |s.orders|
      invariant 0 <= i <= |s.orders| && |s.orders| == |orders|
      invariant s.couriers == old(s.couriers) && s.routes == old(s.routes)
      invariant forall j :: 0 <= j < i ==> s.orders[j] == PutMembersOnRoute(orders, ids, courierId, routeId)[j]
      invariant forall j :: i <= j < |orders| ==> s.orders[j] == orders[j]
    {
      if s.orders[i].id in ids {
        s.orders := s.orders[i := PutOnRoute(s.orders[i], courierId, routeId)];
      }
      i := i + 1;
    }
  }

  /**
   * `assignRouteToCourier`: on success every member order is ON_ROUTE with the
   * courier and the route, the route is ASSIGNED to the courier and the courier
   * is ASSIGNED; on failure nothing changes. Returns the route's position.
   */
  method AssignRouteToCourier(s: Store, routeId: Id, courierId: Id) returns (r: Result<nat, DispatchError>)
    modifies s
    ensures r.Failure? <==> AssignFailure(old(s.orders), old(s.couriers), old(s.routes), routeId, courierId).Some?
    ensures r.Failure? ==> r.error == AssignFailure(old(s.orders), old(s.couriers), old(s.routes), routeId, courierId).value
    ensures r.Failure? ==> s.orders == old(s.orders) && s.couriers == old(s.couriers) && s.routes == old(s.routes)
    ensures r.Success? ==>
      var ri := FindRoute(old(s.routes), routeId).value;
      var ci := FindCourier(old(s.couriers), courierId).value;
      var route := old(s.routes[ri]);
      && r.value == ri
      && s.orders == PutMembersOnRoute(old(s.orders), route.orderIds, courierId, route.id)
      && s.routes == old(s.routes)[ri := route.(courierId := Some(courierId), status := RouteStatus.Assigned)]
      && s.couriers == old(s.couriers)[ci := old(s.couriers[ci]).(status := CourierStatus.Assigned)]
  {
    var failure := AssignFailure(s.orders, s.couriers, s.routes, routeId, courierId);
    if failure.Some? {
      return Failure(failure.value);
    }
    var ri := FindRoute(s.routes, routeId).value;
    var ci := FindCourier(s.couriers, courierId).value;
    var route := s.routes[ri];
    var courier := s.couriers[ci];
    SetMembersOnRoute(s, route.orderIds, courier.id, route.id);
    s.routes := s.routes[ri := route.(courierId := Some(courier.id), status := RouteStatus.Assigned)];
    s.couriers := s.couriers[ci := courier.(status := CourierStatus.Assigned)];
    r := Success(ri);
  }

  /** Assignment changes only member orders, and a successful one leaves no order of the route behind. */
  lemma AssignTouchesOnlyMembers(orders: seq<Order>, ids: seq<Id>, courierId: Id, routeId: Id)
    ensures var after := PutMembersOnRoute(orders, ids, courierId, routeId);
      && (forall i :: 0 <= i < |orders| && !IsMember(orders[i], ids) ==> after[i] == orders[i])
      && (forall i :: 0 <= i < |orders| && IsMember(orders[i], ids) ==>
            after[i].status == OnRoute && after[i].courierId == Some(courierId) && after[i].routeId == Some(routeId)
            && after[i].id == orders[i].id)
  {
  }

  /**
   * `assignRouteAutomatically`: the suggestion, then assignment to exactly the
   * suggested courier. Returns the route's position, the suggested courier
   * object as it stands after the assignment (the source hands back the object
   * the assignment has just updated) and the reason.
   */
  method AssignRouteAutomatically(s: Store, routeId: Id, showDate: Millis -> string)
    returns (r: Result<(nat, Courier, string), DispatchError>)
    modifies s
    ensures var sg := SuggestCourier(old(s.couriers), old(s.routes), routeId, showDate);
      && (sg.Failure? ==> r == Failure(sg.error) && s.orders == old(s.orders) && s.couriers == old(s.couriers) && s.routes == old(s.routes))
      && (sg.Success? ==>
            var failure := AssignFailure(old(s.orders), old(s.couriers), old(s.routes), routeId, sg.value.courier.id);
            && (failure.Some? ==> r == Failure(failure.value) && s.orders == old(s.orders) && s.couriers == old(s.couriers) && s.routes == old(s.routes))
            && (failure.None? ==>
                  var ri := FindRoute(old(s.routes), routeId).value;
                  var route := old(s.routes[ri]);
                  var ci := FindCourier(old(s.couriers), sg.value.courier.id).value;
                  && s.orders == PutMembersOnRoute(old(s.orders), route.orderIds, sg.value.courier.id, route.id)
                  && s.routes == old(s.routes)[ri := route.(courierId := Some(sg.value.courier.id), status := RouteStatus.Assigned)]
                  && s.couriers == old(s.couriers)[ci := old(s.couriers[ci]).(status := CourierStatus.Assigned)]
                  && r == Success((ri, s.couriers[sg.value.position], sg.value.reason))
                  && (ci == sg.value.position <==>
                       forall j :: 0 <= j < sg.value.position ==> old(s.couriers[j]).id != sg.value.courier.id)
                  && r.value.1 ==
                       (if ci == sg.value.position then sg.value.courier.(status := CourierStatus.Assigned) else sg.value.courier)))
  {
    var suggestion := SuggestCourier(s.couriers, s.routes, routeId, showDate);
    if suggestion.Failure? {
      return Failure(suggestion.error);
    }
    var outcome := AssignRouteToCourier(s, routeId, suggestion.value.courier.id);
    if outcome.Failure? {
      return Failure(outcome.error);
    }
    r := Success((outcome.value, s.couriers[suggestion.value.position], suggestion.value.reason));
  }

  // ---------------------------------------------------------------- manual route

  /** `Array.from(new Set(ids))`: the ids without repetitions, in order of first occurrence. */
  function Dedupe(ids: seq<Id>): (r: seq<Id>)
    ensures forall x :: x in r <==> x in ids
    ensures forall a, b :: 0 <= a < b < |r| ==> r[a] != r[b]
    ensures |r| <= |ids|
  {
    if ids == [] then []
    else
      var d := Dedupe(ids[..|ids| - 1]);
      assert forall x :: x in ids <==> x in ids[..|ids| - 1] || x == ids[|ids| - 1] by {
        assert ids == ids[..|ids| - 1] + [ids[|ids| - 1]];
      }
      if ids[|ids| - 1] in d then d else d + [ids[|ids| - 1]]
  }

  /** Every occurrence of `y` in `ids` comes after some occurrence of `x`. */
  predicate OccursBefore(ids: seq<Id>, x: Id, y: Id)
  {
    forall j :: 0 <= j < |ids| && ids[j] == y ==> x in ids[..j]
  }

  /** The deduplicated ids keep the order in which each id first occurs. */
  lemma {:induction false} DedupeFirstOccurrenceOrder(ids: seq<Id>)
    ensures forall a, b :: 0 <= a < b < |Dedupe(ids)| ==> OccursBefore(ids, Dedupe(ids)[a], Dedupe(ids)[b])
  {
    if ids != [] {
      var init, last := ids[..|ids| - 1], ids[|ids| - 1];
      var d := Dedupe(init);
      DedupeFirstOccurrenceOrder(init);
      var r := Dedupe(ids);
      assert r == if last in d then d else d + [last];
      forall a, b | 0 <= a < b < |r| ensures OccursBefore(ids, r[a], r[b]) {
        assert r[a] == d[a] && r[a] in init;
        forall j | 0 <= j < |ids| && ids[j] == r[b] ensures r[a] in ids[..j] {
          if j < |init| {
            assert ids[..j] == init[..j];
            assert r[b] == init[j] && init[j] in init;
            assert b < |d|;
            assert OccursBefore(init, d[a], d[b]);
          } else {
            assert ids[..j] == init;
          }
        }
      }
    }
  }

  /** Why one selected id cannot join a manual route: unknown, or not PENDING. */
  function IdFailure(orders: seq<Order>, id: Id): Option<DispatchError>
  {
    match FindOrder(orders, id)
    case None => Some(UnknownOrder(id))
    case Some(i) => if orders[i].status != Pending then Some(OrderNotPending) else None
  }

  /**
   * `uniqueIds.map(id => orders.find(...))`, throwing at the first id that is
   * unknown or not PENDING; the found orders as entries, in the order of the ids.
   */
  function ResolveIds(orders: seq<Order>, ids: seq<Id>): (r: Result<seq<Entry>, DispatchError>)
    ensures r.Success? <==> forall k :: 0 <= k < |ids| ==> IdFailure(orders, ids[k]).None?
    ensures r.Success? ==> |r.value| == |ids| && forall k :: 0 <= k < |ids| ==>
      r.value[k].index == FindOrder(orders, ids[k]).value && Describes(orders, r.value[k]) &&
      r.value[k].order.id == ids[k] && r.value[k].order.status == Pending
    ensures r.Failure? ==> exists k :: 0 <= k < |ids| && IdFailure(orders, ids[k]) == Some(r.error) &&
                                       (forall j :: 0 <= j < k ==> IdFailure(orders, ids[j]).None?)
  {
    if ids == [] then Success([])
    else
      match IdFailure(orders, ids[0])
      case Some(e) => Failure(e)
      case None =>
        var i := FindOrder(orders, ids[0]).value;
        match ResolveIds(orders, ids[1..])
        case Failure(e) =>
          assert forall j :: 1 <= j < |ids| ==> ids[j] == ids[1..][j - 1];
          Failure(e)
        case Success(rest) =>
          assert forall j :: 1 <= j < |ids| ==> ids[j] == ids[1..][j - 1];
          Success([Entry(i, orders[i])] + rest)
  }

  /** `restaurantProfile.maxBatch ?? routingConfig.maxBatch`. */
  function ManualLimit(profileMaxBatch: Option<Num>): Num
  {
    profileMaxBatch.GetOr(Finite(DefaultRoutingConfig.maxBatch as real))
  }

  /**
   * All the checks of `createManualRoute`, in order, and the chosen orders
   * sorted by `createdAt` when they pass.
   */
  function ManualSelection(orders: seq<Order>, orderIds: seq<Id>, profileMaxBatch: Option<Num>): (r: Result<seq<Entry>, DispatchError>)
    ensures r == Failure(EmptySelection) <==> orderIds == []
    ensures orderIds != [] && ResolveIds(orders, Dedupe(orderIds)).Failure? ==>
      r == Failure(ResolveIds(orders, Dedupe(orderIds)).error)
    ensures r == Failure(BatchTooLarge) <==>
      orderIds != [] && (forall x :: x in orderIds ==> IdFailure(orders, x).None?) &&
      Exceeds(|Dedupe(orderIds)|, ManualLimit(profileMaxBatch))
    ensures r.Success? <==>
      orderIds != [] && (forall x :: x in orderIds ==> IdFailure(orders, x).None?) &&
      !Exceeds(|Dedupe(orderIds)|, ManualLimit(profileMaxBatch))
  {
    var ids := Dedupe(orderIds);
    assert (forall x :: x in orderIds ==> IdFailure(orders, x).None?) <==>
           (forall k :: 0 <= k < |ids| ==> IdFailure(orders, ids[k]).None?);
    if ids == [] then Failure(EmptySelection)
    else
      match ResolveIds(orders, ids)
      case Failure(e) => Failure(e)
      case Success(sel) =>
        if Exceeds(|sel|, ManualLimit(profileMaxBatch)) then Failure(BatchTooLarge)
        else Success(SortBy(sel, CreatedAt))
  }

  /** A successful selection is the resolved, deduplicated ids sorted by age. */
  lemma ManualSelectionUnfold(orders: seq<Order>, orderIds: seq<Id>, profileMaxBatch: Option<Num>)
    requires ManualSelection(orders, orderIds, profileMaxBatch).Success?
    ensures ResolveIds(orders, Dedupe(orderIds)).Success?
    ensures var resolved := ResolveIds(orders, Dedupe(orderIds)).value;
      && ManualSelection(orders, orderIds, profileMaxBatch).value == SortBy(resolved, CreatedAt)
      && !Exceeds(|resolved|, ManualLimit(profileMaxBatch))
  {
  }

  /** The chosen orders of a manual route are found by their ids, PENDING, selected, and within the limit. */
  lemma ManualSelectionMembers(orders: seq<Order>, orderIds: seq<Id>, profileMaxBatch: Option<Num>)
    requires ManualSelection(orders, orderIds, profileMaxBatch).Success?
    ensures var sel := ManualSelection(orders, orderIds, profileMaxBatch).value;
      && (forall k :: 0 <= k < |sel| ==> Describes(orders, sel[k]) && sel[k].order.status == Pending && sel[k].order.id in orderIds)
      && !Exceeds(|sel|, ManualLimit(profileMaxBatch))
  {
    ManualSelectionUnfold(orders, orderIds, profileMaxBatch);
    var ids := Dedupe(orderIds);
    var resolved := ResolveIds(orders, ids).value;
    var sel := SortBy(resolved, CreatedAt);
    forall k | 0 <= k < |sel| ensures Describes(orders, sel[k]) && sel[k].order.status == Pending && sel[k].order.id in orderIds {
      assert sel[k] in multiset(resolved) by { assert sel[k] in multiset(sel); }
      var j :| 0 <= j < |resolved| && resolved[j] == sel[k];
      assert resolved[j].order.id == ids[j];
    }
  }

  /** Every selected id is among the chosen orders. */
  lemma ManualSelectionCovers(orders: seq<Order>, orderIds: seq<Id>, profileMaxBatch: Option<Num>)
    requires ManualSelection(orders, orderIds, profileMaxBatch).Success?
    ensures var sel := ManualSelection(orders, orderIds, profileMaxBatch).value;
      forall id :: id in orderIds ==> exists k :: 0 <= k < |sel| && sel[k].order.id == id
  {
    var ids := Dedupe(orderIds);
    var resolved := ResolveIds(orders, ids).value;
    var sel := SortBy(resolved, CreatedAt);
    SortByMembers(resolved, CreatedAt);
    forall id | id in orderIds ensures exists k :: 0 <= k < |sel| && sel[k].order.id == id {
      var j :| 0 <= j < |ids| && ids[j] == id;
      assert resolved[j] in sel;
      var k :| 0 <= k < |sel| && sel[k] == resolved[j];
    }
  }

  /** An id selected twice still yields one order: the chosen orders have distinct ids. */
  lemma ManualSelectionDistinct(orders: seq<Order>, orderIds: seq<Id>, profileMaxBatch: Option<Num>)
    requires ManualSelection(orders, orderIds, profileMaxBatch).Success?
    ensures DistinctIds(ManualSelection(orders, orderIds, profileMaxBatch).value)
  {
    var ids := Dedupe(orderIds);
    var resolved := ResolveIds(orders, ids).value;
    assert DistinctIds(resolved) by {
      forall a, b | 0 <= a < b < |resolved| ensures resolved[a].order.id != resolved[b].order.id {
        assert resolved[a].order.id == ids[a] && resolved[b].order.id == ids[b];
      }
    }
    DistinctIdsPermutation(resolved, SortBy(resolved, CreatedAt));
  }

  /** The chosen orders are oldest first. */
  lemma ManualSelectionSorted(orders: seq<Order>, orderIds: seq<Id>, profileMaxBatch: Option<Num>)
    requires ManualSelection(orders, orderIds, profileMaxBatch).Success?
    ensures var sel := ManualSelection(orders, orderIds, profileMaxBatch).value;
      forall a, b :: 0 <= a < b < |sel| ==> sel[a].order.createdAt <= sel[b].order.createdAt
  {
    var sel := ManualSelection(orders, orderIds, profileMaxBatch).value;
    assert SortedBy(sel, CreatedAt);
    forall a, b | 0 <= a < b < |sel| ensures sel[a].order.createdAt <= sel[b].order.createdAt {
      assert CreatedAt(sel[a]) <= CreatedAt(sel[b]);
    }
  }

  /** Reordering keeps ids distinct. */
  lemma DistinctIdsPermutation(p: seq<Entry>, r: seq<Entry>)
    requires multiset(r) == multiset(p) && DistinctIds(p)
    ensures DistinctIds(r)
  {
    forall a, b | 0 <= a < b < |r| ensures r[a].order.id != r[b].order.id {
      if r[a] == r[b] {
        TwoOccurrences(r, a, b);
        AtMostOnceById(p, r[a]);
      } else {
        assert r[a] in multiset(p) && r[b] in multiset(p);
        var ja :| 0 <= ja < |p| && p[ja] == r[a];
        var jb :| 0 <= jb < |p| && p[jb] == r[b];
        assert ja < jb || jb < ja;
      }
    }
  }

  lemma {:induction false} AtMostOnceById(p: seq<Entry>, v: Entry)
    requires DistinctIds(p)
    ensures multiset(p)[v] <= 1
  {
    if p != [] {
      var init := p[..|p| - 1];
      assert DistinctIds(init) by {
        forall a, b | 0 <= a < b < |init| ensures init[a].order.id != init[b].order.id {
          assert init[a] == p[a] && init[b] == p[b];
        }
      }
      AtMostOnceById(init, v);
      assert p == init + [p[|p| - 1]];
      if p[|p| - 1] == v {
        assert v !in init by {
          forall x | 0 <= x < |init| ensures init[x] != v { assert init[x] == p[x]; }
        }
      }
    }
  }

  /** An order queued on a manual route: QUEUED, without courier, on the route. */
  function Queue(o: Order, routeId: Id): Order
  {
    o.(status := Queued, courierId := None, routeId := Some(routeId))
  }

  /** The orders after the ones at the chosen positions are queued on the route. */
  function QueueSelected(orders: seq<Order>, sel: seq<Entry>, routeId: Id): (r: seq<Order>)
    ensures |r| == |orders|
  {
    seq(|orders|, i requires 0 <= i < |orders| => if i in Positions(sel) then Queue(orders[i], routeId) else orders[i])
  }

  /** The delivery price of an order, absent counting as 0 (`order.deliveryPrice ?? 0`). */
  function PriceOf(e: Entry): real
  {
    e.order.deliveryPrice.GetOr(0.0)
  }

  /**
   * The manual route: AWAITING_COURIER without a courier, the chosen orders'
   * ids oldest first, the directions link only when the restaurant has
   * coordinates, and the sum of the delivery prices.
   */
  function ManualRoute(sel: seq<Entry>, restaurant: Option<LatLng>, routeId: Id, now: Millis, showNumber: real -> string): (r: Route)
    ensures r.id == routeId && r.courierId.None? && r.status == AwaitingCourier && r.createdAt == now
    ensures |r.orderIds| == |sel| && forall k :: 0 <= k < |sel| ==> r.orderIds[k] == sel[k].order.id
    ensures r.mapsUrl.Some? <==> restaurant.Some?
    ensures r.totalPrice == Some(Sum(sel, PriceOf))
  {
    Route(routeId, None, IdsOf(sel), AwaitingCourier, now,
          if restaurant.Some? then Some(BuildMapsUrl(restaurant.value, OrdersOf(sel), showNumber)) else None,
          Some(Sum(sel, PriceOf)))
  }

  /** `selectedOrders.forEach(order => { QUEUED, no courier, routeId })`. */
  method QueueOnRoute(s: Store, sel: seq<Entry>, routeId: Id)
    requires forall k :: 0 <= k < |sel| ==> sel[k].index < |s.orders|
    modifies s
    ensures s.orders == QueueSelected(old(s.orders), sel, routeId)
    ensures s.couriers == old(s.couriers) && s.routes == old(s.routes)
  {
    ghost var orders := s.orders;
    var j := 0;
    while j < |sel|
      invariant 0 <= j <= |sel|
      invariant |s.orders| == |orders|
      invariant s.couriers == old(s.couriers) && s.routes == old(s.routes)
      invariant forall i :: 0 <= i < |orders| ==>
        s.orders[i] == if i in Positions(sel[..j]) then Queue(orders[i], routeId) else orders[i]
    {
      var i := sel[j].index;
      s.orders := s.orders[i := Queue(s.orders[i], routeId)];
      assert Positions(sel[..j + 1]) == Positions(sel[..j]) + [i];
      j := j + 1;
    }
    assert sel[..j] == sel;
  }

  /**
   * `createManualRoute`: all checks first; on success the route is appended
   * and its orders queued on it. The route id, the clock reading and the
   * restaurant profile's coordinates and `maxBatch` are parameters.
   */
  method CreateManualRoute(s: Store, orderIds: seq<Id>, profileMaxBatch: Option<Num>, restaurant: Option<LatLng>,
                           routeId: Id, now: Millis, showNumber: real -> string)
    returns (r: Result<Route, DispatchError>)
    modifies s
    ensures var plan := ManualSelection(old(s.orders), orderIds, profileMaxBatch);
      && (plan.Failure? ==> r == Failure(plan.error) && s.orders == old(s.orders) && s.couriers == old(s.couriers) && s.routes == old(s.routes))
      && (plan.Success? ==>
            var route := ManualRoute(plan.value, restaurant, routeId, now, showNumber);
            && r == Success(route)
            && s.routes == old(s.routes) + [route]
            && s.orders == QueueSelected(old(s.orders), plan.value, routeId)
            && s.couriers == old(s.couriers))
  {
    var plan := ManualSelection(s.orders, orderIds, profileMaxBatch);
    if plan.Failure? {
      return Failure(plan.error);
    }
    ManualSelectionMembers(s.orders, orderIds, profileMaxBatch);
    var route := ManualRoute(plan.value, restaurant, routeId, now, showNumber);
    SaveManualRoute(s, plan.value, route);
    r := Success(route);
  }

  /** The route appended to the store and the selected orders queued on it. */
  method SaveManualRoute(s: Store, sel: seq<Entry>, route: Route)
    requires forall k :: 0 <= k < |sel| ==> sel[k].index < |s.orders|
    modifies s
    ensures s.routes == old(s.routes) + [route]
    ensures s.orders == QueueSelected(old(s.orders), sel, route.id)
    ensures s.couriers == old(s.couriers)
  {
    s.routes := s.routes + [route];
    QueueOnRoute(s, sel, route.id);
  }

  // ---------------------------------------------------------------- progress

  /** What `refreshRouteProgress` reports. */
  datatype Progress = Progress(finished: bool, deliveredCount: nat, totalOrders: nat)

  function ProgressOf(orders: seq<Order>, route: Route): (p: Progress)
  {
    var total := CountMembers(orders, route.orderIds, |orders|);
    var delivered := CountDelivered(orders, route.orderIds, |orders|);
    Progress(delivered == total && total > 0, delivered, total)
  }

  /** The status a route gets from its members, its courier and its current status. */
  function RefreshedStatus(orders: seq<Order>, route: Route): RouteStatus
  {
    var p := ProgressOf(orders, route);
    if p.finished then Done
    else if p.deliveredCount > 0 || route.status == InProgress then InProgress
    else if Truthy(route.courierId) then RouteStatus.Assigned
    else AwaitingCourier
  }

  /** A route is DONE after a refresh exactly when it has a member order and all of them are DELIVERED. */
  lemma RefreshedDoneIffAllDelivered(orders: seq<Order>, route: Route)
    ensures RefreshedStatus(orders, route) == Done <==>
      (exists i :: 0 <= i < |orders| && IsMember(orders[i], route.orderIds)) &&
      (forall i :: 0 <= i < |orders| && IsMember(orders[i], route.orderIds) ==> orders[i].status == Delivered)
  {
    CountMembersZero(orders, route.orderIds, |orders|);
    CountDeliveredSpec(orders, route.orderIds, |orders|);
  }

  /** A refresh never makes a route wait for a courier while it names one, and never undoes IN_PROGRESS except to DONE. */
  lemma RefreshedStatusSpec(orders: seq<Order>, route: Route)
    ensures RefreshedStatus(orders, route) == AwaitingCourier ==> !Truthy(route.courierId)
    ensures route.status == InProgress ==> RefreshedStatus(orders, route) in {InProgress, Done}
    ensures ProgressOf(orders, route).deliveredCount > 0 ==> RefreshedStatus(orders, route) in {InProgress, Done}
  {
  }

  /**
   * `refreshRouteProgress` for the route at position `ri`: recomputes its
   * status and, when it is finished, releases its courier.
   */
  method RefreshRouteProgress(s: Store, ri: nat) returns (p: Progress)
    requires ri < |s.routes|
    modifies s
    ensures var route := old(s.routes[ri]);
      && p == ProgressOf(old(s.orders), route)
      && s.routes == old(s.routes)[ri := route.(status := RefreshedStatus(old(s.orders), route))]
      && s.orders == old(s.orders)
      && s.couriers == if p.finished then ReleaseCourier(old(s.couriers), route.courierId) else old(s.couriers)
  {
    var route := s.routes[ri];
    p := ProgressOf(s.orders, route);
    s.routes := s.routes[ri := route.(status := RefreshedStatus(s.orders, route))];
    if p.finished {
      s.couriers := ReleaseCourier(s.couriers, route.courierId);
    }
  }

  /** Refreshing keeps "a route waiting for a courier has none". */
  lemma RefreshKeepsAwaitingWithoutCourier(orders: seq<Order>, routes: seq<Route>, ri: nat)
    requires ri < |routes| && AwaitingOnlyWithoutCourier(routes)
    ensures AwaitingOnlyWithoutCourier(routes[ri := routes[ri].(status := RefreshedStatus(orders, routes[ri]))])
  {
    RefreshedStatusSpec(orders, routes[ri]);
  }

  // ---------------------------------------------------------------- start

  /** The failure of `startRoute`, checked in the source's order; absent when it succeeds. */
  function StartFailure(couriers: seq<Courier>, routes: seq<Route>, routeId: Id, courierId: Id): (e: Option<DispatchError>)
    ensures e == Some(RouteNotFound) <==> FindRoute(routes, routeId).None?
    ensures e == Some(NotRouteCourier) <==>
      FindRoute(routes, routeId).Some? && routes[FindRoute(routes, routeId).value].courierId != Some(courierId)
    ensures e == Some(RouteNotAssigned) <==>
      FindRoute(routes, routeId).Some? && routes[FindRoute(routes, routeId).value].courierId == Some(courierId) &&
      routes[FindRoute(routes, routeId).value].status != RouteStatus.Assigned
    ensures e == Some(CourierNotFound) <==>
      FindRoute(routes, routeId).Some? && routes[FindRoute(routes, routeId).value].courierId == Some(courierId) &&
      routes[FindRoute(routes, routeId).value].status == RouteStatus.Assigned && FindCourier(couriers, courierId).None?
    ensures e.Some? ==> e.value in {RouteNotFound, NotRouteCourier, RouteNotAssigned, CourierNotFound}
  {
    match FindRoute(routes, routeId)
    case None => Some(RouteNotFound)
    case Some(ri) =>
      if routes[ri].courierId != Some(courierId) then Some(NotRouteCourier)
      else if routes[ri].status != RouteStatus.Assigned then Some(RouteNotAssigned)
      else if FindCourier(couriers, courierId).None? then Some(CourierNotFound)
      else None
  }

  /** `startRoute`: the route becomes IN_PROGRESS and the courier ON_TRIP; on failure nothing changes. */
  method StartRoute(s: Store, routeId: Id, courierId: Id) returns (r: Result<nat, DispatchError>)
    modifies s
    ensures var failure := StartFailure(old(s.couriers), old(s.routes), routeId, courierId);
      && (failure.Some? ==> r == Failure(failure.value) && s.orders == old(s.orders) && s.couriers == old(s.couriers) && s.routes == old(s.routes))
      && (failure.None? ==>
            var ri := FindRoute(old(s.routes), routeId).value;
            var ci := FindCourier(old(s.couriers), courierId).value;
            && r == Success(ri)
            && s.routes == old(s.routes)[ri := old(s.routes[ri]).(status := InProgress)]
            && s.couriers == old(s.couriers)[ci := old(s.couriers[ci]).(status := OnTrip)]
            && s.orders == old(s.orders))
  {
    var failure := StartFailure(s.couriers, s.routes, routeId, courierId);
    if failure.Some? {
      return Failure(failure.value);
    }
    var ri := FindRoute(s.routes, routeId).value;
    var ci := FindCourier(s.couriers, courierId).value;
    s.routes := s.routes[ri := s.routes[ri].(status := InProgress)];
    s.couriers := s.couriers[ci := s.couriers[ci].(status := OnTrip)];
    r := Success(ri);
  }
}

=== FILE: scanner_view_model.dfy ===
/**
 * The scanner screen's state. Each OCR result is offered to
 * `OnAddressDetected`; an address line is published only once two reads in a
 * row agree on it. The published detection can be edited and submitted; the
 * submission runs in a coroutine, so the model splits `submitDetectedAddress`
 * into the part that runs at once (`SubmitDetectedAddress`, which returns the
 * request it would send) and the completion callback (`SubmissionCompleted`).
 */
module ScannerViewModel {
  import opened Wrappers
  import opened KotlinText
  import opened AddressParser

  datatype ScanStatus = Idle | Running

  datatype SubmissionState =
    | NotSubmitted
    | Sending
    | Success(message: Option<string>)
    | Error(errorMessage: string)

  datatype ScannerUiState = ScannerUiState(scanStatus: ScanStatus, detection: Option<AddressDetection>,
                                           submissionState: SubmissionState)

  /** `ScannerUiState()`: idle, nothing detected, nothing submitted. */
  const InitialState := ScannerUiState(Idle, None, NotSubmitted)

  const UnexpectedError := "Erro inesperado"

  /** The receipt request: the OCR text and the address line chosen for it. */
  datatype Submission = Submission(rawText: string, addressLine: string)

  /** How the submission ended: the server's optional message, or a failure with its optional message. */
  datatype SubmitOutcome = Submitted(message: Option<string>) | SubmitFailed(message: Option<string>)

  // ---------------------------------------------------------------- the stability streak

  /** The last address line read and how many reads in a row have agreed on it. */
  datatype Streak = Streak(last: Option<string>, count: int)

  const NoStreak := Streak(None, 0)

  /** Reads needed before a line is published. */
  const StableReads := 2

  /** A streak is empty exactly when it has no line, and never negative. */
  predicate ValidStreak(s: Streak)
  {
    s.count >= 0 && (s.last.None? <==> s.count == 0)
  }

  /**
   * The streak after one more read of `line`. It holds `line`, stays valid, and
   * reaches two reads exactly when `line` repeats the line the streak held.
   */
  function NextStreak(s: Streak, line: string): (r: Streak)
    ensures r.last == Some(line) && (ValidStreak(s) ==> ValidStreak(r) && r.count >= 1)
    ensures ValidStreak(s) ==> (r.count >= StableReads <==> s.last == Some(line))
  {
    if s.last == Some(line) then s.(count := s.count + 1) else Streak(Some(line), 1)
  }

  /** The streak after reading `lines` in order, from `s`. */
  function StreakAfter(s: Streak, lines: seq<string>): Streak
  {
    if lines == [] then s else NextStreak(StreakAfter(s, lines[..|lines| - 1]), lines[|lines| - 1])
  }

  /** The number of equal lines at the end of `lines`. */
  function TrailingRun(lines: seq<string>): (n: nat)
    ensures n <= |lines|
    ensures lines != [] ==> n >= 1
    ensures forall i :: |lines| - n <= i < |lines| ==> lines[i] == lines[|lines| - 1]
    ensures n < |lines| ==> lines[|lines| - n - 1] != lines[|lines| - 1]
  {
    if |lines| <= 1 then |lines|
    else if lines[|lines| - 2] == lines[|lines| - 1] then 1 + TrailingRun(lines[..|lines| - 1])
    else 1
  }

  /**
   * From a fresh view model, the streak holds the last line read and counts
   * exactly the run of equal reads that ends with it.
   */
  lemma {:induction false} StreakCountsTrailingRun(lines: seq<string>)
    requires lines != []
    ensures StreakAfter(NoStreak, lines) == Streak(Some(lines[|lines| - 1]), TrailingRun(lines))
  {
    var n := |lines|;
    if n > 1 {
      var init := lines[..n - 1];
      StreakCountsTrailingRun(init);
      if lines[n - 2] == lines[n - 1] {
        assert TrailingRun(lines) == 1 + TrailingRun(init);
      }
    }
  }

  /**
   * From a fresh view model, the `n`-th read publishes its line exactly when it
   * equals the read before it: two equal reads in a row, not two in total.
   */
  lemma PublishesOnRepeatedRead(lines: seq<string>)
    requires lines != []
    ensures StreakAfter(NoStreak, lines).count >= StableReads
        <==> |lines| >= 2 && lines[|lines| - 2] == lines[|lines| - 1]
  {
    StreakCountsTrailingRun(lines);
  }

  // ---------------------------------------------------------------- state updates

  /** The state once `detection` is published: idle, showing it, nothing submitted. */
  function Published(state: ScannerUiState, detection: AddressDetection): (r: ScannerUiState)
    ensures r.scanStatus == Idle && r.detection == Some(detection) && r.submissionState == NotSubmitted
  {
    state.(scanStatus := Idle, detection := Some(detection), submissionState := NotSubmitted)
  }

  /** The address to submit: the override when it is given and not blank, else the detected line. */
  function FinalAddress(detection: AddressDetection, overrideAddress: Option<string>): (a: string)
    ensures overrideAddress.Some? && !IsBlank(overrideAddress.value) ==> a == overrideAddress.value
    ensures (overrideAddress.None? || IsBlank(overrideAddress.value)) ==> a == detection.addressLine
  {
    match overrideAddress
    case Some(address) => if !IsBlank(address) then address else detection.addressLine
    case None => detection.addressLine
  }

  /** Whether `submitDetectedAddress` sends anything from `state`. */
  predicate CanSubmit(state: ScannerUiState, overrideAddress: Option<string>)
  {
    state.detection.Some? && !IsBlank(FinalAddress(state.detection.value, overrideAddress))
    && !state.submissionState.Sending?
  }

  /** A blank override never replaces the detected line, so a blank submission needs a blank detection. */
  lemma SubmitNeedsAddress(state: ScannerUiState, overrideAddress: Option<string>)
    requires state.detection.Some? && !state.submissionState.Sending?
    ensures CanSubmit(state, overrideAddress) <==>
      (overrideAddress.Some? && !IsBlank(overrideAddress.value)) || !IsBlank(state.detection.value.addressLine)
  {
  }

  /** The state a finished submission leaves. */
  function Completed(state: ScannerUiState, outcome: SubmitOutcome): (r: ScannerUiState)
    ensures r.scanStatus == state.scanStatus && r.detection == state.detection
    ensures outcome.Submitted? ==> r.submissionState == SubmissionState.Success(outcome.message)
    ensures outcome.SubmitFailed? ==> r.submissionState == Error(outcome.message.GetOr(UnexpectedError))
  {
    match outcome
    case Submitted(message) => state.(submissionState := SubmissionState.Success(message))
    case SubmitFailed(message) => state.(submissionState := Error(message.GetOr(UnexpectedError)))
  }

  class ScannerViewModel {
    var uiState: ScannerUiState
    var lastRawAddress: Option<string>
    var stableCount: int

    /** The streak the two private fields hold. */
    function CurrentStreak(): Streak
      reads this
    {
      Streak(lastRawAddress, stableCount)
    }

    constructor ()
      ensures uiState == InitialState && CurrentStreak() == NoStreak && ValidStreak(CurrentStreak())
    {
      uiState := InitialState;
      lastRawAddress := None;
      stableCount := 0;
    }

    /** The state is replaced by a running scan with nothing detected; the streak is kept. */
    method StartScanning()
      modifies this
      ensures uiState == ScannerUiState(Running, None, NotSubmitted)
      ensures CurrentStreak() == old(CurrentStreak())
    {
      uiState := ScannerUiState(Running, None, NotSubmitted);
    }

    /**
     * One OCR result: the streak advances, and the detection is published once
     * the streak reaches two equal reads; before that the state is untouched.
     */
    method OnAddressDetected(detection: AddressDetection)
      modifies this
      ensures CurrentStreak() == NextStreak(old(CurrentStreak()), detection.addressLine)
      ensures old(ValidStreak(CurrentStreak())) ==> ValidStreak(CurrentStreak())
      ensures stableCount >= StableReads ==> uiState == Published(old(uiState), detection)
      ensures stableCount < StableReads ==> uiState == old(uiState)
    {
      if Some(detection.addressLine) == lastRawAddress {
        stableCount := stableCount + 1;
      } else {
        lastRawAddress := Some(detection.addressLine);
        stableCount := 1;
      }
      if stableCount < StableReads {
        return;
      }
      uiState := uiState.(scanStatus := Idle, detection := Some(detection), submissionState := NotSubmitted);
    }

    /** The shown detection's address line is replaced; without a detection nothing changes. */
    method UpdateDetectedAddress(newAddress: string)
      modifies this
      ensures old(uiState).detection.None? ==> uiState == old(uiState)
      ensures old(uiState).detection.Some? ==>
        uiState == old(uiState).(detection := Some(old(uiState).detection.value.(addressLine := newAddress)))
      ensures CurrentStreak() == old(CurrentStreak())
    {
      match uiState.detection
      case None =>
      case Some(current) =>
        uiState := uiState.(detection := Some(current.(addressLine := newAddress)));
    }

    /**
     * Without a detection, with a blank final address or while a submission is
     * in flight, nothing happens; otherwise the state becomes `Sending` and the
     * request carries the OCR text and the final address.
     */
    method SubmitDetectedAddress(overrideAddress: Option<string>) returns (request: Option<Submission>)
      modifies this
      ensures request.Some? <==> old(CanSubmit(uiState, overrideAddress))
      ensures request.Some? ==>
        var detection := old(uiState).detection.value;
        request.value == Submission(detection.rawText, FinalAddress(detection, overrideAddress))
        && !IsBlank(request.value.addressLine)
        && uiState == old(uiState).(submissionState := Sending)
      ensures request.None? ==> uiState == old(uiState)
      ensures CurrentStreak() == old(CurrentStreak())
    {
      if uiState.detection.None? {
        return None;
      }
      var detection := uiState.detection.value;
      var finalAddress := FinalAddress(detection, overrideAddress);
      if IsBlank(finalAddress) {
        return None;
      }
      if uiState.submissionState.Sending? {
        return None;
      }
      uiState := uiState.(submissionState := Sending);
      request := Some(Submission(detection.rawText, finalAddress));
    }

    /** The completion of the request: a success with the server's message, or an error. */
    method SubmissionCompleted(outcome: SubmitOutcome)
      modifies this
      ensures uiState == Completed(old(uiState), outcome)
      ensures CurrentStreak() == old(CurrentStreak())
    {
      match outcome
      case Submitted(message) =>
        uiState := uiState.(submissionState := SubmissionState.Success(message));
      case SubmitFailed(message) =>
        uiState := uiState.(submissionState := Error(message.GetOr(UnexpectedError)));
    }

    /** The state returns to the initial one; the streak is kept. */
    method ResetScan()
      modifies this
      ensures uiState == InitialState
      ensures CurrentStreak() == old(CurrentStreak())
    {
      uiState := InitialState;
    }
  }
}

=== FILE: scheduler.dfy ===
/**
 * The automatic dispatcher of `src/scheduler.ts`: when a courier becomes
 * available it batches the pending orders into one route, starting with the
 * oldest order and repeatedly adding the nearest remaining one.
 *
 * The haversine distance is a parameter `dist`, and `Number`-to-text rendering
 * of coordinates is a parameter `showNumber`; the model states its properties
 * relative to them.
 */
module Scheduler {
  import opened Wrappers
  import opened Text
  import opened Seqs
  import opened Sorting
  import opened DispatchModel
  import UrlQuery

  /** `diffInMinutes(a, b)`: the signed time from `b` to `a` in minutes. */
  function DiffInMinutes(a: Millis, b: Millis): (r: real)
    ensures r * 60000.0 == (a - b) as real
    ensures r >= 0.0 <==> a >= b
  {
    (a - b) as real / 1000.0 / 60.0
  }

  // ---------------------------------------------------------------- maps URL

  /** `${p.lat},${p.lng}`. */
  function CoordText(p: LatLng, showNumber: real -> string): string
  {
    showNumber(p.lat) + "," + showNumber(p.lng)
  }

  function CoordTexts(orders: seq<Order>, showNumber: real -> string): (r: seq<string>)
    ensures |r| == |orders|
    ensures forall i :: 0 <= i < |orders| ==> r[i] == CoordText(orders[i].Position(), showNumber)
  {
    if orders == [] then [] else [CoordText(orders[0].Position(), showNumber)] + CoordTexts(orders[1..], showNumber)
  }

  /** The query parameters of the maps link, in the order `URLSearchParams` keeps them. */
  function MapsParams(origin: LatLng, selected: seq<Order>, showNumber: real -> string): (r: seq<(string, string)>)
    requires |selected| > 0
    ensures |r| == if |selected| > 1 then 4 else 3
    ensures r[0] == ("api", "1")
    ensures r[1] == ("origin", CoordText(origin, showNumber))
    ensures r[2] == ("destination", CoordText(selected[|selected| - 1].Position(), showNumber))
    ensures |selected| > 1 ==> r[3] == ("waypoints", Join(CoordTexts(selected[..|selected| - 1], showNumber), "|"))
  {
    var waypoints := Join(CoordTexts(selected[..|selected| - 1], showNumber), "|");
    var base := [("api", "1"), ("origin", CoordText(origin, showNumber)),
                 ("destination", CoordText(selected[|selected| - 1].Position(), showNumber))];
    assert |selected| > 1 ==> waypoints != "" by {
      if |selected| > 1 {
        var texts := CoordTexts(selected[..|selected| - 1], showNumber);
        if |texts| == 1 { assert waypoints == texts[0]; }
        else { assert IsPrefix(texts[0] + "|", waypoints); }
        assert |texts[0]| > 0;
      }
    }
    if waypoints != "" then base + [("waypoints", waypoints)] else base
  }

  const MapsPrefix: string := "https://www.google.com/maps/dir/?"

  /**
   * `buildMapsUrl`: empty for no orders; otherwise a directions link from
   * `origin` to the last order through the earlier ones, in order.
   */
  function BuildMapsUrl(origin: LatLng, selected: seq<Order>, showNumber: real -> string): (r: string)
    ensures r == "" <==> selected == []
    ensures selected != [] ==> r == MapsPrefix + UrlQuery.Serialize(MapsParams(origin, selected, showNumber))
  {
    if selected == [] then "" else MapsPrefix + UrlQuery.Serialize(MapsParams(origin, selected, showNumber))
  }

  // ---------------------------------------------------------------- candidates

  /**
   * An order of the store together with its position there. The dispatcher
   * works on the order objects themselves; the position stands for the
   * object's identity, so that the final update reaches the stored order.
   */
  datatype Entry = Entry(index: nat, order: Order)

  /** The entries of the store's orders, in array order. */
  function EntriesFrom(orders: seq<Order>, from: nat): (r: seq<Entry>)
    requires from <= |orders|
    ensures |r| == |orders| - from
    ensures forall k :: 0 <= k < |r| ==> r[k] == Entry(from + k, orders[from + k])
    decreases |orders| - from
  {
    if from == |orders| then [] else [Entry(from, orders[from])] + EntriesFrom(orders, from + 1)
  }

  predicate IsPending(e: Entry)
  {
    e.order.status == Pending
  }

  /** `orders.filter(o => o.status === 'PENDING')`, as entries. */
  function PendingEntries(orders: seq<Order>): (r: seq<Entry>)
  {
    Filter(EntriesFrom(orders, 0), IsPending)
  }

  /** The sort key `createdAt.getTime()`. */
  function CreatedAt(e: Entry): real
  {
    e.order.createdAt as real
  }

  /** An entry that describes the store: its order is the one stored at its position. */
  predicate Describes(orders: seq<Order>, e: Entry)
  {
    e.index < |orders| && orders[e.index] == e.order
  }

  /** `orders.filter(PENDING).sort((a, b) => a.createdAt - b.createdAt)`. */
  function PendingByAge(orders: seq<Order>): (r: seq<Entry>)
  {
    SortBy(PendingEntries(orders), CreatedAt)
  }

  /** The pending entries are exactly the store's pending orders, in increasing positions. */
  lemma PendingEntriesSpec(orders: seq<Order>)
    ensures var p := PendingEntries(orders);
      && (forall k :: 0 <= k < |p| ==> Describes(orders, p[k]) && p[k].order.status == Pending)
      && (forall i :: 0 <= i < |orders| && orders[i].status == Pending ==> Entry(i, orders[i]) in p)
      && (forall x, y :: 0 <= x < y < |p| ==> p[x].index < p[y].index)
  {
    var all := EntriesFrom(orders, 0);
    var p := PendingEntries(orders);
    forall k | 0 <= k < |p| ensures Describes(orders, p[k]) && p[k].order.status == Pending {
      assert p[k] in all;
      var j :| 0 <= j < |all| && all[j] == p[k];
    }
    forall i | 0 <= i < |orders| && orders[i].status == Pending ensures Entry(i, orders[i]) in p {
      assert all[i] == Entry(i, orders[i]);
    }
    FilterIncreasing(all, 0, orders);
  }

  /** The queue holds exactly the pending orders of the store. */
  lemma PendingByAgeMembers(orders: seq<Order>)
    ensures var r := PendingByAge(orders);
      && (forall k :: 0 <= k < |r| ==> Describes(orders, r[k]) && r[k].order.status == Pending)
      && (forall i :: 0 <= i < |orders| && orders[i].status == Pending ==> Entry(i, orders[i]) in r)
  {
    var p := PendingEntries(orders);
    var r := PendingByAge(orders);
    PendingEntriesSpec(orders);
    SortByMembers(p, CreatedAt);
    forall k | 0 <= k < |r| ensures Describes(orders, r[k]) && r[k].order.status == Pending {
      assert r[k] in p;
      var j :| 0 <= j < |p| && p[j] == r[k];
    }
  }

  /** The queue holds each pending order once. */
  lemma PendingByAgeDistinct(orders: seq<Order>)
    ensures var r := PendingByAge(orders);
      forall a, b :: 0 <= a < b < |r| ==> r[a].index != r[b].index
  {
    var p := PendingEntries(orders);
    var r := PendingByAge(orders);
    PendingByAgeMembers(orders);
    PendingEntriesSpec(orders);
    forall a, b | 0 <= a < b < |r| ensures r[a].index != r[b].index {
      if r[a].index == r[b].index {
        assert orders[r[a].index] == r[a].order && orders[r[b].index] == r[b].order;
        DistinctByMultiset(p, r, a, b);
      }
    }
  }

  /** The queue is oldest first. */
  lemma PendingByAgeSorted(orders: seq<Order>)
    ensures var r := PendingByAge(orders);
      forall a, b :: 0 <= a < b < |r| ==> r[a].order.createdAt <= r[b].order.createdAt
  {
    var r := PendingByAge(orders);
    forall a, b | 0 <= a < b < |r| ensures r[a].order.createdAt <= r[b].order.createdAt {
      assert CreatedAt(r[a]) <= CreatedAt(r[b]);
    }
  }

  /** The pending entries come in strictly increasing positions. */
  lemma FilterIncreasing(all: seq<Entry>, from: nat, orders: seq<Order>)
    requires from <= |orders| && all == EntriesFrom(orders, from)
    ensures forall x, y :: 0 <= x < y < |Filter(all, IsPending)| ==>
      Filter(all, IsPending)[x].index < Filter(all, IsPending)[y].index
    ensures forall x :: 0 <= x < |Filter(all, IsPending)| ==> Filter(all, IsPending)[x].index >= from
    decreases |orders| - from
  {
    if from < |orders| {
      var rest := EntriesFrom(orders, from + 1);
      assert all[1..] == rest;
      FilterIncreasing(rest, from + 1, orders);
      var fr := Filter(rest, IsPending);
      forall x | 0 <= x < |fr| ensures fr[x].index > from {
        assert fr[x].index >= from + 1;
      }
    }
  }

  /** A permutation of a sequence in strictly increasing positions repeats no entry. */
  lemma DistinctByMultiset(p: seq<Entry>, r: seq<Entry>, a: int, b: int)
    requires multiset(r) == multiset(p)
    requires forall x, y :: 0 <= x < y < |p| ==> p[x].index < p[y].index
    requires 0 <= a < b < |r|
    ensures r[a] != r[b]
  {
    if r[a] == r[b] {
      TwoOccurrences(r, a, b);
      AtMostOnce(p, r[a]);
    }
  }

  lemma TwoOccurrences(r: seq<Entry>, a: int, b: int)
    requires 0 <= a < b < |r| && r[a] == r[b]
    ensures multiset(r)[r[a]] >= 2
  {
    var front := r[..b];
    assert r == front + [r[b]] + r[b + 1..];
    assert front[a] == r[a];
    assert r[a] in multiset(front);
  }

  lemma {:induction false} AtMostOnce(p: seq<Entry>, v: Entry)
    requires forall x, y :: 0 <= x < y < |p| ==> p[x].index < p[y].index
    ensures multiset(p)[v] <= 1
  {
    if p != [] {
      var init := p[..|p| - 1];
      AtMostOnce(init, v);
      assert p == init + [p[|p| - 1]];
      if p[|p| - 1] == v {
        assert v !in init;
      }
    }
  }

  // ---------------------------------------------------------------- nearest neighbour

  /**
   * `findClosest(current, candidates)`: the position among the candidates of
   * the order nearest to `current`.
   */
  function FindClosest(current: LatLng, cands: seq<Entry>, dist: (LatLng, LatLng) -> real): (k: nat)
    requires |cands| > 0
    ensures k < |cands|
  {
    ClosestAmong(current, cands, |cands|, dist)
  }

  /**
   * The `reduce` of `findClosest` after its first `n` candidates, starting from
   * the first: a candidate replaces the best so far only when strictly nearer.
   */
  function ClosestAmong(current: LatLng, cands: seq<Entry>, n: nat, dist: (LatLng, LatLng) -> real): (k: nat)
    requires 0 < n <= |cands|
    ensures k < n
  {
    if n == 1 then 0
    else
      var k := ClosestAmong(current, cands, n - 1, dist);
      if dist(current, cands[n - 1].order.Position()) < dist(current, cands[k].order.Position()) then n - 1 else k
  }

  function DistanceTo(current: LatLng, e: Entry, dist: (LatLng, LatLng) -> real): real
  {
    dist(current, e.order.Position())
  }

  /** The candidate found is a nearest one, and the first of the nearest. */
  lemma {:induction false} ClosestAmongNearest(current: LatLng, cands: seq<Entry>, n: nat, dist: (LatLng, LatLng) -> real)
    requires 0 < n <= |cands|
    ensures var k := ClosestAmong(current, cands, n, dist);
      && (forall j :: 0 <= j < n ==> DistanceTo(current, cands[k], dist) <= DistanceTo(current, cands[j], dist))
      && (forall j :: 0 <= j < k ==> DistanceTo(current, cands[k], dist) < DistanceTo(current, cands[j], dist))
  {
    if n > 1 {
      ClosestAmongNearest(current, cands, n - 1, dist);
    }
  }

  lemma FindClosestNearest(current: LatLng, cands: seq<Entry>, dist: (LatLng, LatLng) -> real)
    requires |cands| > 0
    ensures var k := FindClosest(current, cands, dist);
      && (forall j :: 0 <= j < |cands| ==> DistanceTo(current, cands[k], dist) <= DistanceTo(current, cands[j], dist))
      && (forall j :: 0 <= j < k ==> DistanceTo(current, cands[k], dist) < DistanceTo(current, cands[j], dist))
  {
    ClosestAmongNearest(current, cands, |cands|, dist);
  }

  /** `remaining.findIndex(o => o.id === id)`. */
  function FirstWithId(cands: seq<Entry>, id: Id): (r: Option<nat>)
    ensures r.Some? ==> r.value < |cands| && cands[r.value].order.id == id
    ensures r.Some? ==> forall j :: 0 <= j < r.value ==> cands[j].order.id != id
    ensures r.None? <==> forall j :: 0 <= j < |cands| ==> cands[j].order.id != id
  {
    FirstWithIdFrom(cands, id, 0)
  }

  /** The scan of `findIndex` from position `from` on. */
  function FirstWithIdFrom(cands: seq<Entry>, id: Id, from: nat): (r: Option<nat>)
    requires from <= |cands|
    ensures r.Some? ==> from <= r.value < |cands| && cands[r.value].order.id == id
    ensures r.Some? ==> forall j :: from <= j < r.value ==> cands[j].order.id != id
    ensures r.None? <==> forall j :: from <= j < |cands| ==> cands[j].order.id != id
    decreases |cands| - from
  {
    if from == |cands| then None
    else if cands[from].order.id == id then Some(from)
    else FirstWithIdFrom(cands, id, from + 1)
  }

  /** `s.splice(i, 1)`: the sequence without its element at position `i`. */
  function Without(s: seq<Entry>, i: nat): (r: seq<Entry>)
    requires i < |s|
    ensures |r| == |s| - 1
    ensures forall j {:trigger r[j]} :: 0 <= j < i ==> r[j] == s[j]
    ensures forall j {:trigger r[j]} :: i <= j < |r| ==> r[j] == s[j + 1]
  {
    seq(|s| - 1, j requires 0 <= j < |s| - 1 => if j < i then s[j] else s[j + 1])
  }

  // ---------------------------------------------------------------- batch selection

  /**
   * The walk of the dispatch loop: from `current`, take the closest remaining
   * order, remove the first remaining order with its id, and go on from the one
   * taken, at most `budget` times.
   */
  function Greedy(current: LatLng, remaining: seq<Entry>, budget: nat, dist: (LatLng, LatLng) -> real): (picks: seq<Entry>)
    ensures |picks| == if budget < |remaining| then budget else |remaining|
    decreases budget
  {
    if budget == 0 || remaining == [] then []
    else
      var c := remaining[FindClosest(current, remaining, dist)];
      [c] + Greedy(c.order.Position(), Without(remaining, FirstWithId(remaining, c.order.id).value), budget - 1, dist)
  }

  /** Every order the walk takes was among the remaining ones. */
  lemma {:induction false} GreedyWithin(current: LatLng, remaining: seq<Entry>, budget: nat, dist: (LatLng, LatLng) -> real)
    ensures forall j :: 0 <= j < |Greedy(current, remaining, budget, dist)| ==>
      Greedy(current, remaining, budget, dist)[j] in remaining
    decreases budget
  {
    if budget > 0 && remaining != [] {
      var c := remaining[FindClosest(current, remaining, dist)];
      var rest := Without(remaining, FirstWithId(remaining, c.order.id).value);
      GreedyWithin(c.order.Position(), rest, budget - 1, dist);
      var tail := Greedy(c.order.Position(), rest, budget - 1, dist);
      WithoutWithin(remaining, FirstWithId(remaining, c.order.id).value, tail);
      GreedyUnfold(current, remaining, budget, dist);
      ConsWithin(c, tail, remaining);
    }
  }

  lemma ConsWithin(c: Entry, tail: seq<Entry>, s: seq<Entry>)
    requires c in s && forall j :: 0 <= j < |tail| ==> tail[j] in s
    ensures forall j :: 0 <= j < |[c] + tail| ==> ([c] + tail)[j] in s
  {
    forall j | 0 <= j < |[c] + tail| ensures ([c] + tail)[j] in s {
      if j > 0 { assert ([c] + tail)[j] == tail[j - 1]; }
    }
  }

  /** No order id occurs twice. */
  predicate DistinctIds(s: seq<Entry>)
  {
    forall a, b :: 0 <= a < b < |s| ==> s[a].order.id != s[b].order.id
  }

  /** When the remaining orders have distinct ids, the walk never takes an id twice. */
  lemma {:induction false} GreedyDistinct(current: LatLng, remaining: seq<Entry>, budget: nat, dist: (LatLng, LatLng) -> real)
    requires DistinctIds(remaining)
    ensures DistinctIds(Greedy(current, remaining, budget, dist))
    decreases budget
  {
    if budget > 0 && remaining != [] {
      var c := remaining[FindClosest(current, remaining, dist)];
      var k := FirstWithId(remaining, c.order.id).value;
      var rest := Without(remaining, k);
      WithoutDistinct(remaining, k);
      GreedyDistinct(c.order.Position(), rest, budget - 1, dist);
      TailLacksId(remaining, k, c.order.Position(), budget - 1, dist, c.order.id);
      ConsDistinct(c, Greedy(c.order.Position(), rest, budget - 1, dist));
      GreedyUnfold(current, remaining, budget, dist);
    }
  }

  /** Entries drawn from what remains after a splice were there before it. */
  lemma WithoutWithin(s: seq<Entry>, k: nat, t: seq<Entry>)
    requires k < |s| && forall j :: 0 <= j < |t| ==> t[j] in Without(s, k)
    ensures forall j :: 0 <= j < |t| ==> t[j] in s
  {
    var r := Without(s, k);
    forall j | 0 <= j < |t| ensures t[j] in s {
      var i :| 0 <= i < |r| && r[i] == t[j];
      if i < k { assert r[i] == s[i]; } else { assert r[i] == s[i + 1]; }
    }
  }

  /** Splicing one entry out keeps the ids distinct. */
  lemma WithoutDistinct(s: seq<Entry>, k: nat)
    requires DistinctIds(s) && k < |s|
    ensures DistinctIds(Without(s, k))
  {
    var r := Without(s, k);
    forall a, b | 0 <= a < b < |r| ensures r[a].order.id != r[b].order.id {
      var a' := if a < k then a else a + 1;
      var b' := if b < k then b else b + 1;
      assert r[a] == s[a'] && r[b] == s[b'];
    }
  }

  /** After the entry with `id` is spliced out of distinct entries, the walk never takes `id`. */
  lemma TailLacksId(remaining: seq<Entry>, k: nat, pos: LatLng, budget: nat, dist: (LatLng, LatLng) -> real, id: Id)
    requires DistinctIds(remaining) && k < |remaining| && remaining[k].order.id == id
    ensures forall j :: 0 <= j < |Greedy(pos, Without(remaining, k), budget, dist)| ==>
      Greedy(pos, Without(remaining, k), budget, dist)[j].order.id != id
  {
    GreedyWithin(pos, Without(remaining, k), budget, dist);
    WithoutLacksId(remaining, k, Greedy(pos, Without(remaining, k), budget, dist));
  }

  /** With distinct ids, nothing drawn from what is left after splicing out entry `k` carries its id. */
  lemma WithoutLacksId(s: seq<Entry>, k: nat, t: seq<Entry>)
    requires DistinctIds(s) && k < |s| && forall j :: 0 <= j < |t| ==> t[j] in Without(s, k)
    ensures forall j :: 0 <= j < |t| ==> t[j].order.id != s[k].order.id
  {
    var r := Without(s, k);
    forall j | 0 <= j < |t| ensures t[j].order.id != s[k].order.id {
      var i :| 0 <= i < |r| && r[i] == t[j];
      var i' := if i < k then i else i + 1;
      assert r[i] == s[i'];
    }
  }

  lemma ConsDistinct(c: Entry, tail: seq<Entry>)
    requires DistinctIds(tail)
    requires forall j :: 0 <= j < |tail| ==> tail[j].order.id != c.order.id
    ensures DistinctIds([c] + tail)
  {
    var s := [c] + tail;
    forall a, b | 0 <= a < b < |s| ensures s[a].order.id != s[b].order.id {
      assert s[b] == tail[b - 1];
      if a > 0 { assert s[a] == tail[a - 1]; }
    }
  }

  /** The first order the walk takes is a nearest remaining one, the first of them on a tie. */
  lemma GreedyTakesNearest(current: LatLng, remaining: seq<Entry>, budget: nat, dist: (LatLng, LatLng) -> real)
    requires budget > 0 && remaining != []
    ensures var first := Greedy(current, remaining, budget, dist)[0];
      first in remaining &&
      forall j :: 0 <= j < |remaining| ==> DistanceTo(current, first, dist) <= DistanceTo(current, remaining[j], dist)
    ensures var first := Greedy(current, remaining, budget, dist)[0];
      exists k :: 0 <= k < |remaining| && first == remaining[k] &&
        forall j :: 0 <= j < k ==> DistanceTo(current, first, dist) < DistanceTo(current, remaining[j], dist)
  {
    var k := FindClosest(current, remaining, dist);
    FindClosestNearest(current, remaining, dist);
    assert Greedy(current, remaining, budget, dist)[0] == remaining[k];
  }

  /** What is left of `maxBatch` after `n` orders are selected. */
  function BudgetAfter(cfg: RoutingConfig, n: nat): nat
  {
    if cfg.maxBatch > n then cfg.maxBatch - n else 0
  }

  /** Whether a courier becoming available forms a route right now. */
  predicate FormsBatch(orders: seq<Order>, cfg: RoutingConfig, now: Millis)
  {
    var pending := PendingByAge(orders);
    |pending| > 0 &&
    (|pending| >= cfg.minBatch || DiffInMinutes(now, pending[0].order.createdAt) >= cfg.maxWaitMinutes)
  }

  /** The orders a formed route takes, in visiting order: the oldest, then the walk from it. */
  function BatchSelection(pending: seq<Entry>, cfg: RoutingConfig, dist: (LatLng, LatLng) -> real): (sel: seq<Entry>)
    requires |pending| > 0
  {
    [pending[0]] + Greedy(pending[0].order.Position(), pending[1..], BudgetAfter(cfg, 1), dist)
  }

  /** The oldest pending order is taken first: no pending order is older. */
  lemma BatchStartsWithOldest(orders: seq<Order>, cfg: RoutingConfig, dist: (LatLng, LatLng) -> real)
    requires |PendingByAge(orders)| > 0
    ensures var first := BatchSelection(PendingByAge(orders), cfg, dist)[0];
      forall i :: 0 <= i < |orders| && orders[i].status == Pending ==> first.order.createdAt <= orders[i].createdAt
  {
    var p := PendingByAge(orders);
    PendingByAgeMembers(orders);
    PendingByAgeSorted(orders);
    forall i | 0 <= i < |orders| && orders[i].status == Pending
      ensures p[0].order.createdAt <= orders[i].createdAt
    {
      var k :| 0 <= k < |p| && p[k] == Entry(i, orders[i]);
      if k > 0 { assert p[0].order.createdAt <= p[k].order.createdAt; }
    }
  }

  /** A route takes only pending orders of the store, each as it is stored. */
  lemma BatchFromPending(orders: seq<Order>, cfg: RoutingConfig, dist: (LatLng, LatLng) -> real)
    requires |PendingByAge(orders)| > 0
    ensures var sel := BatchSelection(PendingByAge(orders), cfg, dist);
      forall k :: 0 <= k < |sel| ==> Describes(orders, sel[k]) && sel[k].order.status == Pending
  {
    var p := PendingByAge(orders);
    PendingByAgeMembers(orders);
    var rest := p[1..];
    var tail := Greedy(p[0].order.Position(), rest, BudgetAfter(cfg, 1), dist);
    GreedyWithin(p[0].order.Position(), rest, BudgetAfter(cfg, 1), dist);
    var sel := [p[0]] + tail;
    forall k | 0 <= k < |sel| ensures Describes(orders, sel[k]) && sel[k].order.status == Pending {
      if k > 0 {
        assert sel[k] == tail[k - 1];
        var i :| 0 <= i < |rest| && rest[i] == tail[k - 1];
        assert rest[i] == p[i + 1];
      }
    }
  }

  /** A route takes min(maxBatch, #pending) orders, and at least the oldest one. */
  lemma BatchSize(orders: seq<Order>, cfg: RoutingConfig, dist: (LatLng, LatLng) -> real)
    requires |PendingByAge(orders)| > 0
    ensures var n := |PendingByAge(orders)|;
      |BatchSelection(PendingByAge(orders), cfg, dist)| ==
        if cfg.maxBatch <= 1 then 1 else if cfg.maxBatch < n then cfg.maxBatch else n
  {
  }

  /** With distinct ids among the pending orders, a route never lists an order twice. */
  lemma BatchDistinct(orders: seq<Order>, cfg: RoutingConfig, dist: (LatLng, LatLng) -> real)
    requires |PendingByAge(orders)| > 0
    requires DistinctIds(PendingByAge(orders))
    ensures DistinctIds(BatchSelection(PendingByAge(orders), cfg, dist))
  {
    var p := PendingByAge(orders);
    var rest := p[1..];
    assert DistinctIds(rest) by {
      forall a, b | 0 <= a < b < |rest| ensures rest[a].order.id != rest[b].order.id {
        assert rest[a] == p[a + 1] && rest[b] == p[b + 1];
      }
    }
    var tail := Greedy(p[0].order.Position(), rest, BudgetAfter(cfg, 1), dist);
    GreedyDistinct(p[0].order.Position(), rest, BudgetAfter(cfg, 1), dist);
    GreedyWithin(p[0].order.Position(), rest, BudgetAfter(cfg, 1), dist);
    forall j | 0 <= j < |tail| ensures tail[j].order.id != p[0].order.id {
      var i :| 0 <= i < |rest| && rest[i] == tail[j];
      assert rest[i] == p[i + 1];
    }
    ConsDistinct(p[0], tail);
  }

  /**
   * The selection loop of `onCourierAvailable`: starting from the oldest
   * pending order, repeatedly takes the nearest remaining one until the batch
   * is full or nothing remains.
   */
  method SelectBatch(pending: seq<Entry>, cfg: RoutingConfig, dist: (LatLng, LatLng) -> real)
    returns (selected: seq<Entry>)
    requires |pending| > 0
    ensures selected == BatchSelection(pending, cfg, dist)
  {
    ghost var goal := BatchSelection(pending, cfg, dist);
    var oldest := pending[0];
    selected := [oldest];
    var currentPoint := oldest.order.Position();
    var remaining := pending[1..];
    ghost var budget := BudgetAfter(cfg, 1);
    while |selected| < cfg.maxBatch && |remaining| > 0
      invariant 0 < |selected| && budget == BudgetAfter(cfg, |selected|)
      invariant selected + Greedy(currentPoint, remaining, budget, dist) == goal
      decreases |remaining|
    {
      var closest := remaining[FindClosest(currentPoint, remaining, dist)];
      var index := FirstWithId(remaining, closest.order.id).value;
      ghost var rest := Greedy(closest.order.Position(), Without(remaining, index), budget - 1, dist);
      GreedyUnfold(currentPoint, remaining, budget, dist);
      AppendStep(selected, closest, rest, Greedy(currentPoint, remaining, budget, dist), goal);
      selected := selected + [closest];
      currentPoint := closest.order.Position();
      remaining := Without(remaining, index);
      budget := budget - 1;
      assert selected + rest == goal;
      assert Greedy(currentPoint, remaining, budget, dist) == rest;
    }
    assert Greedy(currentPoint, remaining, budget, dist) == [];
    assert selected + [] == selected;
  }

  /** One unfolding of the walk. */
  lemma GreedyUnfold(current: LatLng, remaining: seq<Entry>, budget: nat, dist: (LatLng, LatLng) -> real)
    requires budget > 0 && remaining != []
    ensures var c := remaining[FindClosest(current, remaining, dist)];
      Greedy(current, remaining, budget, dist)
      == [c] + Greedy(c.order.Position(), Without(remaining, FirstWithId(remaining, c.order.id).value), budget - 1, dist)
  {
  }

  lemma AppendStep(selected: seq<Entry>, c: Entry, tail: seq<Entry>, g: seq<Entry>, goal: seq<Entry>)
    requires selected + g == goal && g == [c] + tail
    ensures (selected + [c]) + tail == goal
  {
    assert (selected + [c]) + tail == selected + ([c] + tail);
  }

  // ---------------------------------------------------------------- state change

  /** An order sent out on a route by a courier. */
  function PutOnRoute(o: Order, courierId: Id, routeId: Id): Order
  {
    o.(status := OnRoute, courierId := Some(courierId), routeId := Some(routeId))
  }

  function Positions(sel: seq<Entry>): (r: seq<nat>)
    ensures |r| == |sel|
    ensures forall k :: 0 <= k < |sel| ==> r[k] == sel[k].index
  {
    seq(|sel|, k requires 0 <= k < |sel| => sel[k].index)
  }

  function OrdersOf(sel: seq<Entry>): (r: seq<Order>)
    ensures |r| == |sel|
    ensures forall k :: 0 <= k < |sel| ==> r[k] == sel[k].order
  {
    seq(|sel|, k requires 0 <= k < |sel| => sel[k].order)
  }

  function IdsOf(sel: seq<Entry>): (r: seq<Id>)
    ensures |r| == |sel|
    ensures forall k :: 0 <= k < |sel| ==> r[k] == sel[k].order.id
  {
    seq(|sel|, k requires 0 <= k < |sel| => sel[k].order.id)
  }

  /** The orders after the selected ones are put on the route; the others are as they were. */
  function DispatchSelected(orders: seq<Order>, sel: seq<Entry>, courierId: Id, routeId: Id): (r: seq<Order>)
    ensures |r| == |orders|
  {
    seq(|orders|, i requires 0 <= i < |orders| =>
      if i in Positions(sel) then PutOnRoute(orders[i], courierId, routeId) else orders[i])
  }

  /**
   * The route the dispatcher creates: ASSIGNED to the courier, listing the
   * selected orders' ids in visiting order, with the directions link from the
   * restaurant through them.
   */
  function BatchRoute(routeId: Id, courierId: Id, sel: seq<Entry>, now: Millis, showNumber: real -> string): (r: Route)
    ensures r.id == routeId && r.courierId == Some(courierId) && r.status == RouteStatus.Assigned && r.createdAt == now
    ensures |r.orderIds| == |sel| && forall k :: 0 <= k < |sel| ==> r.orderIds[k] == sel[k].order.id
    ensures r.mapsUrl.Some? && (r.mapsUrl.value == "" <==> sel == [])
    ensures r.totalPrice.None?
  {
    Route(routeId, Some(courierId), IdsOf(sel), RouteStatus.Assigned, now,
          Some(BuildMapsUrl(RestaurantLocation, OrdersOf(sel), showNumber)), None)
  }

  /** `selected.forEach(order => { ON_ROUTE, courierId, routeId })`. */
  method PutSelectedOnRoute(s: Store, selected: seq<Entry>, courierId: Id, routeId: Id)
    requires forall k :: 0 <= k < |selected| ==> selected[k].index < |s.orders|
    modifies s
    ensures s.orders == DispatchSelected(old(s.orders), selected, courierId, routeId)
    ensures s.couriers == old(s.couriers) && s.routes == old(s.routes)
  {
    ghost var orders := s.orders;
    var j := 0;
    while j < |selected|
      invariant 0 <= j <= |selected|
      invariant |s.orders| == |orders|
      invariant s.couriers == old(s.couriers) && s.routes == old(s.routes)
      invariant forall i :: 0 <= i < |orders| ==>
        s.orders[i] == if i in Positions(selected[..j]) then PutOnRoute(orders[i], courierId, routeId) else orders[i]
    {
      var i := selected[j].index;
      s.orders := s.orders[i := PutOnRoute(s.orders[i], courierId, routeId)];
      assert Positions(selected[..j + 1]) == Positions(selected[..j]) + [i];
      j := j + 1;
    }
    assert selected[..j] == selected;
  }

  /**
   * `onCourierAvailable`: forms one ASSIGNED route for the courier at position
   * `ci` when some order is pending and either enough are pending or the oldest
   * has waited long enough; otherwise nothing changes. The route id and the
   * clock reading are parameters.
   */
  method OnCourierAvailable(s: Store, ci: nat, now: Millis, newRouteId: Id,
                            dist: (LatLng, LatLng) -> real, showNumber: real -> string)
    requires ci < |s.couriers|
    modifies s
    ensures !FormsBatch(old(s.orders), DefaultRoutingConfig, now) ==>
      s.orders == old(s.orders) && s.couriers == old(s.couriers) && s.routes == old(s.routes)
    ensures FormsBatch(old(s.orders), DefaultRoutingConfig, now) ==>
      var sel := BatchSelection(PendingByAge(old(s.orders)), DefaultRoutingConfig, dist);
      var courier := old(s.couriers[ci]);
      && s.orders == DispatchSelected(old(s.orders), sel, courier.id, newRouteId)
      && s.routes == old(s.routes) + [BatchRoute(newRouteId, courier.id, sel, now, showNumber)]
      && s.couriers == old(s.couriers)[ci := courier.(status := OnTrip)]
  {
    var cfg := DefaultRoutingConfig;
    var pending := PendingByAge(s.orders);
    if |pending| == 0 {
      return;
    }
    var waitMinutes := DiffInMinutes(now, pending[0].order.createdAt);
    var hasMinBatch := |pending| >= cfg.minBatch;
    var hasOldOrder := waitMinutes >= cfg.maxWaitMinutes;
    if !hasMinBatch && !hasOldOrder {
      return;
    }
    var selected := SelectBatch(pending, cfg, dist);
    BatchFromPending(s.orders, cfg, dist);
    var route := BatchRoute(newRouteId, s.couriers[ci].id, selected, now, showNumber);
    DispatchBatch(s, ci, selected, route);
  }

  /**
   * The end of `onCourierAvailable`: appends the ASSIGNED route of the selected
   * orders, puts them on it and sends the courier on the trip.
   */
  method DispatchBatch(s: Store, ci: nat, selected: seq<Entry>, route: Route)
    requires ci < |s.couriers|
    requires forall k :: 0 <= k < |selected| ==> Describes(s.orders, selected[k])
    modifies s
    ensures var courier := old(s.couriers[ci]);
      && s.orders == DispatchSelected(old(s.orders), selected, courier.id, route.id)
      && s.routes == old(s.routes) + [route]
      && s.couriers == old(s.couriers)[ci := courier.(status := OnTrip)]
  {
    var courierId := s.couriers[ci].id;
    s.routes := s.routes + [route];
    PutSelectedOnRoute(s, selected, courierId, route.id);
    s.couriers := s.couriers[ci := s.couriers[ci].(status := OnTrip)];
  }
}

=== FILE: seed_demo.dfy ===
/**
 * The demo-week seeding helpers: `chunk`, which cuts a list into batches of a
 * fixed size, and `buildRoutesFromOrders`, which turns every batch of five
 * selected orders into a route and links the orders back to it.
 *
 * The selected orders are the very objects held in the store's order list, so
 * they are modelled as indices into `Store.orders`; writing `order.routeId`
 * rewrites that entry. The `randomUUID()` draws are the sequence `routeIds`,
 * consumed one per route.
 */
module SeedDemo {
  import opened Wrappers
  import opened Text
  import opened Seqs
  import opened DispatchModel

  /** The batch size `buildRoutesFromOrders` passes to `chunk`. */
  const BatchSize: nat := 5

  /** The maps link every seeded route carries. */
  const DemoMapsUrl: string := "https://maps.google.com"

  function Min(a: int, b: int): int
  {
    if a <= b then a else b
  }

  // ------------------------------------------------------------------ chunk

  /**
   * The batches `chunk(list, size)` returns: `list.slice(i, i + size)` for
   * i = 0, size, 2·size, … while i < |list|. The source loop never ends for
   * size 0, hence the precondition.
   */
  function Chunks<T>(list: seq<T>, size: nat): seq<seq<T>>
    requires size > 0
    decreases |list|
  {
    if |list| == 0 then []
    else if |list| <= size then [list]
    else [list[..size]] + Chunks(list[size..], size)
  }

  /** The batches glued back together, in order. */
  function Concat<T>(chunks: seq<seq<T>>): seq<T>
  {
    if chunks == [] then [] else chunks[0] + Concat(chunks[1..])
  }

  /** Concatenating the chunks gives the list back. */
  lemma {:induction false} ChunksConcat<T>(list: seq<T>, size: nat)
    requires size > 0
    ensures Concat(Chunks(list, size)) == list
    decreases |list|
  {
    if |list| > size {
      ChunksConcat(list[size..], size);
      assert list[..size] + list[size..] == list;
    }
  }

  /** There are ⌈|list| / size⌉ chunks: enough to hold the list, and one fewer would not be. */
  lemma {:induction false} ChunksCount<T>(list: seq<T>, size: nat)
    requires size > 0
    ensures |list| <= |Chunks(list, size)| * size
    ensures |Chunks(list, size)| > 0 ==> (|Chunks(list, size)| - 1) * size < |list|
    decreases |list|
  {
    if |list| > size {
      var n := |Chunks(list[size..], size)|;
      ChunksCount(list[size..], size);
      assert (n + 1) * size == n * size + size;
    }
  }

  /** Chunk c is the slice of the list starting at c·size, cut at the end of the list. */
  lemma {:induction false} ChunkAt<T>(list: seq<T>, size: nat, c: nat)
    requires size > 0 && c < |Chunks(list, size)|
    ensures c * size < |list|
    ensures Chunks(list, size)[c] == list[c * size .. Min(c * size + size, |list|)]
    decreases c
  {
    if c > 0 {
      var rest := list[size..];
      ChunkAt(rest, size, c - 1);
      var m := (c - 1) * size;
      assert c * size == m + size;
      assert rest[m .. Min(m + size, |rest|)] == list[m + size .. Min(m + size + size, |list|)];
    }
  }

  /** Chunk c is non-empty and at most `size` long; it holds exactly `size` unless it is the last. */
  lemma ChunkSize<T>(list: seq<T>, size: nat, c: nat)
    requires size > 0 && c < |Chunks(list, size)|
    ensures 0 < |Chunks(list, size)[c]| <= size
    ensures c < |Chunks(list, size)| - 1 ==> |Chunks(list, size)[c]| == size
  {
    var n := |Chunks(list, size)|;
    ChunksCount(list, size);
    ChunkAt(list, size, c);
    var lo := c * size;
    var hi := Min(lo + size, |list|);
    assert |Chunks(list, size)[c]| == hi - lo;
    if c < n - 1 {
      MulMonotonic(c + 1, n - 1, size);
      assert lo + size == (c + 1) * size;
    }
  }

  lemma MulMonotonic(a: nat, b: nat, size: nat)
    requires a <= b
    ensures a * size <= b * size
  {
    var d: nat := b - a;
    assert b * size == a * size + d * size;
  }

  /** Element j of chunk c is element c·size + j of the list. */
  lemma {:induction false} ChunkElem<T>(list: seq<T>, size: nat, c: nat, j: nat)
    requires size > 0 && j < size && c * size + j < |list|
    ensures c < |Chunks(list, size)| && j < |Chunks(list, size)[c]|
    ensures Chunks(list, size)[c][j] == list[c * size + j]
    decreases c
  {
    if c == 0 {
      assert c * size + j == j;
    } else {
      var m := (c - 1) * size;
      assert c * size + j == m + j + size;
      var rest := Chunks(list[size..], size);
      ChunkElem(list[size..], size, c - 1, j);
      assert Chunks(list, size) == [list[..size]] + rest;
      assert list[size..][m + j] == list[m + j + size];
    }
  }

  /** Position j of chunk b is inside the list and holds x. */
  ghost predicate InChunkAt<T>(list: seq<T>, size: nat, b: nat, j: nat, x: T)
  {
    b * size + j < |list| && list[b * size + j] == x
  }

  /** Whatever chunk b holds sits in the list at c·size + j for some j < size. */
  lemma ChunkMember<T>(list: seq<T>, size: nat, b: nat, x: T)
    requires size > 0 && b < |Chunks(list, size)| && x in Chunks(list, size)[b]
    ensures exists j :: 0 <= j < size && InChunkAt(list, size, b, j, x)
  {
    ChunkAt(list, size, b);
    ChunkSize(list, size, b);
    var chunk := Chunks(list, size)[b];
    var j :| 0 <= j < |chunk| && chunk[j] == x;
    assert InChunkAt(list, size, b, j, x);
  }

  /** A value the list does not hold is in no chunk. */
  lemma ChunksOnlySelected<T>(list: seq<T>, size: nat, x: T)
    requires size > 0 && x !in list
    ensures forall b :: 0 <= b < |Chunks(list, size)| ==> x !in Chunks(list, size)[b]
  {
    forall b | 0 <= b < |Chunks(list, size)|
      ensures x !in Chunks(list, size)[b]
    {
      ChunkAt(list, size, b);
    }
  }

  /** `chunk(list, size)`: the for loop stepping i by size and pushing each slice. */
  method Chunk<T>(list: seq<T>, size: nat) returns (chunks: seq<seq<T>>)
    requires size > 0
    ensures chunks == Chunks(list, size)
  {
    chunks := [];
    var i := 0;
    while i < |list|
      invariant 0 <= i
      invariant chunks + Chunks(list[Min(i, |list|)..], size) == Chunks(list, size)
      decreases |list| - i
    {
      var rest := list[i..];
      if |rest| <= size {
        assert list[i..Min(i + size, |list|)] == rest;
        assert list[Min(i + size, |list|)..] == [];
      } else {
        assert list[i..Min(i + size, |list|)] == rest[..size];
        assert list[Min(i + size, |list|)..] == rest[size..];
      }
      chunks := chunks + [list[i..Min(i + size, |list|)]];
      i := i + size;
    }
    assert list[Min(i, |list|)..] == [];
  }

  // ------------------------------------------------------ one route per batch

  /** `order.courierId` is truthy: present and not the empty string. */
  predicate HasCourier(o: Order)
  {
    Truthy(o.courierId)
  }

  /** Order j is the first order of the batch with a truthy courier id. */
  predicate FirstWithCourier(batch: seq<Order>, j: int)
  {
    0 <= j < |batch| && HasCourier(batch[j]) && forall i :: 0 <= i < j ==> !HasCourier(batch[i])
  }

  /** `batch.find((order) => order.courierId)?.courierId`. */
  function FirstCourierId(batch: seq<Order>): Option<Id>
  {
    if batch == [] then None
    else if HasCourier(batch[0]) then batch[0].courierId
    else FirstCourierId(batch[1..])
  }

  /**
   * The find gives nothing exactly when no order of the batch has a truthy
   * courier id, and otherwise the courier id of the first order that has one.
   */
  lemma {:induction false} FirstCourierIdFinds(batch: seq<Order>)
    ensures FirstCourierId(batch).None? <==> forall j :: 0 <= j < |batch| ==> !HasCourier(batch[j])
    ensures FirstCourierId(batch).Some? ==>
      exists j :: FirstWithCourier(batch, j) && batch[j].courierId == FirstCourierId(batch)
    ensures FirstCourierId(batch).Some? ==> FirstCourierId(batch).value != ""
  {
    if batch == [] {
    } else if HasCourier(batch[0]) {
      assert FirstWithCourier(batch, 0);
    } else {
      FirstCourierIdFinds(batch[1..]);
      var r := FirstCourierId(batch[1..]);
      if r.Some? {
        var j :| FirstWithCourier(batch[1..], j) && batch[1..][j].courierId == r;
        assert FirstWithCourier(batch, j + 1);
      } else {
        assert forall j :: 1 <= j < |batch| ==> batch[j] == batch[1..][j - 1];
      }
    }
  }

  /** `order.deliveryPrice ?? 0`. */
  function Price(o: Order): real
  {
    o.deliveryPrice.GetOr(0.0)
  }

  /** `route.totalPrice`, absent counted as 0. */
  function RouteTotal(r: Route): real
  {
    r.totalPrice.GetOr(0.0)
  }

  predicate ValidIndices(orders: seq<Order>, batch: seq<nat>)
  {
    forall k :: 0 <= k < |batch| ==> batch[k] < |orders|
  }

  /** The orders a batch of indices refers to. */
  function Pick(orders: seq<Order>, batch: seq<nat>): (r: seq<Order>)
    requires ValidIndices(orders, batch)
    ensures |r| == |batch| && forall k :: 0 <= k < |batch| ==> r[k] == orders[batch[k]]
  {
    seq(|batch|, k requires 0 <= k < |batch| => orders[batch[k]])
  }

  /** `batch.map((order) => order.id)`. */
  function OrderIdsOf(batch: seq<Order>): (r: seq<Id>)
    ensures |r| == |batch| && forall k :: 0 <= k < |batch| ==> r[k] == batch[k].id
  {
    seq(|batch|, k requires 0 <= k < |batch| => batch[k].id)
  }

  /** The route object built for one non-empty batch, with `id` the drawn UUID. */
  function BatchRoute(batch: seq<Order>, id: Id, status: RouteStatus, requireCourier: bool): Route
    requires |batch| > 0
  {
    Route(
      id,
      if requireCourier then FirstCourierId(batch) else None,
      OrderIdsOf(batch),
      status,
      batch[0].createdAt,
      Some(DemoMapsUrl),
      Some(Sum(batch, Price)))
  }

  /** Two order lists that differ at most in their `routeId` fields. */
  predicate SameButRouteIds(a: seq<Order>, b: seq<Order>)
  {
    |a| == |b| && forall i :: 0 <= i < |a| ==> a[i] == b[i].(routeId := a[i].routeId)
  }

  lemma {:induction false} FirstCourierIgnoresRouteIds(a: seq<Order>, b: seq<Order>)
    requires SameButRouteIds(a, b)
    ensures FirstCourierId(a) == FirstCourierId(b)
  {
    if a != [] {
      FirstCourierIgnoresRouteIds(a[1..], b[1..]);
    }
  }

  lemma {:induction false} SumIgnoresRouteIds(a: seq<Order>, b: seq<Order>)
    requires SameButRouteIds(a, b)
    ensures Sum(a, Price) == Sum(b, Price)
    decreases |a|
  {
    if a != [] {
      SumIgnoresRouteIds(a[..|a| - 1], b[..|b| - 1]);
    }
  }

  /** A route reads no `routeId`: building it after earlier batches were linked gives the same route. */
  lemma BatchRouteIgnoresRouteIds(a: seq<Order>, b: seq<Order>, id: Id, status: RouteStatus, requireCourier: bool)
    requires |a| > 0 && SameButRouteIds(a, b)
    ensures BatchRoute(a, id, status, requireCourier) == BatchRoute(b, id, status, requireCourier)
  {
    FirstCourierIgnoresRouteIds(a, b);
    SumIgnoresRouteIds(a, b);
    assert a[0].createdAt == b[0].createdAt;
    assert OrderIdsOf(a) == OrderIdsOf(b);
  }

  // ---------------------------------------------------- buildRoutesFromOrders

  /**
   * The inner `batch.forEach((order) => { order.routeId = route.id; })`:
   * every order the batch names gets the route's id, every other is kept.
   */
  function Link(orders: seq<Order>, batch: seq<nat>, id: Id): (r: seq<Order>)
    requires ValidIndices(orders, batch)
    ensures |r| == |orders|
    ensures forall i :: 0 <= i < |orders| ==>
      r[i] == if i in batch then orders[i].(routeId := Some(id)) else orders[i]
    decreases |batch|
  {
    if batch == [] then orders
    else
      var last := batch[|batch| - 1];
      assert batch == batch[..|batch| - 1] + [last];
      Link(orders, batch[..|batch| - 1], id)[last := orders[last].(routeId := Some(id))]
  }

  predicate AllValid(orders: seq<Order>, batches: seq<seq<nat>>)
  {
    forall b :: 0 <= b < |batches| ==> ValidIndices(orders, batches[b])
  }

  /** How many route ids the forEach draws: one per non-empty batch. */
  function Drawn(batches: seq<seq<nat>>): (n: nat)
    ensures n <= |batches|
  {
    if batches == [] then 0
    else Drawn(batches[..|batches| - 1]) + if |batches[|batches| - 1]| == 0 then 0 else 1
  }

  /**
   * The routes the forEach pushes for `batches`: a route per non-empty batch,
   * each with the next drawn id. A route reads no `routeId`
   * (BatchRouteIgnoresRouteIds), so it is built here from the orders as they
   * were before the first link.
   */
  function SeedRoutes(orders: seq<Order>, batches: seq<seq<nat>>, routeIds: seq<Id>,
                      status: RouteStatus, requireCourier: bool): (r: seq<Route>)
    requires AllValid(orders, batches) && |batches| <= |routeIds|
    ensures |r| == Drawn(batches)
    decreases |batches|
  {
    if batches == [] then []
    else
      var init := batches[..|batches| - 1];
      var last := batches[|batches| - 1];
      var prev := SeedRoutes(orders, init, routeIds, status, requireCourier);
      if |last| == 0 then prev
      else prev + [BatchRoute(Pick(orders, last), routeIds[Drawn(init)], status, requireCourier)]
  }

  /** The order list after the forEach has linked the orders of `batches` to their routes. */
  function LinkAll(orders: seq<Order>, batches: seq<seq<nat>>, routeIds: seq<Id>): (r: seq<Order>)
    requires AllValid(orders, batches) && |batches| <= |routeIds|
    ensures |r| == |orders|
    decreases |batches|
  {
    if batches == [] then orders
    else
      var init := batches[..|batches| - 1];
      var last := batches[|batches| - 1];
      var prev := LinkAll(orders, init, routeIds);
      if |last| == 0 then prev else Link(prev, last, routeIds[Drawn(init)])
  }

  /** One more batch: the forEach step both functions are built from, for the batches up to index b. */
  lemma SeedStep(orders: seq<Order>, batches: seq<seq<nat>>, b: nat, routeIds: seq<Id>,
                 status: RouteStatus, requireCourier: bool)
    requires AllValid(orders, batches) && |batches| <= |routeIds| && b < |batches|
    ensures AllValid(orders, batches[..b]) && AllValid(orders, batches[..b + 1])
    ensures Drawn(batches[..b + 1]) == Drawn(batches[..b]) + if |batches[b]| == 0 then 0 else 1
    ensures SeedRoutes(orders, batches[..b + 1], routeIds, status, requireCourier) ==
      var prev := SeedRoutes(orders, batches[..b], routeIds, status, requireCourier);
      if |batches[b]| == 0 then prev
      else prev + [BatchRoute(Pick(orders, batches[b]), routeIds[Drawn(batches[..b])], status, requireCourier)]
    ensures LinkAll(orders, batches[..b + 1], routeIds) ==
      var prev := LinkAll(orders, batches[..b], routeIds);
      if |batches[b]| == 0 then prev else Link(prev, batches[b], routeIds[Drawn(batches[..b])])
  {
    assert batches[..b + 1][..b] == batches[..b];
  }

  /** Linking only ever writes `routeId`s. */
  lemma {:induction false} LinkAllKeepsOrders(orders: seq<Order>, batches: seq<seq<nat>>, routeIds: seq<Id>)
    requires AllValid(orders, batches) && |batches| <= |routeIds|
    ensures SameButRouteIds(LinkAll(orders, batches, routeIds), orders)
    decreases |batches|
  {
    if batches != [] {
      LinkAllKeepsOrders(orders, batches[..|batches| - 1], routeIds);
    }
  }

  /** The inner forEach over one batch, writing each order's `routeId` in turn. */
  method LinkBatch(store: Store, batch: seq<nat>, id: Id)
    requires ValidIndices(store.orders, batch)
    modifies store
    ensures store.orders == Link(old(store.orders), batch, id)
    ensures store.routes == old(store.routes) && store.couriers == old(store.couriers)
  {
    var j := 0;
    while j < |batch|
      invariant 0 <= j <= |batch|
      invariant ValidIndices(old(store.orders), batch[..j])
      invariant store.orders == Link(old(store.orders), batch[..j], id)
      invariant store.routes == old(store.routes) && store.couriers == old(store.couriers)
    {
      assert batch[..j + 1][..j] == batch[..j];
      var i := batch[j];
      store.orders := store.orders[i := store.orders[i].(routeId := Some(id))];
      j := j + 1;
    }
    assert batch[..|batch|] == batch;
  }

  /**
   * The body of the outer forEach for a non-empty batch: push its route, then
   * link its orders. The route is the one the orders as they were before any
   * link give (`orders0`), since linking only writes `routeId`s.
   */
  method PushRoute(store: Store, batch: seq<nat>, id: Id, status: RouteStatus, requireCourier: bool,
                   ghost orders0: seq<Order>)
    requires |batch| > 0 && ValidIndices(store.orders, batch) && SameButRouteIds(store.orders, orders0)
    modifies store
    ensures store.routes == old(store.routes) + [BatchRoute(Pick(orders0, batch), id, status, requireCourier)]
    ensures store.orders == Link(old(store.orders), batch, id)
    ensures store.couriers == old(store.couriers)
  {
    var route := BatchRoute(Pick(store.orders, batch), id, status, requireCourier);
    BatchRouteIgnoresRouteIds(Pick(store.orders, batch), Pick(orders0, batch), id, status, requireCourier);
    store.routes := store.routes + [route];
    LinkBatch(store, batch, route.id);
  }

  lemma AppendAssoc<T>(a: seq<T>, b: seq<T>, c: seq<T>)
    ensures (a + b) + c == a + (b + c)
  {
  }

  /** The store holds what the forEach has done with the batches before index b, with `drawn` ids used. */
  ghost predicate SeededUpTo(store: Store, routes0: seq<Route>, orders0: seq<Order>, batches: seq<seq<nat>>, b: nat,
                             drawn: nat, routeIds: seq<Id>, status: RouteStatus, requireCourier: bool)
    reads store
  {
    AllValid(orders0, batches) && |batches| <= |routeIds| && b <= |batches| &&
    drawn == Drawn(batches[..b]) &&
    store.routes == routes0 + SeedRoutes(orders0, batches[..b], routeIds, status, requireCourier) &&
    store.orders == LinkAll(orders0, batches[..b], routeIds)
  }

  /** One turn of the outer forEach: a non-empty batch draws the next id and pushes its route. */
  method SeedBatch(store: Store, ghost routes0: seq<Route>, ghost orders0: seq<Order>, batches: seq<seq<nat>>, b: nat,
                   drawn: nat, routeIds: seq<Id>, status: RouteStatus, requireCourier: bool) returns (drawn': nat)
    requires b < |batches|
    requires SeededUpTo(store, routes0, orders0, batches, b, drawn, routeIds, status, requireCourier)
    modifies store
    ensures SeededUpTo(store, routes0, orders0, batches, b + 1, drawn', routeIds, status, requireCourier)
    ensures store.couriers == old(store.couriers)
  {
    SeedStep(orders0, batches, b, routeIds, status, requireCourier);
    drawn' := drawn;
    var batch := batches[b];
    if |batch| != 0 {
      LinkAllKeepsOrders(orders0, batches[..b], routeIds);
      ghost var prev := SeedRoutes(orders0, batches[..b], routeIds, status, requireCourier);
      ghost var route := BatchRoute(Pick(orders0, batch), routeIds[drawn], status, requireCourier);
      PushRoute(store, batch, routeIds[drawn], status, requireCourier, orders0);
      drawn' := drawn + 1;
      AppendAssoc(routes0, prev, [route]);
    }
  }

  /** Every chunk of a list of valid indices holds valid indices. */
  lemma ChunksValid(orders: seq<Order>, selected: seq<nat>)
    requires ValidIndices(orders, selected)
    ensures AllValid(orders, Chunks(selected, BatchSize))
  {
    forall c | 0 <= c < |Chunks(selected, BatchSize)|
      ensures ValidIndices(orders, Chunks(selected, BatchSize)[c])
    {
      ChunkAt(selected, BatchSize, c);
    }
  }

  /**
   * `buildRoutesFromOrders(selected, status, requireCourier)`: chunk the
   * selection by five, then for each batch push a route and link its orders.
   * The routes come after those already in the store; the couriers are not
   * touched.
   */
  method BuildRoutesFromOrders(store: Store, selected: seq<nat>, status: RouteStatus,
                               requireCourier: bool, routeIds: seq<Id>)
    requires ValidIndices(store.orders, selected)
    requires |selected| <= BatchSize * |routeIds|
    modifies store
    ensures AllValid(old(store.orders), Chunks(selected, BatchSize))
    ensures |Chunks(selected, BatchSize)| <= |routeIds|
    ensures store.routes == old(store.routes) + SeedRoutes(old(store.orders), Chunks(selected, BatchSize), routeIds, status, requireCourier)
    ensures store.orders == LinkAll(old(store.orders), Chunks(selected, BatchSize), routeIds)
    ensures store.couriers == old(store.couriers)
  {
    var batches := Chunk(selected, BatchSize);
    ChunksValid(store.orders, selected);
    ChunksCount(selected, BatchSize);
    ghost var orders0 := store.orders;
    ghost var routes0 := store.routes;
    var drawn := 0;
    var b := 0;
    while b < |batches|
      invariant 0 <= b <= |batches|
      invariant SeededUpTo(store, routes0, orders0, batches, b, drawn, routeIds, status, requireCourier)
      invariant store.couriers == old(store.couriers)
    {
      drawn := SeedBatch(store, routes0, orders0, batches, b, drawn, routeIds, status, requireCourier);
      b := b + 1;
    }
    assert batches[..|batches|] == batches;
  }

  // --------------------------------------------------------------- properties

  /** Non-empty batches: one route each, route c built from batch c with the c-th drawn id. */
  lemma {:induction false} SeedRoutesAt(orders: seq<Order>, batches: seq<seq<nat>>, routeIds: seq<Id>,
                                        status: RouteStatus, requireCourier: bool)
    requires AllValid(orders, batches) && |batches| <= |routeIds|
    requires forall c :: 0 <= c < |batches| ==> |batches[c]| > 0
    ensures |SeedRoutes(orders, batches, routeIds, status, requireCourier)| == |batches|
    ensures forall c :: 0 <= c < |batches| ==>
      SeedRoutes(orders, batches, routeIds, status, requireCourier)[c] ==
        BatchRoute(Pick(orders, batches[c]), routeIds[c], status, requireCourier)
    decreases |batches|
  {
    if batches != [] {
      var n := |batches|;
      var init := batches[..n - 1];
      SeedRoutesAt(orders, init, routeIds, status, requireCourier);
      DrawnAll(batches);
      var prev := SeedRoutes(orders, init, routeIds, status, requireCourier);
      var routes := SeedRoutes(orders, batches, routeIds, status, requireCourier);
      var route := BatchRoute(Pick(orders, batches[n - 1]), routeIds[n - 1], status, requireCourier);
      assert routes == prev + [route];
      forall c | 0 <= c < n
        ensures routes[c] == BatchRoute(Pick(orders, batches[c]), routeIds[c], status, requireCourier)
      {
        if c < n - 1 {
          assert routes[c] == prev[c];
          assert init[c] == batches[c];
        }
      }
    }
  }

  /** The routes' order ids, concatenated in route order. */
  function RouteOrderIds(routes: seq<Route>): seq<Id>
  {
    if routes == [] then [] else RouteOrderIds(routes[..|routes| - 1]) + routes[|routes| - 1].orderIds
  }

  lemma {:induction false} ConcatSnoc<T>(chunks: seq<seq<T>>, last: seq<T>)
    ensures Concat(chunks + [last]) == Concat(chunks) + last
  {
    if chunks != [] {
      assert (chunks + [last])[1..] == chunks[1..] + [last];
      ConcatSnoc(chunks[1..], last);
    }
  }

  lemma {:induction false} ConcatValid(orders: seq<Order>, batches: seq<seq<nat>>)
    requires AllValid(orders, batches)
    ensures ValidIndices(orders, Concat(batches))
  {
    if batches != [] {
      ConcatValid(orders, batches[1..]);
    }
  }

  lemma PickAppend(orders: seq<Order>, a: seq<nat>, b: seq<nat>)
    requires ValidIndices(orders, a) && ValidIndices(orders, b)
    ensures ValidIndices(orders, a + b)
    ensures Pick(orders, a + b) == Pick(orders, a) + Pick(orders, b)
    ensures OrderIdsOf(Pick(orders, a + b)) == OrderIdsOf(Pick(orders, a)) + OrderIdsOf(Pick(orders, b))
  {
  }

  /** Routes listing the ids of batch after batch list, together, the ids of the batches glued together. */
  lemma {:induction false} OrderIdsCover(orders: seq<Order>, batches: seq<seq<nat>>, routes: seq<Route>)
    requires AllValid(orders, batches) && |routes| == |batches|
    requires forall c :: 0 <= c < |routes| ==> routes[c].orderIds == OrderIdsOf(Pick(orders, batches[c]))
    ensures ValidIndices(orders, Concat(batches))
    ensures RouteOrderIds(routes) == OrderIdsOf(Pick(orders, Concat(batches)))
    decreases |routes|
  {
    ConcatValid(orders, batches);
    if routes != [] {
      var n := |routes|;
      var init := batches[..n - 1];
      var last := batches[n - 1];
      assert forall c :: 0 <= c < n - 1 ==> init[c] == batches[c];
      OrderIdsCover(orders, init, routes[..n - 1]);
      assert batches == init + [last];
      ConcatSnoc(init, last);
      PickAppend(orders, Concat(init), last);
    }
  }

  /** Routes priced batch by batch add up to the price of the batches glued together. */
  lemma {:induction false} TotalsCover<R>(orders: seq<Order>, batches: seq<seq<nat>>, routes: seq<R>, total: R -> real)
    requires AllValid(orders, batches) && |routes| == |batches|
    requires forall c :: 0 <= c < |routes| ==> total(routes[c]) == Sum(Pick(orders, batches[c]), Price)
    ensures ValidIndices(orders, Concat(batches))
    ensures Sum(routes, total) == Sum(Pick(orders, Concat(batches)), Price)
    decreases |routes|
  {
    ConcatValid(orders, batches);
    if routes != [] {
      var n := |routes|;
      PriceConcatSnoc(orders, batches);
      var init := batches[..n - 1];
      var last := batches[n - 1];
      TotalsCover(orders, init, routes[..n - 1], total);
      SumSnoc(routes, total, Sum(Pick(orders, Concat(init)), Price), Sum(Pick(orders, last), Price));
    }
  }

  /** A sum over a non-empty sequence from the sum of all but the last term and the last term. */
  lemma SumSnoc<R>(routes: seq<R>, total: R -> real, front: real, back: real)
    requires routes != []
    requires Sum(routes[..|routes| - 1], total) == front && total(routes[|routes| - 1]) == back
    ensures Sum(routes, total) == front + back
  {
  }

  /** Gluing the chunks is gluing all but the last, then the last. */
  lemma ConcatDropLast<T>(chunks: seq<seq<T>>)
    requires chunks != []
    ensures Concat(chunks) == Concat(chunks[..|chunks| - 1]) + chunks[|chunks| - 1]
  {
    var init := chunks[..|chunks| - 1];
    assert chunks == init + [chunks[|chunks| - 1]];
    ConcatSnoc(init, chunks[|chunks| - 1]);
  }

  /** The price of the glued batches is that of all but the last, plus the last one's. */
  lemma PriceConcatSnoc(orders: seq<Order>, batches: seq<seq<nat>>)
    requires AllValid(orders, batches) && batches != []
    ensures AllValid(orders, batches[..|batches| - 1])
    ensures ValidIndices(orders, Concat(batches[..|batches| - 1])) && ValidIndices(orders, Concat(batches))
    ensures Sum(Pick(orders, Concat(batches)), Price)
         == Sum(Pick(orders, Concat(batches[..|batches| - 1])), Price) + Sum(Pick(orders, batches[|batches| - 1]), Price)
  {
    var init := batches[..|batches| - 1];
    var last := batches[|batches| - 1];
    ConcatDropLast(batches);
    ConcatValid(orders, init);
    PickAppend(orders, Concat(init), last);
    SumAppend(Pick(orders, Concat(init)), Pick(orders, last), Price);
  }

  /** Every non-empty batch draws one id. */
  lemma {:induction false} DrawnAll(batches: seq<seq<nat>>)
    requires forall c :: 0 <= c < |batches| ==> |batches[c]| > 0
    ensures Drawn(batches) == |batches|
    decreases |batches|
  {
    if batches != [] {
      DrawnAll(batches[..|batches| - 1]);
    }
  }

  /** An order named by batch c and by no later batch ends up linked to the c-th route id. */
  lemma {:induction false} LinkAllAt(orders: seq<Order>, batches: seq<seq<nat>>, routeIds: seq<Id>, c: nat, i: nat)
    requires AllValid(orders, batches) && |batches| <= |routeIds|
    requires forall b :: 0 <= b < |batches| ==> |batches[b]| > 0
    requires c < |batches| && i in batches[c] && i < |orders|
    requires forall b :: c < b < |batches| ==> i !in batches[b]
    ensures LinkAll(orders, batches, routeIds)[i] == orders[i].(routeId := Some(routeIds[c]))
    decreases |batches|
  {
    var n := |batches|;
    var init := batches[..n - 1];
    var last := batches[n - 1];
    var prev := LinkAll(orders, init, routeIds);
    assert LinkAll(orders, batches, routeIds) == Link(prev, last, routeIds[Drawn(init)]);
    if c < n - 1 {
      assert init[c] == batches[c];
      LinkAllAt(orders, init, routeIds, c, i);
      assert i !in last;
    } else {
      DrawnAll(init);
      LinkAllKeepsOrders(orders, init, routeIds);
      assert prev[i] == orders[i].(routeId := prev[i].routeId);
    }
  }

  /** An order no batch names is left as it was. */
  lemma {:induction false} LinkAllOthers(orders: seq<Order>, batches: seq<seq<nat>>, routeIds: seq<Id>, i: nat)
    requires AllValid(orders, batches) && |batches| <= |routeIds|
    requires i < |orders| && forall b :: 0 <= b < |batches| ==> i !in batches[b]
    ensures LinkAll(orders, batches, routeIds)[i] == orders[i]
    decreases |batches|
  {
    if batches != [] {
      LinkAllOthers(orders, batches[..|batches| - 1], routeIds, i);
    }
  }

  /** No order is selected twice, as the selections (filters of one day's orders) guarantee. */
  predicate Distinct(s: seq<nat>)
  {
    forall a, b :: 0 <= a < b < |s| ==> s[a] != s[b]
  }

  /** The chunks of a selection are non-empty, valid, and as many as the ids drawn need. */
  lemma SelectionChunks(orders: seq<Order>, selected: seq<nat>, routeIds: seq<Id>)
    requires ValidIndices(orders, selected) && |selected| <= BatchSize * |routeIds|
    ensures AllValid(orders, Chunks(selected, BatchSize)) && |Chunks(selected, BatchSize)| <= |routeIds|
    ensures forall b :: 0 <= b < |Chunks(selected, BatchSize)| ==> |Chunks(selected, BatchSize)[b]| > 0
  {
    ChunksValid(orders, selected);
    ChunksCount(selected, BatchSize);
    forall b | 0 <= b < |Chunks(selected, BatchSize)|
      ensures |Chunks(selected, BatchSize)[b]| > 0
    {
      ChunkSize(selected, BatchSize, b);
    }
  }

  lemma PickSlice(orders: seq<Order>, s: seq<nat>, lo: nat, hi: nat)
    requires ValidIndices(orders, s) && lo <= hi <= |s|
    ensures ValidIndices(orders, s[lo..hi])
    ensures Pick(orders, s[lo..hi]) == Pick(orders, s)[lo..hi]
  {
  }

  /**
   * Route c of `buildRoutesFromOrders` holds the c-th run of five selected
   * orders: their ids in order, the first one's creation time, the sum of
   * their prices with missing ones as 0, the first truthy courier id when a
   * courier is required and none otherwise, the given status, the demo maps
   * link and the c-th drawn id. Every route but the last holds five orders.
   */
  lemma BuildRoutesRouteAt(orders: seq<Order>, selected: seq<nat>, routeIds: seq<Id>,
                           status: RouteStatus, requireCourier: bool, c: nat)
    requires ValidIndices(orders, selected) && |selected| <= BatchSize * |routeIds|
    requires c * BatchSize < |selected|
    ensures AllValid(orders, Chunks(selected, BatchSize)) && |Chunks(selected, BatchSize)| <= |routeIds|
    ensures c < |SeedRoutes(orders, Chunks(selected, BatchSize), routeIds, status, requireCourier)|
    ensures var route := SeedRoutes(orders, Chunks(selected, BatchSize), routeIds, status, requireCourier)[c];
      var run := Pick(orders, selected)[c * BatchSize .. Min(c * BatchSize + BatchSize, |selected|)];
      && route.id == routeIds[c]
      && route.orderIds == OrderIdsOf(run)
      && 0 < |route.orderIds| <= BatchSize
      && (c * BatchSize + BatchSize < |selected| ==> |route.orderIds| == BatchSize)
      && route.createdAt == orders[selected[c * BatchSize]].createdAt
      && route.totalPrice == Some(Sum(run, Price))
      && route.courierId == (if requireCourier then FirstCourierId(run) else None)
      && route.status == status
      && route.mapsUrl == Some(DemoMapsUrl)
  {
    var lo := c * BatchSize;
    var hi := Min(lo + BatchSize, |selected|);
    var run := Pick(orders, selected)[lo..hi];
    RouteAtIsBatchRoute(orders, selected, routeIds, status, requireCourier, c);
    BatchRouteFields(run, routeIds[c], status, requireCourier);
    assert run[0] == orders[selected[lo]];
  }

  /** Route c is the route built from the c-th run of five selected orders with the c-th drawn id. */
  lemma RouteAtIsBatchRoute(orders: seq<Order>, selected: seq<nat>, routeIds: seq<Id>,
                            status: RouteStatus, requireCourier: bool, c: nat)
    requires ValidIndices(orders, selected) && |selected| <= BatchSize * |routeIds|
    requires c * BatchSize < |selected|
    ensures AllValid(orders, Chunks(selected, BatchSize)) && |Chunks(selected, BatchSize)| <= |routeIds|
    ensures c < |SeedRoutes(orders, Chunks(selected, BatchSize), routeIds, status, requireCourier)| && c < |routeIds|
    ensures 0 < Min(c * BatchSize + BatchSize, |selected|) - c * BatchSize <= BatchSize
    ensures SeedRoutes(orders, Chunks(selected, BatchSize), routeIds, status, requireCourier)[c]
      == BatchRoute(Pick(orders, selected)[c * BatchSize .. Min(c * BatchSize + BatchSize, |selected|)],
                    routeIds[c], status, requireCourier)
  {
    var batches := Chunks(selected, BatchSize);
    SelectionChunks(orders, selected, routeIds);
    ChunkElem(selected, BatchSize, c, 0);
    SeedRoutesAt(orders, batches, routeIds, status, requireCourier);
    ChunkAt(selected, BatchSize, c);
    PickSlice(orders, selected, c * BatchSize, Min(c * BatchSize + BatchSize, |selected|));
  }

  /** The fields of the route built for a non-empty batch. */
  lemma BatchRouteFields(batch: seq<Order>, id: Id, status: RouteStatus, requireCourier: bool)
    requires |batch| > 0
    ensures var route := BatchRoute(batch, id, status, requireCourier);
      && route.id == id
      && route.orderIds == OrderIdsOf(batch)
      && |route.orderIds| == |batch|
      && route.createdAt == batch[0].createdAt
      && route.totalPrice == Some(Sum(batch, Price))
      && route.courierId == (if requireCourier then FirstCourierId(batch) else None)
      && route.status == status
      && route.mapsUrl == Some(DemoMapsUrl)
  {
  }

  /**
   * All routes of `buildRoutesFromOrders` together list the selected orders'
   * ids once each, in selection order, and their totals add up to the
   * selected orders' prices, missing prices counted as 0.
   */
  lemma BuildRoutesCoverSelection(orders: seq<Order>, selected: seq<nat>, routeIds: seq<Id>,
                                  status: RouteStatus, requireCourier: bool)
    requires ValidIndices(orders, selected) && |selected| <= BatchSize * |routeIds|
    ensures AllValid(orders, Chunks(selected, BatchSize)) && |Chunks(selected, BatchSize)| <= |routeIds|
    ensures RouteOrderIds(SeedRoutes(orders, Chunks(selected, BatchSize), routeIds, status, requireCourier))
      == OrderIdsOf(Pick(orders, selected))
    ensures Sum(SeedRoutes(orders, Chunks(selected, BatchSize), routeIds, status, requireCourier), RouteTotal)
      == Sum(Pick(orders, selected), Price)
  {
    var batches := Chunks(selected, BatchSize);
    SelectionChunks(orders, selected, routeIds);
    SeedRoutesAt(orders, batches, routeIds, status, requireCourier);
    ChunksConcat(selected, BatchSize);
    var routes := SeedRoutes(orders, batches, routeIds, status, requireCourier);
    forall c | 0 <= c < |routes|
      ensures routes[c].orderIds == OrderIdsOf(Pick(orders, batches[c]))
      ensures RouteTotal(routes[c]) == Sum(Pick(orders, batches[c]), Price)
    {
      BatchRouteContents(Pick(orders, batches[c]), routeIds[c], status, requireCourier);
    }
    OrderIdsCover(orders, batches, routes);
    TotalsCover(orders, batches, routes, RouteTotal);
  }

  lemma BatchRouteContents(batch: seq<Order>, id: Id, status: RouteStatus, requireCourier: bool)
    requires |batch| > 0
    ensures BatchRoute(batch, id, status, requireCourier).orderIds == OrderIdsOf(batch)
    ensures RouteTotal(BatchRoute(batch, id, status, requireCourier)) == Sum(batch, Price)
  {
  }

  /**
   * After `buildRoutesFromOrders` the k-th selected order points at route
   * k / 5, the route built for its batch, and is otherwise unchanged; every
   * order that was not selected is left as it was.
   */
  lemma BuildRoutesLinksOrders(orders: seq<Order>, selected: seq<nat>, routeIds: seq<Id>,
                               status: RouteStatus, requireCourier: bool)
    requires ValidIndices(orders, selected) && |selected| <= BatchSize * |routeIds| && Distinct(selected)
    ensures AllValid(orders, Chunks(selected, BatchSize)) && |Chunks(selected, BatchSize)| <= |routeIds|
    ensures |LinkAll(orders, Chunks(selected, BatchSize), routeIds)| == |orders|
    ensures forall k :: 0 <= k < |selected| ==>
      k / BatchSize < |SeedRoutes(orders, Chunks(selected, BatchSize), routeIds, status, requireCourier)| &&
      SeedRoutes(orders, Chunks(selected, BatchSize), routeIds, status, requireCourier)[k / BatchSize].id
        == routeIds[k / BatchSize] &&
      LinkAll(orders, Chunks(selected, BatchSize), routeIds)[selected[k]]
        == orders[selected[k]].(routeId := Some(routeIds[k / BatchSize]))
    ensures forall i :: 0 <= i < |orders| && i !in selected ==>
      LinkAll(orders, Chunks(selected, BatchSize), routeIds)[i] == orders[i]
  {
    LinksSelected(orders, selected, routeIds, status, requireCourier);
    LinksNothingElse(orders, selected, routeIds);
  }

  /** Each selected order is linked to its batch's route, and that route carries the batch's id. */
  lemma LinksSelected(orders: seq<Order>, selected: seq<nat>, routeIds: seq<Id>,
                      status: RouteStatus, requireCourier: bool)
    requires ValidIndices(orders, selected) && |selected| <= BatchSize * |routeIds| && Distinct(selected)
    ensures AllValid(orders, Chunks(selected, BatchSize)) && |Chunks(selected, BatchSize)| <= |routeIds|
    ensures forall k :: 0 <= k < |selected| ==>
      k / BatchSize < |SeedRoutes(orders, Chunks(selected, BatchSize), routeIds, status, requireCourier)| &&
      SeedRoutes(orders, Chunks(selected, BatchSize), routeIds, status, requireCourier)[k / BatchSize].id
        == routeIds[k / BatchSize] &&
      LinkAll(orders, Chunks(selected, BatchSize), routeIds)[selected[k]]
        == orders[selected[k]].(routeId := Some(routeIds[k / BatchSize]))
  {
    var batches := Chunks(selected, BatchSize);
    SelectionChunks(orders, selected, routeIds);
    SeedRoutesAt(orders, batches, routeIds, status, requireCourier);
    forall k | 0 <= k < |selected|
      ensures k / BatchSize < |batches|
      ensures LinkAll(orders, batches, routeIds)[selected[k]]
        == orders[selected[k]].(routeId := Some(routeIds[k / BatchSize]))
    {
      LinkSelected(orders, selected, routeIds, k);
    }
  }

  /** Orders outside the selection keep their route link. */
  lemma LinksNothingElse(orders: seq<Order>, selected: seq<nat>, routeIds: seq<Id>)
    requires ValidIndices(orders, selected) && |selected| <= BatchSize * |routeIds| && Distinct(selected)
    ensures AllValid(orders, Chunks(selected, BatchSize)) && |Chunks(selected, BatchSize)| <= |routeIds|
    ensures |LinkAll(orders, Chunks(selected, BatchSize), routeIds)| == |orders|
    ensures forall i :: 0 <= i < |orders| && i !in selected ==>
      LinkAll(orders, Chunks(selected, BatchSize), routeIds)[i] == orders[i]
  {
    SelectionChunks(orders, selected, routeIds);
    forall i | 0 <= i < |orders| && i !in selected
      ensures LinkAll(orders, Chunks(selected, BatchSize), routeIds)[i] == orders[i]
    {
      LinkUnselected(orders, selected, routeIds, i);
    }
  }

  /** An order that was not selected is in no chunk, so no link touches it. */
  lemma LinkUnselected(orders: seq<Order>, selected: seq<nat>, routeIds: seq<Id>, i: nat)
    requires ValidIndices(orders, selected) && |selected| <= BatchSize * |routeIds|
    requires i < |orders| && i !in selected
    ensures AllValid(orders, Chunks(selected, BatchSize)) && |Chunks(selected, BatchSize)| <= |routeIds|
    ensures LinkAll(orders, Chunks(selected, BatchSize), routeIds)[i] == orders[i]
  {
    SelectionChunks(orders, selected, routeIds);
    ChunksOnlySelected(selected, BatchSize, i);
    LinkAllOthers(orders, Chunks(selected, BatchSize), routeIds, i);
  }

  /** The k-th selected order lies in chunk k / 5 and in no later chunk, so it is linked to route k / 5. */
  lemma LinkSelected(orders: seq<Order>, selected: seq<nat>, routeIds: seq<Id>, k: nat)
    requires ValidIndices(orders, selected) && |selected| <= BatchSize * |routeIds| && Distinct(selected)
    requires k < |selected|
    ensures AllValid(orders, Chunks(selected, BatchSize)) && |Chunks(selected, BatchSize)| <= |routeIds|
    ensures k / BatchSize < |Chunks(selected, BatchSize)|
    ensures LinkAll(orders, Chunks(selected, BatchSize), routeIds)[selected[k]]
      == orders[selected[k]].(routeId := Some(routeIds[k / BatchSize]))
  {
    var batches := Chunks(selected, BatchSize);
    SelectionChunks(orders, selected, routeIds);
    var c := k / BatchSize;
    var j := k % BatchSize;
    assert k == c * BatchSize + j;
    ChunkElem(selected, BatchSize, c, j);
    forall b | c < b < |batches|
      ensures selected[k] !in batches[b]
    {
      if selected[k] in batches[b] {
        ChunkMember(selected, BatchSize, b, selected[k]);
      }
    }
    LinkAllAt(orders, batches, routeIds, c, selected[k]);
  }
}

=== FILE: seqs.dfy ===
/**
 * The array methods the source composes: `filter`, the first best element of a
 * left-to-right `reduce` (which is also what `sort(...)[0]` of a stable sort
 * picks), and summing with `reduce`.
 */
module Seqs {

  /** `s.filter(p)`: the elements satisfying `p`, in their original order. */
  function Filter<T(!new)>(s: seq<T>, p: T -> bool): (r: seq<T>)
    ensures |r| <= |s|
    ensures forall x :: x in r <==> x in s && p(x)
    ensures forall i :: 0 <= i < |r| ==> p(r[i])
  {
    if s == [] then []
    else if p(s[0]) then [s[0]] + Filter(s[1..], p)
    else Filter(s[1..], p)
  }

  lemma {:induction false} FilterAppend<T(!new)>(a: seq<T>, b: seq<T>, p: T -> bool)
    ensures Filter(a + b, p) == Filter(a, p) + Filter(b, p)
  {
    if a == [] {
      assert a + b == b;
    } else {
      assert (a + b)[1..] == a[1..] + b;
      FilterAppend(a[1..], b, p);
    }
  }

  /** `filter` keeps every occurrence of an element that passes and none of one that fails. */
  lemma {:induction false} FilterCount<T(!new)>(s: seq<T>, p: T -> bool, x: T)
    ensures multiset(Filter(s, p))[x] == if p(x) then multiset(s)[x] else 0
  {
    if s != [] {
      assert s == [s[0]] + s[1..];
      FilterCount(s[1..], p, x);
    }
  }

  /**
   * The position of the first element of least key: a left-to-right `reduce`
   * that replaces its accumulator only on a strictly smaller key.
   */
  function ArgMinFirst<T>(s: seq<T>, key: T -> real): (k: nat)
    requires |s| > 0
    ensures k < |s|
    ensures forall j :: 0 <= j < |s| ==> key(s[k]) <= key(s[j])
    ensures forall j :: 0 <= j < k ==> key(s[k]) < key(s[j])
  {
    if |s| == 1 then 0
    else
      var k := ArgMinFirst(s[..|s| - 1], key);
      if key(s[|s| - 1]) < key(s[k]) then |s| - 1 else k
  }

  /** The position of the first element of greatest key. */
  function ArgMaxFirst<T>(s: seq<T>, key: T -> real): (k: nat)
    requires |s| > 0
    ensures k < |s|
    ensures forall j :: 0 <= j < |s| ==> key(s[j]) <= key(s[k])
    ensures forall j :: 0 <= j < k ==> key(s[j]) < key(s[k])
  {
    if |s| == 1 then 0
    else
      var k := ArgMaxFirst(s[..|s| - 1], key);
      if key(s[|s| - 1]) > key(s[k]) then |s| - 1 else k
  }

  /** `s.reduce((total, x) => total + f(x), 0)`. */
  function Sum<T>(s: seq<T>, f: T -> real): real
  {
    if s == [] then 0.0 else Sum(s[..|s| - 1], f) + f(s[|s| - 1])
  }

  /** A non-empty sequence is all but its last element, then its last element. */
  lemma Snoc<T>(s: seq<T>)
    requires s != []
    ensures s[..|s| - 1] + [s[|s| - 1]] == s
  {
  }

  /** Replacing one element swaps it for the new one in the multiset. */
  lemma MultisetUpdate<T>(s: seq<T>, i: nat, x: T)
    requires i < |s|
    ensures multiset(s[i := x]) == multiset(s) - multiset{s[i]} + multiset{x}
  {
    assert s[i := x] == s[..i] + [x] + s[i + 1..];
    assert s == s[..i] + [s[i]] + s[i + 1..];
  }

  lemma {:induction false} SumAppend<T>(a: seq<T>, b: seq<T>, f: T -> real)
    ensures Sum(a + b, f) == Sum(a, f) + Sum(b, f)
    decreases |b|
  {
    if b == [] {
      assert a + b == a;
    } else {
      assert (a + b)[..|a + b| - 1] == a + b[..|b| - 1];
      SumAppend(a, b[..|b| - 1], f);
    }
  }

  lemma {:induction false} SumNonNegative<T>(s: seq<T>, f: T -> real)
    requires forall i :: 0 <= i < |s| ==> f(s[i]) >= 0.0
    ensures Sum(s, f) >= 0.0
  {
    if s != [] { SumNonNegative(s[..|s| - 1], f); }
  }

  lemma {:induction false} SumRemove<T>(s: seq<T>, i: nat, f: T -> real)
    requires i < |s|
    ensures Sum(s, f) == Sum(s[..i] + s[i + 1..], f) + f(s[i])
  {
    assert s == s[..i] + ([s[i]] + s[i + 1..]);
    SumAppend(s[..i], [s[i]] + s[i + 1..], f);
    SumAppend([s[i]], s[i + 1..], f);
    SumAppend(s[..i], s[i + 1..], f);
    assert [s[i]][..0] == [];
  }

  /** A sum does not depend on the order of its terms. */
  lemma {:induction false} SumPermutation<T>(a: seq<T>, b: seq<T>, f: T -> real)
    requires multiset(a) == multiset(b)
    ensures Sum(a, f) == Sum(b, f)
    decreases |a|
  {
    if a == [] {
      assert |b| == |multiset(b)| == 0;
    } else {
      var x := a[|a| - 1];
      assert x in multiset(a);
      var i :| 0 <= i < |b| && b[i] == x;
      var rest := b[..i] + b[i + 1..];
      assert a == a[..|a| - 1] + [x];
      assert b == b[..i] + [x] + b[i + 1..];
      assert multiset(rest) == multiset(b) - multiset{x};
      SumPermutation(a[..|a| - 1], rest, f);
      SumRemove(b, i, f);
    }
  }
}

=== FILE: server_handlers.dfy ===
/**
 * The state logic written inline in the HTTP handlers of `src/server.ts`:
 * pagination, courier registration, edit and removal, a courier's route
 * history, marking an order delivered, editing an order, and removing an
 * order or a route. Routing, authentication and response encoding are not
 * part of this model; each handler's outcome is a `Result` whose error
 * carries the HTTP status.
 */
module ServerHandlers {
  import opened Wrappers
  import opened Text
  import opened Seqs
  import opened Sorting
  import opened JsNumbers
  import opened DispatchModel
  import opened RouteService
  import opened CourierService

  // ---------------------------------------------------------------- pagination

  const MaxPageLimit: int := 1000

  datatype Page = Page(limit: int, offset: int)

  /**
   * `parsePaginationParams`: absent without a finite `limit`; otherwise the
   * limit floored into 1..1000 and the offset floored and at least 0, or 0 when
   * it is not finite. The query fields arrive as `Number(...)` of the text.
   */
  function ParsePagination(limit: Option<Num>, offset: Num): (r: Option<Page>)
    ensures r.None? <==> limit.None? || !limit.value.Finite?
    ensures r.Some? ==> 1 <= r.value.limit <= MaxPageLimit && r.value.offset >= 0
    ensures r.Some? ==> var v := limit.value.value;
      && (1.0 <= v < (MaxPageLimit + 1) as real ==> r.value.limit as real <= v < r.value.limit as real + 1.0)
      && (v < 1.0 ==> r.value.limit == 1)
      && (v >= MaxPageLimit as real ==> r.value.limit == MaxPageLimit)
    ensures r.Some? ==>
      && (offset.Finite? && offset.value >= 0.0 ==> r.value.offset as real <= offset.value < r.value.offset as real + 1.0)
      && (!offset.Finite? || offset.value < 0.0 ==> r.value.offset == 0)
  {
    match limit
    case None => None
    case Some(l) =>
      if !l.Finite? then None
      else
        var lim := Clamp(Floor(l.value), 1, MaxPageLimit);
        var off := if offset.Finite? then (if Floor(offset.value) < 0 then 0 else Floor(offset.value)) else 0;
        Some(Page(lim, off))
  }

  /** `list.slice(start, end)` for start and end that are not negative. */
  function SliceFrom<T>(list: seq<T>, start: nat, end: nat): (r: seq<T>)
    ensures start >= |list| || end <= start ==> r == []
    ensures start < |list| && start < end ==> r == list[start..if end < |list| then end else |list|]
  {
    if start >= |list| || end <= start then []
    else list[start..if end < |list| then end else |list|]
  }

  datatype PageOf<T> = PageOf(data: seq<T>, total: nat, limit: int, offset: int)

  /** `paginateList`: the window of the list at the page, its full length, and the page echoed. */
  function PaginateList<T>(list: seq<T>, page: Page): (r: PageOf<T>)
    requires page.limit >= 1 && page.offset >= 0
    ensures r.total == |list| && r.limit == page.limit && r.offset == page.offset
    ensures |r.data| <= page.limit
    ensures forall k :: 0 <= k < |r.data| ==> page.offset + k < |list| && r.data[k] == list[page.offset + k]
    ensures |r.data| == if page.offset >= |list| then 0 else if page.offset + page.limit <= |list| then page.limit else |list| - page.offset
  {
    PageOf(SliceFrom(list, page.offset, page.offset + page.limit), |list|, page.limit, page.offset)
  }

  // ---------------------------------------------------------------- couriers

  /** The checks of courier registration and of `POST /couriers`: all three fields, and a phone not yet in use. */
  function RegisterFailure(couriers: seq<Courier>, name: Option<string>, phone: Option<string>, pin: Option<string>): (e: Option<DispatchError>)
    ensures e == Some(MissingCourierFields) <==> !Truthy(name) || !Truthy(phone) || !Truthy(pin)
    ensures e == Some(PhoneInUse) <==>
      Truthy(name) && Truthy(phone) && Truthy(pin) && exists j :: 0 <= j < |couriers| && couriers[j].phone == phone
    ensures e.Some? ==> e.value in {MissingCourierFields, PhoneInUse}
  {
    if !Truthy(name) || !Truthy(phone) || !Truthy(pin) then Some(MissingCourierFields)
    else if exists j :: 0 <= j < |couriers| && couriers[j].phone == phone then Some(PhoneInUse)
    else None
  }

  /**
   * Courier registration as intended: after the checks, one AVAILABLE courier
   * with the name, the phone and the hash of the PIN is appended. The id is a
   * fresh parameter and `hash` stands for bcrypt.
   */
  method RegisterCourier(s: Store, id: Id, name: Option<string>, phone: Option<string>, pin: Option<string>, hash: string -> string)
    returns (r: Result<Courier, DispatchError>)
    requires id !in CourierIds(s.couriers)
    modifies s
    ensures var failure := RegisterFailure(old(s.couriers), name, phone, pin);
      && (failure.Some? ==> r == Failure(failure.value) && s.couriers == old(s.couriers))
      && (failure.None? ==>
            && r == Success(NewCourier(id, name.value).(phone := phone, pinHash := Some(hash(pin.value))))
            && s.couriers == old(s.couriers) + [r.value])
    ensures s.orders == old(s.orders) && s.routes == old(s.routes)
  {
    var failure := RegisterFailure(s.couriers, name, phone, pin);
    if failure.Some? {
      return Failure(failure.value);
    }
    var courier := NewCourier(id, name.value).(phone := phone, pinHash := Some(hash(pin.value)));
    s.couriers := s.couriers + [courier];
    r := Success(courier);
  }

  /** A registered courier's phone was nobody's before, so after registration exactly one courier has it. */
  lemma RegisteredPhoneUnique(couriers: seq<Courier>, c: Courier, name: Option<string>, phone: Option<string>, pin: Option<string>)
    requires RegisterFailure(couriers, name, phone, pin).None? && c.phone == phone
    ensures forall j :: 0 <= j < |couriers + [c]| && (couriers + [c])[j].phone == phone ==> j == |couriers|
  {
    forall j | 0 <= j < |couriers| ensures (couriers + [c])[j].phone != phone {
      assert (couriers + [c])[j] == couriers[j];
    }
  }

  /**
   * Registration as written: `registerCourier` passes the phone and the PIN
   * hash to `createCourier`, whose only parameter is the name, so the courier
   * it appends carries neither.
   */
  function RegisteredAsWritten(id: Id, name: string): (c: Courier)
    ensures c.id == id && c.name == name && c.status == Available
    ensures c.phone.None? && c.pinHash.None?
  {
    NewCourier(id, name)
  }

  /**
   * As written, no courier holds the phone just registered, so the login
   * lookup by phone that follows registration finds nobody.
   */
  lemma RegisteredPhoneLost(couriers: seq<Courier>, id: Id, name: Option<string>, phone: Option<string>, pin: Option<string>)
    requires RegisterFailure(couriers, name, phone, pin).None?
    ensures var after := couriers + [RegisteredAsWritten(id, name.value)];
      forall j :: 0 <= j < |after| ==> after[j].phone != phone
  {
    var after := couriers + [RegisteredAsWritten(id, name.value)];
    forall j | 0 <= j < |after| ensures after[j].phone != phone {
      if j < |couriers| {
        assert after[j] == couriers[j];
      }
    }
  }

  /** A courier other than the one at `ci` already holds the phone. */
  predicate PhoneHeldByOther(couriers: seq<Courier>, ci: nat, phone: string)
    requires ci < |couriers|
  {
    exists j :: 0 <= j < |couriers| && couriers[j].phone == Some(phone) && couriers[j].id != couriers[ci].id
  }

  /** The courier after `PUT /couriers/:id` writes a non-blank name, trimmed. */
  function Renamed(c: Courier, name: Option<string>): Courier
  {
    if name.Some? && Trim(name.value) != "" then c.(name := Trim(name.value)) else c
  }

  /**
   * `PUT /couriers/:id`: a non-blank name is stored trimmed; a non-blank phone
   * is stored trimmed unless another courier holds it (409, with the new name
   * already written); a non-blank PIN replaces the hash.
   */
  method UpdateCourier(s: Store, courierId: Id, name: Option<string>, phone: Option<string>, pin: Option<string>, hash: string -> string)
    returns (r: Result<Courier, DispatchError>)
    modifies s
    ensures FindCourier(old(s.couriers), courierId).None? ==> r == Failure(CourierNotFound) && s.couriers == old(s.couriers)
    ensures FindCourier(old(s.couriers), courierId).Some? ==>
      var ci := FindCourier(old(s.couriers), courierId).value;
      var named := Renamed(old(s.couriers[ci]), name);
      var newPhone := phone.Some? && Trim(phone.value) != "";
      if newPhone && PhoneHeldByOther(old(s.couriers), ci, Trim(phone.value)) then
        r == Failure(PhoneTaken) && s.couriers == old(s.couriers)[ci := named]
      else
        var phoned := if newPhone then named.(phone := Some(Trim(phone.value))) else named;
        var updated := if pin.Some? && Trim(pin.value) != "" then phoned.(pinHash := Some(hash(Trim(pin.value)))) else phoned;
        r == Success(updated) && s.couriers == old(s.couriers)[ci := updated]
    ensures s.orders == old(s.orders) && s.routes == old(s.routes)
  {
    var found := FindCourier(s.couriers, courierId);
    if found.None? {
      return Failure(CourierNotFound);
    }
    var ci := found.value;
    var couriers := s.couriers;
    var named := Renamed(couriers[ci], name);
    s.couriers := couriers[ci := named];
    var updated := named;
    if phone.Some? && Trim(phone.value) != "" {
      // the name write does not touch ids or phones, so the check reads the same either way
      if PhoneHeldByOther(couriers, ci, Trim(phone.value)) {
        return Failure(PhoneTaken);
      }
      updated := updated.(phone := Some(Trim(phone.value)));
    }
    if pin.Some? && Trim(pin.value) != "" {
      updated := updated.(pinHash := Some(hash(Trim(pin.value))));
    }
    s.couriers := couriers[ci := updated];
    r := Success(updated);
  }

  /** A route that still needs the courier: it carries the courier's id and is not DONE. */
  predicate HasActiveRoute(routes: seq<Route>, courierId: Id)
  {
    exists j :: 0 <= j < |routes| && routes[j].courierId == Some(courierId) && routes[j].status != Done
  }

  /**
   * `DELETE /couriers/:id`: refused while a route not DONE carries the courier
   * or the courier is ASSIGNED or ON_TRIP; otherwise that courier alone is
   * removed.
   */
  method DeleteCourier(s: Store, courierId: Id) returns (r: Result<Courier, DispatchError>)
    modifies s
    ensures FindCourier(old(s.couriers), courierId).None? ==> r == Failure(CourierNotFound) && s.couriers == old(s.couriers)
    ensures FindCourier(old(s.couriers), courierId).Some? ==>
      var ci := FindCourier(old(s.couriers), courierId).value;
      var c := old(s.couriers[ci]);
      if HasActiveRoute(old(s.routes), c.id) || c.status in {OnTrip, CourierStatus.Assigned} then
        r == Failure(CourierBusy) && s.couriers == old(s.couriers)
      else
        r == Success(c) && s.couriers == old(s.couriers[..ci]) + old(s.couriers[ci + 1..])
    ensures s.orders == old(s.orders) && s.routes == old(s.routes)
  {
    var found := FindCourier(s.couriers, courierId);
    if found.None? {
      return Failure(CourierNotFound);
    }
    var ci := found.value;
    var c := s.couriers[ci];
    if HasActiveRoute(s.routes, c.id) || c.status == OnTrip || c.status == CourierStatus.Assigned {
      return Failure(CourierBusy);
    }
    s.couriers := s.couriers[..ci] + s.couriers[ci + 1..];
    r := Success(c);
  }

  // ---------------------------------------------------------------- history

  const DefaultHistoryLimit: int := 5
  const MaxHistoryLimit: int := 50

  /** The `limit` of `GET /couriers/me/history`: 5 when absent or not finite, else floored into 1..50. */
  function HistoryLimit(limit: Option<Num>): (n: int)
    ensures 1 <= n <= MaxHistoryLimit
    ensures limit.None? || !limit.value.Finite? ==> n == DefaultHistoryLimit
    ensures limit.Some? && limit.value.Finite? && 1.0 <= limit.value.value < (MaxHistoryLimit + 1) as real ==>
      n as real <= limit.value.value < n as real + 1.0
    ensures limit.Some? && limit.value.Finite? && limit.value.value < 1.0 ==> n == 1
    ensures limit.Some? && limit.value.Finite? && limit.value.value >= (MaxHistoryLimit + 1) as real ==> n == MaxHistoryLimit
  {
    match limit
    case None => DefaultHistoryLimit
    case Some(l) => if l.Finite? then Clamp(Floor(l.value), 1, MaxHistoryLimit) else DefaultHistoryLimit
  }

  /** One line of a courier's history. */
  datatype HistoryEntry = HistoryEntry(id: Id, status: RouteStatus, createdAt: Millis, totalPrice: real, orderCount: nat)

  function Summary(r: Route): HistoryEntry
  {
    HistoryEntry(r.id, r.status, r.createdAt, r.totalPrice.GetOr(0.0), |r.orderIds|)
  }

  /** Newest first, as the descending comparator `b - a` of a stable sort orders them. */
  function Age(r: Route): real
  {
    -(r.createdAt as real)
  }

  /** A DONE route of the courier. */
  predicate DoneBy(r: Route, courierId: Id)
  {
    r.courierId == Some(courierId) && r.status == Done
  }

  /** The courier's DONE routes, newest first (ties in store order). */
  function DoneRoutesOf(routes: seq<Route>, courierId: Id): seq<Route>
  {
    SortBy(Filter(routes, (r: Route) => DoneBy(r, courierId)), Age)
  }

  /** `GET /couriers/me/history`: the first `limit` of the courier's DONE routes, newest first, summarised. */
  function CourierHistory(routes: seq<Route>, courierId: Id, limit: Option<Num>): (h: seq<HistoryEntry>)
    ensures |h| <= HistoryLimit(limit) && |h| <= MaxHistoryLimit
  {
    var done := DoneRoutesOf(routes, courierId);
    var n := if HistoryLimit(limit) < |done| then HistoryLimit(limit) else |done|;
    seq(n, k requires 0 <= k < n => Summary(done[k]))
  }

  /**
   * The history summarises the first entries of the courier's DONE routes
   * newest first, as many as the limit allows: no DONE route left out is newer
   * than the last one listed.
   */
  lemma CourierHistorySpec(routes: seq<Route>, courierId: Id, limit: Option<Num>)
    ensures var h := CourierHistory(routes, courierId, limit);
      var done := DoneRoutesOf(routes, courierId);
      && |h| == (if HistoryLimit(limit) < |done| then HistoryLimit(limit) else |done|)
      && (forall k :: 0 <= k < |h| ==> h[k] == Summary(done[k]) && DoneBy(done[k], courierId) && done[k] in routes)
      && (forall a, b :: 0 <= a < b < |h| ==> h[a].createdAt >= h[b].createdAt)
      && (forall j :: |h| <= j < |done| ==> 0 < |h| && done[j].createdAt <= h[|h| - 1].createdAt)
  {
    var h := CourierHistory(routes, courierId, limit);
    var done := DoneRoutesOf(routes, courierId);
    DoneRoutesNewestFirst(routes, courierId);
    assert 1 <= HistoryLimit(limit);
    SummariesNewestFirst(done, h);
  }

  /** Summaries of the first routes of a newest-first list are newest first, and no route after them is newer. */
  lemma SummariesNewestFirst(done: seq<Route>, h: seq<HistoryEntry>)
    requires |h| <= |done| && (|h| == 0 ==> done == [])
    requires forall k :: 0 <= k < |h| ==> h[k] == Summary(done[k])
    requires forall a, b :: 0 <= a < b < |done| ==> done[a].createdAt >= done[b].createdAt
    ensures forall a, b :: 0 <= a < b < |h| ==> h[a].createdAt >= h[b].createdAt
    ensures forall j :: |h| <= j < |done| ==> 0 < |h| && done[j].createdAt <= h[|h| - 1].createdAt
  {
    forall a, b | 0 <= a < b < |h| ensures h[a].createdAt >= h[b].createdAt {
      assert h[a].createdAt == done[a].createdAt && h[b].createdAt == done[b].createdAt;
    }
  }

  /** The history's source list is made of DONE routes of the courier from the store, newest first. */
  lemma DoneRoutesNewestFirst(routes: seq<Route>, courierId: Id)
    ensures var done := DoneRoutesOf(routes, courierId);
      forall k :: 0 <= k < |done| ==> done[k] in routes && DoneBy(done[k], courierId)
    ensures var done := DoneRoutesOf(routes, courierId);
      forall a, b :: 0 <= a < b < |done| ==> done[a].createdAt >= done[b].createdAt
  {
    var done := DoneRoutesOf(routes, courierId);
    SortByMembers(Filter(routes, (r: Route) => DoneBy(r, courierId)), Age);
    forall k | 0 <= k < |done| ensures done[k] in routes && DoneBy(done[k], courierId) {
      assert done[k] in done;
    }
    forall a, b | 0 <= a < b < |done| ensures done[a].createdAt >= done[b].createdAt {
      assert Age(done[a]) <= Age(done[b]);
    }
  }

  /**
   * The history's source list holds each DONE route of the courier exactly as
   * often as the store does, and no other route.
   */
  lemma DoneRoutesComplete(routes: seq<Route>, courierId: Id)
    ensures forall r :: r in DoneRoutesOf(routes, courierId) <==> r in routes && DoneBy(r, courierId)
    ensures forall r :: multiset(DoneRoutesOf(routes, courierId))[r] == if DoneBy(r, courierId) then multiset(routes)[r] else 0
  {
    var p := (r: Route) => DoneBy(r, courierId);
    var done := DoneRoutesOf(routes, courierId);
    SortByMembers(Filter(routes, p), Age);
    forall r ensures multiset(done)[r] == if DoneBy(r, courierId) then multiset(routes)[r] else 0 {
      FilterCount(routes, p, r);
    }
  }

  // ---------------------------------------------------------------- delivered

  /**
   * The checks of `POST /couriers/me/orders/:id/delivered` (`caller` the
   * courier) and `POST /orders/:id/delivered` (`caller` absent, no ownership
   * check), in the source's order.
   */
  function DeliveredFailure(orders: seq<Order>, orderId: Id, caller: Option<Id>): (e: Option<DispatchError>)
    ensures e == Some(OrderNotFound) <==> FindOrder(orders, orderId).None?
    ensures FindOrder(orders, orderId).Some? ==>
      var o := orders[FindOrder(orders, orderId).value];
      && (e == Some(NotOrderCourier) <==> caller.Some? && o.courierId != caller)
      && (e == Some(AlreadyDelivered) <==> (caller.None? || o.courierId == caller) && o.status == Delivered)
      && (e == Some(NotOnRoute) <==> (caller.None? || o.courierId == caller) && o.status !in {Delivered, OnRoute})
      && (e.None? <==> (caller.None? || o.courierId == caller) && o.status == OnRoute)
  {
    match FindOrder(orders, orderId)
    case None => Some(OrderNotFound)
    case Some(i) =>
      if caller.Some? && orders[i].courierId != caller then Some(NotOrderCourier)
      else if orders[i].status == Delivered then Some(AlreadyDelivered)
      else if orders[i].status != OnRoute then Some(NotOnRoute)
      else None
  }

  /**
   * Marking an order delivered: on success the order is DELIVERED and, when it
   * names a route that exists, that route's progress is refreshed; on failure
   * nothing changes. Returns the order.
   */
  method MarkDelivered(s: Store, orderId: Id, caller: Option<Id>) returns (r: Result<Order, DispatchError>)
    modifies s
    ensures var failure := DeliveredFailure(old(s.orders), orderId, caller);
      && (failure.Some? ==> r == Failure(failure.value) && s.orders == old(s.orders) && s.couriers == old(s.couriers) && s.routes == old(s.routes))
      && (failure.None? ==>
            var i := FindOrder(old(s.orders), orderId).value;
            var delivered := old(s.orders[i]).(status := Delivered);
            var orders := old(s.orders)[i := delivered];
            && r == Success(delivered)
            && s.orders == orders
            && (if Truthy(delivered.routeId) && FindRoute(old(s.routes), delivered.routeId.value).Some? then
                  var ri := FindRoute(old(s.routes), delivered.routeId.value).value;
                  var route := old(s.routes[ri]);
                  && s.routes == old(s.routes)[ri := route.(status := RefreshedStatus(orders, route))]
                  && s.couriers == if ProgressOf(orders, route).finished then ReleaseCourier(old(s.couriers), route.courierId) else old(s.couriers)
                else s.routes == old(s.routes) && s.couriers == old(s.couriers)))
  {
    var failure := DeliveredFailure(s.orders, orderId, caller);
    if failure.Some? {
      return Failure(failure.value);
    }
    var i := FindOrder(s.orders, orderId).value;
    s.orders := s.orders[i := s.orders[i].(status := Delivered)];
    var order := s.orders[i];
    if Truthy(order.routeId) {
      var found := FindRoute(s.routes, order.routeId.value);
      if found.Some? {
        var progress := RefreshRouteProgress(s, found.value);
      }
    }
    r := Success(order);
  }

  /**
   * Delivering the last undelivered order of a route finishes it: with every
   * other member already DELIVERED, the refreshed route is DONE.
   */
  lemma DeliveringLastMemberFinishes(orders: seq<Order>, i: nat, route: Route)
    requires i < |orders| && IsMember(orders[i], route.orderIds)
    requires forall j :: 0 <= j < |orders| && j != i && IsMember(orders[j], route.orderIds) ==> orders[j].status == Delivered
    ensures RefreshedStatus(orders[i := orders[i].(status := Delivered)], route) == Done
  {
    var after := orders[i := orders[i].(status := Delivered)];
    RefreshedDoneIffAllDelivered(after, route);
    assert IsMember(after[i], route.orderIds);
  }

  // ---------------------------------------------------------------- order edit

  /** The status names the handlers accept. */
  function ParseStatus(name: string): (st: Option<OrderStatus>)
  {
    if name == "PENDING" then Some(Pending)
    else if name == "QUEUED" then Some(Queued)
    else if name == "ON_ROUTE" then Some(OnRoute)
    else if name == "DELIVERED" then Some(Delivered)
    else None
  }

  function StatusName(st: OrderStatus): string
  {
    match st
    case Pending => "PENDING"
    case Queued => "QUEUED"
    case OnRoute => "ON_ROUTE"
    case Delivered => "DELIVERED"
  }

  /** Every status is accepted under its own name, and only the four names are accepted. */
  lemma ParseStatusName(st: OrderStatus, name: string)
    ensures ParseStatus(StatusName(st)) == Some(st)
    ensures ParseStatus(name).Some? ==> StatusName(ParseStatus(name).value) == name
  {
  }

  /** The order after the address and position edits, re-priced when either changed; `quote` stands for `calculateOrderPrice`. */
  function EditLocation(o: Order, address: Option<string>, lat: Option<real>, lng: Option<real>,
                        quote: (string, real, real) -> (real, PricingRule)): (r: Order)
    ensures r.id == o.id && r.status == o.status && r.courierId == o.courierId && r.routeId == o.routeId
    ensures r.address == (if address.Some? && Trim(address.value) != "" then Trim(address.value) else o.address)
    ensures (r.lat, r.lng) == (if lat.Some? && lng.Some? then (lat.value, lng.value) else (o.lat, o.lng))
    ensures (address.Some? && Trim(address.value) != "") || (lat.Some? && lng.Some?) ==>
      r.deliveryPrice == Some(quote(r.address, r.lat, r.lng).0) && r.pricingRule == Some(quote(r.address, r.lat, r.lng).1)
    ensures !((address.Some? && Trim(address.value) != "") || (lat.Some? && lng.Some?)) ==> r == o
  {
    var addressChanged := address.Some? && Trim(address.value) != "";
    var positionChanged := lat.Some? && lng.Some?;
    var a := if addressChanged then o.(address := Trim(address.value)) else o;
    var b := if positionChanged then a.(lat := lat.value, lng := lng.value) else a;
    if addressChanged || positionChanged then
      var (price, rule) := quote(b.address, b.lat, b.lng);
      b.(deliveryPrice := Some(price), pricingRule := Some(rule))
    else b
  }

  /** Why a requested status is refused: an unknown name, a courier missing, or a route missing. */
  function StatusFailure(o: Order, status: string): (e: Option<DispatchError>)
    ensures e == Some(InvalidStatus) <==> ParseStatus(status).None?
    ensures e == Some(NoCourierForOrder) <==> ParseStatus(status) in {Some(OnRoute), Some(Delivered)} && !Truthy(o.courierId)
    ensures e == Some(NoRouteForOrder) <==> ParseStatus(status) == Some(Queued) && !Truthy(o.routeId)
  {
    match ParseStatus(status)
    case None => Some(InvalidStatus)
    case Some(st) =>
      if (st == OnRoute || st == Delivered) && !Truthy(o.courierId) then Some(NoCourierForOrder)
      else if st == Queued && !Truthy(o.routeId) then Some(NoRouteForOrder)
      else None
  }

  /** The order with an accepted status; PENDING also drops its courier and its route. */
  function WithStatus(o: Order, st: OrderStatus): (r: Order)
    ensures r.status == st && r.id == o.id && r.address == o.address
    ensures st == Pending ==> r.courierId.None? && r.routeId.None?
    ensures st != Pending ==> r.courierId == o.courierId && r.routeId == o.routeId
  {
    if st == Pending then o.(courierId := None, routeId := None, status := st) else o.(status := st)
  }

  /**
   * `PUT /orders/:id`: the location edits are written first; a status is then
   * checked and applied. A refused status leaves the location edits in place.
   */
  method UpdateOrder(s: Store, orderId: Id, address: Option<string>, lat: Option<real>, lng: Option<real>, status: Option<string>,
                     quote: (string, real, real) -> (real, PricingRule))
    returns (r: Result<Order, DispatchError>)
    modifies s
    ensures FindOrder(old(s.orders), orderId).None? ==> r == Failure(OrderNotFound) && s.orders == old(s.orders)
    ensures FindOrder(old(s.orders), orderId).Some? ==>
      var i := FindOrder(old(s.orders), orderId).value;
      var edited := EditLocation(old(s.orders[i]), address, lat, lng, quote);
      if status.Some? && StatusFailure(edited, status.value).Some? then
        r == Failure(StatusFailure(edited, status.value).value) && s.orders == old(s.orders)[i := edited]
      else
        var final := if status.Some? then WithStatus(edited, ParseStatus(status.value).value) else edited;
        r == Success(final) && s.orders == old(s.orders)[i := final]
    ensures s.couriers == old(s.couriers) && s.routes == old(s.routes)
  {
    var found := FindOrder(s.orders, orderId);
    if found.None? {
      return Failure(OrderNotFound);
    }
    var i := found.value;
    s.orders := s.orders[i := EditLocation(s.orders[i], address, lat, lng, quote)];
    if status.Some? {
      var failure := StatusFailure(s.orders[i], status.value);
      if failure.Some? {
        return Failure(failure.value);
      }
      s.orders := s.orders[i := WithStatus(s.orders[i], ParseStatus(status.value).value)];
    }
    r := Success(s.orders[i]);
  }

  /** An accepted status edit leaves ON_ROUTE and DELIVERED orders with a courier and QUEUED ones with a route. */
  lemma AcceptedStatusConsistent(o: Order, status: string)
    requires StatusFailure(o, status).None?
    ensures var r := WithStatus(o, ParseStatus(status).value);
      && (r.status in {OnRoute, Delivered} ==> Truthy(r.courierId))
      && (r.status == Queued ==> Truthy(r.routeId))
      && (r.status == Pending ==> r.courierId.None? && r.routeId.None?)
  {
  }

  // ---------------------------------------------------------------- order removal

  /** `route.orderIds.filter(id => id !== orderId)`. */
  function RemoveId(ids: seq<Id>, x: Id): (r: seq<Id>)
    ensures |r| <= |ids|
    ensures forall y :: y in r <==> y in ids && y != x
  {
    if ids == [] then []
    else if ids[0] == x then RemoveId(ids[1..], x)
    else [ids[0]] + RemoveId(ids[1..], x)
  }

  /** The store without the element at `i`, as `splice(i, 1)` leaves it. */
  function RemoveAt<T>(s: seq<T>, i: nat): (r: seq<T>)
    requires i < |s|
    ensures |r| == |s| - 1
    ensures forall k :: 0 <= k < i ==> r[k] == s[k]
    ensures forall k :: i <= k < |r| ==> r[k] == s[k + 1]
  {
    s[..i] + s[i + 1..]
  }

  /**
   * `DELETE /orders/:id` (`force` from the query): refused for an ON_ROUTE or
   * DELIVERED order unless forced. Its id leaves the route it names; an
   * emptied route is DONE and frees its courier, any other is refreshed; then
   * the order is removed.
   */
  method DeleteOrder(s: Store, orderId: Id, force: bool) returns (r: Result<Order, DispatchError>)
    modifies s
    ensures FindOrder(old(s.orders), orderId).None? ==>
      r == Failure(OrderNotFound) && s.orders == old(s.orders) && s.couriers == old(s.couriers) && s.routes == old(s.routes)
    ensures FindOrder(old(s.orders), orderId).Some? ==>
      var i := FindOrder(old(s.orders), orderId).value;
      var o := old(s.orders[i]);
      if !force && o.status in {OnRoute, Delivered} then
        r == Failure(OrderInRoute) && s.orders == old(s.orders) && s.couriers == old(s.couriers) && s.routes == old(s.routes)
      else
        && r == Success(o)
        && s.orders == RemoveAt(old(s.orders), i)
        && (if Truthy(o.routeId) && FindRoute(old(s.routes), o.routeId.value).Some? then
              var ri := FindRoute(old(s.routes), o.routeId.value).value;
              var trimmed := old(s.routes[ri]).(orderIds := RemoveId(old(s.routes[ri]).orderIds, o.id));
              if trimmed.orderIds == [] then
                s.routes == old(s.routes)[ri := trimmed.(status := Done)] &&
                s.couriers == ReleaseCourier(old(s.couriers), trimmed.courierId)
              else
                s.routes == old(s.routes)[ri := trimmed.(status := RefreshedStatus(old(s.orders), trimmed))] &&
                s.couriers == if ProgressOf(old(s.orders), trimmed).finished then ReleaseCourier(old(s.couriers), trimmed.courierId) else old(s.couriers)
            else s.routes == old(s.routes) && s.couriers == old(s.couriers))
  {
    var found := FindOrder(s.orders, orderId);
    if found.None? {
      return Failure(OrderNotFound);
    }
    var i := found.value;
    var o := s.orders[i];
    if !force && (o.status == OnRoute || o.status == Delivered) {
      return Failure(OrderInRoute);
    }
    if Truthy(o.routeId) {
      var route := FindRoute(s.routes, o.routeId.value);
      if route.Some? {
        DetachFromRoute(s, route.value, o.id);
      }
    }
    s.orders := RemoveAt(s.orders, i);
    r := Success(o);
  }

  /** The route part of order removal: the id leaves the route, which is then closed or refreshed. */
  method DetachFromRoute(s: Store, ri: nat, orderId: Id)
    requires ri < |s.routes|
    modifies s
    ensures var trimmed := old(s.routes[ri]).(orderIds := RemoveId(old(s.routes[ri]).orderIds, orderId));
      && s.orders == old(s.orders)
      && if trimmed.orderIds == [] then
           s.routes == old(s.routes)[ri := trimmed.(status := Done)] &&
           s.couriers == ReleaseCourier(old(s.couriers), trimmed.courierId)
         else
           s.routes == old(s.routes)[ri := trimmed.(status := RefreshedStatus(old(s.orders), trimmed))] &&
           s.couriers == if ProgressOf(old(s.orders), trimmed).finished then ReleaseCourier(old(s.couriers), trimmed.courierId) else old(s.couriers)
  {
    var trimmed := s.routes[ri].(orderIds := RemoveId(s.routes[ri].orderIds, orderId));
    s.routes := s.routes[ri := trimmed];
    if trimmed.orderIds == [] {
      s.routes := s.routes[ri := trimmed.(status := Done)];
      s.couriers := ReleaseCourier(s.couriers, trimmed.courierId);
    } else {
      var progress := RefreshRouteProgress(s, ri);
    }
  }

  /** After removal the order's id is no longer listed by the route it named. */
  lemma RemovedIdGone(ids: seq<Id>, x: Id)
    ensures x !in RemoveId(ids, x)
    ensures RemoveId(ids, x) == [] <==> forall k :: 0 <= k < |ids| ==> ids[k] == x
  {
    var r := RemoveId(ids, x);
    if r != [] {
      assert r[0] in ids && r[0] != x;
    }
    if exists k :: 0 <= k < |ids| && ids[k] != x {
      var k :| 0 <= k < |ids| && ids[k] != x;
      assert ids[k] in r;
    }
  }

  // ---------------------------------------------------------------- route removal

  /**
   * What route removal does to a listed order: it leaves the route; a
   * delivered order stays DELIVERED and loses its courier only when forced;
   * any other goes back to PENDING without a courier.
   */
  function Detach(o: Order, force: bool): (r: Order)
    ensures r.id == o.id && r.routeId.None?
    ensures o.status == Delivered ==> r.status == Delivered && (r.courierId.None? <==> force || o.courierId.None?)
    ensures o.status == Delivered && !force ==> r.courierId == o.courierId
    ensures o.status != Delivered ==> r.status == Pending && r.courierId.None?
  {
    if force && o.status == Delivered then o.(routeId := None, courierId := None)
    else if o.status != Delivered then o.(routeId := None, status := Pending, courierId := None)
    else o.(routeId := None)
  }

  /** Detaching twice is detaching once, so an id listed twice is handled like one listed once. */
  lemma DetachIdempotent(o: Order, force: bool)
    ensures Detach(Detach(o, force), force) == Detach(o, force)
  {
  }

  /** The order at `i` is the one `orders.find` returns for its id and the route lists that id. */
  predicate FoundFor(orders: seq<Order>, ids: seq<Id>, i: nat)
    requires i < |orders|
  {
    orders[i].id in ids && FindOrder(orders, orders[i].id) == Some(i)
  }

  /** The orders after `route.orderIds.forEach(... orders.find ...)` detached each listed order. */
  function DetachListed(orders: seq<Order>, ids: seq<Id>, force: bool): (r: seq<Order>)
    ensures |r| == |orders|
  {
    seq(|orders|, i requires 0 <= i < |orders| => if FoundFor(orders, ids, i) then Detach(orders[i], force) else orders[i])
  }

  /** The `forEach` over the route's ids. */
  method DetachListedOrders(s: Store, ids: seq<Id>, force: bool)
    modifies s
    ensures s.orders == DetachListed(old(s.orders), ids, force)
    ensures s.couriers == old(s.couriers) && s.routes == old(s.routes)
  {
    ghost var orders := s.orders;
    var k := 0;
    while k < |ids|
      invariant 0 <= k <= |ids| && s.couriers == old(s.couriers) && s.routes == old(s.routes)
      invariant DetachedSoFar(orders, s.orders, ids[..k], force)
    {
      DetachedSoFarIds(orders, s.orders, ids[..k], force);
      FindOrderSameIds(s.orders, orders, ids[k]);
      DetachedSoFarStep(orders, s.orders, ids[..k], ids[k], force);
      var found := FindOrder(s.orders, ids[k]);
      if found.Some? {
        s.orders := s.orders[found.value := Detach(s.orders[found.value], force)];
      }
      assert ids[..k + 1] == ids[..k] + [ids[k]];
      k := k + 1;
    }
    assert ids[..k] == ids;
  }

  /** `cur` is `orders` with the orders found for `ids` detached. */
  predicate DetachedSoFar(orders: seq<Order>, cur: seq<Order>, ids: seq<Id>, force: bool)
  {
    |cur| == |orders| &&
    forall i :: 0 <= i < |orders| ==> cur[i] == if FoundFor(orders, ids, i) then Detach(orders[i], force) else orders[i]
  }

  /** One more id: the order `find` returns for it is detached, detaching being idempotent. */
  lemma DetachedSoFarStep(orders: seq<Order>, cur: seq<Order>, ids: seq<Id>, x: Id, force: bool)
    requires DetachedSoFar(orders, cur, ids, force)
    ensures DetachedSoFar(orders, if FindOrder(orders, x).Some? then cur[FindOrder(orders, x).value := Detach(cur[FindOrder(orders, x).value], force)] else cur, ids + [x], force)
  {
    var found := FindOrder(orders, x);
    if found.Some? {
      DetachIdempotent(orders[found.value], force);
    }
    forall i | 0 <= i < |orders| ensures FoundFor(orders, ids + [x], i) <==> FoundFor(orders, ids, i) || found == Some(i) {
    }
  }

  lemma DetachedSoFarIds(orders: seq<Order>, cur: seq<Order>, ids: seq<Id>, force: bool)
    requires DetachedSoFar(orders, cur, ids, force)
    ensures |cur| == |orders| && forall i :: 0 <= i < |orders| ==> cur[i].id == orders[i].id
  {
  }

  /**
   * `DELETE /routes/:id` (`force` from the query): refused unless the route
   * is AWAITING_COURIER or the removal is forced; otherwise its listed orders
   * are detached, its courier is AVAILABLE again and the route is removed.
   */
  method DeleteRoute(s: Store, routeId: Id, force: bool) returns (r: Result<Route, DispatchError>)
    modifies s
    ensures FindRoute(old(s.routes), routeId).None? ==>
      r == Failure(RouteNotFound) && s.orders == old(s.orders) && s.couriers == old(s.couriers) && s.routes == old(s.routes)
    ensures FindRoute(old(s.routes), routeId).Some? ==>
      var ri := FindRoute(old(s.routes), routeId).value;
      var route := old(s.routes[ri]);
      if !force && route.status != AwaitingCourier then
        r == Failure(RouteAlreadyAssigned) && s.orders == old(s.orders) && s.couriers == old(s.couriers) && s.routes == old(s.routes)
      else
        && r == Success(route)
        && s.orders == DetachListed(old(s.orders), route.orderIds, force)
        && s.couriers == ReleaseCourier(old(s.couriers), route.courierId)
        && s.routes == RemoveAt(old(s.routes), ri)
  {
    var found := FindRoute(s.routes, routeId);
    if found.None? {
      return Failure(RouteNotFound);
    }
    var ri := found.value;
    var route := s.routes[ri];
    if !force && route.status != AwaitingCourier {
      return Failure(RouteAlreadyAssigned);
    }
    DetachListedOrders(s, route.orderIds, force);
    s.couriers := ReleaseCourier(s.couriers, route.courierId);
    s.routes := RemoveAt(s.routes, ri);
    r := Success(route);
  }

  /**
   * After a route is removed, no order that was found for one of its ids
   * still names a route, none of them is left on a route or queued, and
   * orders it did not list are untouched.
   */
  lemma DetachListedSpec(orders: seq<Order>, ids: seq<Id>, force: bool)
    ensures var after := DetachListed(orders, ids, force);
      && (forall i :: 0 <= i < |orders| && FoundFor(orders, ids, i) ==>
            after[i].routeId.None? && after[i].status in {Pending, Delivered} &&
            (orders[i].status == Delivered <==> after[i].status == Delivered))
      && (forall i :: 0 <= i < |orders| && orders[i].id !in ids ==> after[i] == orders[i])
  {
  }
}

=== FILE: sorting.dfy ===
/**
 * `Array.prototype.sort` with a numeric comparator, which the source uses for
 * every ordering it shows: the sort is stable, so elements with equal keys keep
 * their original order. It is modelled as an insertion sort by a real key;
 * a descending sort is a sort by the negated key.
 */
module Sorting {

  predicate SortedBy<T>(s: seq<T>, key: T -> real)
  {
    forall i, j :: 0 <= i < j < |s| ==> key(s[i]) <= key(s[j])
  }

  /** Inserts `x` after every element whose key is not greater than its own. */
  function Insert<T>(x: T, s: seq<T>, key: T -> real): (r: seq<T>)
    ensures |r| == |s| + 1
    ensures multiset(r) == multiset(s) + multiset{x}
  {
    if s == [] then [x]
    else if key(x) < key(s[0]) then [x] + s
    else
      assert s == [s[0]] + s[1..];
      [s[0]] + Insert(x, s[1..], key)
  }

  lemma {:induction false} InsertSorted<T>(x: T, s: seq<T>, key: T -> real)
    requires SortedBy(s, key)
    ensures SortedBy(Insert(x, s, key), key)
  {
    if s != [] && key(x) >= key(s[0]) {
      var t := Insert(x, s[1..], key);
      InsertSorted(x, s[1..], key);
      forall j | 0 <= j < |t| ensures key(s[0]) <= key(t[j]) {
        assert t[j] in multiset(t);
        if t[j] != x {
          assert t[j] in multiset(s[1..]);
          var k :| 0 <= k < |s[1..]| && s[1..][k] == t[j];
          assert s[k + 1] == t[j];
        }
      }
    }
  }

  /** The stable sort of `s` by ascending `key`. */
  function SortBy<T>(s: seq<T>, key: T -> real): (r: seq<T>)
    ensures |r| == |s|
    ensures multiset(r) == multiset(s)
    ensures SortedBy(r, key)
  {
    if s == [] then []
    else
      var init := SortBy(s[..|s| - 1], key);
      assert s == s[..|s| - 1] + [s[|s| - 1]];
      InsertSorted(s[|s| - 1], init, key);
      Insert(s[|s| - 1], init, key)
  }

  lemma SortByMembers<T>(s: seq<T>, key: T -> real)
    ensures forall x :: x in SortBy(s, key) <==> x in s
  {
    var r := SortBy(s, key);
    assert forall x :: x in r <==> x in multiset(r);
    assert forall x :: x in s <==> x in multiset(s);
  }

  // ---------------------------------------------------------------- stability

  /** The elements of `s` whose key is `v`, in their order in `s`. */
  function WithKey<T>(s: seq<T>, key: T -> real, v: real): seq<T>
  {
    if s == [] then [] else (if key(s[0]) == v then [s[0]] else []) + WithKey(s[1..], key, v)
  }

  lemma {:induction false} WithKeyAppend<T>(a: seq<T>, b: seq<T>, key: T -> real, v: real)
    ensures WithKey(a + b, key, v) == WithKey(a, key, v) + WithKey(b, key, v)
  {
    if a != [] {
      var head := if key(a[0]) == v then [a[0]] else [];
      assert (a + b)[0] == a[0];
      assert (a + b)[1..] == a[1..] + b;
      assert WithKey(a + b, key, v) == head + WithKey(a[1..] + b, key, v);
      WithKeyAppend(a[1..], b, key, v);
      assert WithKey(a, key, v) == head + WithKey(a[1..], key, v);
      assert head + (WithKey(a[1..], key, v) + WithKey(b, key, v))
          == (head + WithKey(a[1..], key, v)) + WithKey(b, key, v);
    } else {
      assert a + b == b;
    }
  }

  lemma {:induction false} WithKeyNone<T>(s: seq<T>, key: T -> real, v: real)
    requires forall i :: 0 <= i < |s| ==> key(s[i]) != v
    ensures WithKey(s, key, v) == []
  {
    if s != [] {
      assert key(s[0]) != v;
      WithKeyNone(s[1..], key, v);
    }
  }

  lemma SortedTail<T>(s: seq<T>, key: T -> real)
    requires s != [] && SortedBy(s, key)
    ensures SortedBy(s[1..], key)
    ensures forall i :: 0 <= i < |s| ==> key(s[0]) <= key(s[i])
  {
    forall i, j | 0 <= i < j < |s| - 1 ensures key(s[1..][i]) <= key(s[1..][j]) {
      assert s[1..][i] == s[i + 1] && s[1..][j] == s[j + 1];
    }
  }

  /** `x` in front of a sorted list with larger keys is the last element with its key. */
  lemma InsertFrontWithKey<T>(x: T, s: seq<T>, key: T -> real, v: real)
    requires s != [] && SortedBy(s, key) && key(x) < key(s[0])
    ensures WithKey([x] + s, key, v) == WithKey(s, key, v) + (if key(x) == v then [x] else [])
  {
    assert ([x] + s)[0] == x && ([x] + s)[1..] == s;
    if key(x) == v {
      SortedTail(s, key);
      WithKeyNone(s, key, v);
    }
  }

  /** A kept head contributes the same prefix before and after the insertion. */
  lemma ConsWithKey<T>(h: T, t: seq<T>, key: T -> real, v: real)
    ensures WithKey([h] + t, key, v) == (if key(h) == v then [h] else []) + WithKey(t, key, v)
  {
    assert ([h] + t)[0] == h && ([h] + t)[1..] == t;
  }

  /** Putting the head back in front of both sides keeps the equation of the tail. */
  lemma ConsKeepsWithKey<T>(s: seq<T>, t: seq<T>, key: T -> real, v: real, hx: seq<T>)
    requires s != []
    requires WithKey(t, key, v) == WithKey(s[1..], key, v) + hx
    ensures WithKey([s[0]] + t, key, v) == WithKey(s, key, v) + hx
  {
    var h0 := if key(s[0]) == v then [s[0]] else [];
    ConsWithKey(s[0], t, key, v);
    assert WithKey(s, key, v) == h0 + WithKey(s[1..], key, v);
    assert h0 + (WithKey(s[1..], key, v) + hx) == (h0 + WithKey(s[1..], key, v)) + hx;
  }

  /** Inserting into a sorted list puts `x` after every element with its key. */
  lemma {:induction false} InsertWithKey<T>(x: T, s: seq<T>, key: T -> real, v: real)
    requires SortedBy(s, key)
    ensures WithKey(Insert(x, s, key), key, v) == WithKey(s, key, v) + (if key(x) == v then [x] else [])
  {
    if s == [] {
      assert Insert(x, s, key) == [x] + s;
      ConsWithKey(x, s, key, v);
    } else if key(x) < key(s[0]) {
      assert Insert(x, s, key) == [x] + s;
      InsertFrontWithKey(x, s, key, v);
    } else {
      assert Insert(x, s, key) == [s[0]] + Insert(x, s[1..], key);
      SortedTail(s, key);
      InsertWithKey(x, s[1..], key, v);
      ConsKeepsWithKey(s, Insert(x, s[1..], key), key, v, if key(x) == v then [x] else []);
    }
  }

  /** One step of the sort keeps, for every key, the order of that key's elements. */
  lemma StableStep<T>(init: seq<T>, last: T, sorted: seq<T>, key: T -> real, v: real)
    requires SortedBy(sorted, key)
    requires WithKey(sorted, key, v) == WithKey(init, key, v)
    ensures WithKey(Insert(last, sorted, key), key, v) == WithKey(init + [last], key, v)
  {
    InsertWithKey(last, sorted, key, v);
    WithKeyAppend(init, [last], key, v);
    assert WithKey([last], key, v) == (if key(last) == v then [last] else []) + WithKey([], key, v);
  }

  lemma LastSplit<T>(s: seq<T>)
    requires s != []
    ensures s == s[..|s| - 1] + [s[|s| - 1]]
  {
  }

  /**
   * The sort is stable: for every key, the elements with that key come out in
   * the order they went in.
   */
  lemma {:induction false} SortByStable<T>(s: seq<T>, key: T -> real, v: real)
    ensures WithKey(SortBy(s, key), key, v) == WithKey(s, key, v)
  {
    if s != [] {
      var init, last := s[..|s| - 1], s[|s| - 1];
      assert SortBy(s, key) == Insert(last, SortBy(init, key), key);
      SortByStable(init, key, v);
      StableStep(init, last, SortBy(init, key), key, v);
      LastSplit(s);
    }
  }
}

=== FILE: storage.dfy ===
/**
 * The SQLite rows behind the in-memory store (`src/storage.ts`): how each
 * record is written to its row and read back, and the sequence numbers the
 * import of the old JSON file hands out.
 *
 * Date columns hold ISO text. Writing a date is `toIso` (`toISOString`) and
 * reading one is `parseDate` (`new Date(text).getTime()`); both are parameters.
 * Status and rule-type columns hold the names of the values; a row whose name
 * is not one of them is not read (the source casts it unchecked).
 */
module Storage {
  import opened Wrappers
  import opened Text
  import opened JsNumbers
  import opened DispatchModel
  import opened JsonText
  import ServerHandlers
  import OperationSessions
  import Restaurant

  // ---------------------------------------------------------------- names

  function RuleTypeName(t: PricingRuleType): string
  {
    match t
    case Zone => "ZONE"
    case Distance => "DISTANCE"
  }

  function ParseRuleType(name: string): (t: Option<PricingRuleType>)
    ensures t.Some? ==> RuleTypeName(t.value) == name
    ensures t.None? <==> name != "ZONE" && name != "DISTANCE"
  {
    if name == "ZONE" then Some(Zone)
    else if name == "DISTANCE" then Some(Distance)
    else None
  }

  function RouteStatusName(st: RouteStatus): string
  {
    match st
    case AwaitingCourier => "AWAITING_COURIER"
    case Assigned => "ASSIGNED"
    case InProgress => "IN_PROGRESS"
    case Done => "DONE"
  }

  function ParseRouteStatus(name: string): (st: Option<RouteStatus>)
    ensures st.Some? ==> RouteStatusName(st.value) == name
  {
    if name == "AWAITING_COURIER" then Some(AwaitingCourier)
    else if name == "ASSIGNED" then Some(RouteStatus.Assigned)
    else if name == "IN_PROGRESS" then Some(InProgress)
    else if name == "DONE" then Some(Done)
    else None
  }

  /** Each rule type and route status reads back from its own name. */
  lemma NamesRoundTrip(t: PricingRuleType, st: RouteStatus)
    ensures ParseRuleType(RuleTypeName(t)) == Some(t)
    ensures ParseRouteStatus(RouteStatusName(st)) == Some(st)
  {
  }

  // ---------------------------------------------------------------- orders

  datatype OrderRow = OrderRow(
    id: Id,
    address: string,
    lat: real,
    lng: real,
    createdAt: string,
    sequence: Option<int>,
    status: string,
    courierId: Option<Id>,
    routeId: Option<Id>,
    deliveryPrice: Option<real>,
    pricingRuleType: Option<string>,
    pricingRuleLabel: Option<string>)

  /** `serializeOrder`: an absent field is a null column, the pricing rule a (type, label) pair of columns. */
  function SerializeOrder(o: Order, toIso: Millis -> string): OrderRow
  {
    OrderRow(
      o.id, o.address, o.lat, o.lng, toIso(o.createdAt), o.sequence, ServerHandlers.StatusName(o.status),
      o.courierId, o.routeId, o.deliveryPrice,
      if o.pricingRule.Some? then Some(RuleTypeName(o.pricingRule.value.ruleType)) else None,
      if o.pricingRule.Some? then Some(o.pricingRule.value.caption) else None)
  }

  /**
   * `mapOrderRow`: a pricing rule exists exactly when the type column is not
   * null, with the label defaulting to the empty text; a null sequence reads
   * as 0.
   */
  function MapOrderRow(row: OrderRow, parseDate: string -> Millis): (r: Option<Order>)
    ensures r.Some? <==>
      ServerHandlers.ParseStatus(row.status).Some? &&
      (row.pricingRuleType.Some? ==> ParseRuleType(row.pricingRuleType.value).Some?)
    ensures r.Some? ==>
      && r.value.id == row.id && r.value.address == row.address && r.value.lat == row.lat && r.value.lng == row.lng
      && r.value.createdAt == parseDate(row.createdAt)
      && r.value.sequence == Some(row.sequence.GetOr(0))
      && ServerHandlers.StatusName(r.value.status) == row.status
      && r.value.courierId == row.courierId && r.value.routeId == row.routeId
      && r.value.deliveryPrice == row.deliveryPrice
      && (r.value.pricingRule.Some? <==> row.pricingRuleType.Some?)
    ensures r.Some? && r.value.pricingRule.Some? ==>
      && RuleTypeName(r.value.pricingRule.value.ruleType) == row.pricingRuleType.value
      && r.value.pricingRule.value.caption == row.pricingRuleLabel.GetOr("")
  {
    ServerHandlers.ParseStatusName(Pending, row.status);
    if ServerHandlers.ParseStatus(row.status).None? then None
    else if row.pricingRuleType.Some? && ParseRuleType(row.pricingRuleType.value).None? then None
    else
      var rule :=
        if row.pricingRuleType.Some?
        then Some(PricingRule(ParseRuleType(row.pricingRuleType.value).value, row.pricingRuleLabel.GetOr("")))
        else None;
      Some(Order(
        row.id, row.address, row.lat, row.lng, parseDate(row.createdAt), Some(row.sequence.GetOr(0)),
        ServerHandlers.ParseStatus(row.status).value, row.courierId, row.routeId, row.deliveryPrice, rule))
  }

  /**
   * An order written and read back is the same order, a missing sequence
   * aside (it reads back as 0); a delivery price of 0 and a rule with an
   * empty label survive.
   */
  lemma OrderRowRoundTrip(o: Order, toIso: Millis -> string, parseDate: string -> Millis)
    requires forall t :: parseDate(toIso(t)) == t
    ensures MapOrderRow(SerializeOrder(o, toIso), parseDate) == Some(o.(sequence := Some(o.sequence.GetOr(0))))
  {
    ServerHandlers.ParseStatusName(o.status, "");
    if o.pricingRule.Some? {
      NamesRoundTrip(o.pricingRule.value.ruleType, Done);
    }
  }

  // ---------------------------------------------------------------- routes

  datatype RouteRow = RouteRow(
    id: Id,
    courierId: Option<Id>,
    orderIds: string,
    status: string,
    createdAt: string,
    mapsUrl: Option<string>,
    totalPrice: Option<real>)

  /** `serializeRoute`: the order ids go into one column as JSON text. */
  function SerializeRoute(r: Route, toIso: Millis -> string): RouteRow
  {
    RouteRow(r.id, r.courierId, Stringify(r.orderIds), RouteStatusName(r.status), toIso(r.createdAt), r.mapsUrl, r.totalPrice)
  }

  /** The order ids of a route row: the JSON array in the column, or none when the text is empty, not JSON or not an array of strings. */
  function OrderIdsColumn(text: string): (ids: seq<Id>)
    ensures text == "" ==> ids == []
    ensures ParseArray(text).None? ==> ids == []
    ensures ParseArray(text).Some? ==> ids == ParseArray(text).value
  {
    if text == "" then []
    else match ParseArray(text)
      case Some(parsed) => parsed
      case None => []
  }

  /** `mapRouteRow`. */
  function MapRouteRow(row: RouteRow, parseDate: string -> Millis): (r: Option<Route>)
    ensures r.Some? <==> ParseRouteStatus(row.status).Some?
    ensures r.Some? ==>
      && r.value.id == row.id && r.value.courierId == row.courierId
      && r.value.orderIds == OrderIdsColumn(row.orderIds)
      && RouteStatusName(r.value.status) == row.status
      && r.value.createdAt == parseDate(row.createdAt)
      && r.value.mapsUrl == row.mapsUrl && r.value.totalPrice == row.totalPrice
  {
    match ParseRouteStatus(row.status)
    case None => None
    case Some(st) =>
      Some(Route(row.id, row.courierId, OrderIdsColumn(row.orderIds), st, parseDate(row.createdAt), row.mapsUrl, row.totalPrice))
  }

  /** A route written and read back is the same route, its order ids included. */
  lemma RouteRowRoundTrip(r: Route, toIso: Millis -> string, parseDate: string -> Millis)
    requires forall t :: parseDate(toIso(t)) == t
    ensures MapRouteRow(SerializeRoute(r, toIso), parseDate) == Some(r)
  {
    ParseStringify(r.orderIds);
    NamesRoundTrip(Zone, r.status);
  }

  /** A route row whose id column is empty or does not start with an array has no order ids. */
  lemma EmptyOrderIdsColumn(text: string)
    requires text == "" || SkipSpace(text) == [] || SkipSpace(text)[0] != '['
    ensures OrderIdsColumn(text) == []
  {
    if text != "" {
      ParseArrayRejectsNonArray(text);
    }
  }

  // ---------------------------------------------------------------- operation sessions

  datatype SessionRow = SessionRow(
    id: Id,
    startedAt: string,
    visibleFrom: Option<string>,
    visibleFromSequence: Option<int>,
    closedAt: Option<string>)

  /**
   * `mapOperationSession`: an empty or null `visible_from` falls back to the
   * start, a null sequence to 0, and the session is open exactly when
   * `closed_at` is empty or null.
   */
  function MapOperationSession(row: SessionRow, parseDate: string -> Millis): (s: OperationSessions.OperationSession)
    ensures s.id == row.id && s.startedAt == parseDate(row.startedAt)
    ensures Truthy(row.visibleFrom) ==> s.visibleFrom == parseDate(row.visibleFrom.value)
    ensures !Truthy(row.visibleFrom) ==> s.visibleFrom == s.startedAt
    ensures s.visibleFromSequence == row.visibleFromSequence.GetOr(0)
    ensures OperationSessions.IsOpen(s) <==> !Truthy(row.closedAt)
    ensures s.closedAt.Some? ==> s.closedAt.value == parseDate(row.closedAt.value)
  {
    var started := parseDate(row.startedAt);
    OperationSessions.OperationSession(
      row.id,
      started,
      if Truthy(row.visibleFrom) then parseDate(row.visibleFrom.value) else started,
      row.visibleFromSequence.GetOr(0),
      if Truthy(row.closedAt) then Some(parseDate(row.closedAt.value)) else None)
  }

  /** The row `saveDatabase` writes for a session; a closing time is written only when there is one. */
  function SessionRowOf(s: OperationSessions.OperationSession, toIso: Millis -> string): SessionRow
  {
    SessionRow(
      s.id, toIso(s.startedAt), Some(toIso(s.visibleFrom)), Some(s.visibleFromSequence),
      if s.closedAt.Some? then Some(toIso(s.closedAt.value)) else None)
  }

  /** A session written and read back is the same session, open or closed as before, when ISO text is never empty. */
  lemma SessionRowRoundTrip(s: OperationSessions.OperationSession, toIso: Millis -> string, parseDate: string -> Millis)
    requires forall t :: parseDate(toIso(t)) == t && toIso(t) != ""
    ensures MapOperationSession(SessionRowOf(s, toIso), parseDate) == s
  {
    assert parseDate(toIso(s.startedAt)) == s.startedAt;
    assert parseDate(toIso(s.visibleFrom)) == s.visibleFrom && toIso(s.visibleFrom) != "";
    if s.closedAt.Some? {
      assert parseDate(toIso(s.closedAt.value)) == s.closedAt.value && toIso(s.closedAt.value) != "";
    }
  }

  // ---------------------------------------------------------------- restaurant profile

  datatype ProfileRow = ProfileRow(
    id: Id,
    name: string,
    address: string,
    lat: real,
    lng: real,
    contactPhone: Option<string>,
    maxRadiusKm: real,
    minBatch: Option<real>,
    maxBatch: Option<real>,
    maxWaitMinutes: Option<real>,
    smartBatchHoldMinutes: Option<real>)

  function NumColumn(value: Option<real>): (r: Option<Num>)
    ensures r.None? <==> value.None?
    ensures r.Some? ==> r.value == Finite(value.value)
  {
    if value.Some? then Some(Finite(value.value)) else None
  }

  /** `mapRestaurantProfile`: every null optional column is an absent field. */
  function MapRestaurantProfile(row: ProfileRow): (f: Restaurant.ProfileFields)
    ensures f.id == row.id && f.name == row.name && f.address == row.address
    ensures f.lat == Finite(row.lat) && f.lng == Finite(row.lng) && f.maxRadiusKm == Finite(row.maxRadiusKm)
    ensures f.contactPhone == row.contactPhone
    ensures f.minBatch.None? <==> row.minBatch.None?
    ensures f.maxBatch.None? <==> row.maxBatch.None?
    ensures f.maxWaitMinutes.None? <==> row.maxWaitMinutes.None?
    ensures f.smartBatchHoldMinutes.None? <==> row.smartBatchHoldMinutes.None?
  {
    Restaurant.ProfileFields(
      row.id, row.name, row.address, Finite(row.lat), Finite(row.lng), row.contactPhone, Finite(row.maxRadiusKm),
      NumColumn(row.minBatch), NumColumn(row.maxBatch), NumColumn(row.maxWaitMinutes), NumColumn(row.smartBatchHoldMinutes))
  }

  predicate FiniteOrAbsent(n: Option<Num>)
  {
    n.None? || n.value.Finite?
  }

  /** A profile whose numbers are all finite, as a database column can hold them. */
  predicate StorableProfile(f: Restaurant.ProfileFields)
  {
    && f.lat.Finite? && f.lng.Finite? && f.maxRadiusKm.Finite?
    && FiniteOrAbsent(f.minBatch) && FiniteOrAbsent(f.maxBatch)
    && FiniteOrAbsent(f.maxWaitMinutes) && FiniteOrAbsent(f.smartBatchHoldMinutes)
  }

  function RealColumn(n: Option<Num>): Option<real>
    requires FiniteOrAbsent(n)
  {
    if n.Some? then Some(n.value.value) else None
  }

  /** The row `saveDatabase` writes for the profile. */
  function ProfileRowOf(f: Restaurant.ProfileFields): ProfileRow
    requires StorableProfile(f)
  {
    ProfileRow(
      f.id, f.name, f.address, f.lat.value, f.lng.value, f.contactPhone, f.maxRadiusKm.value,
      RealColumn(f.minBatch), RealColumn(f.maxBatch), RealColumn(f.maxWaitMinutes), RealColumn(f.smartBatchHoldMinutes))
  }

  /** A profile with finite numbers, written and read back, is the same profile. */
  lemma ProfileRowRoundTrip(f: Restaurant.ProfileFields)
    requires StorableProfile(f)
    ensures MapRestaurantProfile(ProfileRowOf(f)) == f
  {
  }

  // ---------------------------------------------------------------- legacy import

  /** An order of the old JSON file: no sequence, and the creation date as text. */
  datatype LegacyOrder = LegacyOrder(
    id: Id,
    address: string,
    lat: real,
    lng: real,
    createdAt: string,
    status: OrderStatus,
    courierId: Option<Id>,
    routeId: Option<Id>,
    deliveryPrice: Option<real>,
    pricingRule: Option<PricingRule>)

  /** The imported order with sequence number `n`. */
  function Revived(o: LegacyOrder, n: int, parseDate: string -> Millis): Order
  {
    Order(o.id, o.address, o.lat, o.lng, parseDate(o.createdAt), Some(n), o.status, o.courierId, o.routeId, o.deliveryPrice, o.pricingRule)
  }

  /** The imported orders numbered from `start` on, in file order. */
  function RevivedFrom(orders: seq<LegacyOrder>, start: int, parseDate: string -> Millis): (r: seq<Order>)
    ensures |r| == |orders|
  {
    seq(|orders|, i requires 0 <= i < |orders| => Revived(orders[i], start + i, parseDate))
  }

  /** Imported orders keep their fields and get sequence numbers that strictly increase in file order. */
  lemma RevivedSequencesIncrease(orders: seq<LegacyOrder>, start: int, parseDate: string -> Millis)
    ensures var r := RevivedFrom(orders, start, parseDate);
      && (forall i :: 0 <= i < |r| ==> r[i].sequence.Some? && r[i].id == orders[i].id && r[i].status == orders[i].status)
      && (forall i, j :: 0 <= i < j < |r| ==> r[i].sequence.value < r[j].sequence.value)
  {
  }

  /** The counter of the legacy import, shared by every revived order of the process. */
  class LegacyImport {
    var legacyOrderSequence: int

    constructor ()
      ensures legacyOrderSequence == 0
    {
      legacyOrderSequence := 0;
    }

    /** `reviveLegacyOrder`: the order takes the counter's value and the counter moves on by one. */
    method ReviveLegacyOrder(o: LegacyOrder, parseDate: string -> Millis) returns (r: Order)
      modifies this
      ensures r == Revived(o, old(legacyOrderSequence), parseDate)
      ensures legacyOrderSequence == old(legacyOrderSequence) + 1
    {
      r := Revived(o, legacyOrderSequence, parseDate);
      legacyOrderSequence := legacyOrderSequence + 1;
    }

    /** `(raw.orders ?? []).map(reviveLegacyOrder)`. */
    method ReviveLegacyOrders(orders: seq<LegacyOrder>, parseDate: string -> Millis) returns (r: seq<Order>)
      modifies this
      ensures r == RevivedFrom(orders, old(legacyOrderSequence), parseDate)
      ensures legacyOrderSequence == old(legacyOrderSequence) + |orders|
    {
      r := [];
      var k := 0;
      while k < |orders|
        invariant 0 <= k <= |orders|
        invariant legacyOrderSequence == old(legacyOrderSequence) + k
        invariant r == RevivedFrom(orders[..k], old(legacyOrderSequence), parseDate)
      {
        var revived := ReviveLegacyOrder(orders[k], parseDate);
        r := r + [revived];
        k := k + 1;
      }
      assert orders[..|orders|] == orders;
    }
  }
}

=== FILE: text.dfy ===
/**
 * String helpers of the server and the web client:
 * whitespace trimming, the case mappings, diacritic stripping, substring search,
 * joining and decimal rendering of integers.
 *
 * Case mapping and diacritic stripping cover ASCII and Latin-1 (the alphabet
 * of Portuguese addresses); other scripts pass through unchanged.
 */
module Text {
  import opened Wrappers

  /** The whitespace JavaScript's `String.prototype.trim` removes (WhiteSpace and LineTerminator). */
  predicate IsSpace(c: char)
  {
    c == ' ' || c == '\t' || c == '\n' || c == '\r' || c == '\U{000B}' || c == '\U{000C}'
    || c == '\U{00A0}' || c == '\U{1680}' || ('\U{2000}' <= c <= '\U{200A}')
    || c == '\U{2028}' || c == '\U{2029}' || c == '\U{202F}' || c == '\U{205F}'
    || c == '\U{3000}' || c == '\U{FEFF}'
  }

  /** Nothing but whitespace: what `trim()` empties. */
  predicate IsBlank(s: string)
  {
    forall i :: 0 <= i < |s| ==> IsSpace(s[i])
  }

  /** JavaScript truthiness of an optional string: present and not empty. */
  predicate Truthy(o: Option<string>)
  {
    o.Some? && o.value != ""
  }

  function TrimStart(s: string): (r: string)
    ensures |r| <= |s| && r == s[|s| - |r|..]
    ensures r != [] ==> !IsSpace(r[0])
    ensures forall i :: 0 <= i < |s| - |r| ==> IsSpace(s[i])
  {
    if s != [] && IsSpace(s[0]) then TrimStart(s[1..]) else s
  }

  function TrimEnd(s: string): (r: string)
    ensures |r| <= |s| && r == s[..|r|]
    ensures r != [] ==> !IsSpace(r[|r| - 1])
    ensures forall i :: |r| <= i < |s| ==> IsSpace(s[i])
  {
    if s != [] && IsSpace(s[|s| - 1]) then TrimEnd(s[..|s| - 1]) else s
  }

  /** `trim()`: the longest slice of `s` with no whitespace at either end. */
  function Trim(s: string): (r: string)
    ensures |r| <= |s|
    ensures r == [] <==> IsBlank(s)
    ensures r != [] ==> !IsSpace(r[0]) && !IsSpace(r[|r| - 1])
  {
    var t := TrimStart(s);
    var r := TrimEnd(t);
    assert r == [] ==> t == [];
    r
  }

  /** The trimmed string is the slice of `s` that starts after its leading whitespace. */
  lemma TrimSlice(s: string) returns (k: nat)
    ensures SliceAt(s, k, Trim(s))
    ensures forall i :: 0 <= i < k ==> IsSpace(s[i])
  {
    var t := TrimStart(s);
    var r := TrimEnd(t);
    k := |s| - |t|;
    assert r == s[k..][..|r|];
  }

  /** `r` occurs in `s` at position `k`. */
  predicate SliceAt(s: string, k: int, r: string)
  {
    0 <= k <= |s| - |r| && s[k..k + |r|] == r
  }

  lemma {:induction false} TrimIdempotent(s: string)
    ensures Trim(Trim(s)) == Trim(s)
  {
    var t := Trim(s);
    assert t == [] || (!IsSpace(t[0]) && !IsSpace(t[|t| - 1]));
    assert TrimStart(t) == t;
    assert TrimEnd(t) == t;
  }

  // ---------------------------------------------------------------- case mapping

  function LowerChar(c: char): char
  {
    if 'A' <= c <= 'Z' || ('\U{00C0}' <= c <= '\U{00DE}' && c != '\U{00D7}') then (c as int + 32) as char
    else c
  }

  function UpperChar(c: char): char
  {
    if 'a' <= c <= 'z' || ('\U{00E0}' <= c <= '\U{00FE}' && c != '\U{00F7}') then (c as int - 32) as char
    else c
  }

  /** `toLowerCase()` / `lowercase()`, character by character. */
  function Lower(s: string): (r: string)
    ensures |r| == |s|
    ensures forall i :: 0 <= i < |s| ==> r[i] == LowerChar(s[i])
  {
    if s == [] then [] else [LowerChar(s[0])] + Lower(s[1..])
  }

  /** `toUpperCase()`, character by character. */
  function Upper(s: string): (r: string)
    ensures |r| == |s|
    ensures forall i :: 0 <= i < |s| ==> r[i] == UpperChar(s[i])
  {
    if s == [] then [] else [UpperChar(s[0])] + Upper(s[1..])
  }

  lemma LowerAppend(a: string, b: string)
    ensures Lower(a + b) == Lower(a) + Lower(b)
  {
    assert forall i :: 0 <= i < |a + b| ==> Lower(a + b)[i] == (Lower(a) + Lower(b))[i];
  }

  lemma LowerIdempotent(s: string)
    ensures Lower(Lower(s)) == Lower(s)
  {
    assert forall i :: 0 <= i < |s| ==> LowerChar(LowerChar(s[i])) == LowerChar(s[i]);
  }

  /**
   * The base letter of a precomposed Latin-1 letter: what remains after
   * canonical decomposition and removal of the combining marks.
   */
  function StripDiacriticChar(c: char): char
  {
    if '\U{00E0}' <= c <= '\U{00E5}' then 'a' else if '\U{00C0}' <= c <= '\U{00C5}' then 'A'
    else if '\U{00E8}' <= c <= '\U{00EB}' then 'e' else if '\U{00C8}' <= c <= '\U{00CB}' then 'E'
    else if '\U{00EC}' <= c <= '\U{00EF}' then 'i' else if '\U{00CC}' <= c <= '\U{00CF}' then 'I'
    else if '\U{00F2}' <= c <= '\U{00F6}' then 'o' else if '\U{00D2}' <= c <= '\U{00D6}' then 'O'
    else if '\U{00F9}' <= c <= '\U{00FC}' then 'u' else if '\U{00D9}' <= c <= '\U{00DC}' then 'U'
    else if c == '\U{00FD}' || c == '\U{00FF}' then 'y' else if c == '\U{00DD}' then 'Y'
    else if c == '\U{00E7}' then 'c' else if c == '\U{00C7}' then 'C'
    else if c == '\U{00F1}' then 'n' else if c == '\U{00D1}' then 'N'
    else c
  }

  /**
   * The spacing marks of ASCII and Latin-1 that carry the Unicode Diacritic
   * property: `^`, `` ` ``, diaeresis, macron, acute accent, middle dot and
   * cedilla. Canonical decomposition leaves them as they are, so removing the
   * Diacritic characters removes them whole.
   */
  predicate SpacingDiacritic(c: char)
  {
    c == '^' || c == '`' || c == '\U{00A8}' || c == '\U{00AF}'
    || c == '\U{00B4}' || c == '\U{00B7}' || c == '\U{00B8}'
  }

  /** The text without its spacing marks, the other characters in order. */
  function DropSpacingDiacritics(s: string): (r: string)
    ensures |r| <= |s|
    ensures forall i :: 0 <= i < |r| ==> !SpacingDiacritic(r[i])
    ensures (forall i :: 0 <= i < |s| ==> !SpacingDiacritic(s[i])) ==> r == s
  {
    if s == [] then []
    else if SpacingDiacritic(s[0]) then DropSpacingDiacritics(s[1..])
    else [s[0]] + DropSpacingDiacritics(s[1..])
  }

  /** A spacing mark anywhere in the text is dropped, and nothing else changes. */
  lemma {:induction false} SpacingDiacriticDropped(a: string, c: char, b: string)
    requires SpacingDiacritic(c)
    ensures DropSpacingDiacritics(a + [c] + b) == DropSpacingDiacritics(a + b)
  {
    if a == [] {
      assert a + [c] + b == [c] + b && a + b == b;
      assert ([c] + b)[0] == c && ([c] + b)[1..] == b;
    } else {
      assert (a + [c] + b)[0] == a[0] && (a + [c] + b)[1..] == a[1..] + [c] + b;
      assert (a + b)[0] == a[0] && (a + b)[1..] == a[1..] + b;
      SpacingDiacriticDropped(a[1..], c, b);
    }
  }

  /** Every character replaced by its base letter. */
  function BaseLetters(s: string): (r: string)
    ensures |r| == |s|
    ensures forall i :: 0 <= i < |s| ==> r[i] == StripDiacriticChar(s[i])
  {
    if s == [] then [] else [StripDiacriticChar(s[0])] + BaseLetters(s[1..])
  }

  /**
   * `normalize('NFD').replace(/\p{Diacritic}/gu, '')`: the spacing marks are
   * dropped and every other character is replaced by its base letter.
   */
  function StripDiacritics(s: string): (r: string)
    ensures |r| <= |s|
    ensures forall i :: 0 <= i < |r| ==> !SpacingDiacritic(r[i])
  {
    BaseLetters(DropSpacingDiacritics(s))
  }

  // ---------------------------------------------------------------- searching

  predicate IsPrefix(p: string, s: string)
  {
    |p| <= |s| && s[..|p|] == p
  }

  predicate EndsWith(s: string, suffix: string)
  {
    |suffix| <= |s| && s[|s| - |suffix|..] == suffix
  }

  /** `s.includes(sub)`, by scanning the start positions from left to right. */
  function Contains(s: string, sub: string): (r: bool)
    ensures r <==> exists i :: SliceAt(s, i, sub)
    decreases |s|
  {
    if IsPrefix(sub, s) then
      assert SliceAt(s, 0, sub);
      true
    else if s == [] then false
    else
      var r := Contains(s[1..], sub);
      assert forall i {:trigger SliceAt(s, i, sub)} :: 1 <= i ==> (SliceAt(s, i, sub) <==> SliceAt(s[1..], i - 1, sub));
      assert forall i :: SliceAt(s[1..], i, sub) ==> SliceAt(s, i + 1, sub);
      r
  }

  lemma ContainsInPrefix(a: string, b: string, sub: string)
    requires Contains(a, sub)
    ensures Contains(a + b, sub)
  {
    var i :| SliceAt(a, i, sub);
    assert (a + b)[i..i + |sub|] == sub;
    assert SliceAt(a + b, i, sub);
  }

  lemma ContainsInSuffix(a: string, b: string, sub: string)
    requires Contains(b, sub)
    ensures Contains(a + b, sub)
  {
    var i :| SliceAt(b, i, sub);
    assert (a + b)[|a| + i..|a| + i + |sub|] == sub;
    assert SliceAt(a + b, |a| + i, sub);
  }

  // ---------------------------------------------------------------- building

  /** `parts.join(sep)`. */
  function Join(parts: seq<string>, sep: string): (r: string)
    ensures parts == [] ==> r == ""
    ensures |parts| == 1 ==> r == parts[0]
    ensures |parts| > 1 ==> IsPrefix(parts[0] + sep, r)
  {
    if parts == [] then ""
    else if |parts| == 1 then parts[0]
    else parts[0] + sep + Join(parts[1..], sep)
  }

  /** Keeps the strings that are truthy, as `.filter(Boolean)` does. */
  function NonEmpty(parts: seq<string>): (r: seq<string>)
    ensures forall i :: 0 <= i < |r| ==> r[i] != ""
    ensures forall p :: p in r <==> p in parts && p != ""
  {
    if parts == [] then []
    else if parts[0] == "" then NonEmpty(parts[1..])
    else [parts[0]] + NonEmpty(parts[1..])
  }

  predicate IsDigit(c: char)
  {
    '0' <= c <= '9'
  }

  function DigitChar(d: nat): char
    requires d < 10
  {
    "0123456789"[d]
  }

  /** The decimal digits of `n`, most significant first, no leading zero. */
  function NatToString(n: nat): (r: string)
    ensures r != []
    ensures forall i :: 0 <= i < |r| ==> IsDigit(r[i])
    ensures |r| > 1 ==> r[0] != '0'
    ensures DigitsValue(r) == n
  {
    if n < 10 then [DigitChar(n)] else NatToString(n / 10) + [DigitChar(n % 10)]
  }

  /** The number a string of decimal digits denotes. */
  function DigitsValue(s: string): nat
    requires forall i :: 0 <= i < |s| ==> IsDigit(s[i])
  {
    if s == [] then 0
    else
      assert IsDigit(s[|s| - 1]);
      10 * DigitsValue(s[..|s| - 1]) + (s[|s| - 1] as int - '0' as int)
  }

  /** `String(n)` for an integer. */
  function IntToString(n: int): (r: string)
    ensures n >= 0 ==> r == NatToString(n)
    ensures n < 0 ==> r == "-" + NatToString(-n)
  {
    if n < 0 then "-" + NatToString(-n) else NatToString(n)
  }
}

=== FILE: url_query.dfy ===
/**
 * The `application/x-www-form-urlencoded` serializer behind
 * `URLSearchParams.toString()` (WHATWG URL Standard, section 5.2), and a reader
 * of such query strings that serves as its inverse.
 */
module UrlQuery {
  import opened Text

  /** Characters the serializer leaves as they are. */
  predicate Unreserved(c: char)
  {
    ('a' <= c <= 'z') || ('A' <= c <= 'Z') || ('0' <= c <= '9') || c == '*' || c == '-' || c == '.' || c == '_'
  }

  function HexDigit(d: nat): char
    requires d < 16
  {
    if d < 10 then ('0' as int + d) as char else ('A' as int + d - 10) as char
  }

  function HexValue(c: char): (r: int)
    ensures -1 <= r < 16
  {
    if '0' <= c <= '9' then c as int - '0' as int
    else if 'A' <= c <= 'F' then c as int - 'A' as int + 10
    else if 'a' <= c <= 'f' then c as int - 'a' as int + 10
    else -1
  }

  /** `%XX` for one byte, upper-case hexadecimal. */
  function PercentByte(b: nat): (r: string)
    requires b < 256
    ensures |r| == 3 && r[0] == '%'
    ensures HexValue(r[1]) * 16 + HexValue(r[2]) == b
  {
    "%" + [HexDigit(b / 16), HexDigit(b % 16)]
  }

  /** The UTF-8 encoding of one character. */
  function Utf8(c: char): (r: seq<nat>)
    ensures 1 <= |r| <= 4
    ensures forall i :: 0 <= i < |r| ==> r[i] < 256
    ensures (c as int < 0x80) == (|r| == 1)
    ensures c as int < 0x80 ==> r == [c as int]
  {
    var cp := c as int;
    if cp < 0x80 then [cp]
    else if cp < 0x800 then [0xC0 + cp / 64, 0x80 + cp % 64]
    else if cp < 0x10000 then [0xE0 + cp / 4096, 0x80 + (cp / 64) % 64, 0x80 + cp % 64]
    else [0xF0 + cp / 262144, 0x80 + (cp / 4096) % 64, 0x80 + (cp / 64) % 64, 0x80 + cp % 64]
  }

  function PercentBytes(bs: seq<nat>): (r: string)
    requires forall i :: 0 <= i < |bs| ==> bs[i] < 256
    ensures |r| == 3 * |bs|
  {
    if bs == [] then "" else PercentByte(bs[0]) + PercentBytes(bs[1..])
  }

  function EncodeChar(c: char): (r: string)
    ensures r != []
    ensures '&' !in r && '=' !in r
  {
    if Unreserved(c) then [c]
    else if c == ' ' then "+"
    else PercentBytesNoDelims(Utf8(c))
  }

  function PercentBytesNoDelims(bs: seq<nat>): (r: string)
    requires |bs| > 0
    requires forall i :: 0 <= i < |bs| ==> bs[i] < 256
    ensures r == PercentBytes(bs)
    ensures r != [] && '&' !in r && '=' !in r
  {
    if |bs| == 1 then PercentByte(bs[0]) else PercentByte(bs[0]) + PercentBytesNoDelims(bs[1..])
  }

  /** The form-urlencoded text of one name or value. */
  function Encode(s: string): (r: string)
    ensures '&' !in r && '=' !in r
    ensures |r| >= |s|
  {
    if s == [] then "" else EncodeChar(s[0]) + Encode(s[1..])
  }

  /** `URLSearchParams.toString()`: `name=value` pairs joined by `&`. */
  function Serialize(params: seq<(string, string)>): string
  {
    Join(Pairs(params), "&")
  }

  function Pairs(params: seq<(string, string)>): (r: seq<string>)
    ensures |r| == |params|
    ensures forall i :: 0 <= i < |r| ==> r[i] == Encode(params[i].0) + "=" + Encode(params[i].1)
  {
    if params == [] then [] else [Encode(params[0].0) + "=" + Encode(params[0].1)] + Pairs(params[1..])
  }

  // ---------------------------------------------------------------- reading

  /** Undoes the escapes: `+` is a space and `%XX` one byte, read as the character with that code. */
  function Decode(s: string): string
  {
    if s == [] then ""
    else if s[0] == '+' then " " + Decode(s[1..])
    else if s[0] == '%' && |s| >= 3 && HexValue(s[1]) >= 0 && HexValue(s[2]) >= 0 then
      [(HexValue(s[1]) * 16 + HexValue(s[2])) as char] + Decode(s[3..])
    else [s[0]] + Decode(s[1..])
  }

  /** Splits at every occurrence of `sep`. */
  function Split(s: string, sep: char): (r: seq<string>)
    ensures |r| >= 1
  {
    if s == [] then [""]
    else if s[0] == sep then [""] + Split(s[1..], sep)
    else
      var t := Split(s[1..], sep);
      [[s[0]] + t[0]] + t[1..]
  }

  /** A `name=value` piece, split at its first `=`. */
  function SplitPair(piece: string): (string, string)
  {
    if piece == [] then ("", "")
    else if piece[0] == '=' then ("", piece[1..])
    else
      var (k, v) := SplitPair(piece[1..]);
      ([piece[0]] + k, v)
  }

  /** Reads a query string back into its name/value pairs. */
  function Parse(query: string): seq<(string, string)>
  {
    if query == "" then [] else ParsePieces(Split(query, '&'))
  }

  function ParsePieces(pieces: seq<string>): (r: seq<(string, string)>)
    ensures |r| == |pieces|
  {
    if pieces == [] then []
    else
      var (k, v) := SplitPair(pieces[0]);
      [(Decode(k), Decode(v))] + ParsePieces(pieces[1..])
  }

  // ---------------------------------------------------------------- round trip

  predicate IsAscii(s: string)
  {
    forall i :: 0 <= i < |s| ==> s[i] as int < 0x80
  }

  lemma {:induction false} DecodeEncode(s: string)
    requires IsAscii(s)
    ensures Decode(Encode(s)) == s
  {
    if s != [] {
      var c := s[0];
      assert IsAscii(s[1..]);
      DecodeEncode(s[1..]);
      var e := EncodeChar(c);
      DecodeCharPrefix(c, Encode(s[1..]));
      assert Encode(s) == e + Encode(s[1..]);
    }
  }

  lemma DecodeCharPrefix(c: char, rest: string)
    requires c as int < 0x80
    ensures Decode(EncodeChar(c) + rest) == [c] + Decode(rest)
  {
    var e := EncodeChar(c);
    if Unreserved(c) {
      assert (e + rest)[1..] == rest;
    } else if c == ' ' {
      assert (e + rest)[1..] == rest;
    } else {
      assert e == PercentByte(c as int);
      assert (e + rest)[3..] == rest;
      assert ((HexValue(e[1]) * 16 + HexValue(e[2])) as char) == c;
    }
  }

  lemma {:induction false} SplitNoSep(a: string, sep: char)
    requires sep !in a
    ensures Split(a, sep) == [a]
  {
    if a != [] {
      assert sep !in a[1..];
      SplitNoSep(a[1..], sep);
      assert [a[0]] + a[1..] == a;
    }
  }

  lemma {:induction false} SplitAfter(a: string, sep: char, b: string)
    requires sep !in a
    ensures Split(a + [sep] + b, sep) == [a] + Split(b, sep)
  {
    if a == [] {
      assert a + [sep] + b == [sep] + b;
      assert ([sep] + b)[1..] == b;
    } else {
      assert (a + [sep] + b)[1..] == a[1..] + [sep] + b;
      assert sep !in a[1..];
      SplitAfter(a[1..], sep, b);
      assert [a[0]] + a[1..] == a;
      assert (a + [sep] + b)[0] == a[0];
    }
  }

  lemma {:induction false} SplitJoin(parts: seq<string>, sep: char)
    requires |parts| >= 1
    requires forall i :: 0 <= i < |parts| ==> sep !in parts[i]
    ensures Split(Join(parts, [sep]), sep) == parts
  {
    if |parts| == 1 {
      SplitNoSep(parts[0], sep);
    } else {
      SplitJoin(parts[1..], sep);
      SplitAfter(parts[0], sep, Join(parts[1..], [sep]));
      assert Join(parts, [sep]) == parts[0] + [sep] + Join(parts[1..], [sep]);
      assert parts == [parts[0]] + parts[1..];
    }
  }

  lemma {:induction false} SplitPairAt(k: string, v: string)
    requires '=' !in k
    ensures SplitPair(k + "=" + v) == (k, v)
  {
    if k == [] {
      assert k + "=" + v == "=" + v;
      assert ("=" + v)[1..] == v;
    } else {
      assert (k + "=" + v)[1..] == k[1..] + "=" + v;
      assert '=' !in k[1..];
      SplitPairAt(k[1..], v);
      assert [k[0]] + k[1..] == k;
      assert (k + "=" + v)[0] == k[0];
    }
  }

  /** Reading a serialized parameter list gives it back, for ASCII names and values. */
  lemma {:induction false} ParseSerialize(params: seq<(string, string)>)
    requires |params| >= 1
    requires forall i :: 0 <= i < |params| ==> IsAscii(params[i].0) && IsAscii(params[i].1)
    ensures Parse(Serialize(params)) == params
  {
    var pairs := Pairs(params);
    forall i | 0 <= i < |pairs| ensures '&' !in pairs[i] {
      assert pairs[i] == Encode(params[i].0) + "=" + Encode(params[i].1);
    }
    SplitJoin(pairs, '&');
    assert Serialize(params) != "" by {
      assert |pairs[0]| >= 1;
      if |pairs| == 1 { assert Serialize(params) == pairs[0]; }
      else { assert IsPrefix(pairs[0] + "&", Serialize(params)); }
    }
    ParsePiecesPairs(params);
  }

  lemma {:induction false} ParsePiecesPairs(params: seq<(string, string)>)
    requires forall i :: 0 <= i < |params| ==> IsAscii(params[i].0) && IsAscii(params[i].1)
    ensures ParsePieces(Pairs(params)) == params
  {
    if params != [] {
      var (k, v) := params[0];
      SplitPairAt(Encode(k), Encode(v));
      DecodeEncode(k);
      DecodeEncode(v);
      ParsePiecesPairs(params[1..]);
      assert Pairs(params) == [Encode(k) + "=" + Encode(v)] + Pairs(params[1..]);
      assert Pairs(params)[1..] == Pairs(params[1..]);
    }
  }
}

=== FILE: web_client.dfy ===
/**
 * Helpers of the web client: the admin token it keeps and sends
 * (`delivery-web/src/api/client.ts`), the pagination query it builds, the
 * short ids it shows (`delivery-web/src/utils/format.ts`) and the CSV cells
 * and file names of the report export
 * (`delivery-web/src/components/Reports/ReportsPanel.tsx`).
 */
module WebClient {
  import opened Wrappers
  import opened Text
  import opened UrlQuery
  import opened DispatchModel
  import OperationSessions

  // ---------------------------------------------------------------- short ids

  const DefaultShortIdPrefix: string := "#"

  /** `s.replace(/-/g, '')`. */
  function WithoutDashes(s: string): (r: string)
    ensures '-' !in r
    ensures |r| <= |s|
    ensures forall c :: c in r <==> c in s && c != '-'
  {
    if s == [] then ""
    else if s[0] == '-' then WithoutDashes(s[1..])
    else [s[0]] + WithoutDashes(s[1..])
  }

  /** `s.slice(0, n)`. */
  function Prefix(s: string, n: nat): (r: string)
    ensures |r| <= n && IsPrefix(r, s)
    ensures |s| >= n ==> |r| == n
  {
    if |s| <= n then s else s[..n]
  }

  /**
   * `formatShortId`: `'-'` for a missing or empty id; otherwise the prefix and
   * the first four characters left after removing the dashes, upper-cased.
   */
  function FormatShortId(id: Option<string>, prefix: string): (r: string)
    ensures !Truthy(id) ==> r == "-"
    ensures Truthy(id) ==>
      && IsPrefix(prefix, r)
      && r[|prefix|..] == Upper(Prefix(WithoutDashes(id.value), 4))
      && |r| <= |prefix| + 4
      && '-' !in r[|prefix|..]
  {
    if !Truthy(id) then "-"
    else
      var short := Upper(Prefix(WithoutDashes(id.value), 4));
      assert forall i :: 0 <= i < |short| ==> short[i] != '-' by {
        var p := Prefix(WithoutDashes(id.value), 4);
        assert forall i :: 0 <= i < |p| ==> p[i] in WithoutDashes(id.value);
      }
      assert (prefix + short)[|prefix|..] == short;
      prefix + short
  }

  // ---------------------------------------------------------------- CSV export

  /** Every `"` doubled: `text.replace(/"/g, '""')`. */
  function DoubleQuotes(s: string): (r: string)
    ensures |r| >= |s|
  {
    if s == [] then ""
    else (if s[0] == '"' then "\"\"" else [s[0]]) + DoubleQuotes(s[1..])
  }

  /** Reading a quoted CSV field's inside: every `""` stands for one `"`. */
  function CollapseQuotes(s: string): string
  {
    if s == [] then ""
    else if |s| >= 2 && s[0] == '"' && s[1] == '"' then "\"" + CollapseQuotes(s[2..])
    else [s[0]] + CollapseQuotes(s[1..])
  }

  predicate NeedsQuoting(text: string)
  {
    '"' in text || ',' in text || '\n' in text
  }

  /**
   * `escapeCsv`: nothing for a missing value, the text itself when it holds no
   * quote, comma or line feed, and otherwise the text in quotes with its quotes
   * doubled (section 2, rules 6 and 7 of RFC 4180). A number is passed as its
   * text.
   */
  function EscapeCsv(value: Option<string>): (r: string)
    ensures value.None? ==> r == ""
    ensures value.Some? && !NeedsQuoting(value.value) ==> r == value.value
    ensures value.Some? && NeedsQuoting(value.value) ==>
      && |r| >= 2 && r[0] == '"' && r[|r| - 1] == '"'
      && r[1..|r| - 1] == DoubleQuotes(value.value)
  {
    if value.None? then ""
    else if NeedsQuoting(value.value) then
      var r := "\"" + DoubleQuotes(value.value) + "\"";
      assert r[1..|r| - 1] == DoubleQuotes(value.value);
      r
    else value.value
  }

  lemma {:induction false} CollapseDoubled(s: string)
    ensures CollapseQuotes(DoubleQuotes(s)) == s
  {
    if s != [] {
      CollapseDoubled(s[1..]);
      var rest := DoubleQuotes(s[1..]);
      if s[0] == '"' {
        assert DoubleQuotes(s) == "\"\"" + rest;
        assert ("\"\"" + rest)[2..] == rest;
      } else {
        assert DoubleQuotes(s) == [s[0]] + rest;
        assert ([s[0]] + rest)[1..] == rest;
      }
      assert [s[0]] + s[1..] == s;
    }
  }

  /** Dropping the outer quotes of an escaped cell and collapsing `""` gives the text back. */
  lemma EscapeCsvRoundTrip(text: string)
    ensures var r := EscapeCsv(Some(text));
      NeedsQuoting(text) ==> CollapseQuotes(r[1..|r| - 1]) == text
  {
    CollapseDoubled(text);
  }

  /** `sanitizeForFilename`: every `:` and `T` becomes `-`. */
  function SanitizeForFilename(s: string): (r: string)
    ensures |r| == |s|
    ensures forall i :: 0 <= i < |s| ==> r[i] == (if s[i] == ':' || s[i] == 'T' then '-' else s[i])
    ensures ':' !in r && 'T' !in r
  {
    if s == [] then ""
    else [if s[0] == ':' || s[0] == 'T' then '-' else s[0]] + SanitizeForFilename(s[1..])
  }

  // ---------------------------------------------------------------- admin token

  const NotAuthenticatedMessage: string := "Admin não autenticado. Faça login novamente."
  const AuthorizationHeader: string := "Authorization"

  /** The client's module state: the admin token of the session. */
  class AdminTokenHolder {
    var adminToken: Option<string>

    constructor ()
      ensures adminToken.None?
    {
      adminToken := None;
    }

    /** `setAdminToken`. */
    method SetAdminToken(token: Option<string>)
      modifies this
      ensures adminToken == token
    {
      adminToken := token;
    }

    /** `getAdminToken`. */
    function GetAdminToken(): Option<string>
      reads this
    {
      adminToken
    }

    /**
     * `resolveAdminToken`: the override unless it is null or undefined, else
     * the stored token; an empty or missing result is refused.
     */
    function ResolveAdminToken(override: Option<string>): (r: Result<string, string>)
      reads this
      ensures override.Some? ==> (r.Success? <==> override.value != "")
      ensures override.None? ==> (r.Success? <==> Truthy(adminToken))
      ensures r.Success? ==> r.value != "" && r.value == (if override.Some? then override.value else adminToken.value)
      ensures r.Failure? ==> r.error == NotAuthenticatedMessage
    {
      var token := if override.Some? then override else adminToken;
      if Truthy(token) then Success(token.value) else Failure(NotAuthenticatedMessage)
    }

    /** `withAdminHeaders`: the base headers with `Authorization: Bearer <token>` set over them. */
    function WithAdminHeaders(base: map<string, string>, override: Option<string>): (r: Result<map<string, string>, string>)
      reads this
      ensures r.Success? <==> ResolveAdminToken(override).Success?
      ensures r.Failure? ==> r.error == NotAuthenticatedMessage
      ensures r.Success? ==>
        && r.value.Keys == base.Keys + {AuthorizationHeader}
        && r.value[AuthorizationHeader] == "Bearer " + ResolveAdminToken(override).value
        && (forall k :: k in base && k != AuthorizationHeader ==> r.value[k] == base[k])
    {
      match ResolveAdminToken(override)
      case Failure(e) => Failure(e)
      case Success(token) => Success(base[AuthorizationHeader := "Bearer " + token])
    }
  }

  // ---------------------------------------------------------------- pagination query

  datatype PaginationParams = PaginationParams(limit: Option<int>, offset: Option<int>, includeOrders: bool)

  /** The parameters `buildPaginationQuery` sets, in the order it sets them. */
  function QueryPairs(p: PaginationParams): (r: seq<(string, string)>)
    ensures |r| <= 3
    ensures r == [] <==> p.limit.None? && p.offset.None? && !p.includeOrders
  {
    (if p.limit.Some? then [("limit", IntToString(p.limit.value))] else [])
    + (if p.offset.Some? then [("offset", IntToString(p.offset.value))] else [])
    + (if p.includeOrders then [("includeOrders", "true")] else [])
  }

  lemma NatToStringAscii(n: nat)
    ensures IsAscii(NatToString(n))
  {
    var s := NatToString(n);
    assert forall i :: 0 <= i < |s| ==> IsDigit(s[i]);
  }

  lemma IntToStringAscii(n: int)
    ensures IsAscii(IntToString(n))
  {
    if n < 0 {
      NatToStringAscii(-n);
      var s := "-" + NatToString(-n);
      assert forall i :: 1 <= i < |s| ==> s[i] == NatToString(-n)[i - 1];
    } else {
      NatToStringAscii(n);
    }
  }

  predicate AsciiPairs(ps: seq<(string, string)>)
  {
    forall i :: 0 <= i < |ps| ==> IsAscii(ps[i].0) && IsAscii(ps[i].1)
  }

  lemma AsciiPairsAppend(a: seq<(string, string)>, b: seq<(string, string)>)
    requires AsciiPairs(a) && AsciiPairs(b)
    ensures AsciiPairs(a + b)
  {
    assert forall i :: |a| <= i < |a + b| ==> (a + b)[i] == b[i - |a|];
  }

  lemma NamesAscii()
    ensures IsAscii("limit") && IsAscii("offset") && IsAscii("includeOrders") && IsAscii("true")
  {
  }

  lemma QueryPairsAscii(p: PaginationParams)
    ensures AsciiPairs(QueryPairs(p))
  {
    var a := if p.limit.Some? then [("limit", IntToString(p.limit.value))] else [];
    var b := if p.offset.Some? then [("offset", IntToString(p.offset.value))] else [];
    var c := if p.includeOrders then [("includeOrders", "true")] else [];
    if p.limit.Some? {
      IntToStringAscii(p.limit.value);
    }
    if p.offset.Some? {
      IntToStringAscii(p.offset.value);
    }
    NamesAscii();
    assert AsciiPairs(a);
    assert AsciiPairs(b);
    assert AsciiPairs(c);
    AsciiPairsAppend(a, b);
    AsciiPairsAppend(a + b, c);
  }

  lemma SerializeNonEmpty(params: seq<(string, string)>)
    requires params != []
    ensures Serialize(params) != ""
  {
    var pairs := Pairs(params);
    assert |pairs[0]| >= 1;
    if |pairs| > 1 {
      assert IsPrefix(pairs[0] + "&", Serialize(params));
    }
  }

  /**
   * `buildPaginationQuery`: empty without parameters or with none of them
   * set; otherwise `?` and a query that reads back as exactly the set
   * parameters, in the order limit, offset, includeOrders.
   */
  function BuildPaginationQuery(params: Option<PaginationParams>): (r: string)
    ensures r == "" <==> params.None? || QueryPairs(params.value) == []
    ensures r != "" ==> r[0] == '?' && Parse(r[1..]) == QueryPairs(params.value)
  {
    if params.None? then ""
    else
      var pairs := QueryPairs(params.value);
      var query := Serialize(pairs);
      assert pairs != [] ==> query != "" && Parse(query) == pairs by {
        if pairs != [] {
          SerializeNonEmpty(pairs);
          QueryPairsAscii(params.value);
          ParseSerialize(pairs);
        }
      }
      if query != "" then
        assert ("?" + query)[1..] == query;
        "?" + query
      else ""
  }

  datatype PaginatedResponse<T> = PaginatedResponse(data: seq<T>, total: Option<int>, limit: Option<int>, offset: Option<int>)

  /** A list endpoint's answer: a bare array, or a page object. */
  datatype ListPayload<T> = BareList(items: seq<T>) | Page(page: PaginatedResponse<T>)

  /** `normalizePaginatedResponse`: a bare array becomes a page holding only that data; a page is kept. */
  function NormalizePaginatedResponse<T>(payload: ListPayload<T>): (r: PaginatedResponse<T>)
    ensures payload.BareList? ==> r.data == payload.items && r.total.None? && r.limit.None? && r.offset.None?
    ensures payload.Page? ==> r == payload.page
  {
    match payload
    case BareList(items) => PaginatedResponse(items, None, None, None)
    case Page(page) => page
  }

  // ---------------------------------------------------------------- sessions

  datatype SessionPayload = SessionPayload(
    id: Id,
    startedAt: string,
    visibleFrom: string,
    visibleFromSequence: int,
    closedAt: Option<string>)

  /** `parseSession`: dates read with `parseDate`; open exactly when the payload has no (or an empty) closing time. */
  function ParseSession(p: SessionPayload, parseDate: string -> Millis): (s: OperationSessions.OperationSession)
    ensures s.id == p.id && s.visibleFromSequence == p.visibleFromSequence
    ensures s.startedAt == parseDate(p.startedAt) && s.visibleFrom == parseDate(p.visibleFrom)
    ensures OperationSessions.IsOpen(s) <==> !Truthy(p.closedAt)
    ensures s.closedAt.Some? ==> s.closedAt.value == parseDate(p.closedAt.value)
  {
    OperationSessions.OperationSession(
      p.id, parseDate(p.startedAt), parseDate(p.visibleFrom), p.visibleFromSequence,
      if Truthy(p.closedAt) then Some(parseDate(p.closedAt.value)) else None)
  }
}

=== FILE: wrappers.dfy ===
/** Option and Result values, used wherever the source has an absent value or throws. */
module Wrappers {

  datatype Option<T> = None | Some(value: T)
  {
    /** The `??` operator: the value when present, else the fallback. */
    function GetOr(fallback: T): T
    {
      match this
      case Some(v) => v
      case None => fallback
    }
  }

  datatype Result<T, E> = Success(value: T) | Failure(error: E)
}
